=== FILE: README.md ===
# sopipe, modelled in Dafny

sopipe builds byte-stream pipelines out of components ("stages") chained
with `=>`. This project models the deterministic core of the repository and
proves properties of it:

- the visual pipeline builder: the dynamic input slots of a stage block, the
  block's snapshot codec, and the compiler from a block graph to script
  text (`blocks.dfy`, `codegen.dfy`, with JavaScript's `parseInt`, `trim`
  and number formatting in `js_number.dfy` and `text.dfy`);
- the argument model and the cursor-based binder from `(name, value)` lists
  to declared fields (`argument.dfy`, `helper.dfy`);
- the script-to-graph builder that turns a parsed pipeline into
  forward/backward node pairs (`script.dfy`);
- the byte-level protocol code: the SOCKS5 server handshake (RFC 1928),
  the VMess client (FNV-1a, byte-wise CFB-128 as in section 6.3 of NIST
  SP 800-38A, the buffered reader and the framing), the VMess user id
  parser, the AEAD framing with its nonce counter, and the running-offset
  XOR cipher (`socks5.dfy`, `vmess_client.dfy`, `vmess.dfy`, `aead.dfy`,
  `xor.dfy`, with byte helpers in `bytes.dfy` and UTF-8 in `utf8.dfy`);
- the plugin byte dictionary and its get/set length protocol
  (`plugins.dfy`), and the type-tagged metadata map (`metadata.dfy`);
- the small configuration code: error kinds and their display
  (`error.dfy`), UDP, HTTP/2, exec, stdio and balance set-up
  (`udp.dfy`, `http2.dfy`, `exec.dfy`, `stdio.dfy`, `balance.dfy`).

Rust panics (`panic!`, `assert!`, `unwrap`, indexing out of range,
`todo!`) are modelled as the `Panics` case of `Wrappers.Outcome`, with the
panic message. State that the source mutates in place is a Dafny `class`:
`Blocks.StageBlock`, `Codegen.Compiler`, `Helper.Deserializer`,
`Script.Loader`, `VmessClient.Aes128Cfb`, `VmessClient.BufReader`,
`Aead.Counter`, `Aead.Inbox`, `Plugins.ByteDict`, `Metadata.MetaData` and
`Balance.Actor`. Each method of these classes is proved against a
specification of the old state (a specification function, or the new
fields written in terms of the old ones), and the properties are lemmas
about those specifications. Messages a task receives from its mailbox are a
sequence given as input. The cryptographic primitives (the AES block
function, AEAD seal and open, key derivation, MD5 and HMAC) are function
parameters.

## Model

| member | source | states |
|---|---|---|
| Blocks.StageBlock.Init | builder/src/blocks.js:3-11 | init: n inputs named arg_0 … arg_{n-1}, where n is the length of default_arg_names or 1 when none are declared; only input 0 carries the stage name; inputCounter is n; the block invariant holds |
| Blocks.InitialWellNamed | builder/src/blocks.js:4-11 | the inputs init creates have pairwise distinct names, and none of them is a name the counter will mint later |
| Blocks.ArgNameInjective | builder/src/blocks.js:7 | two counters that give the same `arg_<n>` name are equal, so minted names never repeat |
| Blocks.StageBlock.MutationToDom | builder/src/blocks.js:19-25 | both attributes are written, and restoring them gives back the same names in the same order, empty, with the stage name on input 0, and the same counter |
| Blocks.SnapshotRoundTrip | builder/src/blocks.js:19-36 | domToMutation of what mutationToDom wrote restores the name sequence and the counter exactly (names free of ',') |
| Blocks.StageBlock.DomToMutation | builder/src/blocks.js:27-36 | the new inputs and counter are Restore of the old inputs and the mutation: new empty inputs from the ','-split names with the stage name on the first when the attribute is non-empty, the inputs untouched otherwise, and the counter always overwritten by parseInt |
| Blocks.RestoreWithoutNames | builder/src/blocks.js:28-35 | a missing or empty inputNames leaves the inputs untouched and still overwrites the counter with parseInt of the attribute |
| Blocks.StaleCounterCollides | builder/src/blocks.js:30-35 | the restored counter is not checked: a name list holding arg_k restored with counter k makes the next minted name equal to an existing input's name |
| Blocks.ConnectionIndex | builder/src/blocks.js:43-48 | the loop finds the probed connection exactly at the position of the input that owns it, and finds nothing for a connection owned by no input; inputs are compared by connection, not by name |
| Blocks.StageBlock.GetIndexForNewInput | builder/src/blocks.js:38-61 | the loop's answer is IndexForNewInput: the probed input is the one owning the connection object; none for a connection without target or owned by no input, length + 1 for the last input, i + 1 when the next input holds a real (non-marker) block, none otherwise |
| Blocks.StageBlock.AppendValueInput | builder/src/blocks.js:7 | appendValueInput adds one empty input with the given name at the end and leaves the counter alone |
| Blocks.StageBlock.OnPendingConnection | builder/src/blocks.js:63-70 | the new state is Probe of the old: nothing changes without an index; otherwise one input arg_<counter> is appended, moved before the index, and the counter is incremented; the block invariant is preserved |
| Blocks.ProbeInsertsOne | builder/src/blocks.js:63-70 | a probe with an index inserts exactly one empty input named from the counter at that slot (the end for length + 1), keeps all other inputs in order and increments the counter; a probe without an index changes nothing |
| Blocks.ProbeWellNamed | builder/src/blocks.js:63-70 | probing keeps names pairwise distinct and keeps every name below the counter, so no name is ever reused |
| Blocks.InsertKeepsDistinct | builder/src/blocks.js:68-69 | inserting arg_n where no input carries a name from n on keeps the names distinct |
| Blocks.InsertKeepsFresh | builder/src/blocks.js:68-69 | after inserting arg_n no input carries a name from n + 1 on |
| Blocks.ReprobeInsertsNothing | builder/src/blocks.js:54-60 | probing the same connection again right after an insertion yields no index, because the input after it is the new empty one |
| Blocks.ProbeDuplicateNames | builder/src/blocks.js:43-57 | with two inputs named arg_1, probing the first one's connection inserts right after it and probing the second's appends: names play no part in finding the input |
| Blocks.ProbeBeforeEmptyNext | builder/src/blocks.js:54-60 | probing an input whose next input is empty yields no index |
| Blocks.StageBlock.RemoveInput | builder/src/blocks.js:77 | removeInput drops the first input with that name and leaves the counter alone |
| Blocks.StageBlock.FinalizeConnections | builder/src/blocks.js:72-79 | removes by name every unconnected input after the first; with distinct names the result is input 0 followed by the connected inputs in order; the counter is unchanged and the invariant preserved |
| Blocks.FinalizeAsWritten | builder/src/blocks.js:72-79 | with distinct names, the removals by name equal keeping input 0 and exactly the connected inputs after it, in order |
| Blocks.FinalizeIdempotent | builder/src/blocks.js:72-79 | a second finalizeConnections changes nothing |
| Blocks.FinalizeDropsEmptyDefaults | builder/src/blocks.js:73-78 | only input 0 is protected: a stage with two unconnected default inputs is left with one |
| Blocks.FinalizeWellNamed | builder/src/blocks.js:72-79 | finalizeConnections keeps the names distinct and unminted |
| Blocks.RemoveAllDistinct | builder/src/blocks.js:74-77 | with distinct names, removing the names one by one is filtering them all out at once |
| Blocks.WithoutEmptyNames | builder/src/blocks.js:76 | filtering out the names of the unconnected inputs leaves exactly the connected inputs |
| Codegen.GenArgument | builder/src/codegen.js:33-60 | no text exactly when trimmed key and value are both empty; a key alone when the value is empty; the value's literal alone when the key is empty; `key = literal` (or `key=literal` in compact mode) when both are present; never the empty string |
| Codegen.InferValueMeaning | builder/src/codegen.js:47-52 | when parseInt accepts the value, the written number parses back to the same integer and is not quoted; otherwise the value is wrapped in quotes with its inside unchanged |
| Codegen.InferValuePrefix | builder/src/codegen.js:47-49 | parseInt takes the leading-digit prefix: "12abc" is written as 12 |
| Codegen.InferValueHex | builder/src/codegen.js:47-49 | parseInt reads a "0x" prefix as hexadecimal: "0x10" is written as 16 |
| Codegen.InferValueString | builder/src/codegen.js:50-51 | a value parseInt rejects is written in quotes: "secret" becomes "\"secret\"" |
| Codegen.SecretArgument | builder/src/codegen.js:33-60 | an argument with no key and the value secret compiles to "\"secret\"" |
| Codegen.TokenTrimmed | builder/src/codegen.js:35-53 | the literal written for a value has no surrounding whitespace |
| Codegen.GenArgumentIdempotent | builder/src/codegen.js:33-60 | type inference is a fixed point: an argument whose value is already the written literal compiles to the same text |
| Codegen.IntTextShape | builder/src/codegen.js:49 | a number's decimal text is non-empty, starts with '-' or a digit and ends with a digit |
| Codegen.Successor | builder/src/codegen.js:9-18 | the successor is the last named child (no later child has a name), and there is none only when no child has a name |
| Codegen.ScanChildren | builder/src/codegen.js:9-20 | the child loop returns the last named child as successor and compiles every other child, in order, with the undefined and empty texts then dropped |
| Codegen.HeadOf | builder/src/codegen.js:9-25 | gen's head: the successor and the stage name followed by the arguments joined by ", " (pretty) or "," (compact) in parentheses when there are any |
| Codegen.Compiler.constructor | builder/src/codegen.js:1-2 | the compiler starts with an empty result |
| Codegen.Compiler.Gen | builder/src/codegen.js:4-31 | gen appends exactly the stage's text to the result: nothing for a nameless block, else its head, then the arrow and the successor's text when there is one |
| Codegen.Compile | builder/src/codegen.js:1-68 | the output is ProgramText: each top block's text followed by "\n" (pretty) or " " (compact), in order |
| Codegen.Chain | builder/src/codegen.js:27-30 | the chain of successors of a block is empty exactly when the block has no name |
| Codegen.StageTextChain | builder/src/codegen.js:4-31 | output grammar: a stage's text is the heads of its chain of successors joined by " =>\n" (pretty) or "=>" (compact) |
| Codegen.ProgramTextAppend | builder/src/codegen.js:62-65 | the output for consecutive top blocks is the concatenation of their outputs |
| Codegen.NamelessTop | builder/src/codegen.js:62-65 | a nameless top block contributes only the separator |
| Codegen.ChainedStage | builder/src/codegen.js:27-30 | a stage whose only child is a named block is its name, the arrow, then that block's text |
| Codegen.OneArgumentStage | builder/src/codegen.js:20-25 | a last stage with one argument is its name and the argument in parentheses |
| Codegen.TwoStages | builder/src/codegen.js:1-68 | `first => second(arg)` compiles to first, the arrow, second(arg) and the separator |
| Arguments.TypeName | api/src/argument.rs:32-39 | the four type names are distinct and each names exactly its variant |
| Arguments.AsString | api/src/argument.rs:41-46 | some text exactly for a String, and then that String's text |
| Arguments.AsInt | api/src/argument.rs:48-53 | some number exactly for an Int, and then that number |
| Arguments.AsVec | api/src/argument.rs:55-60 | some list exactly for a Vec, and then its elements |
| Arguments.IsNone | api/src/argument.rs:62-64 | is_none holds exactly for the None variant, that is exactly when none of as_string, as_int and as_vec yields a value |
| Arguments.Default | api/src/argument.rs:67-72 | the serde default is the None variant |
| Arguments.FromString | api/src/argument.rs:13-17 | From<String> is undone by as_string |
| Arguments.FromU64 | api/src/argument.rs:19-23 | From<u64> is undone by as_int |
| Arguments.FromStrings | api/src/argument.rs:25-29 | collecting strings gives a Vec of the same length whose elements read back, in order, as the strings |
| Arguments.FromU64s | api/src/argument.rs:25-29 | collecting numbers gives a Vec whose elements read back, in order, as the numbers |
| Helper.ScalarValue | api/src/helper.rs:98-191 | reading a scalar outside a list panics only for an untagged Argument whose value is a Vec holding a Vec |
| Helper.ElementValue | api/src/helper.rs:98-105 | reading a list element panics only for an untagged Argument element that is itself a Vec |
| Helper.ElementsValue | api/src/helper.rs:201-207 | a successful list read yields one value per element |
| Helper.PositionalFields | api/src/helper.rs:229-231 | the positional fields are exactly the declared names no argument uses |
| Helper.Resolve | api/src/helper.rs:240-250 | names resolve exactly when the unnamed arguments do not outnumber the positional fields; a named argument keeps its name |
| Helper.ResolvePositional | api/src/helper.rs:240-250 | the k-th unnamed argument takes positional field k, counting in declaration order |
| Helper.WalkMeaning | api/src/helper.rs:280-293 | when the map visit succeeds, every field holds the value read from the argument resolved to its name, or what it held, or its missing value |
| Helper.BindMeaning | api/src/helper.rs:221-234 | when parse_args succeeds there were at most as many arguments as fields, names resolved, and each field holds its argument's value or its missing value |
| Helper.PositionalName | api/src/helper.rs:229-250 | with only unnamed arguments, argument j is read under field j's name |
| Helper.PositionalOnly | api/src/helper.rs:221-250 | with only unnamed arguments, argument i fills field i and the rest take their missing values |
| Helper.FlagPresence | api/src/helper.rs:107-110 | a defaulted bool is true when its name is given without a value and false when it is absent |
| Helper.OptionWithoutValueAborts | api/src/helper.rs:176-182 | an Option field given by name with no value is not consumed, so the next key read panics |
| Helper.AnyElements | api/src/helper.rs:98-105 | a Vec without nested Vecs read as untagged Arguments rebuilds the same Vec |
| Helper.ElementsPanic | api/src/helper.rs:98-105 | one nested Vec makes the whole list read panic |
| Helper.AnyVec | api/src/helper.rs:98-105 | reading a Vec as untagged Arguments panics exactly when an element is a Vec, and otherwise rebuilds it |
| Helper.Deserializer.FromArgs | api/src/helper.rs:48-50 | from_args starts in key mode over all arguments, with no positional fields and no list position |
| Helper.Deserializer.PeekNextValue | api/src/helper.rs:76-85 | in value mode, the element at list_pos inside a Vec or the current argument's value; a panic in key mode, past the arguments or past the list |
| Helper.Deserializer.NextKey | api/src/helper.rs:52-58 | the current argument's name, switching to value mode; panics in value mode, inside a list or with no arguments left |
| Helper.Deserializer.NextValue | api/src/helper.rs:60-74 | returns what peek_next_value shows and advances the cursor |
| Helper.Deserializer.DeserializeU64 | api/src/helper.rs:112-144 | reads an Int below the target's limit, otherwise a type error or serde's invalid-value error, and advances |
| Helper.Deserializer.DeserializeStr | api/src/helper.rs:158-166 | reads a String, otherwise a type error, and advances |
| Helper.Deserializer.DeserializeBool | api/src/helper.rs:107-110 | the value must be None (else a panic) and reads as true |
| Helper.Deserializer.DeserializeUnit | api/src/helper.rs:184-191 | None reads as unit, anything else is a type error |
| Helper.Deserializer.DeserializeAny | api/src/helper.rs:98-105 | dispatches on the next value's variant and agrees with the scalar reading |
| Helper.Deserializer.DeserializeScalar | api/src/helper.rs:98-191 | a scalar read through its own deserialize call agrees with the scalar reading |
| Helper.Deserializer.NextElement | api/src/helper.rs:265-273 | past the last element, leaves the list and consumes the Vec; otherwise reads one element |
| Helper.Deserializer.DeserializeSeq | api/src/helper.rs:201-207 | a non-Vec is a type error; a Vec's elements are read in order and the Vec is consumed |
| Helper.Deserializer.DeserializeOption | api/src/helper.rs:176-182 | None reads as None and stays unread; anything else is read as the inner type |
| Helper.Deserializer.DeserializeField | api/src/helper.rs:291-293 | a field's value agrees with FieldValue, and the argument is consumed exactly when the type consumes it |
| Helper.Deserializer.DeserializeIdentifier | api/src/helper.rs:240-250 | a named argument gives its name; an unnamed one pops the next positional field or is TooManyPositionalArguments |
| Helper.Deserializer.DeserializeIgnoredAny | api/src/helper.rs:252-255 | an unknown field's value is read and dropped |
| Helper.Deserializer.DeserializeStruct | api/src/helper.rs:221-234 | the struct read agrees with Bind: too many arguments is an error, otherwise the positional fields are computed and the pairs are read until none are left |
| Helper.ParseArgs | api/src/helper.rs:88-93 | parse_args agrees with Bind on every input |
| Script.ParseU64 | src/script.rs:48 | Rust's u64 parse accepts only non-empty text other than a lone '+' |
| Script.ParseU64Text | src/script.rs:48 | the decimal text of every u64 parses back to it |
| Script.LitValue | src/script.rs:44-51 | a string literal is kept verbatim; an int literal gives its parsed u64 and panics exactly when the parse fails |
| Script.ParseArg | src/script.rs:53-61 | a bare literal has the empty name; a keyword carries its literal's value, or None when it has no value; panics exactly when a literal does |
| Script.ParseArgs | src/script.rs:67 | the node's arguments are parsed one by one, in order; the list panics exactly when one argument does |
| Script.ParseNode | src/script.rs:63-69 | the called name with its parsed arguments |
| Script.NodeArgs | src/script.rs:82-105 | a node's arguments are the call's, then function_name, then the direction |
| Script.PushPairWellFormed | src/script.rs:96-109 | appending a forward/backward pair keeps the loader invariant, only grows the graph, and yields a pair at the new indices |
| Script.AddLinkAt | src/script.rs:121-124 | a pipe link appends one edge to p's forward node and one to c's backward node and changes nothing else |
| Script.AddLinkWellFormed | src/script.rs:117-128 | linking keeps the loader invariant, in particular the backward graph mirroring the forward one edge for edge |
| Script.MirrorEdges | src/script.rs:117-128 | in a well-formed graph forward node i feeds forward node j exactly when j's backward node feeds i's backward node |
| Script.ConjInvolution | src/script.rs:89-108 | conj pairs each node with a node of the other direction, and conj of conj is the node itself |
| Script.RegisterMeaning | src/script.rs:39-41 | registering a spec binds each of its function names to it, replacing earlier bindings, and keeps the other names |
| Script.RegisteredMeaning | src/script.rs:37-42 | the initial table holds exactly the function names of all specs, each bound to the last spec declaring it |
| Script.RegisteredWellFormed | src/script.rs:35-42 | the empty graph with the initial table satisfies the loader invariant |
| Script.Finish | src/script.rs:161-163 | every node keeps its spec, edges and conj, and gets one more argument, outputs, a Vec of one empty string per output edge |
| Script.Loader.constructor | src/script.rs:35-42 | the loader starts with no nodes and the registered table, and its invariant holds |
| Script.Loader.PushPair | src/script.rs:81-109 | appends the forward and backward node at the next two indices, each the other's conj |
| Script.CallSpec | src/script.rs:92-115 | a single call panics when its node panics or its name is unbound; a function appends one tagged pair and returns it; a name bound by an assignment returns its pair and adds nothing; the result is a pair over the new graph |
| Script.PairSpec | src/script.rs:76-91 | `!!` parses and looks up the first node, then the second, panicking at the first unbound or non-function name; otherwise it appends the two nodes as one pair |
| Script.CNodeSpec | src/script.rs:73-116 | a cnode is a `!!` pair when it has a second node and a single call otherwise |
| Script.EvalSpec | src/script.rs:71-131 | evaluation of an expression only grows the graph and returns a pair over it |
| Script.PipeSpec | src/script.rs:117-128 | a pipe evaluates its elements in order, links each result to the one before and returns the last; an empty pipe panics on the unwrap |
| Script.WalkSpec | src/script.rs:133-155 | an assignment binds its name to the value's pair; a pipe is evaluated for its effect on the graph and leaves the table alone |
| Script.WellFormedShaped | src/script.rs:35-42 | in a well-formed loader every name bound by an assignment refers to a pair of existing nodes |
| Script.Loader.EvalCNode | src/script.rs:73-116 | agrees with CNodeSpec: the same panic, or the same pair over the same new graph |
| Script.Loader.EvalCall | src/script.rs:92-115 | agrees with CallSpec: the same panic, or the same pair over the same new graph |
| Script.Loader.EvalPair | src/script.rs:76-91 | agrees with PairSpec; `!!` appends the first function's forward node and the second's backward node, and panics unless both names are functions |
| Script.Loader.Link | src/script.rs:121-124 | the new graph is AddLink of the old, the invariant is kept and p is linked to c |
| Script.Loader.Eval | src/script.rs:71-131 | agrees with EvalSpec; eval keeps the loader invariant, only grows the graph and returns a pair |
| Script.Loader.EvalPipe | src/script.rs:117-128 | agrees with EvalSpec of the pipe: evaluates the elements in order, links each to the next and returns the last; an empty pipe panics |
| Script.Loader.WalkStmt | src/script.rs:133-155 | agrees with WalkSpec on the panic or the new table and graph; an assignment rebinds its name to the value's pair and nothing else; a pipe leaves the table alone; the invariant is kept |
| Script.LoadScript | src/script.rs:32-167 | the result is exactly LoadSpec: the first panic of the statements in order, or the finished node list; the nodes form a well-formed graph, each finished with its outputs argument |
| Socks5.ParseGreeting | components/socks5/src/server.rs:31-54 | a decided greeting consumes VER, NMETHODS and the methods, and no more than the buffer |
| Socks5.GreetingRoundTrip | components/socks5/src/server.rs:33-52 | a greeting offering NO AUTHENTICATION is accepted and consumed exactly; one without it is refused; trailing bytes do not matter |
| Socks5.GreetingShort | components/socks5/src/server.rs:33-43 | a prefix shorter than the greeting waits for more data |
| Socks5.GreetingStable | components/socks5/src/server.rs:31-54 | once the buffer decides the greeting, more bytes do not change the decision |
| Socks5.ParseHost | components/socks5/src/server.rs:79-104 | a read address lies within the bytes; only a non-UTF-8 domain name panics |
| Socks5.ParseRequest | components/socks5/src/server.rs:65-109 | a read request ends at least six bytes after its start and within the buffer |
| Socks5.RequestFrom | components/socks5/src/server.rs:67-109 | the same bound, relative to the request's own bytes |
| Socks5.HostRoundTrip | components/socks5/src/server.rs:79-104 | every IPv4, IPv6 or UTF-8 domain address a client encodes is read back with its exact length |
| Socks5.RequestRoundTrip | components/socks5/src/server.rs:65-109 | the server reads back the host and port of any request a client writes, at any offset and with any bytes after it, and consumes exactly the request |
| Socks5.RequestFromPieces | components/socks5/src/server.rs:65-109 | a request assembled from address and port bytes that read back reads back |
| Socks5.RequestFromParts | components/socks5/src/server.rs:67-109 | a request is read field by field: version, address at offset 3, port after the address |
| Socks5.RequestLayout | components/socks5/src/server.rs:67-106 | where VER, ATYP, DST.ADDR and DST.PORT sit in a request |
| Socks5.HostStable | components/socks5/src/server.rs:79-104 | an address once read stays read as more bytes arrive |
| Socks5.PortStable | components/socks5/src/server.rs:106-107 | the big-endian port once read does not change as more bytes arrive |
| Socks5.RequestFromStable | components/socks5/src/server.rs:67-109 | a decided request stays decided as more bytes arrive |
| Socks5.RequestStable | components/socks5/src/server.rs:58-110 | a decided request in the buffer is not changed by later packets |
| Socks5.Greet | components/socks5/src/server.rs:24-55 | the handshake loop ends with the greeting decided by the buffer it has built, or None when the mailbox closes first |
| Socks5.AwaitRequest | components/socks5/src/server.rs:58-110 | the request loop ends with the request decided by its buffer at the greeting's offset |
| Socks5.RunShape | components/socks5/src/server.rs:6-146 | the replies are none, the refusal, the acceptance alone, or acceptance then the request reply; the destination is recorded exactly when the request reply is sent, and nothing is forwarded before it |
| Socks5.GreetFirst | components/socks5/src/server.rs:24-55 | a packet that decides the greeting on its own ends the handshake loop |
| Socks5.AwaitFirst | components/socks5/src/server.rs:58-110 | a packet that completes the request ends the request loop |
| Socks5.RunRequested | components/socks5/src/server.rs:112-137 | after both loops succeed the server sends both replies, records host and port, and forwards what was buffered past the request and then every later packet |
| Socks5.GreetThenRequest | components/socks5/src/server.rs:24-55 | a well-behaved client's greeting is accepted after its first packet |
| Socks5.RequestThenData | components/socks5/src/server.rs:58-110 | a well-behaved client's request, sent with data, is read from its second packet |
| Socks5.WellBehavedClient | components/socks5/src/server.rs:6-146 | a client that greets with NO AUTHENTICATION and then sends a request with data gets both replies, and its destination is recorded; its data and every later packet are forwarded unchanged |
| Socks5.SessionAfterRequest | components/socks5/src/server.rs:112-137 | the session once the greeting and a request with data are read |
| Socks5.DataLeftover | components/socks5/src/server.rs:127-131 | what follows the greeting and the request in the buffer is the data sent with the request |
| Socks5.RefusedClient | components/socks5/src/server.rs:45-48 | a client that offers no NO AUTHENTICATION method gets 05 FF and nothing else happens |
| Socks5.PipelinedRequestWaits | components/socks5/src/server.rs:58-63 | a request sent in the same packet as the greeting is not read until one more packet arrives: with no more packets, only the acceptance is sent |
| Socks5.AwaitGreeting | components/socks5/src/server.rs:24-55 | the handshake loop's result is Greet's |
| Socks5.ReadRequest | components/socks5/src/server.rs:58-110 | the request loop's result is AwaitRequest's |
| Socks5.Serve | components/socks5/src/server.rs:6-146 | the session actor's result is Run's |
| Socks5.Forward | components/socks5/src/server.rs:125-137 | forwards the leftover and then every later packet, in order |
| VmessClient.FnvAppend | components/vmess/src/client.rs:77-85 | FNV-1a is streaming: the hash of a + b continues from the hash of a |
| VmessClient.Fnv1aValues | components/vmess/src/client.rs:77-85 | the empty input hashes to the offset basis 0x811c9dc5, and "a" to 0xe40c292c, the published FNV-1a test value |
| VmessClient.ComputeFnv1a | components/vmess/src/client.rs:77-85 | the loop computes Fnv1a: XOR each byte into the hash, then multiply by 16777619 modulo 2^32 |
| VmessClient.Fresh | components/vmess/src/client.rs:96-98 | a new coder holds the IV with p = 16, so its first byte encrypts the register |
| VmessClient.Step | components/vmess/src/client.rs:100-123 | one byte keeps p in 1..16 after use |
| VmessClient.Cfb | components/vmess/src/client.rs:100-123 | the coder's output has the input's length and its position stays in range |
| VmessClient.CfbSnoc | components/vmess/src/client.rs:100-123 | coding one more byte is one more step |
| VmessClient.StepInverse | components/vmess/src/client.rs:100-123 | decoding a byte from the same state inverts encoding it and leaves the same state |
| VmessClient.DecodeEncode | components/vmess/src/client.rs:100-123 | CFB decode from the same key, register and position inverts encode, and ends in the encoder's state |
| VmessClient.CfbAppend | components/vmess/src/client.rs:100-123 | coding a buffer in two calls equals coding the concatenation once |
| VmessClient.FreshFirstByte | components/vmess/src/client.rs:96-110 | a fresh coder XORs its first byte with the first byte of the encrypted IV |
| VmessClient.Aes128Cfb.constructor | components/vmess/src/client.rs:96-98 | AES128CFB::new: the state is the IV and p is 16 |
| VmessClient.Aes128Cfb.EncryptBlock | components/vmess/src/client.rs:103 | the register is replaced by its encryption |
| VmessClient.Aes128Cfb.Refill | components/vmess/src/client.rs:102-105 | when the register is used up it is encrypted and p restarts at 0; otherwise nothing changes |
| VmessClient.Aes128Cfb.Feed | components/vmess/src/client.rs:106-121 | the byte is XORed with register byte p, the ciphertext byte is stored there, and p advances |
| VmessClient.Aes128Cfb.Apply | components/vmess/src/client.rs:101-122 | one loop iteration is one Step of the specification |
| VmessClient.Aes128Cfb.Encode | components/vmess/src/client.rs:100-110 | the data is replaced in place by Cfb's encoding and the coder moves to Cfb's final state |
| VmessClient.Aes128Cfb.Decode | components/vmess/src/client.rs:112-123 | the data is replaced in place by Cfb's decoding and the coder moves to Cfb's final state |
| VmessClient.Aes128Cfb.Transform | components/vmess/src/client.rs:100-123 | the shared loop computes Cfb over the array |
| VmessClient.BufReader.constructor | components/vmess/src/client.rs:11-13 | a new reader has an empty buffer, and its unread bytes are the whole stream |
| VmessClient.BufReader.ReadExact | components/vmess/src/client.rs:33-52 | successive reads return consecutive, non-overlapping slices of the stream; at its end None is returned and nothing is lost |
| VmessClient.BufReader.Gather | components/vmess/src/client.rs:35-47 | the receiving loop moves the unread bytes to the front of a new buffer and stops with enough bytes or at the end of the stream |
| VmessClient.BufReader.Take | components/vmess/src/client.rs:16-30 | take as written: the unread rest of the buffer or the next non-empty message; at the end of the stream it resets pos, so a drained buffer becomes unread again |
| VmessClient.BufReader.TakeCorrected | components/vmess/src/client.rs:16-30 | take as evidently intended: at the end of the stream nothing is left unread |
| VmessClient.TakeRepeatsConsumedBytes | components/vmess/src/client.rs:16-30 | reading [1, 2], then take at the end of the stream, gives None; the next take returns [1, 2] a second time |
| VmessClient.TakeCorrectedAtEnd | components/vmess/src/client.rs:16-30 | with the corrected take the same calls give None both times |
| VmessClient.FrontOfUnread | components/vmess/src/client.rs:50-51 | reading len bytes at pos takes the front of the unread bytes |
| VmessClient.FramePlain | components/vmess/src/client.rs:295-300 | the frame plaintext is the 16-bit big-endian length of data plus checksum, the big-endian FNV-1a checksum, then the data |
| VmessClient.ForwardMsg | components/vmess/src/client.rs:295-303 | forward_msg's output is the encoded frame plaintext, six bytes longer than the data |
| VmessClient.DecodeHead | components/vmess/src/client.rs:208-215 | the decoded length fits 16 bits and the checksum is four bytes |
| VmessClient.ReadFrame | components/vmess/src/client.rs:205-228 | a frame read consumes at least six bytes and no more than the stream |
| VmessClient.EncodeInPieces | components/vmess/src/client.rs:295-303 | encoding length, checksum and data in one call equals encoding them one after the other |
| VmessClient.DecodeHeadOf | components/vmess/src/client.rs:208-215 | the head of a stream of encoded length and checksum decodes to them |
| VmessClient.ReadFrameAccepts | components/vmess/src/client.rs:205-228 | a stream of encoded right length, matching checksum and data is read as that data |
| VmessClient.ReadFrameParts | components/vmess/src/client.rs:205-228 | ReadFrame once the pieces are decoded and the checksum matches |
| VmessClient.ReadEncodedFrame | components/vmess/src/client.rs:205-228 | an encoded plaintext with a right length and checksum is read back as its data |
| VmessClient.FrameRoundTrip | components/vmess/src/client.rs:205-228 | a frame forward_msg writes is read back by backward_read from the encoder's starting state, whatever follows, when the length fits 16 bits |
| VmessClient.LongMessageWraps | components/vmess/src/client.rs:296-298 | 65532 data bytes are announced as length 0, which the reader cannot accept |
| VmessClient.DecodeSlice | components/vmess/src/client.rs:197-219 | decoding a copied slice is Cfb decoding of it |
| VmessClient.ReadDecoded | components/vmess/src/client.rs:196-219 | reading n bytes and decoding them consumes exactly n unread bytes and decodes them |
| VmessClient.ReadHead | components/vmess/src/client.rs:208-215 | the length and checksum are DecodeHead of the first six unread bytes |
| VmessClient.BackwardRead | components/vmess/src/client.rs:205-228 | backward_read agrees with ReadFrame: same panics, same end of stream, same data, decoder state and consumed bytes |
| VmessClient.ReadResponseHeader | components/vmess/src/client.rs:195-203 | a read response header consumes its four bytes plus the command bytes it announces |
| VmessClient.BackwardHandshake | components/vmess/src/client.rs:195-203 | backward_handshake agrees with ReadResponseHeader, panicking unless the first byte is 39 |
| VmessClient.ResponseHeaderRead | components/vmess/src/client.rs:195-203 | ReadResponseHeader once both reads succeed |
| VmessClient.AddrBytes | components/vmess/src/client.rs:265-279 | tag 1 then 4 octets, tag 3 then 16 octets, or tag 2, the name's length truncated to 8 bits and the name |
| VmessClient.RequestBody | components/vmess/src/client.rs:240-282 | version 1, the data IV and key, V = 39, option 1, security 1, reserved 0, command 1, the big-endian port, the address, no padding |
| VmessClient.HandshakeReadBack | components/vmess/src/client.rs:284-292 | the message starts with the 16 auth bytes, and decoding the rest with the header key and IV gives the body followed by its checksum |
| VmessClient.AppendedHeader | components/vmess/src/client.rs:238-282 | the fields appended one by one are the auth bytes followed by the request body |
| VmessClient.AppendHeader | components/vmess/src/client.rs:238-282 | the buffer built by appending is the auth bytes followed by the request body |
| VmessClient.EncodeFresh | components/vmess/src/client.rs:290 | a fresh header coder encodes the buffer as Cfb from Fresh |
| VmessClient.SealHeader | components/vmess/src/client.rs:284-292 | appends the checksum of bytes 16 on and encodes only that part |
| VmessClient.ForwardHandshakeMsg | components/vmess/src/client.rs:231-293 | the handshake message is the auth bytes, then the request body with its checksum encoded under the header key and IV |
| Vmess.RemoveDashes | components/vmess/src/lib.rs:43 | the result has no '-' and is no longer than the text |
| Vmess.RemoveDashesFixed | components/vmess/src/lib.rs:43 | a text without dashes is unchanged |
| Vmess.RemoveDashesAppend | components/vmess/src/lib.rs:43 | removing dashes distributes over concatenation |
| Vmess.HexPair | components/vmess/src/lib.rs:44 | u8::from_str_radix on two characters: two hex digits, or '+' and one digit, with their value; anything else fails |
| Vmess.PairsFrom | components/vmess/src/lib.rs:44 | a successful read from pair i on has 16 - i bytes |
| Vmess.PairsFromMeaning | components/vmess/src/lib.rs:44 | the read from pair i on succeeds exactly when every pair is present and valid, and byte k is pair k's value |
| Vmess.ParseUidNeverNone | components/vmess/src/lib.rs:44-45 | the list always has sixteen entries, so parse_uid never answers None |
| Vmess.ParseUidMeaning | components/vmess/src/lib.rs:42-46 | parse_uid succeeds exactly when the dash-free text has 32 characters whose sixteen pairs are hex, and byte i is the value of characters 2i and 2i+1 |
| Vmess.ParseUidPrefix | components/vmess/src/lib.rs:44 | characters after the first 32 dash-free ones are never read |
| Vmess.HexByte | components/vmess/src/lib.rs:44 | a byte's two lower-case hex digits read back as it |
| Vmess.HexRoundTrip | components/vmess/src/lib.rs:42-46 | parse_uid reads back the sixteen bytes written as 32 hex digits |
| Vmess.UuidDigits | components/vmess/src/lib.rs:43 | removing the dashes of the 8-4-4-4-12 layout leaves the 32 digits |
| Vmess.UuidRoundTrip | components/vmess/src/lib.rs:42-46 | parse_uid reads back the bytes of any UUID written in the canonical layout |
| Vmess.Create | components/vmess/src/lib.rs:8-31 | create returns a client exactly with one output, a user id that parses, and the function vmess_client; the client holds the parsed id; another output count panics first |
| Aead.KeyLen | components/aead/src/lib.rs:216 | every algorithm's key is 16 or 32 bytes |
| Aead.SelectAlgorithm | components/aead/src/lib.rs:64-69 | an unknown name panics with "unknown cypher"; the empty (default) name selects ChaCha20-Poly1305 |
| Aead.SelectCanonical | components/aead/src/lib.rs:65-67 | chacha20_poly1305, aes_128_gcm and aes_256_gcm select their own algorithm |
| Aead.SelectAes256 | components/aead/src/lib.rs:67 | example: aes_256_gcm selects AES-256-GCM |
| Aead.NormalizeFixed | components/aead/src/lib.rs:64 | a lower-case name without surrounding whitespace is its own normal form |
| Aead.LowerIdempotent | components/aead/src/lib.rs:64 | lower-casing twice is lower-casing once |
| Aead.SelectIgnoresCase | components/aead/src/lib.rs:64 | the selection ignores ASCII case |
| Aead.SelectIgnoresPadding | components/aead/src/lib.rs:64 | whitespace around a name does not change the selection |
| Aead.TrimPadded | components/aead/src/lib.rs:64 | trimming a word with whitespace around it gives the word |
| Aead.DeriveKey | components/aead/src/lib.rs:215-219 | the derived key has the algorithm's key length |
| Aead.Create | components/aead/src/lib.rs:42-82 | create returns an actor exactly with one output, a known algorithm and a known function name; another output count panics first; the actor holds the selected algorithm, the key derived from the salt (default "sopipe_is_good") and the key text, and is an encoder exactly for aead_encode |
| Aead.NonceOf | components/aead/src/lib.rs:25-30 | the nonce is 12 bytes |
| Aead.NonceParts | components/aead/src/lib.rs:26-28 | the nonce is the 4-byte iv followed by the count as 8 big-endian bytes |
| Aead.NoncesDistinct | components/aead/src/lib.rs:25-30 | different counts give different nonces |
| Aead.Counter.constructor | components/aead/src/lib.rs:19-21 | a counter starts at 0 with the given iv |
| Aead.Counter.Advance | components/aead/src/lib.rs:25-30 | the nonce of the current count is returned and the count moves on |
| Aead.FrameOf | components/aead/src/lib.rs:152-158 | a frame is 2 + tag + length + tag bytes |
| Aead.Delivered | components/aead/src/lib.rs:140-150 | the messages that get through are non-empty and not too long, and no more than were sent |
| Aead.Encode | components/aead/src/lib.rs:125-164 | the encoder sends the iv and then one frame per non-empty message; it panics with todo!() exactly when some message is too long |
| Aead.EncodeOne | components/aead/src/lib.rs:147-158 | one message's frame uses two consecutive nonces |
| Aead.NextFrame | components/aead/src/lib.rs:189-204 | a frame read spans more than 2 + 2 tag bytes, within the stream, and its content is the rest |
| Aead.Inbox.constructor | components/aead/src/lib.rs:167 | the decoder's buffer starts empty, and the unread bytes are the whole stream |
| Aead.Inbox.Fill | components/aead/src/lib.rs:169-179 | receives until the buffer holds len bytes; false exactly when the stream has fewer |
| Aead.Inbox.Drain | components/aead/src/lib.rs:210 | drain removes exactly len bytes from the front |
| Aead.DecodeOne | components/aead/src/lib.rs:189-210 | one round of the decode loop is NextFrame, and consumes exactly the frame |
| Aead.Decode | components/aead/src/lib.rs:166-212 | the decoder's output depends only on the bytes, not on how the mailbox split them |
| Aead.DecodeLoop | components/aead/src/lib.rs:189-211 | the loop's output is DecodeFrames of the unread bytes |
| Aead.FrameHead | components/aead/src/lib.rs:193-194 | the first 2 + tag bytes of a frame open to the length minus one |
| Aead.FrameBody | components/aead/src/lib.rs:198-202 | the bytes after them open to the message |
| Aead.NextFrameOf | components/aead/src/lib.rs:189-210 | a frame followed by anything is read back as its message |
| Aead.FramesRoundTrip | components/aead/src/lib.rs:189-210 | decoding the frames from any count gives back the delivered messages, then the end of the stream |
| Aead.RoundTrip | components/aead/src/lib.rs:125-212 | decoding what the encoder sent gives back every non-empty message in order, up to the first one that is too long |
| Aead.DeliveredAll | components/aead/src/lib.rs:140-150 | without over-long messages every non-empty message gets through |
| Aead.Opposite | components/aead/src/lib.rs:104-113 | the backward coding is the other role |
| Aead.Spawn | components/aead/src/lib.rs:94-114 | an encoder encodes forward and decodes backward, a decoder the reverse; a missing mailbox or address panics, the mailbox first |
| Aead.SpawnComposite | components/aead/src/lib.rs:116-121 | one task coding the actor's own role; the address is checked before the mailbox |
| Xor.Create | components/xor/src/lib.rs:22-30 | create returns an actor exactly with one output, and its key is the UTF-8 bytes of the key text; otherwise it panics |
| Xor.XorWith | components/xor/src/lib.rs:60-63 | XORing keeps the message length |
| Xor.After | components/xor/src/lib.rs:62 | the offset stays below the key length |
| Xor.XorWithTwice | components/xor/src/lib.rs:60-63 | XORing twice with the same key from the same offset gives the bytes back |
| Xor.XorWithTailAt | components/xor/src/lib.rs:57-63 | a byte of the second part of a concatenation is XORed from where the first part left off |
| Xor.XorWithAppend | components/xor/src/lib.rs:57-63 | XORing a concatenation is XORing its parts, the second from where the first left off |
| Xor.XorMessage | components/xor/src/lib.rs:60-63 | the loop XORs the message in place with the key from the offset, and returns the offset after it; with an empty key a non-empty message panics on indexing and is left unchanged |
| Xor.NextKey | components/xor/src/lib.rs:61-62 | the key byte used at step i is the key at offset count + i, and the offset moves on modulo the key length |
| Xor.XorTask | components/xor/src/lib.rs:56-68 | the loop's sends and its panic are XorRun's |
| Xor.RunShape | components/xor/src/lib.rs:59-67 | message lengths and order are kept; processing stops at the first failed send |
| Xor.RunKeystream | components/xor/src/lib.rs:57-63 | byte j of everything sent, counted across messages, is byte j received XORed with the key at offset count + j |
| Xor.RunTwice | components/xor/src/lib.rs:56-68 | running the loop over its own output with the same key gives back what it received |
| Xor.EmptyKeyPanics | components/xor/src/lib.rs:61 | with an empty key the loop panics exactly when a non-empty message arrives while sends still succeed |
| Xor.Spawn | components/xor/src/lib.rs:39-45 | both directions run the loop with the same key from offset 0; the mailbox is taken before the address |
| Stdio.NameOf | components/stdio/src/lib.rs:33-38 | each stream's name is one of stdin, stdout, stdio |
| Stdio.FuncOf | components/stdio/src/lib.rs:33-38 | each known name selects the stream it names; any other name is unreachable |
| Stdio.FuncNameRoundTrip | components/stdio/src/lib.rs:33-38 | each stream has one name and each name one stream |
| Stdio.Create | components/stdio/src/lib.rs:18-47 | the name selects the stream; at most one output gives an actor with an output exactly when there is one, no_flush as given (false by default) and a 1024-byte buffer; more outputs give the misuse error "too many outputs" instead of a panic |
| Balance.Actor.constructor | components/balance/src/lib.rs:13-15 | a new actor starts counting at 0 |
| Balance.Actor.Spawn | components/balance/src/lib.rs:47-52 | the count moves on by one, and the picked output is the old count modulo the number of outputs; with no outputs the remainder panics |
| Balance.Create | components/balance/src/lib.rs:29-34 | no method or round_robin builds an actor over every output; any other method hits todo!() |
| Balance.Picks | components/balance/src/lib.rs:48-49 | k spawns pick k outputs |
| Balance.SpawnRounds | components/balance/src/lib.rs:47-52 | k spawns of a fresh actor return exactly Picks(n, k), so before the count wraps spawn i picks output i mod n |
| Balance.PicksRoundRobin | components/balance/src/lib.rs:48-49 | spawn k of a fresh actor picks output k mod n |
| Balance.PickValue | components/balance/src/lib.rs:48-49 | the output picked j spawns later is the start's output plus j, wrapping around |
| Balance.RoundRobinWindow | components/balance/src/lib.rs:48-49 | any n spawns in a row pick every output exactly once |
| Plugins.LibraryFile | src/plugins.rs:14-20 | the library file is lib<name>.dll on Windows and lib<name>.so on Unix; other platforms are unimplemented |
| Plugins.LibraryFileRoundTrip | src/plugins.rs:14-20 | the file name gives back the plugin name, so distinct plugins load distinct files |
| Plugins.ByteDict.constructor | src/plugins.rs:57-80 | the dictionary starts empty |
| Plugins.ByteDict.Get | src/plugins.rs:57-68 | sopipe_get as written: -1 and an untouched buffer for an absent key; the stored length for a present key, with the value copied when the capacity is at least that length, which panics unless the capacity is exactly that length |
| Plugins.ByteDict.GetCorrected | plugins/api.h:24-28 | get as the plugin API describes it: a buffer at least as long as the value receives it in its first bytes, and the rest of the buffer is untouched |
| Plugins.ByteDict.Set | src/plugins.rs:70-80 | a negative length removes exactly that key; otherwise the key maps to exactly those bytes; other keys are unchanged |
| Plugins.CopyInto | src/plugins.rs:62 | the value is copied into the front of the buffer and the rest is untouched |
| Plugins.ProbeReportsLength | src/plugins.rs:57-68 | a negative capacity never touches the buffer and reports the stored length, or -1 |
| Plugins.ProbeThenFetch | src/plugins.rs:57-68 | asking for the size and then asking with exactly that capacity returns the value: the retry the plugin API describes |
| Plugins.SetThenGet | src/plugins.rs:57-80 | after set, get with a buffer of the value's length returns it; after a delete get reports -1; other keys answer as before |
| Plugins.GetDiscrepancy | src/plugins.rs:61-62 | the code panics exactly for a present key with a capacity above the value's length; everywhere else it agrees with the API's description |
| Plugins.GetPanicsOnRoomyBuffer | src/plugins.rs:61-62 | a one-byte value read into a two-byte buffer panics with "source slice length (1) does not match destination slice length (2)" |
| Plugins.GetCorrectedOnRoomyBuffer | plugins/api.h:24-28 | the corrected get on the same read reports length 1 and writes the byte |
| Metadata.Shared.constructor | api/src/metadata.rs:18 | a new Arc holds the value with one strong reference |
| Metadata.MetaData.constructor | api/src/metadata.rs:7-8 | the default metadata is empty |
| Metadata.MetaData.Get | api/src/metadata.rs:11-14 | the value exactly when the key is present and the stored type matches, else None |
| Metadata.MetaData.Set | api/src/metadata.rs:16-19 | the key holds a fresh allocation of the value, the replaced handle is dropped, and other keys keep their values |
| Metadata.MetaData.Release | api/src/metadata.rs:24 | dropping a handle lowers its strong count by one and no other |
| Metadata.MetaData.Take | api/src/metadata.rs:21-25 | the key is removed in every case; the value comes out exactly when its type matches and no clone shares it |
| Metadata.MetaData.Clone | api/src/metadata.rs:5-8 | a clone is shallow: the same allocations, each held once more |
| Metadata.TakeAfterClone | api/src/metadata.rs:5-25 | a take right after a clone returns None, whatever the type, and still removes the key |
| Errors.MisuseError | api/src/error.rs:25-27 | misuse builds an error of kind Misuse keeping the message and the source |
| Errors.FatalError | api/src/error.rs:29-31 | fatal builds an error of kind Fatal keeping the message and the source |
| Errors.NonFatalError | api/src/error.rs:33-35 | non_fatal builds an error of kind NonFatal keeping the message and the source |
| Errors.Prefix | api/src/error.rs:42-46 | each kind's prefix ends in ": ", and its first letter tells the kinds apart (Misuse, Fatal, Error for non-fatal) |
| Errors.Display | api/src/error.rs:40-53 | the text is the prefix, the message, then the source's text with no separator, when there is a source |
| Errors.DisplayKind | api/src/error.rs:40-53 | the displayed text tells the three kinds apart |
| Errors.DisplaySource | api/src/error.rs:47-51 | a source adds its text at the very end and changes nothing before it |
| Errors.SourceOf | api/src/error.rs:55-58 | source() is the stored source |
| Errors.SourceKept | api/src/error.rs:25-58 | every constructor keeps the source it was given |
| Udp.TruncateU16 | components/udp/src/lib.rs:35 | `i as u16` keeps an integer below 65536 unchanged |
| Udp.AddrAndPort | components/udp/src/lib.rs:27-41 | a string addr is the host and keeps the configured port; an integer addr is the port (truncated to 16 bits) with no host; no addr keeps the configured port; a list panics with "wrong argument type" |
| Udp.IntAddrPort | components/udp/src/lib.rs:35 | an integer addr p below 65536 is port p, and p + 65536 names the same port |
| Udp.NewActor | components/udp/src/lib.rs:55-66 | an actor comes out exactly when addr is not a list and there is at most one output; it carries get_addr_and_port's pair and has an output exactly when there is one |
| Udp.Spawn | components/udp/src/lib.rs:70-94 | asserts no output; a destination in the metadata with a configured one panics; otherwise the destination is the metadata's or the configuration's, host and port or host alone, and it needs a host, an address and a mailbox |
| Udp.SpawnSingleSource | components/udp/src/lib.rs:73-83 | the destination comes wholly from the stream or wholly from the configuration, never a mix |
| Udp.ListenAddress | components/udp/src/lib.rs:111-117 | listen binds the configured address or "::", with the port when one is configured |
| Udp.SpawnSource | components/udp/src/lib.rs:96-117 | only an actor with an output listens, at ListenAddress |
| Udp.ConnectOrListen | components/udp/src/lib.rs:55-99 | an actor built by new either connects or listens: spawn's assertion fails exactly when spawn_source succeeds |
| Http2.NormalizePath | components/http2/src/lib.rs:47-51 | the path starts with "/", and is the given one or "/" followed by it |
| Http2.NormalizePort | components/http2/src/lib.rs:52-56 | the port is never 0, and a non-zero port is kept |
| Http2.NewActor | components/http2/src/lib.rs:44-58 | new keeps the domain and normalises the path and port |
| Http2.NormalizePathMeaning | components/http2/src/lib.rs:47-51 | the path is kept exactly when it starts with "/", the empty path becomes "/", and normalising is idempotent |
| Http2.NormalizePortMeaning | components/http2/src/lib.rs:52-56 | the port is changed exactly when it is 0, then to 443, and normalising is idempotent |
| Http2.RequestUri | components/http2/src/lib.rs:86 | the URI is "https://", then the domain, then the path |
| Http2.SlashFrom | components/http2/src/lib.rs:86 | the index found holds the first '/' at or after the start, or is the end |
| Http2.RequestUriRoundTrip | components/http2/src/lib.rs:86 | for a domain without '/', splitting the URI at the first '/' after the scheme gives back the domain and the normalised path |
| Http2.SlashAt | components/http2/src/lib.rs:86 | the first '/' from a start is found at its index |
| Exec.Refusal | components/exec/src/lib.rs:18-27 | an argument is accepted exactly when it is an unnamed string, an `outputs` list, or function_name |
| Exec.FirstRefusal | components/exec/src/lib.rs:18-27 | no refusal exactly when every argument is accepted |
| Exec.Positional | components/exec/src/lib.rs:19-23 | the command line holds at most one entry per argument |
| Exec.Create | components/exec/src/lib.rs:13-38 | the loop's result is CreateSpec: the first refused argument panics with its reason, more than one output (or no `outputs` at all) panics with "too many outputs", else the actor has the unnamed strings in order |
| Exec.RefusalAppend | components/exec/src/lib.rs:18-27 | after an accepted prefix, the first refusal is that of the next argument |
| Exec.RefusalPrefix | components/exec/src/lib.rs:18-27 | a refusal within a prefix is the refusal of the whole list, so create stops at the first bad argument |
| Exec.CreateMeaning | components/exec/src/lib.rs:13-38 | create returns exactly when every argument is accepted and the last `outputs` has at most one entry; then the command line has one entry per unnamed argument |
| Exec.PositionalCount | components/exec/src/lib.rs:19-23 | with every argument accepted, the command line has one entry per unnamed argument |
| Exec.Unnamed | components/exec/src/lib.rs:19 | the unnamed indices lie within the list |
| Exec.UnnamedStep | components/exec/src/lib.rs:19 | the unnamed indices of a list are those of its front plus the last one when it is unnamed |
| Exec.MissingOutputsPanics | components/exec/src/lib.rs:14-36 | without an `outputs` argument the count stays usize::MAX and create panics with "too many outputs" |
| Exec.NoOutputsCount | components/exec/src/lib.rs:14-26 | without an `outputs` argument the count is usize::MAX |
| Exec.ChildCommand | components/exec/src/lib.rs:89-96 | the child runs args[0] with args[1..]; an empty command line panics on the index |
| Exec.PipeChild | components/exec/src/lib.rs:49-51 | the running child is piped only when both the address and the mailbox are present; a missing one panics on its unwrap |
| Exec.Spawn | components/exec/src/lib.rs:46-57 | spawn asserts the actor has no output, then runs the child command; it returns exactly when the assertion holds, the command line is non-empty and both the address and the mailbox are given |
| Exec.SpawnComposite | components/exec/src/lib.rs:59-68 | spawn_composite runs the child command without any assertion on the output, so it behaves as spawn for an actor without an output |
| Exec.SpawnSource | components/exec/src/lib.rs:70-85 | spawn_source asserts the actor has an output, then runs the child command |
| Exec.CreateThenSpawn | components/exec/src/lib.rs:13-96 | the child runs the command line given to create, and, given an address and a mailbox, exactly one of spawn and spawn_source passes its assertion |
| JsNumber.ParseIntText | builder/src/codegen.js:47-49 | parseInt reads back the decimal text of every integer |
| JsNumber.ParseIntPrefix | builder/src/codegen.js:47 | parseInt stops at the first non-digit: "12abc" is 12 |
| JsNumber.ParseIntHex | builder/src/codegen.js:47 | parseInt reads "0x10" as 16 |
| JsNumber.ParseIntNaN | builder/src/codegen.js:47-50 | text starting with a letter is NaN |
| JsNumber.UnsignedParse | builder/src/codegen.js:47 | text starting with a digit is read as its magnitude, with no sign or space to skip |
| JsNumber.DigitRun | builder/src/codegen.js:47 | the digit run is the longest prefix of digits of the radix |
| Text.Trim | builder/src/codegen.js:35-36 | the trimmed text is no longer and neither starts nor ends with white space |
| Text.TrimMeaning | builder/src/codegen.js:35-36 | trim keeps a contiguous slice of the text and drops only white space before and after it |
| Text.TrimIdempotent | builder/src/codegen.js:35-36 | trimming twice is trimming once |
| Text.SplitJoin | builder/src/blocks.js:21-30 | splitting by ',' what was joined by ',' gives back the names, when none contains ',' |
| Text.Split | builder/src/blocks.js:30 | a split always has at least one part |
| Text.LowerAscii | components/aead/src/lib.rs:64 | each character is lowered on its own, keeping the length |

## Left out

- Blockly itself: rendering, field widgets and connection geometry. A block's inputs are a sequence of `(name, target)` records; each input owns its own connection object, so a probed connection is named by its input's position, and `appendValueInput`, `removeInput` and `moveNumberedInputBefore` are sequence operations. The insertion-marker event glue is represented only by the calls it makes (a probe, then finalizeConnections). The category colour table is cosmetic.
- The pest grammar of the script language is not part of this model: `Script.LoadScript` takes the parse tree as a datatype.
- Errors returned by a component's `create` at src/script.rs:164 are not modelled: `Script.LoadScript` ends with the finished node list that is handed to `create`.
- Tasks, channels and the runtime (spawn_task, pass, composite wiring): a task's incoming mailbox is a sequence given as input. Sends succeed, except in the xor loop, where a failed send is an input flag.
- Network and process I/O: socket connect and listen in udp and http2, the TLS and HTTP/2 session, pipe_exec, reading and writing stdin and stdout. Process-spawn errors are not modelled.
- The socks5 backward pass-through task and the diagnostic eprintln lines. The IPv4 and IPv6 addresses are kept as bytes; their text form is not modelled.
- `Addr::parse` in the VMess client relies on the standard library's address parsers; the address is an input datatype.
- Cryptography is a function parameter: the AES block function, AEAD seal and open, PBKDF2 key derivation, MD5 and HMAC. Randomness (the VMess IV, key and auth, and the AEAD iv) and the clock are parameters too.
- JsNumber.ParseInt: a JavaScript Number is a double, but the model uses exact unbounded integers for the value parseInt returns and for the text `'' + n` (`JsNumber.NumberText`) that `Codegen.InferValue` writes back. Rounding of integers above 2^53 (parseInt("9007199254740993") is 9007199254740992) and the exponent form of `'' + n` from 10^21 on ("1e+21") are not modelled.
- Codegen.InferValueMeaning: the read-back of the written number holds for exact integers; in JavaScript it fails for values parseInt rounds (above 2^53) and for values from 10^21 on, whose text is in exponent form.
- Codegen.GenArgumentIdempotent: the fixed point holds for exact integers; in JavaScript a digit string above 2^53 is rewritten to a different, rounded number, and one from 10^21 on to exponent form, which parseInt reads back as its leading digit.
- JsNumber.ParseIntText: parseInt reads back the decimal text of every exact integer; in JavaScript this holds only up to 2^53 in magnitude and below 10^21.
- Vmess.HexPair: works on characters, not UTF-8 bytes, so the panic Rust raises when a byte index falls inside a multi-byte character is not modelled.
- Text.LowerAscii: `to_lowercase` is modelled on ASCII letters only; other Unicode case mappings are not modelled.
- Aead.Counter.Advance: the count wraps after 2^64 nonces, as a release build does; the overflow panic of a debug build is not modelled.
- Balance.Actor.Spawn: the count wraps after 2^64 spawns, as `fetch_add` does; Balance.Picks and the round-robin lemmas are stated for fewer than 2^64 spawns.
- The `spawn_composite` and `spawn_source` of xor and stdio are `todo!()` in the source and are not modelled. Stdio's `spawn` only creates a channel pair and starts no task (`read_stdin` and `write_stdout` are never called from it), so nothing of it is modelled.
- The plugin API's pointer handling: key and value buffers are Dafny sequences and arrays, so the raw `key_len`/`key_ptr` reading is not modelled. `Plugin::version`, `init` and `start` are foreign or unfinished.
- UDP metadata: the two values `take` returns from the stream's metadata are parameters of `Udp.Spawn`.
- Helper.FieldType: the field types a configuration struct may declare are integers, strings, api Arguments, bool, unit, sequences and options (and newtype structs, which read as their inner type). Floats, char, bytes, unit structs, tuples, tuple structs and maps reach `unimplemented!()` at api/src/helper.rs:146-218, and enums reach `todo!()` at api/src/helper.rs:236-237; these types are outside the model's type universe, so those panics are not modelled.
- Code that the model restructures with the same behaviour: `Xor.XorMessage` checks for an empty key before its loop, `VmessClient.BufReader.Gather` tests for the end of the stream in its loop guard rather than inside the loop, and the CFB coder shares one loop between encoding and decoding.

## Findings

| source | as written | input that shows it | evidently intended | confidence | as-written member | corrected member |
|---|---|---|---|---|---|---|
| components/vmess/src/client.rs:16-30 | at the end of the stream `take` has already reset `pos` to 0, so a buffer that was read to the end becomes unread again | a stream of one message [1, 2]; `read_exact(2)`, then `take`, then `take`: the second take returns [1, 2] again | `take` leaves the reader empty, so no byte is returned twice | not executed | VmessClient.BufReader.Take, VmessClient.TakeRepeatsConsumedBytes | VmessClient.BufReader.TakeCorrected, VmessClient.TakeCorrectedAtEnd |
| src/plugins.rs:61-62 | `copy_from_slice` on the whole caller buffer panics when the buffer is longer than the value | a one-byte value read with `value_len` 2 | as plugins/api.h:24-28 says, a buffer long enough for the value receives it and `value_len` becomes the value's length | not executed | Plugins.ByteDict.Get, Plugins.GetPanicsOnRoomyBuffer | Plugins.ByteDict.GetCorrected, Plugins.GetCorrectedOnRoomyBuffer |

=== FILE: aead.dfy ===
/** The AEAD component (components/aead/src/lib.rs): the choice of cipher
    and key in `create`, the nonce counter, the length-prefixed framing of
    the encoder, the decoder that reads it back, and the routing of the two
    directions in `spawn`. The ring library's sealing and opening, and its
    PBKDF2, are parameters. */
module Aead {
  import opened Wrappers
  import opened Bytes
  import opened Text
  import Utf8

  // ---------------------------------------------------------------------
  // Algorithms
  // ---------------------------------------------------------------------

  datatype Algorithm = ChaCha20Poly1305 | Aes128Gcm | Aes256Gcm

  /** ring's key_len of each algorithm. */
  function KeyLen(a: Algorithm): (n: nat)
    ensures n == 16 || n == 32
  {
    if a == Aes128Gcm then 16 else 32
  }

  /** ring's tag_len, the same for all three algorithms. */
  const TAG_LEN: nat := 16

  const UNKNOWN_CYPHER := "unknown cypher"

  /** The name after to_lowercase and trim. */
  function Normalize(name: string): string
  {
    RustTrim(LowerAscii(name))
  }

  /** The algorithm a name selects; anything unknown panics. An absent
      name is empty and selects ChaCha20-Poly1305. */
  function SelectAlgorithm(name: string): (r: Outcome<Algorithm>)
    ensures r.Panics? ==> r.reason == UNKNOWN_CYPHER
    ensures name == "" ==> r == Returns(ChaCha20Poly1305)
  {
    var n := Normalize(name);
    if n == "" || n == "chacha20" || n == "chacha20_poly1305" then Returns(ChaCha20Poly1305)
    else if n == "aes_128_gcm" then Returns(Aes128Gcm)
    else if n == "aes" || n == "aes_gcm" || n == "aes_256_gcm" then Returns(Aes256Gcm)
    else Panics(UNKNOWN_CYPHER)
  }

  /** The name ring gives each algorithm. */
  function CanonicalName(a: Algorithm): string
  {
    match a
    case ChaCha20Poly1305 => "chacha20_poly1305"
    case Aes128Gcm => "aes_128_gcm"
    case Aes256Gcm => "aes_256_gcm"
  }

  predicate NoUpper(s: string)
  {
    forall i :: 0 <= i < |s| ==> !('A' <= s[i] <= 'Z')
  }

  lemma LowerFixed(s: string)
    requires NoUpper(s)
    ensures LowerAscii(s) == s
  {
  }

  /** Every algorithm is selected by its own name. */
  lemma SelectCanonical(a: Algorithm)
    ensures SelectAlgorithm(CanonicalName(a)) == Returns(a)
  {
    match a
    case ChaCha20Poly1305 => NormalizeFixed("chacha20_poly1305");
    case Aes128Gcm => NormalizeFixed("aes_128_gcm");
    case Aes256Gcm => SelectAes256();
  }

  /** An example, and the AES-256 case of SelectCanonical: the AES-256
      name is the last one matched, after the AES-128 name of the same
      length. */
  lemma SelectAes256()
    ensures SelectAlgorithm("aes_256_gcm") == Returns(Aes256Gcm)
  {
    NormalizeFixed("aes_256_gcm");
  }

  /** A lower-case name without surrounding space is its own normal form. */
  lemma NormalizeFixed(s: string)
    requires NoUpper(s) && s != [] && !IsRustSpace(s[0]) && !IsRustSpace(s[|s| - 1])
    ensures Normalize(s) == s
  {
    LowerFixed(s);
    TrimStartFixed(s, RustWhiteSpace);
    TrimEndFixed(s, RustWhiteSpace);
  }

  /** Lower-casing twice is lower-casing once. */
  lemma LowerIdempotent(s: string)
    ensures LowerAscii(LowerAscii(s)) == LowerAscii(s)
  {
  }

  /** The selection ignores ASCII case. */
  lemma SelectIgnoresCase(name: string)
    ensures SelectAlgorithm(LowerAscii(name)) == SelectAlgorithm(name)
  {
    LowerIdempotent(name);
  }

  predicate AllSpace(s: string)
  {
    forall i :: 0 <= i < |s| ==> IsRustSpace(s[i])
  }

  lemma {:induction false} TrimStartSpaces(a: string, m: string)
    requires AllSpace(a)
    ensures TrimStart(a + m, RustWhiteSpace) == TrimStart(m, RustWhiteSpace)
  {
    if a != [] {
      assert (a + m)[0] == a[0] && (a + m)[1..] == a[1..] + m;
      TrimStartSpaces(a[1..], m);
    } else {
      assert a + m == m;
    }
  }

  lemma {:induction false} TrimEndSpaces(m: string, b: string)
    requires AllSpace(b)
    ensures TrimEnd(m + b, RustWhiteSpace) == TrimEnd(m, RustWhiteSpace)
    decreases |b|
  {
    if b != [] {
      var b' := b[..|b| - 1];
      assert (m + b)[|m + b| - 1] == b[|b| - 1] && (m + b)[..|m + b| - 1] == m + b';
      TrimEndSpaces(m, b');
    } else {
      assert m + b == m;
    }
  }

  lemma {:induction false} LowerAppend(a: string, b: string)
    ensures LowerAscii(a + b) == LowerAscii(a) + LowerAscii(b)
  {
  }

  lemma {:induction false} LowerSpaces(a: string)
    requires AllSpace(a)
    ensures AllSpace(LowerAscii(a))
  {
  }

  /** Whitespace around a name does not change the selection. */
  lemma SelectIgnoresPadding(a: string, v: string, b: string)
    requires AllSpace(a) && AllSpace(b)
    requires v != [] ==> !IsRustSpace(v[0]) && !IsRustSpace(v[|v| - 1])
    ensures SelectAlgorithm(a + v + b) == SelectAlgorithm(v)
  {
    var la, lv, lb := LowerAscii(a), LowerAscii(v), LowerAscii(b);
    LowerThree(a, v, b);
    LowerSpaces(a);
    LowerSpaces(b);
    TrimPadded(la, lv, lb);
    assert Normalize(a + v + b) == Normalize(v);
  }

  /** Lower-casing works piece by piece. */
  lemma LowerThree(a: string, v: string, b: string)
    ensures LowerAscii(a + v + b) == LowerAscii(a) + (LowerAscii(v) + LowerAscii(b))
  {
    LowerAppend(a + v, b);
    LowerAppend(a, v);
    ConcatAssoc(LowerAscii(a), LowerAscii(v), LowerAscii(b));
  }

  /** Trimming a word with spaces around it gives the word. */
  lemma TrimPadded(la: string, lv: string, lb: string)
    requires AllSpace(la) && AllSpace(lb)
    requires lv != [] ==> !IsRustSpace(lv[0]) && !IsRustSpace(lv[|lv| - 1])
    ensures RustTrim(la + (lv + lb)) == RustTrim(lv)
  {
    TrimStartSpaces(la, lv + lb);
    if lv == [] {
      assert lv + lb == lb + [];
      TrimStartSpaces(lb, []);
    } else {
      TrimStartFixed(lv + lb, RustWhiteSpace);
      TrimStartFixed(lv, RustWhiteSpace);
      TrimEndSpaces(lv, lb);
    }
  }

  // ---------------------------------------------------------------------
  // create
  // ---------------------------------------------------------------------

  datatype Role = Encoder | Decoder

  /** The parsed configuration: the pass phrase, the algorithm name (empty
      when absent), the salt, the outputs and the function name. */
  datatype Config = Config(key: string, algorithm: string, salt: Option<string>,
                           outputs: seq<string>, functionName: string)

  datatype Actor = Actor(key: seq<byte>, algo: Algorithm, role: Role)

  const DEFAULT_SALT := "sopipe_is_good"
  const OUTPUT_PANIC := "auth must have exactly 1 output"

  /** PBKDF2-HMAC-SHA256 with 4096 rounds, as ring computes it: salt and
      pass phrase in, the requested number of key bytes out. */
  type Pbkdf2 = f: (seq<byte>, seq<byte>, nat) -> seq<byte> | forall s, p, n :: |f(s, p, n)| == n
    witness (s: seq<byte>, p: seq<byte>, n: nat) => seq(n, _ => 0 as byte)

  /** derive_key: a key of the algorithm's length. */
  function DeriveKey(pbkdf2: Pbkdf2, algo: Algorithm, salt: seq<byte>, pass: seq<byte>): (key: seq<byte>)
    ensures |key| == KeyLen(algo)
  {
    pbkdf2(salt, pass, KeyLen(algo))
  }

  /** The salt bytes: the configured salt, else "sopipe_is_good". */
  function SaltBytes(salt: Option<string>): seq<byte>
  {
    Utf8.Encode(if salt.Some? then salt.value else DEFAULT_SALT)
  }

  /** create: the output count first, then the algorithm, the key, and the
      role the function name selects. */
  function Create(pbkdf2: Pbkdf2, config: Config): (r: Outcome<Actor>)
    ensures r.Returns? <==>
      |config.outputs| == 1 && SelectAlgorithm(config.algorithm).Returns? &&
      config.functionName in {"aead_encode", "aead_decode"}
    ensures |config.outputs| != 1 ==> r == Panics(OUTPUT_PANIC)
    ensures r.Returns? ==>
      r.value.algo == SelectAlgorithm(config.algorithm).value &&
      r.value.key == DeriveKey(pbkdf2, r.value.algo, SaltBytes(config.salt), Utf8.Encode(config.key)) &&
      (r.value.role == Encoder <==> config.functionName == "aead_encode")
  {
    if |config.outputs| != 1 then Panics(OUTPUT_PANIC)
    else
      var algo :- SelectAlgorithm(config.algorithm);
      var key := DeriveKey(pbkdf2, algo, SaltBytes(config.salt), Utf8.Encode(config.key));
      if config.functionName == "aead_encode" then Returns(Actor(key, algo, Encoder))
      else if config.functionName == "aead_decode" then Returns(Actor(key, algo, Decoder))
      else Panics(UNREACHABLE)
  }

  // ---------------------------------------------------------------------
  // The nonce counter
  // ---------------------------------------------------------------------

  /** The 12-byte nonce: the 4-byte iv, then the count as 8 big-endian
      bytes. */
  function NonceOf(iv: seq<byte>, n: u64): (nonce: seq<byte>)
    requires |iv| == 4
    ensures |nonce| == 12
  {
    iv + U64Be(n)
  }

  /** The nonce holds the iv and the count. */
  lemma NonceParts(iv: seq<byte>, n: u64)
    requires |iv| == 4
    ensures NonceOf(iv, n)[..4] == iv && FromBe(NonceOf(iv, n)[4..]) == n
  {
    assert NonceOf(iv, n)[4..] == U64Be(n);
    assert Pow256(8) == U64_LIMIT;
    FromToBe(n, 8);
  }

  /** Different counts give different nonces. */
  lemma NoncesDistinct(iv: seq<byte>, m: u64, n: u64)
    requires |iv| == 4 && m != n
    ensures NonceOf(iv, m) != NonceOf(iv, n)
  {
    NonceParts(iv, m);
    NonceParts(iv, n);
  }

  class Counter {
    const iv: seq<byte>
    var count: u64

    constructor (iv: seq<byte>)
      requires |iv| == 4
      ensures this.iv == iv && count == 0
    {
      this.iv := iv;
      count := 0;
    }

    /** advance: the nonce of the current count, then the count moves on. */
    method Advance() returns (nonce: seq<byte>)
      requires |iv| == 4
      modifies this
      ensures nonce == NonceOf(iv, old(count)) && count == Next(old(count))
    {
      nonce := iv + U64Be(count);
      count := (count + 1) % U64_LIMIT;
    }
  }

  // ---------------------------------------------------------------------
  // Sealing and opening
  // ---------------------------------------------------------------------

  /** ring's seal under the actor's key: a nonce and a plaintext in, the
      ciphertext with its tag appended out. */
  type Sealer = f: (seq<byte>, seq<byte>) -> seq<byte> | forall n, p :: |f(n, p)| == |p| + TAG_LEN
    witness (n: seq<byte>, p: seq<byte>) => p + seq(TAG_LEN, _ => 0 as byte)

  /** ring's open under the actor's key: the plaintext, or None when the tag
      does not match. */
  type Opener = f: (seq<byte>, seq<byte>) -> Option<seq<byte>> |
    forall n, c :: f(n, c).Some? ==> |f(n, c).value| + TAG_LEN == |c|
    witness (n: seq<byte>, c: seq<byte>) => None

  /** Opening what was sealed under the same nonce gives the plaintext back. */
  ghost predicate Opens(seal: Sealer, open: Opener)
  {
    forall n, p :: open(n, seal(n, p)) == Some(p)
  }

  // ---------------------------------------------------------------------
  // encode
  // ---------------------------------------------------------------------

  /** A message whose length minus one does not fit in a u16 hits todo!(). */
  predicate TooLong(msg: seq<byte>)
  {
    |msg| > U16_LIMIT
  }

  /** One frame: the sealed length minus one, then the sealed message, under
      two consecutive nonces. */
  function FrameOf(seal: Sealer, iv: seq<byte>, n: u64, msg: seq<byte>): (f: seq<byte>)
    requires |iv| == 4 && msg != [] && !TooLong(msg)
    ensures |f| == 2 + TAG_LEN + |msg| + TAG_LEN
  {
    seal(NonceOf(iv, n), U16Be(|msg| - 1)) + seal(NonceOf(iv, Next(n)), msg)
  }

  /** The frames of the mailbox's messages from counter n on: empty messages
      are skipped, and the first message that is too long ends the list. */
  function Frames(seal: Sealer, iv: seq<byte>, n: u64, msgs: seq<seq<byte>>): seq<seq<byte>>
    requires |iv| == 4
    decreases |msgs|
  {
    if msgs == [] then []
    else if msgs[0] == [] then Frames(seal, iv, n, msgs[1..])
    else if TooLong(msgs[0]) then []
    else [FrameOf(seal, iv, n, msgs[0])] + Frames(seal, iv, Next(Next(n)), msgs[1..])
  }

  /** The messages that get through the encoder: the non-empty ones before
      the first message that is too long. */
  function Delivered(msgs: seq<seq<byte>>): (r: seq<seq<byte>>)
    ensures |r| <= |msgs|
    ensures forall i :: 0 <= i < |r| ==> r[i] != [] && !TooLong(r[i])
  {
    if msgs == [] then []
    else if msgs[0] == [] then Delivered(msgs[1..])
    else if TooLong(msgs[0]) then []
    else [msgs[0]] + Delivered(msgs[1..])
  }

  /** Actor::encode on the mailbox's messages: the iv goes out first, then a
      frame per non-empty message; a message that is too long stops the encoder
      with todo!(). Every send is taken to succeed. */
  method Encode(seal: Sealer, iv: seq<byte>, mail: seq<seq<byte>>) returns (sent: seq<seq<byte>>, r: Outcome<()>)
    requires |iv| == 4
    ensures sent == [iv] + Frames(seal, iv, 0, mail)
    ensures r.Panics? <==> exists i :: 0 <= i < |mail| && TooLong(mail[i])
    ensures r.Panics? ==> r.reason == TODO
  {
    var counter := new Counter(iv);
    sent := [iv];
    var i := 0;
    while i < |mail|
      invariant i <= |mail| && counter.iv == iv
      invariant forall k :: 0 <= k < i ==> !TooLong(mail[k])
      invariant sent + Frames(seal, iv, counter.count, mail[i..]) == [iv] + Frames(seal, iv, 0, mail)
    {
      var msg := mail[i];
      ghost var n := counter.count;
      assert mail[i..][0] == msg && mail[i..][1..] == mail[i + 1..];
      if msg == [] {
        assert Frames(seal, iv, n, mail[i..]) == Frames(seal, iv, n, mail[i + 1..]);
        i := i + 1;
        continue;
      }
      if |msg| - 1 > U16_LIMIT - 1 {
        assert Frames(seal, iv, n, mail[i..]) == [];
        assert sent == [iv] + Frames(seal, iv, 0, mail);
        return sent, Panics(TODO);
      }
      var frame := EncodeOne(seal, counter, msg);
      assert Frames(seal, iv, n, mail[i..]) == [frame] + Frames(seal, iv, counter.count, mail[i + 1..]);
      sent := sent + [frame];
      i := i + 1;
    }
    assert mail[i..] == [];
    r := Returns(());
  }

  /** The body of the loop for one non-empty message. */
  method EncodeOne(seal: Sealer, counter: Counter, msg: seq<byte>) returns (frame: seq<byte>)
    requires |counter.iv| == 4 && msg != [] && !TooLong(msg)
    modifies counter
    ensures frame == FrameOf(seal, counter.iv, old(counter.count), msg)
    ensures counter.count == Next(Next(old(counter.count)))
  {
    var n1 := counter.Advance();
    frame := seal(n1, U16Be(|msg| - 1));
    var n2 := counter.Advance();
    frame := frame + seal(n2, msg);
  }

  // ---------------------------------------------------------------------
  // decode
  // ---------------------------------------------------------------------

  /** Why the decoder stopped: the mailbox closed, or an open failed. */
  datatype End = Closed | DecryptionFailed

  /** What one round of the decode loop finds at the front of the stream. */
  datatype Step = Frame(content: seq<byte>, size: nat) | Stop(end: End)

  /** One frame at the front of `s`: the sealed length (2 + tag bytes), then
      length + 1 + tag bytes of sealed content. */
  function NextFrame(open: Opener, iv: seq<byte>, n: u64, s: seq<byte>): (r: Step)
    requires |iv| == 4
    ensures r.Frame? ==> 2 * TAG_LEN + 2 < r.size <= |s| && |r.content| == r.size - 2 * TAG_LEN - 2
  {
    var lenOffset := 2 + TAG_LEN;
    if |s| < lenOffset then Stop(Closed)
    else
      var head := open(NonceOf(iv, n), s[..lenOffset]);
      if head.None? then Stop(DecryptionFailed)
      else
        var total := lenOffset + ReadU16Be(head.value) + 1 + TAG_LEN;
        if |s| < total then Stop(Closed)
        else
          var content := open(NonceOf(iv, Next(n)), s[lenOffset..total]);
          if content.None? then Stop(DecryptionFailed) else Frame(content.value, total)
  }

  /** The messages decoded from `s` with the counter at n, and why decoding
      stopped. */
  function DecodeFrames(open: Opener, iv: seq<byte>, n: u64, s: seq<byte>): (r: (seq<seq<byte>>, End))
    requires |iv| == 4
    decreases |s|
  {
    match NextFrame(open, iv, n, s)
    case Stop(e) => ([], e)
    case Frame(c, size) =>
      var rest := DecodeFrames(open, iv, Next(Next(n)), s[size..]);
      ([c] + rest.0, rest.1)
  }

  /** The whole decoder on a stream: the iv, then the frames. */
  function DecodeStream(open: Opener, s: seq<byte>): (seq<seq<byte>>, End)
  {
    if |s| < 4 then ([], Closed) else DecodeFrames(open, s[..4], 0, s[4..])
  }

  /** The decoder's buffer over its mailbox: `incoming` are the messages the
      mailbox will deliver, `next` how many were received. */
  class Inbox {
    const incoming: seq<seq<byte>>
    var next: nat
    var buf: seq<byte>

    ghost predicate Valid()
      reads this
    {
      next <= |incoming|
    }

    /** Every byte still to be decoded, in order. */
    ghost function Unread(): seq<byte>
      reads this
      requires Valid()
    {
      buf + Flatten(incoming[next..])
    }

    constructor (incoming: seq<seq<byte>>)
      ensures Valid() && this.incoming == incoming && next == 0 && buf == []
      ensures Unread() == Flatten(incoming)
    {
      this.incoming := incoming;
      next := 0;
      buf := [];
    }

    /** accumulate_buf_until_length!: receive until the buffer holds `len`
        bytes; false when the mailbox closes first. */
    method Fill(len: nat) returns (ok: bool)
      requires Valid()
      modifies this
      ensures Valid() && Unread() == old(Unread())
      ensures ok <==> len <= |Unread()|
      ensures ok ==> |buf| >= len
    {
      while |buf| < len
        invariant Valid() && Unread() == old(Unread())
        decreases |incoming| - next
      {
        if next == |incoming| {
          assert Unread() == buf;
          return false;
        }
        FlattenFrom(incoming, next);
        buf := buf + incoming[next];
        next := next + 1;
      }
      return true;
    }

    /** buf.drain(..len). */
    method Drain(len: nat)
      requires Valid() && len <= |buf|
      modifies this
      ensures Valid() && Unread() == old(Unread())[len..]
    {
      buf := buf[len..];
    }
  }

  /** One round of the decode loop. */
  method DecodeOne(open: Opener, inbox: Inbox, counter: Counter) returns (r: Step)
    requires inbox.Valid() && |counter.iv| == 4
    modifies inbox, counter
    ensures inbox.Valid()
    ensures r == NextFrame(open, counter.iv, old(counter.count), old(inbox.Unread()))
    ensures r.Frame? ==> counter.count == Next(Next(old(counter.count))) &&
                         inbox.Unread() == old(inbox.Unread())[r.size..]
  {
    ghost var s := inbox.Unread();
    var lenOffset := 2 + TAG_LEN;
    var ok := inbox.Fill(lenOffset);
    if !ok {
      return Stop(Closed);
    }
    assert inbox.buf[..lenOffset] == s[..lenOffset];
    var nonce := counter.Advance();
    var head := open(nonce, inbox.buf[..lenOffset]);
    if head.None? {
      return Stop(DecryptionFailed);
    }
    var total := lenOffset + ReadU16Be(head.value) + 1 + TAG_LEN;
    ok := inbox.Fill(total);
    if !ok {
      return Stop(Closed);
    }
    assert inbox.buf[lenOffset..total] == s[lenOffset..total];
    nonce := counter.Advance();
    var content := open(nonce, inbox.buf[lenOffset..total]);
    if content.None? {
      return Stop(DecryptionFailed);
    }
    inbox.Drain(total);
    return Frame(content.value, total);
  }

  /** Actor::decode on the mailbox's messages: everything it sends, and why
      it stopped. The result depends only on the bytes, not on how the
      mailbox split them into messages. Every send is taken to succeed. */
  method Decode(open: Opener, incoming: seq<seq<byte>>) returns (sent: seq<seq<byte>>, end: End)
    ensures (sent, end) == DecodeStream(open, Flatten(incoming))
  {
    var inbox := new Inbox(incoming);
    var ok := inbox.Fill(4);
    if !ok {
      return [], Closed;
    }
    ghost var stream := Flatten(incoming);
    var iv := inbox.buf[..4];
    assert iv == stream[..4];
    inbox.Drain(4);
    assert inbox.Unread() == stream[4..];
    var counter := new Counter(iv);
    sent, end := DecodeLoop(open, inbox, counter);
  }

  /** The loop of Actor::decode, once the iv is read. */
  method DecodeLoop(open: Opener, inbox: Inbox, counter: Counter) returns (sent: seq<seq<byte>>, end: End)
    requires inbox.Valid() && |counter.iv| == 4
    modifies inbox, counter
    ensures (sent, end) == DecodeFrames(open, counter.iv, old(counter.count), old(inbox.Unread()))
  {
    sent := [];
    ghost var spec := DecodeFrames(open, counter.iv, counter.count, inbox.Unread());
    assert [] + spec.0 == spec.0;
    while true
      invariant inbox.Valid()
      invariant spec == Prepend(sent, DecodeFrames(open, counter.iv, counter.count, inbox.Unread()))
      decreases |inbox.Unread()|
    {
      ghost var before := inbox.Unread();
      ghost var n := counter.count;
      var step := DecodeOne(open, inbox, counter);
      if step.Stop? {
        assert DecodeFrames(open, counter.iv, n, before) == ([], step.end);
        assert sent + [] == sent;
        return sent, step.end;
      }
      ghost var after := DecodeFrames(open, counter.iv, counter.count, inbox.Unread());
      assert DecodeFrames(open, counter.iv, n, before) == Prepend([step.content], after);
      PrependTwice(sent, [step.content], after);
      sent := sent + [step.content];
    }
  }

  /** A step of DecodeLoop's invariant: prepending in two steps is
      prepending the concatenation. */
  lemma PrependTwice(a: seq<seq<byte>>, b: seq<seq<byte>>, r: (seq<seq<byte>>, End))
    ensures Prepend(a, Prepend(b, r)) == Prepend(a + b, r)
  {
    assert a + (b + r.0) == (a + b) + r.0;
  }

  /** The messages `sent` followed by those of a decoding result. */
  function Prepend(sent: seq<seq<byte>>, r: (seq<seq<byte>>, End)): (p: (seq<seq<byte>>, End))
    ensures p.1 == r.1 && |p.0| == |sent| + |r.0|
  {
    (sent + r.0, r.1)
  }

  // ---------------------------------------------------------------------
  // The round trip
  // ---------------------------------------------------------------------

  /** The first 2 + tag bytes of a frame open to the length minus one. */
  lemma FrameHead(seal: Sealer, open: Opener, iv: seq<byte>, n: u64, msg: seq<byte>, rest: seq<byte>)
    requires Opens(seal, open) && |iv| == 4 && msg != [] && !TooLong(msg)
    ensures open(NonceOf(iv, n), (FrameOf(seal, iv, n, msg) + rest)[..2 + TAG_LEN]) == Some(U16Be(|msg| - 1))
  {
    var h := seal(NonceOf(iv, n), U16Be(|msg| - 1));
    var c := seal(NonceOf(iv, Next(n)), msg);
    assert (FrameOf(seal, iv, n, msg) + rest)[..2 + TAG_LEN] == (h + (c + rest))[..|h|] == h;
  }

  /** The bytes after them, as many as the length says, open to the
      message. */
  lemma FrameBody(seal: Sealer, open: Opener, iv: seq<byte>, n: u64, msg: seq<byte>, rest: seq<byte>)
    requires Opens(seal, open) && |iv| == 4 && msg != [] && !TooLong(msg)
    ensures open(NonceOf(iv, Next(n)), (FrameOf(seal, iv, n, msg) + rest)[2 + TAG_LEN..2 + TAG_LEN + |msg| + TAG_LEN]) == Some(msg)
  {
    var h := seal(NonceOf(iv, n), U16Be(|msg| - 1));
    var c := seal(NonceOf(iv, Next(n)), msg);
    assert (FrameOf(seal, iv, n, msg) + rest)[2 + TAG_LEN..2 + TAG_LEN + |msg| + TAG_LEN] == (h + c + rest)[|h|..|h| + |c|] == c;
  }

  /** A frame followed by anything is read back as its message. */
  lemma NextFrameOf(seal: Sealer, open: Opener, iv: seq<byte>, n: u64, msg: seq<byte>, rest: seq<byte>)
    requires Opens(seal, open) && |iv| == 4 && msg != [] && !TooLong(msg)
    ensures NextFrame(open, iv, n, FrameOf(seal, iv, n, msg) + rest) == Frame(msg, |FrameOf(seal, iv, n, msg)|)
  {
    FrameHead(seal, open, iv, n, msg, rest);
    FrameBody(seal, open, iv, n, msg, rest);
    U16RoundTrip(|msg| - 1);
  }

  /** Decoding the frames from counter n gives back the delivered
      messages, and then the stream ends. */
  lemma {:induction false} FramesRoundTrip(seal: Sealer, open: Opener, iv: seq<byte>, n: u64, msgs: seq<seq<byte>>)
    requires Opens(seal, open) && |iv| == 4
    ensures DecodeFrames(open, iv, n, Flatten(Frames(seal, iv, n, msgs))) == (Delivered(msgs), Closed)
    decreases |msgs|
  {
    if msgs == [] {
    } else if msgs[0] == [] {
      FramesRoundTrip(seal, open, iv, n, msgs[1..]);
    } else if TooLong(msgs[0]) {
    } else {
      var f := FrameOf(seal, iv, n, msgs[0]);
      var tail := Frames(seal, iv, Next(Next(n)), msgs[1..]);
      assert ([f] + tail)[1..] == tail;
      var s := Flatten([f] + tail);
      assert s == f + Flatten(tail);
      NextFrameOf(seal, open, iv, n, msgs[0], Flatten(tail));
      assert s[|f|..] == Flatten(tail);
      FramesRoundTrip(seal, open, iv, Next(Next(n)), msgs[1..]);
    }
  }

  /** Decoding what the encoder sent gives back every non-empty message, in
      order, up to the first message that is too long. */
  lemma RoundTrip(seal: Sealer, open: Opener, iv: seq<byte>, msgs: seq<seq<byte>>)
    requires Opens(seal, open) && |iv| == 4
    ensures DecodeStream(open, Flatten([iv] + Frames(seal, iv, 0, msgs))) == (Delivered(msgs), Closed)
  {
    var frames := Frames(seal, iv, 0, msgs);
    assert ([iv] + frames)[1..] == frames;
    var s := Flatten([iv] + frames);
    assert s == iv + Flatten(frames);
    assert s[..4] == iv && s[4..] == Flatten(frames);
    FramesRoundTrip(seal, open, iv, 0, msgs);
  }

  /** Without over-long messages, every non-empty message gets through. */
  lemma {:induction false} DeliveredAll(msgs: seq<seq<byte>>)
    requires forall i :: 0 <= i < |msgs| ==> !TooLong(msgs[i])
    ensures forall m :: m in msgs && m != [] ==> m in Delivered(msgs)
  {
    if msgs != [] {
      DeliveredAll(msgs[1..]);
      forall m | m in msgs && m != []
        ensures m in Delivered(msgs)
      {
        if m != msgs[0] {
          assert m in msgs[1..];
        }
      }
    }
  }

  // ---------------------------------------------------------------------
  // spawn
  // ---------------------------------------------------------------------

  /** Forward tasks read the actor's mailbox and write to the next actor;
      backward tasks read the next actor's replies and write to the actor's
      address. */
  datatype Direction = Forward | Backward

  /** A task that encodes (Encoder) or decodes (Decoder) one direction. */
  datatype Task = Task(coding: Role, direction: Direction)

  /** The tasks spawn starts, in order, and the panic that cuts it short. */
  datatype Spawned = Spawned(tasks: seq<Task>, panic: Option<string>)

  function Opposite(role: Role): (r: Role)
    ensures r != role
  {
    if role == Encoder then Decoder else Encoder
  }

  /** spawn: the role codes the forward direction (which needs the
      mailbox) and the opposite coding runs backward (which needs the
      address). */
  function Spawn(role: Role, hasAddress: bool, hasMailbox: bool): (r: Spawned)
    ensures r.panic.None? <==> hasAddress && hasMailbox
    ensures r.panic.None? ==>
      |r.tasks| == 2 && r.tasks[0].direction == Forward && r.tasks[1].direction == Backward &&
      r.tasks[0].coding == role && r.tasks[1].coding != role
    ensures !hasMailbox ==> r == Spawned([], Some("no mailbox"))
  {
    if !hasMailbox then Spawned([], Some("no mailbox"))
    else
      var first := Task(role, Forward);
      if !hasAddress then Spawned([first], Some("no address"))
      else Spawned([first, Task(Opposite(role), Backward)], None)
  }

  /** spawn_composite: one task coding the actor's own direction; the
      address is taken before the mailbox. */
  function SpawnComposite(role: Role, hasAddress: bool, hasMailbox: bool): (r: Spawned)
    ensures r.panic.None? <==> hasAddress && hasMailbox
    ensures r.panic.None? ==> r.tasks == [Task(role, Forward)]
    ensures !hasAddress ==> r.panic == Some("no address")
  {
    if !hasAddress then Spawned([], Some("no address"))
    else if !hasMailbox then Spawned([], Some("no mailbox"))
    else Spawned([Task(role, Forward)], None)
  }
}

=== FILE: argument.dfy ===
/** The value of a user argument (api/src/argument.rs): a string, an
    unsigned 64-bit integer, a list of values, or nothing (a key given
    without a value). */
module Arguments {
  import opened Bytes
  import W = Wrappers

  datatype Argument = String(str: string) | Int(num: u64) | Vec(vec: seq<Argument>) | None

  function TypeName(a: Argument): (name: string)
    ensures name == "string" <==> a.String?
    ensures name == "int" <==> a.Int?
    ensures name == "vec" <==> a.Vec?
    ensures name == "none" <==> a.None?
  {
    match a
    case String(_) => "string"
    case Int(_) => "int"
    case Vec(_) => "vec"
    case None => "none"
  }

  /** as_string: the text of a String, nothing for the other variants. */
  function AsString(a: Argument): (r: W.Option<string>)
    ensures r.Some? <==> a.String?
    ensures r.Some? ==> r.value == a.str
  {
    if a.String? then W.Some(a.str) else W.None
  }

  function AsInt(a: Argument): (r: W.Option<u64>)
    ensures r.Some? <==> a.Int?
    ensures r.Some? ==> r.value == a.num
  {
    if a.Int? then W.Some(a.num) else W.None
  }

  function AsVec(a: Argument): (r: W.Option<seq<Argument>>)
    ensures r.Some? <==> a.Vec?
    ensures r.Some? ==> r.value == a.vec
  {
    if a.Vec? then W.Some(a.vec) else W.None
  }

  /** is_none: the argument carries no value, so none of the accessors
      yields one. */
  function IsNone(a: Argument): (b: bool)
    ensures b <==> AsString(a).None? && AsInt(a).None? && AsVec(a).None?
  {
    a.None?
  }

  /** The value `#[serde(default)]` fills in. */
  function Default(): (a: Argument)
    ensures IsNone(a) && TypeName(a) == "none"
  {
    None
  }

  function FromString(x: string): (a: Argument)
    ensures AsString(a) == W.Some(x) && TypeName(a) == "string"
  {
    String(x)
  }

  function FromU64(x: u64): (a: Argument)
    ensures AsInt(a) == W.Some(x) && TypeName(a) == "int"
  {
    Int(x)
  }

  /** FromIterator over strings: a Vec of the converted items, in order. */
  function FromStrings(xs: seq<string>): (a: Argument)
    ensures AsVec(a).Some? && |a.vec| == |xs|
    ensures forall i :: 0 <= i < |xs| ==> AsString(a.vec[i]) == W.Some(xs[i])
  {
    Vec(seq(|xs|, i requires 0 <= i < |xs| => FromString(xs[i])))
  }

  /** FromIterator over integers. */
  function FromU64s(xs: seq<u64>): (a: Argument)
    ensures AsVec(a).Some? && |a.vec| == |xs|
    ensures forall i :: 0 <= i < |xs| ==> AsInt(a.vec[i]) == W.Some(xs[i])
  {
    Vec(seq(|xs|, i requires 0 <= i < |xs| => FromU64(xs[i])))
  }
}

=== FILE: balance.dfy ===
/** The load balancer (components/balance/src/lib.rs): each spawn hands the
    stream to the next output in round-robin order. */
module Balance {
  import opened Wrappers
  import opened Bytes

  /** The parsed configuration; `balancing` is the `method` argument. */
  datatype Config = Config(balancing: Option<string>, outputs: seq<string>, functionName: string)

  const REMAINDER_PANIC := "attempt to calculate the remainder with a divisor of zero"

  class Actor {
    /** Spawns so far, an atomic u64 that wraps at 2^64. */
    var count: u64
    const nOutputs: nat

    constructor (nOutputs: nat)
      ensures this.nOutputs == nOutputs && count == 0
    {
      this.nOutputs := nOutputs;
      count := 0;
    }

    /** spawn: take the count and bump it, then pick output count mod n;
        with no outputs the remainder panics after the count has moved. */
    method Spawn() returns (r: Outcome<nat>)
      modifies this
      ensures count == Next(old(count))
      ensures r.Returns? <==> nOutputs > 0
      ensures r.Panics? ==> r.reason == REMAINDER_PANIC
      ensures r.Returns? ==> r.value < nOutputs && r.value == Pick(nOutputs, old(count), 0)
    {
      var next := count;
      count := (count + 1) % U64_LIMIT;
      if nOutputs == 0 {
        return Panics(REMAINDER_PANIC);
      }
      return Returns(next % nOutputs);
    }
  }

  /** create: no method or "round_robin" balances over every output; any
      other method is not written yet. */
  method Create(config: Config) returns (r: Outcome<Actor>)
    ensures r.Returns? <==> config.balancing.None? || config.balancing == Some("round_robin")
    ensures r.Panics? ==> r.reason == TODO
    ensures r.Returns? ==> fresh(r.value) && r.value.count == 0 && r.value.nOutputs == |config.outputs|
  {
    if config.balancing.None? || config.balancing == Some("round_robin") {
      var actor := new Actor(|config.outputs|);
      return Returns(actor);
    }
    return Panics(TODO);
  }

  /** k spawns in a row on a fresh actor: the outputs they pick are
      Picks(n, k), which before the count wraps is 0, 1, ..., n - 1, 0, ... */
  method SpawnRounds(actor: Actor, k: nat) returns (picks: seq<nat>)
    requires actor.count == 0 && actor.nOutputs > 0
    modifies actor
    ensures picks == Picks(actor.nOutputs, k)
    ensures k <= U64_LIMIT ==> forall i :: 0 <= i < k ==> picks[i] == i % actor.nOutputs
    ensures actor.count == k % U64_LIMIT
  {
    picks := [];
    for i := 0 to k
      invariant actor.count == i % U64_LIMIT
      invariant picks == Picks(actor.nOutputs, i)
    {
      var r := actor.Spawn();
      assert (i % U64_LIMIT + 1) % U64_LIMIT == (i + 1) % U64_LIMIT;
      picks := picks + [r.value];
    }
    if k <= U64_LIMIT {
      PicksRoundRobin(actor.nOutputs, k);
    }
  }

  /** Spawn number k of a fresh actor sees count k (below 2^64), and the
      outputs it picks cycle 0, 1, ..., n - 1, 0, ... */
  function Picks(n: nat, k: nat): (r: seq<nat>)
    requires n > 0
    ensures |r| == k
  {
    if k == 0 then [] else Picks(n, k - 1) + [(k - 1) % U64_LIMIT % n]
  }

  lemma {:induction false} PicksRoundRobin(n: nat, k: nat)
    requires n > 0 && k <= U64_LIMIT
    ensures forall i :: 0 <= i < k ==> Picks(n, k)[i] == i % n < n
  {
    if k > 0 {
      PicksRoundRobin(n, k - 1);
      assert (k - 1) % U64_LIMIT == k - 1;
    }
  }

  /** The output picked by the spawn that comes j spawns after the one
      seeing count `start`, as long as the count has not wrapped. */
  function Pick(n: nat, start: nat, j: nat): (t: nat)
    requires n > 0
  {
    (start + j) % n
  }

  lemma PickValue(n: nat, start: nat, j: nat)
    requires n > 0 && j < n
    ensures Pick(n, start, j) == if start % n + j < n then start % n + j else start % n + j - n
  {
    var r := start % n;
    ModShift(start, j, n);
    if r + j < n {
      ModUnique(r + j, n, 0, r + j);
    } else {
      ModUnique(r + j, n, 1, r + j - n);
    }
  }

  /** How many spawns after the one seeing count `start` output t is
      picked. */
  function Wait(n: nat, start: nat, t: nat): nat
    requires n > 0 && t < n
  {
    if t >= start % n then t - start % n else t + n - start % n
  }

  /** Any n spawns in a row, before the count wraps, pick every output
      exactly once: output t within Wait(n, start, t) < n spawns, and no
      output twice. */
  lemma RoundRobinWindow(n: nat, start: nat)
    requires n > 0
    ensures forall t :: 0 <= t < n ==> Wait(n, start, t) < n && Pick(n, start, Wait(n, start, t)) == t
    ensures forall j1, j2 :: 0 <= j1 < j2 < n ==> Pick(n, start, j1) != Pick(n, start, j2)
  {
    forall t | 0 <= t < n
      ensures Wait(n, start, t) < n && Pick(n, start, Wait(n, start, t)) == t
    {
      PickValue(n, start, Wait(n, start, t));
    }
    forall j1, j2 | 0 <= j1 < j2 < n
      ensures Pick(n, start, j1) != Pick(n, start, j2)
    {
      PickValue(n, start, j1);
      PickValue(n, start, j2);
    }
  }
}

=== FILE: blocks.dfy ===
/** The dynamic input-slot manager of a pipeline-stage block in the visual
    builder (builder/src/blocks.js): the ordered list of value inputs, the
    counter that mints their names, the snapshot written into the block's
    `mutation` element, and the reactions to a drag probe and to the end of a
    drag. Blockly's appendValueInput, removeInput and moveNumberedInputBefore
    are sequence append, remove-first-by-name and move. */
module Blocks {
  import opened Wrappers
  import opened Text
  import opened JsNumber

  /** What an input's connection is plugged into: nothing, a real block
      (identified by a number), or an insertion marker (the preview block
      Blockly shows while dragging). */
  datatype Target = Empty | Real(child: nat) | Marker

  /** A value input: its name, the caption field appended to it, and its target. */
  datatype Input = Input(name: string, caption: Option<string>, target: Target)

  /** The inputCounter field: a number, or NaN once a snapshot whose counter
      does not parse has been restored (NaN++ stays NaN). */
  datatype Counter = Count(n: int) | NaN

  /** A connection of this block handed to onPendingConnection. Every input
      owns its own connection object, so an input's connection is named by
      the position of that input when the probe runs (a position past the
      end is the connection of an input no longer in the list). A statement
      connection (previous/next) belongs to no input. */
  datatype Connection = InputConnection(index: nat) | StatementConnection(target: Target)

  /** The mutation element: both attributes as text, each possibly absent. */
  datatype Mutation = Mutation(inputNames: Option<string>, inputCounter: Option<string>)

  function ArgName(k: int): string { "arg_" + IntText(k) }

  function CounterText(c: Counter): string
  {
    match c
    case Count(n) => NumberText(n)
    case NaN => "NaN"
  }

  /** The name `arg_${this.inputCounter}` given to a new input. */
  function MintName(c: Counter): string { "arg_" + CounterText(c) }

  function Next(c: Counter): Counter
  {
    match c
    case Count(n) => Count(n + 1)
    case NaN => NaN
  }

  lemma ArgNameInjective(a: int, b: int)
    requires ArgName(a) == ArgName(b)
    ensures a == b
  {
    assert ArgName(a)[4..] == IntText(a);
    assert ArgName(b)[4..] == IntText(b);
    IntTextInjective(a, b);
  }

  function Names(list: seq<Input>): (ns: seq<string>)
    ensures |ns| == |list| && forall i :: 0 <= i < |list| ==> ns[i] == list[i].name
  {
    seq(|list|, i requires 0 <= i < |list| => list[i].name)
  }

  ghost predicate DistinctNames(list: seq<Input>)
  {
    forall i, j :: 0 <= i < j < |list| ==> list[i].name != list[j].name
  }

  /** No input carries a name the counter will still mint. */
  ghost predicate FreshAbove(list: seq<Input>, c: int)
  {
    forall i, k :: 0 <= i < |list| && c <= k ==> list[i].name != ArgName(k)
  }

  /** The block invariant: the counter is a number, names are pairwise
      distinct, and no name is one the counter will mint later. */
  ghost predicate WellNamed(list: seq<Input>, c: Counter)
  {
    c.Count? && DistinctNames(list) && FreshAbove(list, c.n)
  }

  // ---------------------------------------------------------------------
  // init

  /** n_initial_args: the number of declared default arguments, or 1 when the
      stage declares none. An empty declared list is truthy in JavaScript and
      gives 0. */
  function InitialCount(defaultArgNames: Option<seq<string>>): nat
  {
    if defaultArgNames.Some? then |defaultArgNames.value| else 1
  }

  /** Inputs `names[i]`, the first one labelled with the stage name, all empty. */
  function Labelled(names: seq<string>, caption: string): (list: seq<Input>)
    ensures |list| == |names|
    ensures forall i :: 0 <= i < |names| ==> list[i] == Input(names[i], if i == 0 then Some(caption) else None, Empty)
  {
    seq(|names|, i requires 0 <= i < |names| => Input(names[i], if i == 0 then Some(caption) else None, Empty))
  }

  function ArgNames(n: nat): (ns: seq<string>)
    ensures |ns| == n && forall i :: 0 <= i < n ==> ns[i] == ArgName(i)
  {
    seq(n, i requires 0 <= i < n => ArgName(i))
  }

  lemma InitialWellNamed(caption: string, n: nat)
    ensures WellNamed(Labelled(ArgNames(n), caption), Count(n))
  {
    var list := Labelled(ArgNames(n), caption);
    forall i, j | 0 <= i < j < |list| ensures list[i].name != list[j].name {
      if list[i].name == list[j].name { ArgNameInjective(i, j); }
    }
    forall i, k | 0 <= i < |list| && n <= k ensures list[i].name != ArgName(k) {
      if list[i].name == ArgName(k) { ArgNameInjective(i, k); }
    }
  }

  // ---------------------------------------------------------------------
  // snapshot codec

  /** What mutationToDom writes: the names joined by ',' and String(counter). */
  function Snapshot(list: seq<Input>, c: Counter): Mutation
  {
    Mutation(Some(Join(Names(list), ',')), Some(CounterText(c)))
  }

  /** The inputCounter that domToMutation reads: parseInt of the attribute
      (parseInt(null) is NaN when the attribute is absent). */
  function ParsedCounter(attr: Option<string>): Counter
  {
    if attr.Some? && ParseInt(attr.value).Some? then Count(ParseInt(attr.value).value) else NaN
  }

  /** The state domToMutation leaves: when `inputNames` is present and not
      empty, fresh empty inputs named by its ','-separated parts with the
      stage name on the first; otherwise the inputs are untouched. The counter
      is always overwritten. */
  function Restore(list: seq<Input>, m: Mutation, caption: string): (r: (seq<Input>, Counter))
  {
    var inputs :=
      if m.inputNames.Some? && m.inputNames.value != "" then Labelled(Split(m.inputNames.value, ','), caption)
      else list;
    (inputs, ParsedCounter(m.inputCounter))
  }

  /** Snapshot round trip: restoring what mutationToDom wrote gives back the
      same names in the same order and the same counter; the inputs come back
      empty (the framework re-attaches children by name) with the stage name
      on the first. */
  lemma SnapshotRoundTrip(list: seq<Input>, c: Counter, caption: string)
    requires |list| >= 1 && list[0].name != ""
    requires forall i :: 0 <= i < |list| ==> Free(list[i].name, ',')
    ensures Restore(list, Snapshot(list, c), caption) == (Labelled(Names(list), caption), c)
  {
    var names := Names(list);
    SplitJoin(names, ',');
    assert Join(names, ',') != "" by {
      if |names| > 1 { assert Join(names, ',') == names[0] + [','] + Join(names[1..], ','); }
    }
    match c {
      case Count(n) => ParseIntText(n);
      case NaN => ParseIntNaN("NaN");
    }
  }

  /** A snapshot without names leaves the inputs alone yet still overwrites
      the counter, with no check against the names present. */
  lemma RestoreWithoutNames(list: seq<Input>, counterAttr: Option<string>, caption: string)
    ensures Restore(list, Mutation(None, counterAttr), caption) == (list, ParsedCounter(counterAttr))
    ensures Restore(list, Mutation(Some(""), counterAttr), caption) == (list, ParsedCounter(counterAttr))
  {
  }

  /** The restored counter is trusted: restoring a name list that already
      holds arg_k together with a counter of k makes the next minted name
      collide with an existing input. */
  lemma StaleCounterCollides(list: seq<Input>, names: seq<string>, k: int, caption: string)
    requires |names| >= 1 && names[0] != ""
    requires forall i :: 0 <= i < |names| ==> Free(names[i], ',')
    requires ArgName(k) in names
    ensures var r := Restore(list, Mutation(Some(Join(names, ',')), Some(IntText(k))), caption);
            r.1 == Count(k) && exists i :: 0 <= i < |r.0| && r.0[i].name == MintName(r.1)
  {
    SplitJoin(names, ',');
    assert Join(names, ',') != "" by {
      if |names| > 1 { assert Join(names, ',') == names[0] + [','] + Join(names[1..], ','); }
    }
    ParseIntText(k);
    var i :| 0 <= i < |names| && names[i] == ArgName(k);
    assert Labelled(names, caption)[i].name == ArgName(k);
  }

  // ---------------------------------------------------------------------
  // probing

  /** The index the loop in getIndexForNewInput finds by comparing each
      input's connection with the probed one: the probed input's position,
      or none for a connection owned by no input of the list. */
  function ConnectionIndex(list: seq<Input>, conn: Connection): (k: Option<nat>)
    ensures k.Some? <==> conn.InputConnection? && conn.index < |list|
    ensures k.Some? ==> k.value == conn.index
  {
    if conn.InputConnection? && conn.index < |list| then Some(conn.index) else None
  }

  /** getIndexForNewInput: no index for a connection with no target or one
      that belongs to no input; length + 1 (append) for the last input; i + 1
      when the next input holds a real block; otherwise no index. */
  function IndexForNewInput(list: seq<Input>, conn: Connection): (r: Option<nat>)
  {
    match ConnectionIndex(list, conn)
      case None => None
      case Some(i) =>
        if list[i].target == Empty then None
        else if i == |list| - 1 then Some(|list| + 1)
        else if list[i + 1].target.Real? then Some(i + 1)
        else None
  }

  /** Blockly's moveNumberedInputBefore(from, ref): take the input out, then
      put it back before what was at `ref`. */
  function MoveBefore(list: seq<Input>, from: nat, ref: nat): (r: seq<Input>)
    requires from < |list| && ref <= |list| && from != ref
    ensures |r| == |list|
  {
    var moved := list[from];
    var rest := list[..from] + list[from + 1..];
    var at := if from < ref then ref - 1 else ref;
    rest[..at] + [moved] + rest[at..]
  }

  function InsertAt(list: seq<Input>, p: nat, x: Input): seq<Input>
    requires p <= |list|
  {
    list[..p] + [x] + list[p..]
  }

  /** The state after onPendingConnection(conn). */
  function Probe(list: seq<Input>, c: Counter, conn: Connection): (seq<Input>, Counter)
  {
    match IndexForNewInput(list, conn)
    case None => (list, c)
    case Some(idx) =>
      var grown := list + [Input(MintName(c), None, Empty)];
      (MoveBefore(grown, |list|, idx), Next(c))
  }

  /** The slot an index from getIndexForNewInput ends up at. */
  function Slot(list: seq<Input>, idx: nat): nat
  {
    if idx == |list| + 1 then |list| else idx
  }

  /** A probe that yields an index adds exactly one empty input, named from
      the counter, at that index (at the end for length + 1); every other
      input keeps its relative order; the counter goes up by one. A probe
      without an index changes nothing. */
  lemma ProbeInsertsOne(list: seq<Input>, c: Counter, conn: Connection)
    ensures IndexForNewInput(list, conn).None? ==> Probe(list, c, conn) == (list, c)
    ensures IndexForNewInput(list, conn).Some? ==>
              var idx := IndexForNewInput(list, conn).value;
              Slot(list, idx) <= |list| &&
              Probe(list, c, conn) == (InsertAt(list, Slot(list, idx), Input(MintName(c), None, Empty)), Next(c))
  {
    match IndexForNewInput(list, conn) {
      case None =>
      case Some(idx) =>
        var x := Input(MintName(c), None, Empty);
        var grown := list + [x];
        assert grown[..|list|] + grown[|list| + 1..] == list;
    }
  }

  /** Probing the same connection again right after an insertion inserts
      nothing: the probed input keeps its position, and the input after it
      is now the new, empty one. */
  lemma ReprobeInsertsNothing(list: seq<Input>, c: Counter, conn: Connection)
    requires IndexForNewInput(list, conn).Some?
    ensures IndexForNewInput(Probe(list, c, conn).0, conn).None?
  {
    ProbeInsertsOne(list, c, conn);
    var i := conn.index;
    var idx := IndexForNewInput(list, conn).value;
    var x := Input(MintName(c), None, Empty);
    var after := Probe(list, c, conn).0;
    assert Slot(list, idx) == i + 1;
    assert after == list[..i + 1] + [x] + list[i + 1..];
    assert after[i] == list[i] && after[i + 1] == x;
  }

  /** The probed input is found by its connection, not by its name: with two
      inputs named arg_1 (possible after a stale counter was restored),
      probing the first of them inserts right after it. */
  lemma ProbeDuplicateNames(caption: string)
    ensures var list := [Input("arg_0", Some(caption), Real(1)), Input("arg_1", None, Real(2)), Input("arg_1", None, Real(3))];
            IndexForNewInput(list, InputConnection(1)) == Some(2) &&
            IndexForNewInput(list, InputConnection(2)) == Some(4)
  {
  }

  /** Insertion needs a real block after the probed input: probing input 1
      of three inputs whose later ones are empty gives no index, so nothing
      is inserted. */
  lemma ProbeBeforeEmptyNext(caption: string)
    ensures var list := [Input("arg_0", Some(caption), Real(1)), Input("arg_1", None, Real(2)), Input("arg_2", None, Empty)];
            IndexForNewInput(list, InputConnection(1)).None?
  {
  }

  /** Probing keeps names unique and never reuses one: the new name is the
      counter's, which no input carries, and the counter moves past it. */
  lemma ProbeWellNamed(list: seq<Input>, c: Counter, conn: Connection)
    requires WellNamed(list, c)
    ensures WellNamed(Probe(list, c, conn).0, Probe(list, c, conn).1)
  {
    ProbeInsertsOne(list, c, conn);
    if IndexForNewInput(list, conn).Some? {
      var p := Slot(list, IndexForNewInput(list, conn).value);
      var x := Input(MintName(c), None, Empty);
      assert MintName(c) == ArgName(c.n);
      InsertKeepsDistinct(list, p, x, c.n);
      InsertKeepsFresh(list, p, x, c.n);
    }
  }

  /** Inserting an input named ArgName(n), where n is not below any name
      still to mint, keeps the names distinct. */
  lemma InsertKeepsDistinct(list: seq<Input>, p: nat, x: Input, n: int)
    requires p <= |list| && DistinctNames(list) && FreshAbove(list, n) && x.name == ArgName(n)
    ensures DistinctNames(InsertAt(list, p, x))
  {
    var after := InsertAt(list, p, x);
    forall i, j | 0 <= i < j < |after| ensures after[i].name != after[j].name {
      var a := if i < p then i else if i == p then -1 else i - 1;
      var b := if j < p then j else if j == p then -1 else j - 1;
      if a >= 0 && b >= 0 {
        assert after[i] == list[a] && after[j] == list[b];
      } else if a >= 0 {
        assert after[i] == list[a];
      } else {
        assert after[j] == list[b];
      }
    }
  }

  /** After that insertion no input carries a name from n + 1 on. */
  lemma InsertKeepsFresh(list: seq<Input>, p: nat, x: Input, n: int)
    requires p <= |list| && FreshAbove(list, n) && x.name == ArgName(n)
    ensures FreshAbove(InsertAt(list, p, x), n + 1)
  {
    var after := InsertAt(list, p, x);
    forall i, k | 0 <= i < |after| && n + 1 <= k ensures after[i].name != ArgName(k) {
      if i == p {
        if after[i].name == ArgName(k) { ArgNameInjective(n, k); }
      } else {
        assert after[i] == list[if i < p then i else i - 1];
      }
    }
  }

  // ---------------------------------------------------------------------
  // finalizeConnections

  /** removeInput(name): drop the first input with that name. */
  function RemoveFirst(list: seq<Input>, name: string): seq<Input>
  {
    if list == [] then []
    else if list[0].name == name then list[1..]
    else [list[0]] + RemoveFirst(list[1..], name)
  }

  /** The removals finalizeConnections makes, one name after the other. */
  function RemoveAllByName(list: seq<Input>, names: seq<string>): seq<Input>
  {
    if names == [] then list
    else RemoveFirst(RemoveAllByName(list, names[..|names| - 1]), names[|names| - 1])
  }

  /** Names of the inputs with nothing attached, in order. */
  function EmptyNames(list: seq<Input>): seq<string>
  {
    if list == [] then []
    else (if list[0].target == Empty then [list[0].name] else []) + EmptyNames(list[1..])
  }

  /** The inputs with something attached, in order. */
  function Connected(list: seq<Input>): (r: seq<Input>)
    ensures forall x :: x in r ==> x in list && x.target != Empty
  {
    if list == [] then []
    else (if list[0].target != Empty then [list[0]] else []) + Connected(list[1..])
  }

  /** The inputs whose names are not listed, in order. */
  function WithoutNames(list: seq<Input>, names: seq<string>): (r: seq<Input>)
    ensures forall x :: x in r ==> x in list && x.name !in names
  {
    if list == [] then []
    else (if list[0].name !in names then [list[0]] else []) + WithoutNames(list[1..], names)
  }

  /** What finalizeConnections removes when inputs have distinct names:
      input 0 stays, and after it exactly the connected inputs, in order. */
  function Finalized(list: seq<Input>): (r: seq<Input>)
  {
    if |list| <= 1 then list else [list[0]] + Connected(list[1..])
  }

  /** The names finalizeConnections passes to removeInput. */
  function Doomed(list: seq<Input>): seq<string>
  {
    if |list| > 1 then EmptyNames(list[1..]) else []
  }

  lemma DistinctTail(list: seq<Input>)
    requires DistinctNames(list) && list != []
    ensures DistinctNames(list[1..])
    ensures forall y :: y in list[1..] ==> y.name != list[0].name
  {
    forall y | y in list[1..] ensures y.name != list[0].name {
      var j :| 0 <= j < |list[1..]| && list[1..][j] == y;
      assert list[j + 1] == y;
    }
  }

  lemma DistinctCons(x: Input, rest: seq<Input>)
    requires DistinctNames(rest)
    requires forall y :: y in rest ==> y.name != x.name
    ensures DistinctNames([x] + rest)
  {
    var l := [x] + rest;
    forall i, j | 0 <= i < j < |l| ensures l[i].name != l[j].name {
      assert l[j] == rest[j - 1];
      if i > 0 { assert l[i] == rest[i - 1]; }
    }
  }

  lemma {:induction false} WithoutNamesDistinct(list: seq<Input>, names: seq<string>)
    requires DistinctNames(list)
    ensures DistinctNames(WithoutNames(list, names))
  {
    if list != [] {
      DistinctTail(list);
      WithoutNamesDistinct(list[1..], names);
      if list[0].name !in names {
        DistinctCons(list[0], WithoutNames(list[1..], names));
      }
    }
  }

  lemma {:induction false} ConnectedDistinct(list: seq<Input>)
    requires DistinctNames(list)
    ensures DistinctNames(Connected(list))
  {
    if list != [] {
      DistinctTail(list);
      ConnectedDistinct(list[1..]);
      if list[0].target != Empty {
        DistinctCons(list[0], Connected(list[1..]));
      }
    }
  }

  lemma {:induction false} RemoveFirstDistinct(list: seq<Input>, name: string)
    requires DistinctNames(list)
    ensures RemoveFirst(list, name) == WithoutNames(list, [name])
  {
    if list != [] {
      DistinctTail(list);
      if list[0].name == name {
        WithoutAbsent(list[1..], [name]);
      } else {
        RemoveFirstDistinct(list[1..], name);
      }
    }
  }

  /** Names no input carries filter out nothing. */
  lemma {:induction false} WithoutAbsent(list: seq<Input>, names: seq<string>)
    requires forall y :: y in list ==> y.name !in names
    ensures WithoutNames(list, names) == list
  {
    if list != [] {
      assert list[0] in list;
      forall y | y in list[1..] ensures y.name !in names { assert y in list; }
      WithoutAbsent(list[1..], names);
    }
  }

  lemma {:induction false} WithoutNamesTwice(list: seq<Input>, names: seq<string>, name: string)
    ensures WithoutNames(WithoutNames(list, names), [name]) == WithoutNames(list, names + [name])
  {
    if list != [] {
      WithoutNamesTwice(list[1..], names, name);
      var head := if list[0].name !in names then [list[0]] else [];
      assert WithoutNames(list, names) == head + WithoutNames(list[1..], names);
      WithoutNamesAppend(head, WithoutNames(list[1..], names), [name]);
    }
  }

  lemma {:induction false} WithoutNamesAppend(a: seq<Input>, b: seq<Input>, names: seq<string>)
    ensures WithoutNames(a + b, names) == WithoutNames(a, names) + WithoutNames(b, names)
  {
    if a == [] {
      assert a + b == b;
    } else {
      assert (a + b)[1..] == a[1..] + b;
      WithoutNamesAppend(a[1..], b, names);
    }
  }

  /** With distinct names, removing names one by one is filtering them out. */
  lemma {:induction false} RemoveAllDistinct(list: seq<Input>, names: seq<string>)
    requires DistinctNames(list)
    ensures RemoveAllByName(list, names) == WithoutNames(list, names)
  {
    if names == [] {
      WithoutAbsent(list, names);
    } else {
      var init := names[..|names| - 1];
      var last := names[|names| - 1];
      RemoveAllDistinct(list, init);
      WithoutNamesDistinct(list, init);
      RemoveFirstDistinct(WithoutNames(list, init), last);
      WithoutNamesTwice(list, init, last);
      assert init + [last] == names;
    }
  }

  /** Filtering out the names of the empty inputs keeps the connected ones. */
  lemma {:induction false} WithoutEmptyNames(list: seq<Input>)
    requires DistinctNames(list)
    ensures WithoutNames(list, EmptyNames(list)) == Connected(list)
  {
    if list != [] {
      DistinctTail(list);
      var x := list[0];
      var rest := list[1..];
      var own := if x.target == Empty then [x.name] else [];
      assert EmptyNames(list) == own + EmptyNames(rest);
      EmptyNamesFrom(rest);
      assert x.name !in EmptyNames(rest);
      WithoutEmptyNames(rest);
      WithoutNamesDrop(rest, own, EmptyNames(rest));
    }
  }

  lemma {:induction false} EmptyNamesFrom(list: seq<Input>)
    ensures forall n :: n in EmptyNames(list) ==> exists y :: y in list && y.name == n && y.target == Empty
  {
    if list != [] {
      EmptyNamesFrom(list[1..]);
      forall n | n in EmptyNames(list)
        ensures exists y :: y in list && y.name == n && y.target == Empty
      {
        if list[0].target == Empty && n == list[0].name {
          assert list[0] in list;
        } else {
          assert n in EmptyNames(list[1..]);
          var y :| y in list[1..] && y.name == n && y.target == Empty;
          assert y in list;
        }
      }
    }
  }

  /** Names that no input carries may be added to the filter freely. */
  lemma {:induction false} WithoutNamesDrop(list: seq<Input>, extra: seq<string>, names: seq<string>)
    requires forall y :: y in list ==> y.name !in extra
    ensures WithoutNames(list, extra + names) == WithoutNames(list, names)
  {
    if list != [] {
      assert list[0] in list;
      forall y | y in list[1..] ensures y.name !in extra { assert y in list; }
      WithoutNamesDrop(list[1..], extra, names);
    }
  }

  /** finalizeConnections, as written (removal by name of the unconnected
      inputs after the first), keeps input 0 and exactly the connected inputs
      in order, whenever names are distinct. */
  lemma FinalizeAsWritten(list: seq<Input>)
    requires DistinctNames(list)
    ensures RemoveAllByName(list, Doomed(list)) == Finalized(list)
  {
    if |list| > 1 {
      var rest := list[1..];
      DistinctTail(list);
      RemoveAllDistinct(list, EmptyNames(rest));
      assert list == [list[0]] + rest;
      WithoutNamesAppend([list[0]], rest, EmptyNames(rest));
      EmptyNamesFrom(rest);
      assert list[0].name !in EmptyNames(rest);
      WithoutEmptyNames(rest);
    } else {
      assert Doomed(list) == [];
    }
  }

  /** A second finalizeConnections removes nothing. */
  lemma FinalizeIdempotent(list: seq<Input>)
    ensures Finalized(Finalized(list)) == Finalized(list)
  {
    if |list| > 1 {
      var r := Finalized(list);
      assert r[1..] == Connected(list[1..]);
      ConnectedFixed(Connected(list[1..]));
    }
  }

  lemma {:induction false} ConnectedFixed(list: seq<Input>)
    requires forall x :: x in list ==> x.target != Empty
    ensures Connected(list) == list
  {
    if list != [] {
      assert list[0] in list;
      forall x | x in list[1..] ensures x.target != Empty { assert x in list; }
      ConnectedFixed(list[1..]);
    }
  }

  /** Only input 0 is protected: a stage declared with two default inputs
      and nothing attached keeps one input after finalizeConnections. */
  lemma FinalizeDropsEmptyDefaults(caption: string)
    ensures Finalized([Input("arg_0", Some(caption), Empty), Input("arg_1", None, Empty)]) == [Input("arg_0", Some(caption), Empty)]
  {
    var list := [Input("arg_0", Some(caption), Empty), Input("arg_1", None, Empty)];
    assert Connected(list[1..]) == [] by {
      assert list[1..][1..] == [];
    }
  }

  /** finalizeConnections keeps names unique and unminted. */
  lemma FinalizeWellNamed(list: seq<Input>, c: Counter)
    requires WellNamed(list, c)
    ensures WellNamed(Finalized(list), c)
  {
    if |list| > 1 {
      DistinctTail(list);
      ConnectedDistinct(list[1..]);
      forall y | y in Connected(list[1..]) ensures y.name != list[0].name {
        assert y in list[1..];
      }
      DistinctCons(list[0], Connected(list[1..]));
      var r := Finalized(list);
      forall i, k | 0 <= i < |r| && c.n <= k ensures r[i].name != ArgName(k) {
        assert r[i] in list by {
          if i > 0 { assert r[i] in Connected(list[1..]); assert list[1..] <= list[1..]; }
        }
        var j :| 0 <= j < |list| && list[j] == r[i];
      }
    }
  }

  // ---------------------------------------------------------------------
  // the block

  class StageBlock {
    const name: string
    const defaultArgNames: Option<seq<string>>
    var inputList: seq<Input>
    var inputCounter: Counter

    ghost predicate Valid()
      reads this
    {
      WellNamed(inputList, inputCounter)
    }

    /** init(): n inputs arg_0 .. arg_{n-1}, only the first labelled with
        the stage name, and inputCounter = n. */
    constructor Init(name: string, defaultArgNames: Option<seq<string>>)
      ensures this.name == name && this.defaultArgNames == defaultArgNames
      ensures inputList == Labelled(ArgNames(InitialCount(defaultArgNames)), name)
      ensures inputCounter == Count(InitialCount(defaultArgNames))
      ensures Valid()
    {
      this.name := name;
      this.defaultArgNames := defaultArgNames;
      var n := InitialCount(defaultArgNames);
      var list: seq<Input> := [];
      for i := 0 to n
        invariant list == Labelled(ArgNames(i), name)
      {
        var input := Input(ArgName(i), if i == 0 then Some(name) else None, Empty);
        list := list + [input];
      }
      inputList := list;
      inputCounter := Count(n);
      new;
      InitialWellNamed(name, n);
    }

    /** mutationToDom(): the names in list order joined by ',' and the counter. */
    method MutationToDom() returns (m: Mutation)
      ensures m.inputNames.Some? && m.inputCounter.Some?
      ensures |inputList| >= 1 && inputList[0].name != "" && (forall i :: 0 <= i < |inputList| ==> Free(inputList[i].name, ','))
              ==> Restore(inputList, m, name) == (Labelled(Names(inputList), name), inputCounter)
    {
      var names: seq<string> := [];
      for i := 0 to |inputList|
        invariant names == Names(inputList[..i])
      {
        names := names + [inputList[i].name];
      }
      assert inputList[..|inputList|] == inputList;
      m := Mutation(Some(Join(names, ',')), Some(CounterText(inputCounter)));
      if |inputList| >= 1 && inputList[0].name != "" && (forall i :: 0 <= i < |inputList| ==> Free(inputList[i].name, ',')) {
        SnapshotRoundTrip(inputList, inputCounter, name);
      }
    }

    /** domToMutation(m). */
    method DomToMutation(m: Mutation)
      modifies this
      ensures (inputList, inputCounter) == Restore(old(inputList), m, name)
    {
      var items := m.inputNames;
      if items.Some? && items.value != "" {
        var inputNames := Split(items.value, ',');
        inputList := [];
        for k := 0 to |inputNames|
          invariant inputList == seq(k, i requires 0 <= i < k => Input(inputNames[i], None, Empty))
        {
          AppendValueInput(inputNames[k]);
        }
        inputList := inputList[0 := inputList[0].(caption := Some(name))];
        assert inputList == Labelled(inputNames, name);
      }
      inputCounter := ParsedCounter(m.inputCounter);
    }

    /** Blockly's appendValueInput(name): a new empty input at the end. */
    method AppendValueInput(inputName: string)
      modifies this
      ensures inputList == old(inputList) + [Input(inputName, None, Empty)]
      ensures inputCounter == old(inputCounter)
    {
      inputList := inputList + [Input(inputName, None, Empty)];
    }

    /** getIndexForNewInput(conn). */
    method GetIndexForNewInput(conn: Connection) returns (r: Option<nat>)
      ensures r == IndexForNewInput(inputList, conn)
    {
      if conn.StatementConnection? {
        return None;
      }
      var connectionIndex: Option<nat> := None;
      for i := 0 to |inputList|
        invariant connectionIndex == ConnectionIndex(inputList[..i], conn)
      {
        if i == conn.index {
          connectionIndex := Some(i);
        }
      }
      assert inputList[..|inputList|] == inputList;
      if connectionIndex.None? || inputList[connectionIndex.value].target == Empty {
        return None;
      }
      var i := connectionIndex.value;
      if i == |inputList| - 1 {
        return Some(|inputList| + 1);
      }
      if inputList[i + 1].target.Real? {
        return Some(i + 1);
      }
      return None;
    }

    /** onPendingConnection(conn): at most one new input, placed at the
        index getIndexForNewInput gives; names stay unique. */
    method OnPendingConnection(conn: Connection)
      modifies this
      ensures (inputList, inputCounter) == Probe(old(inputList), old(inputCounter), conn)
      ensures old(Valid()) ==> Valid()
    {
      ghost var before := inputList;
      ghost var c := inputCounter;
      var insertIndex := GetIndexForNewInput(conn);
      if insertIndex.None? {
        return;
      }
      var newName := MintName(inputCounter);
      inputCounter := Next(inputCounter);
      AppendValueInput(newName);
      inputList := MoveBefore(inputList, |inputList| - 1, insertIndex.value);
      if WellNamed(before, c) {
        ProbeWellNamed(before, c, conn);
      }
    }

    /** Blockly's removeInput(name): drops the first input with that name. */
    method RemoveInput(inputName: string)
      modifies this
      ensures inputList == RemoveFirst(old(inputList), inputName)
      ensures inputCounter == old(inputCounter)
    {
      inputList := RemoveFirst(inputList, inputName);
    }

    /** finalizeConnections(): removes, by name, every unconnected input after
        the first. With distinct names that leaves input 0 and the connected
        inputs in order, and a second call changes nothing. */
    method FinalizeConnections()
      modifies this
      ensures inputList == RemoveAllByName(old(inputList), Doomed(old(inputList)))
      ensures DistinctNames(old(inputList)) ==> inputList == Finalized(old(inputList))
      ensures inputCounter == old(inputCounter)
      ensures old(Valid()) ==> Valid()
    {
      ghost var before := inputList;
      if |inputList| > 1 {
        var doomed := EmptyNames(inputList[1..]);
        for k := 0 to |doomed|
          invariant inputList == RemoveAllByName(before, doomed[..k])
          invariant inputCounter == old(inputCounter)
        {
          assert doomed[..k + 1][..k] == doomed[..k];
          RemoveInput(doomed[k]);
        }
        assert doomed[..|doomed|] == doomed;
      }
      if DistinctNames(before) {
        FinalizeAsWritten(before);
      }
      if WellNamed(before, inputCounter) {
        FinalizeWellNamed(before, inputCounter);
      }
    }
  }
}

=== FILE: bytes.dfy ===
/** Bytes and fixed-width big-endian integers (Rust's to_be_bytes and
    from_be_bytes, and the hand-written `(a << 8) | b` of the protocols). */
module Bytes {

  /** A Rust u8. */
  type byte = n: int | 0 <= n < 256

  const U16_LIMIT: nat := 0x1_0000
  const U32_LIMIT: nat := 0x1_0000_0000
  const U64_LIMIT: nat := 0x1_0000_0000_0000_0000

  type u16 = n: int | 0 <= n < U16_LIMIT
  type u32 = n: int | 0 <= n < U32_LIMIT
  type u64 = n: int | 0 <= n < U64_LIMIT

  /** Adding one to a u64, wrapping at 2^64 (a release build's `+= 1`, an
      atomic `fetch_add(1)`). */
  function Next(n: u64): (r: u64)
    ensures n < U64_LIMIT - 1 ==> r == n + 1
    ensures n == U64_LIMIT - 1 ==> r == 0
  {
    (n + 1) % U64_LIMIT
  }

  function Pow256(w: nat): (p: nat)
    ensures p >= 1
  {
    if w == 0 then 1 else 256 * Pow256(w - 1)
  }

  function Pow2(w: nat): (p: nat)
    ensures p >= 1
  {
    if w == 0 then 1 else 2 * Pow2(w - 1)
  }

  /** The bitwise exclusive or of the low `w` bits of `a` and `b`. */
  function XorBits(a: nat, b: nat, w: nat): (r: nat)
    ensures r < Pow2(w)
  {
    if w == 0 then 0 else (a + b) % 2 + 2 * XorBits(a / 2, b / 2, w - 1)
  }

  /** `a ^ b` on u8. */
  function Xor(a: byte, b: byte): byte
  {
    XorBits(a, b, 8)
  }

  /** XOR with the same bits twice gives back the original bits. */
  lemma {:induction false} XorBitsTwice(a: nat, b: nat, w: nat)
    requires a < Pow2(w)
    ensures XorBits(XorBits(a, b, w), b, w) == a
  {
    if w > 0 {
      var q := XorBits(a / 2, b / 2, w - 1);
      var r := XorBits(a, b, w);
      XorBitsStep(a, b, w);
      assert a / 2 < Pow2(w - 1);
      XorBitsTwice(a / 2, b / 2, w - 1);
      XorLowBit(a, b, q, r);
      XorBitsStep(r, b, w);
      assert XorBits(r / 2, b / 2, w - 1) == a / 2;
      assert XorBits(r, b, w) == (r + b) % 2 + 2 * (a / 2);
    } else {
      assert a == 0;
    }
  }

  /** One step of XorBits: the low bit, then the rest shifted down. */
  lemma XorBitsStep(a: nat, b: nat, w: nat)
    requires w > 0
    ensures XorBits(a, b, w) == (a + b) % 2 + 2 * XorBits(a / 2, b / 2, w - 1)
  {
  }

  /** The arithmetic of one step of XorBitsTwice: the high bits of r are q,
      and XOR-ing its low bit with b's restores a's. */
  lemma XorLowBit(a: nat, b: nat, q: nat, r: nat)
    requires r == (a + b) % 2 + 2 * q
    ensures r / 2 == q && (r + b) % 2 + 2 * (a / 2) == a
  {
  }

  /** XOR with the same byte twice gives back the original byte. */
  lemma XorTwice(a: byte, b: byte)
    ensures Xor(Xor(a, b), b) == a
  {
    assert Pow2(8) == 256;
    XorBitsTwice(a, b, 8);
  }

  /** The `w`-byte big-endian encoding of `n`. */
  function ToBe(n: nat, w: nat): (s: seq<byte>)
    requires n < Pow256(w)
    ensures |s| == w
  {
    if w == 0 then [] else ToBe(n / 256, w - 1) + [(n % 256) as byte]
  }

  /** The value of a big-endian byte string. */
  function FromBe(s: seq<byte>): (n: nat)
    ensures n < Pow256(|s|)
  {
    if s == [] then 0 else FromBe(s[..|s| - 1]) * 256 + s[|s| - 1] as int
  }

  /** Appending a byte shifts the value by one byte. */
  lemma FromBeSnoc(init: seq<byte>, b: byte)
    ensures FromBe(init + [b]) == FromBe(init) * 256 + b as int
  {
    assert (init + [b])[..|init|] == init;
  }

  lemma {:induction false} FromToBe(n: nat, w: nat)
    requires n < Pow256(w)
    ensures FromBe(ToBe(n, w)) == n
  {
    if w > 0 {
      var q, r := n / 256, n % 256;
      assert q < Pow256(w - 1);
      FromToBe(q, w - 1);
      FromBeSnoc(ToBe(q, w - 1), r as byte);
    }
  }

  lemma {:induction false} ToFromBe(s: seq<byte>)
    ensures ToBe(FromBe(s), |s|) == s
  {
    if s != [] {
      var init := s[..|s| - 1];
      var n := FromBe(s);
      assert n / 256 == FromBe(init) && n % 256 == s[|s| - 1] as int;
      ToFromBe(init);
      assert s == init + [s[|s| - 1]];
    }
  }

  /** Equal encodings of the same width come from equal numbers. */
  lemma ToBeInjective(a: nat, b: nat, w: nat)
    requires a < Pow256(w) && b < Pow256(w)
    requires ToBe(a, w) == ToBe(b, w)
    ensures a == b
  {
    FromToBe(a, w);
    FromToBe(b, w);
  }

  function U16Be(n: u16): (s: seq<byte>)
    ensures |s| == 2
  {
    assert Pow256(2) == U16_LIMIT;
    ToBe(n, 2)
  }

  function U32Be(n: u32): (s: seq<byte>)
    ensures |s| == 4
  {
    assert Pow256(4) == U32_LIMIT;
    ToBe(n, 4)
  }

  function U64Be(n: u64): (s: seq<byte>)
    ensures |s| == 8
  {
    assert Pow256(8) == U64_LIMIT;
    ToBe(n, 8)
  }

  /** The first two bytes of `s` read as a big-endian u16. */
  function ReadU16Be(s: seq<byte>): (n: u16)
    requires |s| >= 2
    ensures n == (s[0] as int) * 256 + s[1] as int
  {
    (s[0] as int) * 256 + s[1] as int
  }

  lemma U16RoundTrip(n: u16)
    ensures ReadU16Be(U16Be(n)) == n
  {
    assert Pow256(2) == U16_LIMIT;
    FromToBe(n, 2);
    var s := ToBe(n, 2);
    assert s[..1][..0] == [];
    assert FromBe(s) == ReadU16Be(s);
  }

  /** All messages of a stream, concatenated. */
  function Flatten(msgs: seq<seq<byte>>): seq<byte>
  {
    if msgs == [] then [] else msgs[0] + Flatten(msgs[1..])
  }

  lemma ConcatAssoc<T>(a: seq<T>, b: seq<T>, c: seq<T>)
    ensures a + b + c == a + (b + c)
  {
  }

  /** Taking from a suffix is slicing the whole. */
  lemma DropSplit<T>(s: seq<T>, a: nat, n: nat)
    requires a + n <= |s|
    ensures s[a..][..n] == s[a..a + n] && s[a..][n..] == s[a + n..]
  {
  }

  lemma {:induction false} FlattenAppend(a: seq<seq<byte>>, b: seq<seq<byte>>)
    ensures Flatten(a + b) == Flatten(a) + Flatten(b)
  {
    if a != [] {
      FlattenAppend(a[1..], b);
      assert (a + b)[1..] == a[1..] + b;
    } else {
      assert a + b == b;
    }
  }

  /** The stream from message n on: message n, then the rest. */
  lemma FlattenFrom(msgs: seq<seq<byte>>, n: nat)
    requires n < |msgs|
    ensures Flatten(msgs[n..]) == msgs[n] + Flatten(msgs[n + 1..])
  {
    assert msgs[n..][1..] == msgs[n + 1..];
  }

  // ---------------------------------------------------------------------
  // Remainders
  // ---------------------------------------------------------------------

  lemma {:induction false} MulAtLeast(a: int, l: int)
    requires a >= 1 && l > 0
    ensures a * l >= l && (-a) * l <= -l
  {
    if a > 1 {
      MulAtLeast(a - 1, l);
      assert a * l == (a - 1) * l + l;
    }
  }

  /** The remainder is the unique b in [0, l) with x == a * l + b. */
  lemma ModUnique(x: int, l: int, a: int, b: int)
    requires l > 0 && 0 <= b < l && x == a * l + b
    ensures x % l == b
  {
    var q := x / l;
    var r := x % l;
    assert x == q * l + r;
    assert (q - a) * l == b - r by {
      assert q * l - a * l == (q - a) * l;
    }
    if q - a >= 1 { MulAtLeast(q - a, l); }
    if a - q >= 1 { MulAtLeast(a - q, l); }
  }

  /** Reducing part way does not change the final remainder. */
  lemma ModShift(x: nat, k: nat, l: nat)
    requires l > 0
    ensures (x % l + k) % l == (x + k) % l
  {
    var q := x / l;
    var q2 := (x % l + k) / l;
    var r2 := (x % l + k) % l;
    assert x + k == (q + q2) * l + r2 by {
      assert x == q * l + x % l;
      assert x % l + k == q2 * l + r2;
      assert q * l + q2 * l == (q + q2) * l;
    }
    ModUnique(x + k, l, q + q2, r2);
  }
}

=== FILE: codegen.dfy ===
/** The graph-to-text compiler of the visual builder (builder/src/codegen.js):
    a depth-first walk over chained stage blocks that writes
    `name(args) =>\n next...`, inferring a literal type for each argument leaf. */
module Codegen {
  import opened Wrappers
  import opened Text
  import opened JsNumber

  /** A block of the workspace. Stage blocks have a non-empty name (an empty
      name is as falsy as a missing one); argument blocks have none and carry
      the raw text of their `key` and `value` fields. `children` is the
      block's childBlocks_ list, in attachment order. */
  datatype Block = Block(name: string, children: seq<Block>, key: string, value: string)

  /** First and last characters are both '"'; a lone '"' counts. */
  predicate IsQuoted(v: string)
  {
    |v| >= 1 && v[0] == '"' && v[|v| - 1] == '"'
  }

  /** The literal written for a non-empty, unquoted value: the decimal text
      of parseInt(value) when that is not NaN, else the value in quotes,
      unescaped. */
  function InferValue(v: string): string
  {
    match ParseInt(v)
    case Some(n) => NumberText(n)
    case None => "\"" + v + "\""
  }

  /** The literal written for a trimmed, non-empty value. */
  function ValueToken(v: string): string
  {
    if IsQuoted(v) then v else InferValue(v)
  }

  function Keyed(key: string, token: string, compact: bool): string
  {
    if key == "" then token
    else if compact then key + "=" + token
    else key + " = " + token
  }

  /** gen_argument: None stands for `undefined` (an argument with neither key
      nor value). */
  function GenArgument(key: string, value: string, compact: bool): (r: Option<string>)
    ensures r.None? <==> JsTrim(key) == "" && JsTrim(value) == ""
    ensures r.Some? ==> r.value != ""
    ensures JsTrim(value) == "" && r.Some? ==> r.value == JsTrim(key)
    ensures JsTrim(value) != "" && JsTrim(key) == "" ==> r == Some(ValueToken(JsTrim(value)))
    ensures JsTrim(value) != "" && JsTrim(key) != "" ==>
              r == Some(JsTrim(key) + (if compact then "=" else " = ") + ValueToken(JsTrim(value)))
  {
    var k := JsTrim(key);
    var v := JsTrim(value);
    if !IsQuoted(v) && v == "" then
      if k == "" then None else Some(k)
    else
      Some(Keyed(k, ValueToken(v), compact))
  }

  lemma IntTextShape(n: int)
    ensures |IntText(n)| >= 1
    ensures IntText(n)[0] == '-' || IsDigit(IntText(n)[0])
    ensures IsDigit(IntText(n)[|IntText(n)| - 1])
  {
    if n < 0 {
      var d := NatText(-n);
      assert IntText(n) == "-" + d;
      assert IntText(n)[|IntText(n)| - 1] == d[|d| - 1];
    }
  }

  /** The written literal means what the value meant: a number that reads
      back to the same integer, or a quoted string whose inside is exactly
      the value. */
  lemma InferValueMeaning(v: string)
    ensures ParseInt(v).Some? ==> ParseInt(InferValue(v)) == ParseInt(v) && !IsQuoted(InferValue(v))
    ensures ParseInt(v).None? ==> IsQuoted(InferValue(v)) && InferValue(v)[1..|InferValue(v)| - 1] == v
  {
    match ParseInt(v) {
      case Some(n) =>
        ParseIntText(n);
        IntTextShape(n);
      case None =>
        var t := InferValue(v);
        assert t == "\"" + v + "\"";
        assert t[1..|t| - 1] == v;
    }
  }

  lemma TokenTrimmed(v: string)
    requires v == JsTrim(v) && v != ""
    ensures JsTrim(ValueToken(v)) == ValueToken(v)
  {
    var t := ValueToken(v);
    if !IsQuoted(v) {
      match ParseInt(v) {
        case Some(n) => IntTextShape(n);
        case None => assert t == "\"" + v + "\"";
      }
    }
    SolidEnds(t);
  }

  /** A text that starts with a quote, a sign or a digit and ends with a
      quote or a digit has nothing to trim. */
  lemma SolidEnds(t: string)
    requires |t| >= 1 && (t[0] == '"' || t[0] == '-' || IsDigit(t[0]))
    requires t[|t| - 1] == '"' || IsDigit(t[|t| - 1])
    ensures JsTrim(t) == t
  {
    TrimStartFixed(t, JsWhiteSpace);
    TrimEndFixed(t, JsWhiteSpace);
  }

  /** Type inference is a fixed point: compiling an argument whose value is
      already the literal this compiler wrote gives the same text again. */
  lemma GenArgumentIdempotent(key: string, value: string, compact: bool)
    requires JsTrim(value) != ""
    ensures GenArgument(key, ValueToken(JsTrim(value)), compact) == GenArgument(key, value, compact)
  {
    var v := JsTrim(value);
    TrimIdempotent(value, JsWhiteSpace);
    TokenTrimmed(v);
    var t := ValueToken(v);
    assert t != "" by {
      if !IsQuoted(v) && ParseInt(v).Some? { IntTextShape(ParseInt(v).value); }
    }
    if !IsQuoted(v) {
      InferValueMeaning(v);
      if ParseInt(v).Some? {
        assert ValueToken(t) == t by {
          ParseIntText(ParseInt(v).value);
        }
      }
    }
  }

  /** The leading-digit prefix rule reaches the output: "12abc" is written
      as 12. */
  lemma InferValuePrefix()
    ensures InferValue("12abc") == "12"
  {
    ParseIntPrefix();
    assert NatText(12) == NatText(1) + [DigitChar(2)] == "12";
  }

  /** A "0x" prefix reaches the output: "0x10" is written as 16. */
  lemma InferValueHex()
    ensures InferValue("0x10") == "16"
  {
    ParseIntHex();
    assert NatText(16) == NatText(1) + [DigitChar(6)] == "16";
  }

  /** Text that does not start with a digit is written in quotes. */
  lemma InferValueString()
    ensures InferValue("secret") == "\"secret\""
  {
    ParseIntNaN("secret");
  }

  // ---------------------------------------------------------------------
  // The walk

  /** JavaScript's Array.prototype.join with a separator string. */
  function JoinWith(parts: seq<string>, sep: string): string
  {
    if parts == [] then ""
    else if |parts| == 1 then parts[0]
    else parts[0] + sep + JoinWith(parts[1..], sep)
  }

  function ArgSep(compact: bool): string { if compact then "," else ", " }

  function Arrow(compact: bool): string { if compact then "=>" else " =>\n" }

  function TopSep(compact: bool): string { if compact then " " else "\n" }

  /** The successor of a stage: the last child with a name. */
  function Successor(children: seq<Block>): (r: Option<Block>)
    ensures r.Some? ==> r.value in children && r.value.name != ""
    ensures r.Some? ==> exists i :: 0 <= i < |children| && children[i] == r.value &&
                          forall j :: i < j < |children| ==> children[j].name == ""
    ensures r.None? ==> forall i :: 0 <= i < |children| ==> children[i].name == ""
  {
    if children == [] then None
    else if children[|children| - 1].name != "" then Some(children[|children| - 1])
    else
      var r := Successor(children[..|children| - 1]);
      assert r.Some? ==> r.value in children[..|children| - 1];
      r
  }

  /** The argument texts of the unnamed children, in order, with the
      `undefined` ones dropped. */
  function ArgTexts(children: seq<Block>, compact: bool): seq<string>
  {
    if children == [] then []
    else
      var last := children[|children| - 1];
      var g := GenArgument(last.key, last.value, compact);
      ArgTexts(children[..|children| - 1], compact) + (if last.name == "" && g.Some? && g.value != "" then [g.value] else [])
  }

  /** The text for one stage, without its successor. */
  function Head(b: Block, compact: bool): string
  {
    var args := ArgTexts(b.children, compact);
    b.name + (if args == [] then "" else "(" + JoinWith(args, ArgSep(compact)) + ")")
  }

  /** The text gen(b) appends to the result. */
  function StageText(b: Block, compact: bool): string
    decreases b
  {
    if b.name == "" then ""
    else
      match Successor(b.children)
      case None => Head(b, compact)
      case Some(next) => Head(b, compact) + Arrow(compact) + StageText(next, compact)
  }

  /** A top block's text followed by the separator. */
  function TopText(b: Block, compact: bool): string
  {
    StageText(b, compact) + TopSep(compact)
  }

  /** The whole output: the top blocks' texts, each followed by a separator. */
  function ProgramText(tops: seq<Block>, compact: bool): string
  {
    if tops == [] then ""
    else ProgramText(tops[..|tops| - 1], compact) + TopText(tops[|tops| - 1], compact)
  }

  /** The stages reached from `b` by following successors. */
  function Chain(b: Block): (c: seq<Block>)
    ensures b.name != "" <==> c != []
    decreases b
  {
    if b.name == "" then []
    else
      match Successor(b.children)
      case None => [b]
      case Some(next) => [b] + Chain(next)
  }

  function Heads(chain: seq<Block>, compact: bool): (hs: seq<string>)
    ensures |hs| == |chain|
  {
    if chain == [] then [] else [Head(chain[0], compact)] + Heads(chain[1..], compact)
  }

  /** The output grammar: a stage's text is the heads of its chain of
      successors, joined by the arrow. */
  lemma {:induction false} StageTextChain(b: Block, compact: bool)
    ensures StageText(b, compact) == JoinWith(Heads(Chain(b), compact), Arrow(compact))
    decreases b
  {
    if b.name != "" {
      match Successor(b.children) {
        case None =>
        case Some(next) =>
          StageTextChain(next, compact);
          var rest := Heads(Chain(next), compact);
          assert Heads(Chain(b), compact) == [Head(b, compact)] + rest by {
            assert ([b] + Chain(next))[1..] == Chain(next);
          }
          assert |rest| >= 1;
      }
    }
  }

  /** Output for consecutive top blocks is the concatenation of their outputs;
      a top block without a name contributes only the separator. */
  lemma {:induction false} ProgramTextAppend(a: seq<Block>, b: seq<Block>, compact: bool)
    ensures ProgramText(a + b, compact) == ProgramText(a, compact) + ProgramText(b, compact)
    decreases |b|
  {
    if b == [] {
      assert a + b == a;
    } else {
      var init := b[..|b| - 1];
      var last := b[|b| - 1];
      ProgramTextAppend(a, init, compact);
      assert (a + b)[..|a + b| - 1] == a + init;
      assert (a + b)[|a + b| - 1] == last;
      assert ProgramText(a + b, compact) == ProgramText(a + init, compact) + TopText(last, compact);
      assert ProgramText(b, compact) == ProgramText(init, compact) + TopText(last, compact);
      Associative(ProgramText(a, compact), ProgramText(init, compact), TopText(last, compact));
    }
  }

  lemma NamelessTop(b: Block, compact: bool)
    requires b.name == ""
    ensures ProgramText([b], compact) == TopSep(compact)
  {
    assert [b][..0] == [];
  }

  /** The argument of `xor("secret")`, typed in with neither key nor quotes. */
  lemma SecretArgument()
    ensures GenArgument("", "secret", false) == Some("\"secret\"")
  {
    TrimStartFixed("secret", JsWhiteSpace);
    TrimEndFixed("secret", JsWhiteSpace);
    assert JsTrim("secret") == "secret";
    assert JsTrim("") == "";
    InferValueString();
  }

  /** A two-stage pipeline whose second stage has one argument, e.g.
      `tcp => xor("secret")`: pretty output is `first =>\nsecond(arg)\n`,
      compact output `first=>second(arg) `. */
  lemma TwoStages(first: string, second: string, arg: Block, compact: bool)
    requires first != "" && second != "" && arg.name == ""
    requires GenArgument(arg.key, arg.value, compact).Some?
    ensures var t := GenArgument(arg.key, arg.value, compact).value;
            var tail := Block(second, [arg], "", "");
            ProgramText([Block(first, [tail], "", "")], compact)
              == first + Arrow(compact) + (second + "(" + t + ")") + TopSep(compact)
  {
    var t := GenArgument(arg.key, arg.value, compact).value;
    var tail := Block(second, [arg], "", "");
    var head := Block(first, [tail], "", "");
    OneArgumentStage(second, arg, compact);
    ChainedStage(first, tail, compact);
    assert [head][..0] == [];
  }

  /** A last stage with one argument: its name, then the argument in
      parentheses. */
  lemma OneArgumentStage(second: string, arg: Block, compact: bool)
    requires second != "" && arg.name == ""
    requires GenArgument(arg.key, arg.value, compact).Some?
    ensures StageText(Block(second, [arg], "", ""), compact) ==
      second + "(" + GenArgument(arg.key, arg.value, compact).value + ")"
  {
    var b := Block(second, [arg], "", "");
    var t := GenArgument(arg.key, arg.value, compact).value;
    SingleArgument(arg, compact);
    HeadOfOne(b, t, compact);
  }

  lemma HeadOfOne(b: Block, t: string, compact: bool)
    requires ArgTexts(b.children, compact) == [t]
    ensures Head(b, compact) == b.name + "(" + t + ")"
  {
    assert JoinWith([t], ArgSep(compact)) == t;
  }

  /** One unnamed child with a defined argument has no successor and that
      argument as its only text. */
  lemma SingleArgument(arg: Block, compact: bool)
    requires arg.name == "" && GenArgument(arg.key, arg.value, compact).Some?
    ensures Successor([arg]) == None
    ensures ArgTexts([arg], compact) == [GenArgument(arg.key, arg.value, compact).value]
  {
    assert [arg][..0] == [];
  }

  /** A stage whose only child is its named successor: its name, the
      arrow, then the successor's text. */
  lemma ChainedStage(first: string, tail: Block, compact: bool)
    requires first != "" && tail.name != ""
    ensures StageText(Block(first, [tail], "", ""), compact) == first + Arrow(compact) + StageText(tail, compact)
  {
    assert [tail][..0] == [];
    assert ArgTexts([tail], compact) == [];
    assert Successor([tail]) == Some(tail);
  }

  /** The closure state of codegen(): the flag and the growing result. */
  class Compiler {
    const compact: bool
    var result: string

    constructor(compact: bool)
      ensures this.compact == compact && result == ""
    {
      this.compact := compact;
      result := "";
    }

    /** gen(head): appends the text of `head` and its successors. */
    method Gen(head: Block)
      modifies this
      ensures result == old(result) + StageText(head, compact)
      decreases head
    {
      if head.name == "" {
        assert old(result) + StageText(head, compact) == old(result);
        return;
      }
      var next, text := HeadOf(head, compact);
      ghost var before := result;
      result := result + text;
      if next.Some? {
        result := result + Arrow(compact);
        Gen(next.value);
        Associative3(before, text, Arrow(compact), StageText(next.value, compact));
      }
    }
  }

  /** The head of a stage in gen: its name, then its arguments in
      parentheses when there are any; `next` is its successor. */
  method HeadOf(head: Block, compact: bool) returns (next: Option<Block>, text: string)
    ensures next == Successor(head.children) && text == Head(head, compact)
  {
    var args;
    next, args := ScanChildren(head.children, compact);
    var kept := Present(args);
    text := head.name + (if |kept| > 0 then "(" + JoinWith(kept, ArgSep(compact)) + ")" else "");
  }

  lemma Associative(a: string, b: string, c: string)
    ensures (a + b) + c == a + (b + c)
  {
  }

  lemma Associative3(a: string, b: string, c: string, d: string)
    ensures ((a + b) + c) + d == a + ((b + c) + d)
  {
  }

  /** The loop of gen over childBlocks_: the last named child is the
      successor, every other child is compiled as an argument, in order. */
  method ScanChildren(children: seq<Block>, compact: bool) returns (next: Option<Block>, args: seq<Option<string>>)
    ensures next == Successor(children)
    ensures Present(args) == ArgTexts(children, compact)
  {
    next := None;
    args := [];
    for i := 0 to |children|
      invariant next == Successor(children[..i])
      invariant Present(args) == ArgTexts(children[..i], compact)
    {
      assert children[..i + 1][..i] == children[..i];
      var child := children[i];
      if child.name != "" {
        next := Some(child);
        continue;
      }
      args := args + [GenArgument(child.key, child.value, compact)];
    }
    assert children[..|children|] == children;
  }

  /** args.filter(x => x): drops undefined and empty strings. */
  function Present(args: seq<Option<string>>): seq<string>
  {
    if args == [] then []
    else
      var last := args[|args| - 1];
      Present(args[..|args| - 1]) + (if last.Some? && last.value != "" then [last.value] else [])
  }

  /** codegen(workspace, compact) over the top blocks in workspace order. */
  method Compile(tops: seq<Block>, compact: bool) returns (result: string)
    ensures result == ProgramText(tops, compact)
  {
    var c := new Compiler(compact);
    for i := 0 to |tops|
      invariant c.result == ProgramText(tops[..i], compact)
    {
      assert tops[..i + 1][..i] == tops[..i];
      c.Gen(tops[i]);
      c.result := c.result + TopSep(compact);
    }
    assert tops[..|tops|] == tops;
    result := c.result;
  }
}

=== FILE: error.dfy ===
/** The error type shared by every component (api/src/error.rs): a kind,
    a message, and an optional source error. */
module Errors {
  import opened Wrappers

  datatype ErrorKind = Misuse | Fatal | NonFatal

  /** A source error is any std error; only its displayed text is kept. */
  datatype Source = Source(text: string)

  datatype Error = Error(kind: ErrorKind, msg: string, source: Option<Source>)

  /** api::Result: a value or an Error. */
  datatype Result<+T> = Ok(value: T) | Err(error: Error)

  function MisuseError(msg: string, source: Option<Source>): (e: Error)
    ensures e.kind == Misuse && e.msg == msg && e.source == source
  {
    Error(Misuse, msg, source)
  }

  function FatalError(msg: string, source: Option<Source>): (e: Error)
    ensures e.kind == Fatal && e.msg == msg && e.source == source
  {
    Error(Fatal, msg, source)
  }

  function NonFatalError(msg: string, source: Option<Source>): (e: Error)
    ensures e.kind == NonFatal && e.msg == msg && e.source == source
  {
    Error(NonFatal, msg, source)
  }

  /** The Display prefix of each kind; a non-fatal error reads "Error: ". */
  function Prefix(kind: ErrorKind): (p: string)
    ensures |p| >= 7 && p[|p| - 2..] == ": "
    ensures kind == Misuse <==> p[0] == 'M'
    ensures kind == Fatal <==> p[0] == 'F'
    ensures kind == NonFatal <==> p[0] == 'E'
  {
    match kind
    case Misuse => "Misuse: "
    case Fatal => "Fatal: "
    case NonFatal => "Error: "
  }

  /** Display: the prefix, the message, then the source's text with no
      separator in between. */
  function Display(e: Error): (s: string)
    ensures |s| >= |Prefix(e.kind)| + |e.msg|
    ensures s[..|Prefix(e.kind)|] == Prefix(e.kind)
    ensures s[|Prefix(e.kind)|..|Prefix(e.kind)| + |e.msg|] == e.msg
    ensures e.source.None? ==> |s| == |Prefix(e.kind)| + |e.msg|
    ensures e.source.Some? ==> s[|Prefix(e.kind)| + |e.msg|..] == e.source.value.text
  {
    var head := Prefix(e.kind) + e.msg;
    assert head[..|Prefix(e.kind)|] == Prefix(e.kind);
    if e.source.Some? then
      assert (head + e.source.value.text)[..|head|] == head;
      head + e.source.value.text
    else head
  }

  /** The kind read back from a displayed error, by its first letter. */
  function KindOfText(s: string): (k: Option<ErrorKind>)
  {
    if s == [] then None
    else if s[0] == 'M' then Some(Misuse)
    else if s[0] == 'F' then Some(Fatal)
    else if s[0] == 'E' then Some(NonFatal)
    else None
  }

  /** The displayed text tells the three kinds apart. */
  lemma DisplayKind(e: Error)
    ensures KindOfText(Display(e)) == Some(e.kind)
  {
    assert Display(e)[0] == Display(e)[..|Prefix(e.kind)|][0];
  }

  /** A source adds its text at the very end and changes nothing before it. */
  lemma DisplaySource(e: Error, src: Source)
    ensures Display(e.(source := Some(src))) == Display(e.(source := None)) + src.text
  {
  }

  /** source(): the stored source error. */
  function SourceOf(e: Error): (r: Option<Source>)
    ensures r.Some? <==> e.source.Some?
    ensures r.Some? ==> r.value.text == e.source.value.text
  {
    e.source
  }

  /** Every constructor keeps the source it was given. */
  lemma SourceKept(msg: string, source: Option<Source>)
    ensures SourceOf(MisuseError(msg, source)) == source
    ensures SourceOf(FatalError(msg, source)) == source
    ensures SourceOf(NonFatalError(msg, source)) == source
  {
  }
}

=== FILE: exec.dfy ===
/** The process component (components/exec/src/lib.rs): create gathers the
    command line from the unnamed arguments, and each spawn runs it as a
    child process. */
module Exec {
  import opened Wrappers
  import A = Arguments

  const USIZE_MAX: nat := 0xffff_ffff_ffff_ffff

  const WRONG_TYPE := "wrong argument type"
  const WRONG_ARGUMENT := "wrong argument"
  const TOO_MANY := "too many outputs"
  const INDEX_PANIC := "index out of bounds: the len is 0 but the index is 0"
  const NO_OUTPUT_ASSERT := "assertion failed: !self.has_output"
  const OUTPUT_ASSERT := "assertion failed: self.has_output"

  datatype Actor = Actor(hasOutput: bool, args: seq<string>)

  // ---------------------------------------------------------------------
  // create
  // ---------------------------------------------------------------------

  /** Why an argument stops create, if it does: an unnamed value must be a
      string, `outputs` must be a list, and no other name is known. */
  function Refusal(name: string, value: A.Argument): (r: Option<string>)
    ensures r.None? <==> (name == "" && value.String?) || (name == "outputs" && value.Vec?) || name == "function_name"
  {
    if name == "" then (if value.String? then None else Some(WRONG_TYPE))
    else if name == "outputs" then (if value.Vec? then None else Some(UNWRAP_NONE))
    else if name == "function_name" then None
    else Some(WRONG_ARGUMENT)
  }

  /** The reason of the first refused argument, if any. */
  function FirstRefusal(arguments: seq<(string, A.Argument)>): (r: Option<string>)
    ensures r.None? <==> forall i :: 0 <= i < |arguments| ==> Refusal(arguments[i].0, arguments[i].1).None?
  {
    if arguments == [] then None
    else
      var here := Refusal(arguments[0].0, arguments[0].1);
      if here.Some? then here else FirstRefusal(arguments[1..])
  }

  /** The unnamed string arguments, in order. */
  function Positional(arguments: seq<(string, A.Argument)>): (args: seq<string>)
    ensures |args| <= |arguments|
  {
    if arguments == [] then []
    else
      var rest := Positional(arguments[..|arguments| - 1]);
      var (name, value) := arguments[|arguments| - 1];
      if name == "" && value.String? then rest + [value.str] else rest
  }

  /** The length of the last `outputs` list, or usize::MAX when there is
      none. */
  function OutputCount(arguments: seq<(string, A.Argument)>): (n: nat)
  {
    if arguments == [] then USIZE_MAX
    else
      var (name, value) := arguments[|arguments| - 1];
      if name == "outputs" && value.Vec? then |value.vec| else OutputCount(arguments[..|arguments| - 1])
  }

  /** create, as a specification: the first refused argument panics;
      otherwise the positional strings are the command line, and the last
      `outputs` must have at most one entry (a missing one counts as
      usize::MAX outputs). */
  function CreateSpec(arguments: seq<(string, A.Argument)>): (r: Outcome<Actor>)
  {
    var refusal := FirstRefusal(arguments);
    if refusal.Some? then Panics(refusal.value)
    else
      var n := OutputCount(arguments);
      if n > 1 then Panics(TOO_MANY) else Returns(Actor(n == 1, Positional(arguments)))
  }

  /** create: one pass over the arguments in order. */
  method Create(arguments: seq<(string, A.Argument)>) returns (r: Outcome<Actor>)
    ensures r == CreateSpec(arguments)
  {
    var nOutputs := USIZE_MAX;
    var args: seq<string> := [];
    var i := 0;
    while i < |arguments|
      invariant i <= |arguments|
      invariant FirstRefusal(arguments[..i]).None?
      invariant args == Positional(arguments[..i]) && nOutputs == OutputCount(arguments[..i])
    {
      var (name, value) := arguments[i];
      assert arguments[..i + 1][..i] == arguments[..i];
      RefusalAppend(arguments[..i], arguments[i]);
      assert arguments[..i] + [arguments[i]] == arguments[..i + 1];
      if name == "" {
        if value.String? {
          args := args + [value.str];
        } else {
          RefusalPrefix(arguments, i + 1);
          return Panics(WRONG_TYPE);
        }
      } else if name == "outputs" {
        if !value.Vec? {
          RefusalPrefix(arguments, i + 1);
          return Panics(UNWRAP_NONE);
        }
        nOutputs := |value.vec|;
      } else if name != "function_name" {
        RefusalPrefix(arguments, i + 1);
        return Panics(WRONG_ARGUMENT);
      }
      i := i + 1;
    }
    assert arguments[..i] == arguments;
    if nOutputs > 1 {
      return Panics(TOO_MANY);
    }
    r := Returns(Actor(nOutputs == 1, args));
  }

  lemma {:induction false} RefusalAppend(prefix: seq<(string, A.Argument)>, arg: (string, A.Argument))
    requires FirstRefusal(prefix).None?
    ensures FirstRefusal(prefix + [arg]) == Refusal(arg.0, arg.1)
    decreases |prefix|
  {
    if prefix != [] {
      assert (prefix + [arg])[1..] == prefix[1..] + [arg];
      RefusalAppend(prefix[1..], arg);
    }
  }

  /** A refusal within a prefix is the refusal of the whole list. */
  lemma {:induction false} RefusalPrefix(arguments: seq<(string, A.Argument)>, n: nat)
    requires n <= |arguments| && FirstRefusal(arguments[..n]).Some?
    ensures FirstRefusal(arguments) == FirstRefusal(arguments[..n])
    decreases n
  {
    assert arguments[..n][1..] == arguments[1..][..n - 1];
    if Refusal(arguments[0].0, arguments[0].1).None? {
      RefusalPrefix(arguments[1..], n - 1);
    }
  }

  /** An actor comes out exactly when every argument is accepted and the
      last `outputs` list has at most one entry; its command line is the
      unnamed strings in order, which are all of the unnamed arguments. */
  lemma {:induction false} CreateMeaning(arguments: seq<(string, A.Argument)>)
    ensures CreateSpec(arguments).Returns? <==>
      (forall i :: 0 <= i < |arguments| ==> Refusal(arguments[i].0, arguments[i].1).None?) &&
      OutputCount(arguments) <= 1
    ensures CreateSpec(arguments).Returns? ==>
      |CreateSpec(arguments).value.args| == |Unnamed(arguments)|
  {
    if CreateSpec(arguments).Returns? {
      PositionalCount(arguments);
    }
  }

  lemma {:induction false} PositionalCount(arguments: seq<(string, A.Argument)>)
    requires forall i :: 0 <= i < |arguments| ==> Refusal(arguments[i].0, arguments[i].1).None?
    ensures |Positional(arguments)| == |Unnamed(arguments)|
    decreases |arguments|
  {
    if arguments != [] {
      var init := arguments[..|arguments| - 1];
      PositionalCount(init);
      UnnamedStep(arguments);
    } else {
      assert Unnamed(arguments) == {};
    }
  }

  /** The indices of the unnamed arguments. */
  function Unnamed(arguments: seq<(string, A.Argument)>): (r: set<nat>)
    ensures forall i :: i in r ==> i < |arguments|
  {
    set i: nat | i < |arguments| && arguments[i].0 == ""
  }

  /** The unnamed indices of a list are those of all but its last element,
      and the last one when it is unnamed. */
  lemma UnnamedStep(arguments: seq<(string, A.Argument)>)
    requires arguments != []
    ensures var init := arguments[..|arguments| - 1];
      |Unnamed(arguments)| == |Unnamed(init)| + (if arguments[|arguments| - 1].0 == "" then 1 else 0)
  {
    var init := arguments[..|arguments| - 1];
    var last := |arguments| - 1;
    var rest := if arguments[last].0 == "" then {last} else {};
    assert Unnamed(arguments) == Unnamed(init) + rest;
    assert last !in Unnamed(init);
  }

  /** Without an `outputs` argument create always panics, with "too many
      outputs". */
  lemma {:induction false} MissingOutputsPanics(arguments: seq<(string, A.Argument)>)
    requires forall i :: 0 <= i < |arguments| ==> arguments[i].0 != "outputs"
    requires FirstRefusal(arguments).None?
    ensures CreateSpec(arguments) == Panics(TOO_MANY)
  {
    NoOutputsCount(arguments);
  }

  lemma {:induction false} NoOutputsCount(arguments: seq<(string, A.Argument)>)
    requires forall i :: 0 <= i < |arguments| ==> arguments[i].0 != "outputs"
    ensures OutputCount(arguments) == USIZE_MAX
    decreases |arguments|
  {
    if arguments != [] {
      NoOutputsCount(arguments[..|arguments| - 1]);
    }
  }

  // ---------------------------------------------------------------------
  // spawn
  // ---------------------------------------------------------------------

  /** The child process: the program and its argv. */
  datatype Command = Command(program: string, argv: seq<string>)

  /** Actor::spawn: args[0] runs with args[1..]; with no arguments at all
      the index panics. */
  function ChildCommand(actor: Actor): (r: Outcome<Command>)
    ensures r.Returns? <==> |actor.args| > 0
    ensures r.Panics? ==> r.reason == INDEX_PANIC
    ensures r.Returns? ==> [r.value.program] + r.value.argv == actor.args
  {
    if |actor.args| == 0 then Panics(INDEX_PANIC) else Returns(Command(actor.args[0], actor.args[1..]))
  }

  /** The child command piped to the chain: spawn and spawn_composite
      unwrap the address and the mailbox they are given, the address first,
      once the child is running. */
  function PipeChild(actor: Actor, hasAddress: bool, hasMailbox: bool): (r: Outcome<Command>)
    ensures r.Returns? <==> |actor.args| > 0 && hasAddress && hasMailbox
    ensures r.Returns? ==> r == ChildCommand(actor)
    ensures |actor.args| > 0 && !(hasAddress && hasMailbox) ==> r == Panics(UNWRAP_NONE)
  {
    match ChildCommand(actor)
    case Panics(m) => Panics(m)
    case Returns(cmd) =>
      if !hasAddress then Panics(UNWRAP_NONE)
      else if !hasMailbox then Panics(UNWRAP_NONE)
      else Returns(cmd)
  }

  /** spawn: only an actor without an output runs a child in the middle of
      a chain, and it needs both ends of the chain. */
  function Spawn(actor: Actor, hasAddress: bool, hasMailbox: bool): (r: Outcome<Command>)
    ensures actor.hasOutput ==> r == Panics(NO_OUTPUT_ASSERT)
    ensures r.Returns? <==> !actor.hasOutput && |actor.args| > 0 && hasAddress && hasMailbox
    ensures !actor.hasOutput ==> r == PipeChild(actor, hasAddress, hasMailbox)
  {
    if actor.hasOutput then Panics(NO_OUTPUT_ASSERT) else PipeChild(actor, hasAddress, hasMailbox)
  }

  /** spawn_composite: as spawn, without the assertion on the output. */
  function SpawnComposite(actor: Actor, hasAddress: bool, hasMailbox: bool): (r: Outcome<Command>)
    ensures r.Returns? <==> |actor.args| > 0 && hasAddress && hasMailbox
    ensures !actor.hasOutput ==> r == Spawn(actor, hasAddress, hasMailbox)
    ensures r.Returns? ==> [r.value.program] + r.value.argv == actor.args
  {
    PipeChild(actor, hasAddress, hasMailbox)
  }

  /** spawn_source: only an actor with an output starts a chain. */
  function SpawnSource(actor: Actor): (r: Outcome<Command>)
    ensures !actor.hasOutput ==> r == Panics(OUTPUT_ASSERT)
    ensures actor.hasOutput ==> r == ChildCommand(actor)
  {
    if !actor.hasOutput then Panics(OUTPUT_ASSERT) else ChildCommand(actor)
  }

  /** The command line given to create is the one the child runs. */
  lemma CreateThenSpawn(arguments: seq<(string, A.Argument)>)
    requires CreateSpec(arguments).Returns?
    ensures var actor := CreateSpec(arguments).value;
      |actor.args| > 0 ==>
      var cmd := ChildCommand(actor).value;
      [cmd.program] + cmd.argv == Positional(arguments) &&
      (actor.hasOutput <==> SpawnSource(actor).Returns?) &&
      (actor.hasOutput <==> !Spawn(actor, true, true).Returns?)
  {
  }
}

=== FILE: helper.dfy ===
/** The argument binder of api/src/helper.rs: a serde Deserializer that
    reads a component's configuration struct from the `(name, value)` list
    of a script call. A cursor walks the list in key mode (the next item is
    an argument name) and value mode (the next item is its value); inside a
    Vec value it walks the elements. Arguments without a name fill the
    declared fields that no argument names, in declaration order.

    The struct visitor that serde derives for a configuration struct is
    modelled over a field schema (`Field`): its loop, its duplicate and
    missing-field errors, and `#[serde(default)]`. */
module Helper {
  import opened Wrappers
  import opened Bytes
  import opened Text
  import A = Arguments

  datatype ArgParseError =
    | UnsupportedType(typeName: string)
    | Overflow(typeName: string)
    | TypeError(supplied: string, expected: string)
    | DeserializeError(msg: string)
    | TooManyArguments(given: nat, declared: nat)
    | TooManyPositionalArguments
    | Unknown

  /** Rust's Result<T, ArgParseError>; a panic is the Panics of the
      surrounding Outcome. */
  datatype Parsed<+T> = Ok(value: T) | Err(error: ArgParseError)

  type NamedArgument = (string, A.Argument)

  const IDENT_ASSERT := "assertion failed: self.ident"
  const VALUE_ASSERT := "assertion failed: !self.ident"
  const LIST_ASSERT := "assertion failed: self.list_pos.is_none()"
  const POS_ASSERT := "assertion failed: self.pos_fields.is_none()"
  const NONE_ASSERT := "assertion failed: self.next_value().is_none()"
  const ARGS_ASSERT := "assertion failed: deserializer.args.is_empty()"
  const OUT_OF_BOUNDS := "index out of bounds"
  /** A Vec nested in a Vec re-enters deserialize_seq, which restarts
      list_pos at 0 on the outer list: the recursion never ends. */
  const STACK_OVERFLOW := "stack overflow"

  /** Two outcomes agree when both panic, or both return the same value. */
  predicate Agrees<T(==)>(r: Outcome<T>, s: Outcome<T>)
  {
    (r.Panics? <==> s.Panics?) && (r.Returns? ==> r == s)
  }

  // ---------------------------------------------------------------------
  // The declared fields of a configuration struct
  // ---------------------------------------------------------------------

  /** A type read by one deserialize call: an integer type of `limit`
      values (every width goes through deserialize_u64), a string, or an
      api Argument (untagged: deserialize_any). */
  datatype Scalar = IntType(typeName: string, limit: nat) | StrType | AnyType

  datatype FieldType =
    | Plain(scalar: Scalar)
    | BoolType
    | UnitType
    | SeqType(elem: Scalar)
    | OptionType(inner: Scalar)

  datatype Field = Field(name: string, ty: FieldType, hasDefault: bool)

  /** The Rust value a field ends up holding. */
  datatype Decoded =
    | DInt(n: nat)
    | DStr(s: string)
    | DBool(b: bool)
    | DUnit
    | DArg(arg: A.Argument)
    | DSeq(items: seq<Decoded>)
    | DNone
    | DSome(some: Decoded)

  function FieldNames(fields: seq<Field>): (r: seq<string>)
    ensures |r| == |fields|
    ensures forall i :: 0 <= i < |fields| ==> r[i] == fields[i].name
  {
    if fields == [] then [] else [fields[0].name] + FieldNames(fields[1..])
  }

  predicate DistinctFieldNames(fields: seq<Field>)
  {
    forall i, j :: 0 <= i < j < |fields| ==> fields[i].name != fields[j].name
  }

  /** The field a (resolved) name selects: serde's generated identifier
      visitor. None means an unknown name, which is ignored. */
  function FieldIndex(fields: seq<Field>, name: string): (r: Option<nat>)
    ensures r.Some? ==> r.value < |fields| && fields[r.value].name == name
    ensures r.Some? ==> forall k :: 0 <= k < r.value ==> fields[k].name != name
    ensures r.None? ==> forall k :: 0 <= k < |fields| ==> fields[k].name != name
  {
    if fields == [] then None
    else if fields[0].name == name then Some(0)
    else match FieldIndex(fields[1..], name)
      case None => None
      case Some(k) => Some(k + 1)
  }

  function DefaultValue(ty: FieldType): Decoded
  {
    match ty
    case Plain(IntType(_, _)) => DInt(0)
    case Plain(StrType) => DStr("")
    case Plain(AnyType) => DArg(A.Default())
    case BoolType => DBool(false)
    case UnitType => DUnit
    case SeqType(_) => DSeq([])
    case OptionType(_) => DNone
  }

  /** What a field that no argument supplied becomes: its default under
      `#[serde(default)]`, None for an Option, else a missing-field error. */
  function MissingValue(f: Field): (r: Parsed<Decoded>)
    ensures r.Err? <==> !f.hasDefault && !f.ty.OptionType?
    ensures f.hasDefault ==> r == Ok(DefaultValue(f.ty))
  {
    if f.hasDefault then Ok(DefaultValue(f.ty))
    else if f.ty.OptionType? then Ok(DNone)
    else Err(DeserializeError("missing field `" + f.name + "`"))
  }

  // ---------------------------------------------------------------------
  // Decoding one value
  // ---------------------------------------------------------------------

  predicate NestedVec(v: A.Argument)
  {
    v.Vec? && exists i :: 0 <= i < |v.vec| && v.vec[i].Vec?
  }

  /** serde's message when visit_u64 gets a number the target type cannot hold. */
  function OutOfRange(n: nat, typeName: string): string
  {
    "invalid value: integer `" + NatText(n) + "`, expected " + typeName
  }

  /** A scalar read outside a list. */
  function ScalarValue(t: Scalar, v: A.Argument): (r: Outcome<Parsed<Decoded>>)
    ensures r.Panics? <==> t.AnyType? && NestedVec(v)
  {
    match t
    case IntType(typeName, limit) =>
      if !v.Int? then Returns(Err(TypeError(A.TypeName(v), "int")))
      else if v.num < limit then Returns(Ok(DInt(v.num)))
      else Returns(Err(DeserializeError(OutOfRange(v.num, typeName))))
    case StrType =>
      if v.String? then Returns(Ok(DStr(v.str)))
      else Returns(Err(TypeError(A.TypeName(v), "string")))
    case AnyType =>
      if NestedVec(v) then Panics(STACK_OVERFLOW) else Returns(Ok(DArg(v)))
  }

  /** A scalar read as an element of a list. */
  function ElementValue(t: Scalar, x: A.Argument): (r: Outcome<Parsed<Decoded>>)
    ensures r.Panics? <==> t.AnyType? && x.Vec?
  {
    if t.AnyType? && x.Vec? then Panics(STACK_OVERFLOW) else ScalarValue(t, x)
  }

  /** `acc` in front of a successful list result; other outcomes pass. */
  function Prepend(acc: seq<Decoded>, r: Outcome<Parsed<seq<Decoded>>>): Outcome<Parsed<seq<Decoded>>>
  {
    if r.Returns? && r.value.Ok? then Returns(Ok(acc + r.value.value)) else r
  }

  /** The elements of a list, left to right; the first failure wins. */
  function ElementsValue(t: Scalar, xs: seq<A.Argument>): (r: Outcome<Parsed<seq<Decoded>>>)
    ensures r.Returns? && r.value.Ok? ==> |r.value.value| == |xs|
  {
    if xs == [] then Returns(Ok([]))
    else
      var first := ElementValue(t, xs[0]);
      if first.Panics? then Panics(first.reason)
      else if first.value.Err? then Returns(Err(first.value.error))
      else Prepend([first.value.value], ElementsValue(t, xs[1..]))
  }

  /** The value a field of type `ty` reads from the argument value `v`. */
  function FieldValue(ty: FieldType, v: A.Argument): Outcome<Parsed<Decoded>>
  {
    match ty
    case Plain(t) => ScalarValue(t, v)
    case BoolType => if v.None? then Returns(Ok(DBool(true))) else Panics(NONE_ASSERT)
    case UnitType =>
      if v.None? then Returns(Ok(DUnit)) else Returns(Err(TypeError(A.TypeName(v), "none")))
    case SeqType(elem) =>
      if !v.Vec? then Returns(Err(TypeError(A.TypeName(v), "vec")))
      else
        var r := ElementsValue(elem, v.vec);
        if r.Panics? then Panics(r.reason)
        else if r.value.Err? then Returns(Err(r.value.error))
        else Returns(Ok(DSeq(r.value.value)))
    case OptionType(inner) =>
      if v.None? then Returns(Ok(DNone))
      else
        var r := ScalarValue(inner, v);
        if r.Panics? then r
        else if r.value.Err? then r
        else Returns(Ok(DSome(r.value.value)))
  }

  /** Whether reading the field moves past the argument: deserialize_option
      answers None for a None value without consuming it. */
  predicate Consumes(ty: FieldType, v: A.Argument)
  {
    !(ty.OptionType? && v.None?)
  }

  // ---------------------------------------------------------------------
  // Binding names to fields
  // ---------------------------------------------------------------------

  function Names(args: seq<NamedArgument>): (r: seq<string>)
    ensures |r| == |args|
    ensures forall i :: 0 <= i < |args| ==> r[i] == args[i].0
  {
    if args == [] then [] else [args[0].0] + Names(args[1..])
  }

  /** The positional fields: the declared names that no argument uses, in
      declaration order. */
  function PositionalFields(fields: seq<Field>, names: seq<string>): (r: seq<string>)
    ensures |r| <= |fields|
    ensures forall x :: x in r <==> x in FieldNames(fields) && x !in names
  {
    if fields == [] then []
    else
      var rest := PositionalFields(fields[1..], names);
      assert FieldNames(fields) == [fields[0].name] + FieldNames(fields[1..]);
      if fields[0].name in names then rest else [fields[0].name] + rest
  }

  function Reverse(s: seq<string>): (r: seq<string>)
    ensures |r| == |s|
  {
    if s == [] then [] else Reverse(s[1..]) + [s[0]]
  }

  function CountUnnamed(names: seq<string>): nat
  {
    if names == [] then 0 else (if names[0] == "" then 1 else 0) + CountUnnamed(names[1..])
  }

  /** The name each argument is read under: its own, or for an unnamed
      argument the next free positional field; None when they run out. */
  function Resolve(names: seq<string>, free: seq<string>): (r: Option<seq<string>>)
    ensures r.Some? <==> CountUnnamed(names) <= |free|
    ensures r.Some? ==> |r.value| == |names|
    ensures r.Some? ==> forall j :: 0 <= j < |names| && names[j] != "" ==> r.value[j] == names[j]
  {
    if names == [] then Some([])
    else if names[0] == "" then
      if free == [] then None
      else
        var rest := Resolve(names[1..], free[1..]);
        if rest.None? then None else Some([free[0]] + rest.value)
    else
      var rest := Resolve(names[1..], free);
      if rest.None? then None else Some([names[0]] + rest.value)
  }

  /** Unnamed arguments take the free positional fields in order: the j-th
      argument, when unnamed, takes free field number k where k counts the
      unnamed arguments before it. */
  lemma {:induction false} ResolvePositional(names: seq<string>, free: seq<string>, j: nat)
    requires Resolve(names, free).Some? && j < |names| && names[j] == ""
    ensures CountUnnamed(names[..j]) < |free|
    ensures Resolve(names, free).value[j] == free[CountUnnamed(names[..j])]
    decreases |names|
  {
    if j > 0 {
      var rest := if names[0] == "" then free[1..] else free;
      assert names[1..][..j - 1] == names[..j][1..];
      ResolvePositional(names[1..], rest, j - 1);
    }
  }

  /** The first position of `name` in `ns`. */
  function Lookup(ns: seq<string>, name: string): (r: Option<nat>)
    ensures r.Some? ==> r.value < |ns| && ns[r.value] == name
    ensures r.None? <==> name !in ns
  {
    if ns == [] then None
    else if ns[0] == name then Some(0)
    else match Lookup(ns[1..], name)
      case None => None
      case Some(k) => Some(k + 1)
  }

  /** The serde-derived struct visitor after the loop: every field that no
      argument filled takes MissingValue, in declaration order. */
  function Complete(fields: seq<Field>, slots: seq<Option<Decoded>>): (r: Parsed<seq<Decoded>>)
    requires |slots| == |fields|
    ensures r.Err? <==> exists i :: 0 <= i < |fields| && slots[i].None? && MissingValue(fields[i]).Err?
    ensures r.Ok? ==> |r.value| == |fields|
    ensures r.Ok? ==> forall i :: 0 <= i < |fields| ==>
      r.value[i] == (if slots[i].Some? then slots[i].value else MissingValue(fields[i]).value)
  {
    if fields == [] then Ok([])
    else
      var first := if slots[0].Some? then Ok(slots[0].value) else MissingValue(fields[0]);
      var rest := Complete(fields[1..], slots[1..]);
      if first.Err? then Err(first.error)
      else if rest.Err? then rest
      else
        assert forall i :: 1 <= i < |fields| ==> fields[1..][i - 1] == fields[i] && slots[1..][i - 1] == slots[i];
        Ok([first.value] + rest.value)
  }

  /** The struct visitor's loop, from the arguments still unread: `free`
      holds the positional fields not yet taken, `slots` the fields filled
      so far. */
  function Walk(args: seq<NamedArgument>, fields: seq<Field>, free: seq<string>, slots: seq<Option<Decoded>>)
    : Outcome<Parsed<seq<Decoded>>>
    requires |slots| == |fields|
    decreases |args|
  {
    if args == [] then Returns(Complete(fields, slots))
    else if args[0].0 == "" && free == [] then Returns(Err(TooManyPositionalArguments))
    else
      var name := if args[0].0 != "" then args[0].0 else free[0];
      var rest := if args[0].0 != "" then free else free[1..];
      match FieldIndex(fields, name)
      case None => Walk(args[1..], fields, rest, slots)
      case Some(i) =>
        if slots[i].Some? then Returns(Err(DeserializeError("duplicate field `" + name + "`")))
        else
          var v := FieldValue(fields[i].ty, args[0].1);
          if v.Panics? then Panics(v.reason)
          else if v.value.Err? then Returns(Err(v.value.error))
          else if !Consumes(fields[i].ty, args[0].1) then Panics(IDENT_ASSERT)
          else Walk(args[1..], fields, rest, slots[i := Some(v.value.value)])
  }

  function NoSlots(n: nat): (r: seq<Option<Decoded>>)
    ensures |r| == n && forall i :: 0 <= i < n ==> r[i].None?
  {
    seq(n, _ => None)
  }

  /** parse_args for a struct with the given fields. */
  function Bind(args: seq<NamedArgument>, fields: seq<Field>): Outcome<Parsed<seq<Decoded>>>
  {
    if |args| > |fields| then Returns(Err(TooManyArguments(|args|, |fields|)))
    else Walk(args, fields, PositionalFields(fields, Names(args)), NoSlots(|fields|))
  }

  // ---------------------------------------------------------------------
  // What the binding means
  // ---------------------------------------------------------------------

  /** Field `f` holds `d` after binding: the value of the argument whose
      resolved name is f's (and then nothing filled it before), else what it
      already held, else its MissingValue. */
  predicate Filled(args: seq<NamedArgument>, ns: seq<string>, f: Field, slot: Option<Decoded>, d: Decoded)
    requires |ns| == |args|
  {
    match Lookup(ns, f.name)
    case Some(j) => slot.None? && FieldValue(f.ty, args[j].1) == Returns(Ok(d))
    case None =>
      if slot.Some? then d == slot.value else MissingValue(f) == Ok(d)
  }

  lemma LookupCons(n: string, ns: seq<string>, name: string)
    ensures Lookup([n] + ns, name) ==
      (if n == name then Some(0) else if Lookup(ns, name).None? then None else Some(Lookup(ns, name).value + 1))
  {
    assert ([n] + ns)[1..] == ns;
  }

  lemma {:induction false} WalkMeaning(args: seq<NamedArgument>, fields: seq<Field>, free: seq<string>,
                                       slots: seq<Option<Decoded>>, vals: seq<Decoded>)
    requires DistinctFieldNames(fields) && |slots| == |fields|
    requires Walk(args, fields, free, slots) == Returns(Ok(vals))
    ensures Resolve(Names(args), free).Some?
    ensures |vals| == |fields|
    ensures forall i :: 0 <= i < |fields| ==>
      Filled(args, Resolve(Names(args), free).value, fields[i], slots[i], vals[i])
    decreases |args|
  {
    if args == [] {
      assert Complete(fields, slots) == Ok(vals);
    } else {
      var names := Names(args);
      assert names[1..] == Names(args[1..]);
      var named := args[0].0 != "";
      var name := if named then args[0].0 else free[0];
      var rest := if named then free else free[1..];
      var ns' := Resolve(Names(args[1..]), rest);
      match FieldIndex(fields, name)
      case None =>
        WalkMeaning(args[1..], fields, rest, slots, vals);
        var ns := [name] + ns'.value;
        assert Resolve(names, free) == Some(ns);
        forall i | 0 <= i < |fields|
          ensures Filled(args, ns, fields[i], slots[i], vals[i])
        {
          FilledShift(args, name, ns'.value, fields[i], slots[i], vals[i]);
        }
      case Some(i0) =>
        var d := FieldValue(fields[i0].ty, args[0].1).value.value;
        var slots' := slots[i0 := Some(d)];
        WalkMeaning(args[1..], fields, rest, slots', vals);
        var ns := [name] + ns'.value;
        assert Resolve(names, free) == Some(ns);
        forall i | 0 <= i < |fields|
          ensures Filled(args, ns, fields[i], slots[i], vals[i])
        {
          if i == i0 {
            FilledHere(args, name, ns'.value, fields[i], d, vals[i]);
          } else {
            FilledShift(args, name, ns'.value, fields[i], slots[i], vals[i]);
          }
        }
    }
  }

  /** A field other than the first argument's is filled as it was by the
      later arguments. */
  lemma FilledShift(args: seq<NamedArgument>, name: string, ns: seq<string>, f: Field, slot: Option<Decoded>, d: Decoded)
    requires |args| >= 1 && |ns| == |args| - 1 && f.name != name
    requires Filled(args[1..], ns, f, slot, d)
    ensures Filled(args, [name] + ns, f, slot, d)
  {
    LookupCons(name, ns, f.name);
  }

  /** The field the first argument names holds the value read from it. */
  lemma FilledHere(args: seq<NamedArgument>, name: string, ns: seq<string>, f: Field, d: Decoded, d': Decoded)
    requires |args| >= 1 && |ns| == |args| - 1 && f.name == name
    requires Filled(args[1..], ns, f, Some(d), d')
    requires FieldValue(f.ty, args[0].1) == Returns(Ok(d))
    ensures Filled(args, [name] + ns, f, None, d')
  {
    LookupCons(name, ns, f.name);
  }

  /** The binding theorem: when parse_args succeeds, every argument has a
      name (its own, or the next positional field), there were no more
      arguments than fields, and each field holds the value read from the
      argument with its name, or its MissingValue when there is none. */
  lemma BindMeaning(args: seq<NamedArgument>, fields: seq<Field>, vals: seq<Decoded>)
    requires DistinctFieldNames(fields)
    requires Bind(args, fields) == Returns(Ok(vals))
    ensures |args| <= |fields| && |vals| == |fields|
    ensures Resolve(Names(args), PositionalFields(fields, Names(args))).Some?
    ensures forall i :: 0 <= i < |fields| ==>
      Filled(args, Resolve(Names(args), PositionalFields(fields, Names(args))).value, fields[i], None, vals[i])
  {
    WalkMeaning(args, fields, PositionalFields(fields, Names(args)), NoSlots(|fields|), vals);
  }

  lemma {:induction false} LookupAt(ns: seq<string>, name: string, i: nat)
    requires i < |ns| && ns[i] == name && forall k :: 0 <= k < i ==> ns[k] != name
    ensures Lookup(ns, name) == Some(i)
    decreases i
  {
    if i > 0 {
      LookupAt(ns[1..], name, i - 1);
    }
  }

  lemma {:induction false} PositionalAll(fields: seq<Field>, names: seq<string>)
    requires forall i :: 0 <= i < |fields| ==> fields[i].name !in names
    ensures PositionalFields(fields, names) == FieldNames(fields)
    decreases |fields|
  {
    if fields != [] {
      PositionalAll(fields[1..], names);
    }
  }

  lemma {:induction false} CountAllUnnamed(names: seq<string>)
    requires forall j :: 0 <= j < |names| ==> names[j] == ""
    ensures CountUnnamed(names) == |names|
    decreases |names|
  {
    if names != [] {
      CountAllUnnamed(names[1..]);
    }
  }

  /** With only unnamed arguments, argument j is read under field j's name. */
  lemma PositionalName(args: seq<NamedArgument>, fields: seq<Field>, j: nat)
    requires forall i :: 0 <= i < |fields| ==> fields[i].name != ""
    requires forall k :: 0 <= k < |args| ==> args[k].0 == ""
    requires Resolve(Names(args), PositionalFields(fields, Names(args))).Some?
    requires j < |args|
    ensures j < |fields| && Resolve(Names(args), PositionalFields(fields, Names(args))).value[j] == fields[j].name
  {
    var names := Names(args);
    assert forall i :: 0 <= i < |fields| ==> fields[i].name !in names;
    PositionalAll(fields, names);
    var free := FieldNames(fields);
    ResolvePositional(names, free, j);
    CountAllUnnamed(names[..j]);
  }

  /** A call with only unnamed arguments fills the fields in declaration
      order: argument i goes to field i, and the remaining fields take their
      MissingValue. */
  lemma PositionalOnly(args: seq<NamedArgument>, fields: seq<Field>, vals: seq<Decoded>)
    requires DistinctFieldNames(fields)
    requires forall i :: 0 <= i < |fields| ==> fields[i].name != ""
    requires forall j :: 0 <= j < |args| ==> args[j].0 == ""
    requires Bind(args, fields) == Returns(Ok(vals))
    ensures |args| <= |fields| == |vals|
    ensures forall i :: 0 <= i < |args| ==> FieldValue(fields[i].ty, args[i].1) == Returns(Ok(vals[i]))
    ensures forall i :: |args| <= i < |fields| ==> MissingValue(fields[i]) == Ok(vals[i])
  {
    BindMeaning(args, fields, vals);
    var ns := Resolve(Names(args), PositionalFields(fields, Names(args))).value;
    forall i | 0 <= i < |fields|
      ensures i < |args| ==> FieldValue(fields[i].ty, args[i].1) == Returns(Ok(vals[i]))
      ensures i >= |args| ==> MissingValue(fields[i]) == Ok(vals[i])
    {
      assert Filled(args, ns, fields[i], None, vals[i]);
      if i < |args| {
        forall k | 0 <= k <= i
          ensures ns[k] == fields[k].name
        {
          PositionalName(args, fields, k);
        }
        LookupAt(ns, fields[i].name, i);
      } else {
        forall k | 0 <= k < |args|
          ensures ns[k] == fields[k].name
        {
          PositionalName(args, fields, k);
        }
        assert fields[i].name !in ns;
      }
    }
  }

  /** A flag (`bool` with `#[serde(default)]`) is true exactly when its name
      is given, with no value. */
  lemma FlagPresence(name: string)
    requires name != ""
    ensures Bind([(name, A.None)], [Field(name, BoolType, true)]) == Returns(Ok([DBool(true)]))
    ensures Bind([], [Field(name, BoolType, true)]) == Returns(Ok([DBool(false)]))
  {
    var fields := [Field(name, BoolType, true)];
    assert FieldIndex(fields, name) == Some(0);
    assert Names([(name, A.None)]) == [name];
    assert PositionalFields(fields, [name]) == [];
    var filled: seq<Option<Decoded>> := [Some(DBool(true))];
    assert NoSlots(1)[0 := Some(DBool(true))] == filled;
    var c := Complete(fields, filled);
    assert c.Ok? && |c.value| == 1 && c.value[0] == DBool(true);
    assert c.value == [DBool(true)];
    var args := [(name, A.None)];
    assert args[1..] == [];
    assert Walk(args[1..], fields, [], filled) == Returns(c);
    assert FieldValue(BoolType, A.None) == Returns(Ok(DBool(true)));
    var e := Complete(fields, NoSlots(1));
    assert MissingValue(fields[0]) == Ok(DBool(false));
    assert e.Ok? && |e.value| == 1 && e.value[0] == DBool(false);
    assert e.value == [DBool(false)];
  }

  /** An Option field given by name without a value is read as None but not
      consumed; the visitor's next key read then fails the key-mode assertion. */
  lemma OptionWithoutValueAborts(name: string, t: Scalar)
    requires name != ""
    ensures Bind([(name, A.None)], [Field(name, OptionType(t), false)]).Panics?
  {
    assert FieldIndex([Field(name, OptionType(t), false)], name) == Some(0);
  }

  // ---------------------------------------------------------------------
  // The cursor
  // ---------------------------------------------------------------------

  function ArgumentsOf(ds: seq<Decoded>): (r: seq<A.Argument>)
    ensures |r| == |ds|
  {
    seq(|ds|, i requires 0 <= i < |ds| => if ds[i].DArg? then ds[i].arg else A.None)
  }

  /** The elements of a Vec without nested Vecs, read as api Arguments,
      rebuild that Vec. */
  lemma {:induction false} AnyElements(xs: seq<A.Argument>)
    requires forall i :: 0 <= i < |xs| ==> !xs[i].Vec?
    ensures ElementsValue(AnyType, xs).Returns? && ElementsValue(AnyType, xs).value.Ok?
    ensures ArgumentsOf(ElementsValue(AnyType, xs).value.value) == xs
    decreases |xs|
  {
    if xs != [] {
      AnyElements(xs[1..]);
      var ds := ElementsValue(AnyType, xs[1..]).value.value;
      assert ElementsValue(AnyType, xs).value.value == [DArg(xs[0])] + ds;
      assert ArgumentsOf([DArg(xs[0])] + ds) == [xs[0]] + ArgumentsOf(ds);
      assert [xs[0]] + xs[1..] == xs;
    }
  }

  /** An element that panics in the list makes the whole list panic. */
  lemma {:induction false} ElementsPanic(t: Scalar, xs: seq<A.Argument>)
    requires t.AnyType? && exists i :: 0 <= i < |xs| && xs[i].Vec?
    ensures ElementsValue(t, xs).Panics?
    decreases |xs|
  {
    if !xs[0].Vec? {
      var i :| 0 <= i < |xs| && xs[i].Vec?;
      assert xs[1..][i - 1].Vec?;
      ElementsPanic(t, xs[1..]);
    }
  }

  /** Reading a Vec as api Arguments: it overflows exactly when an element
      is itself a Vec, and otherwise rebuilds the Vec. */
  lemma AnyVec(xs: seq<A.Argument>)
    ensures ElementsValue(AnyType, xs).Panics? <==> exists i :: 0 <= i < |xs| && xs[i].Vec?
    ensures !ElementsValue(AnyType, xs).Panics? ==>
      ElementsValue(AnyType, xs).value.Ok? && ArgumentsOf(ElementsValue(AnyType, xs).value.value) == xs
  {
    if exists i :: 0 <= i < |xs| && xs[i].Vec? {
      ElementsPanic(AnyType, xs);
    } else {
      AnyElements(xs);
    }
  }

  lemma PrependAppend(acc: seq<Decoded>, d: Decoded, r: Outcome<Parsed<seq<Decoded>>>)
    ensures Prepend(acc, Prepend([d], r)) == Prepend(acc + [d], r)
  {
    if r.Returns? && r.value.Ok? {
      assert acc + ([d] + r.value.value) == (acc + [d]) + r.value.value;
    }
  }

  class Deserializer {
    var args: seq<NamedArgument>
    /** Key mode: the next thing to read is an argument name. */
    var ident: bool
    /** The positional field names, in reverse order. */
    var posFields: Option<seq<string>>
    /** The position of the next element inside a Vec value. */
    var listPos: Option<nat>

    constructor FromArgs(args: seq<NamedArgument>)
      ensures this.args == args && ident && posFields == None && listPos == None
    {
      this.args := args;
      ident := true;
      posFields := None;
      listPos := None;
    }

    /** The next value without moving: the element at list_pos inside a
        Vec, else the current argument's value; in key mode, an assertion
        failure. */
    function PeekNextValue(): (r: Outcome<A.Argument>)
      reads this
      ensures r.Returns? <==> (!ident && args != [] &&
        (listPos.Some? ==> args[0].1.Vec? && listPos.value < |args[0].1.vec|))
      ensures r.Returns? && listPos.Some? ==> r.value == args[0].1.vec[listPos.value]
      ensures r.Returns? && listPos.None? ==> r.value == args[0].1
    {
      if ident then Panics(VALUE_ASSERT)
      else if args == [] then Panics(OUT_OF_BOUNDS)
      else if listPos.None? then Returns(args[0].1)
      else if !args[0].1.Vec? then Panics(UNWRAP_NONE)
      else if listPos.value >= |args[0].1.vec| then Panics(OUT_OF_BOUNDS)
      else Returns(args[0].1.vec[listPos.value])
    }

    /** The cursor moved past one value: to the next element inside a Vec,
        else to the next argument, in key mode. */
    predicate Advanced(args0: seq<NamedArgument>, pos0: Option<nat>)
      reads this
    {
      if pos0.Some? then args == args0 && !ident && listPos == Some(pos0.value + 1)
      else args0 != [] && args == args0[1..] && ident && listPos.None?
    }

    /** next_key: the current argument's name; the cursor turns to value mode. */
    method NextKey() returns (r: Outcome<string>)
      modifies this
      ensures r.Panics? <==> !old(ident) || old(listPos).Some? || old(args) == []
      ensures r.Returns? ==> r.value == old(args)[0].0 && !ident
      ensures args == old(args) && posFields == old(posFields) && listPos == old(listPos)
    {
      if !ident {
        return Panics(IDENT_ASSERT);
      }
      if listPos.Some? {
        return Panics(LIST_ASSERT);
      }
      ident := false;
      if args == [] {
        return Panics(OUT_OF_BOUNDS);
      }
      return Returns(args[0].0);
    }

    /** next_value: what PeekNextValue shows, and the cursor advances. */
    method NextValue() returns (r: Outcome<A.Argument>)
      modifies this
      ensures r == old(PeekNextValue())
      ensures r.Returns? ==> Advanced(old(args), old(listPos))
      ensures posFields == old(posFields)
    {
      r := PeekNextValue();
      if r.Panics? {
        return;
      }
      if listPos.Some? {
        listPos := Some(listPos.value + 1);
        return;
      }
      args := args[1..];
      ident := true;
    }

    /** deserialize_u64, which every integer width calls; the visitor of
        the target type rejects a number outside its range. */
    method DeserializeU64(typeName: string, limit: nat) returns (r: Outcome<Parsed<Decoded>>)
      modifies this
      ensures old(PeekNextValue()).Panics? ==> r.Panics?
      ensures old(PeekNextValue()).Returns? ==>
        r == ScalarValue(IntType(typeName, limit), old(PeekNextValue()).value) &&
        Advanced(old(args), old(listPos))
      ensures posFields == old(posFields)
    {
      var value := NextValue();
      if value.Panics? {
        return Panics(value.reason);
      }
      var v := value.value;
      var n := A.AsInt(v);
      if n.None? {
        return Returns(Err(TypeError(A.TypeName(v), "int")));
      }
      if n.value < limit {
        return Returns(Ok(DInt(n.value)));
      }
      return Returns(Err(DeserializeError(OutOfRange(n.value, typeName))));
    }

    method DeserializeStr() returns (r: Outcome<Parsed<Decoded>>)
      modifies this
      ensures old(PeekNextValue()).Panics? ==> r.Panics?
      ensures old(PeekNextValue()).Returns? ==>
        r == ScalarValue(StrType, old(PeekNextValue()).value) && Advanced(old(args), old(listPos))
      ensures posFields == old(posFields)
    {
      var value := NextValue();
      if value.Panics? {
        return Panics(value.reason);
      }
      var v := value.value;
      var s := A.AsString(v);
      if s.None? {
        return Returns(Err(TypeError(A.TypeName(v), "string")));
      }
      return Returns(Ok(DStr(s.value)));
    }

    /** deserialize_bool: the value must be None; presence reads as true. */
    method DeserializeBool() returns (r: Outcome<Parsed<Decoded>>)
      modifies this
      ensures old(PeekNextValue()).Panics? ==> r.Panics?
      ensures old(PeekNextValue()).Returns? ==>
        r == FieldValue(BoolType, old(PeekNextValue()).value) && Advanced(old(args), old(listPos))
      ensures posFields == old(posFields)
    {
      var value := NextValue();
      if value.Panics? {
        return Panics(value.reason);
      }
      if !A.IsNone(value.value) {
        return Panics(NONE_ASSERT);
      }
      return Returns(Ok(DBool(true)));
    }

    method DeserializeUnit() returns (r: Outcome<Parsed<Decoded>>)
      modifies this
      ensures old(PeekNextValue()).Panics? ==> r.Panics?
      ensures old(PeekNextValue()).Returns? ==>
        r == FieldValue(UnitType, old(PeekNextValue()).value) && Advanced(old(args), old(listPos))
      ensures posFields == old(posFields)
    {
      var value := NextValue();
      if value.Panics? {
        return Panics(value.reason);
      }
      if A.IsNone(value.value) {
        return Returns(Ok(DUnit));
      }
      return Returns(Err(TypeError(A.TypeName(value.value), "none")));
    }

    /** deserialize_any, as the untagged api Argument calls it: dispatch on
        the variant of the next value. Inside a list a Vec element would
        re-enter deserialize_seq without end. */
    method DeserializeAny() returns (r: Outcome<Parsed<Decoded>>)
      modifies this
      ensures old(PeekNextValue()).Panics? ==> r.Panics?
      ensures old(PeekNextValue()).Returns? && old(listPos).Some? ==>
        r == ElementValue(AnyType, old(PeekNextValue()).value) &&
        (r.Returns? ==> Advanced(old(args), old(listPos)))
      ensures old(PeekNextValue()).Returns? && old(listPos).None? ==>
        Agrees(r, ScalarValue(AnyType, old(PeekNextValue()).value)) &&
        (r.Returns? ==> Advanced(old(args), old(listPos)))
      ensures posFields == old(posFields)
      decreases if listPos.None? then 1 else 0, 1
    {
      var peek := PeekNextValue();
      if peek.Panics? {
        return Panics(peek.reason);
      }
      var v := peek.value;
      match v
      case String(_) =>
        var s := DeserializeStr();
        return if s.Returns? && s.value.Ok? then Returns(Ok(DArg(A.String(s.value.value.s)))) else s;
      case Int(_) =>
        var n := DeserializeU64("u64", U64_LIMIT);
        return if n.Returns? && n.value.Ok? then Returns(Ok(DArg(A.Int(n.value.value.n)))) else n;
      case None =>
        var u := DeserializeUnit();
        return if u.Returns? && u.value.Ok? then Returns(Ok(DArg(A.None))) else u;
      case Vec(xs) =>
        if listPos.Some? {
          return Panics(STACK_OVERFLOW);
        }
        AnyVec(xs);
        var items := DeserializeSeq(AnyType);
        if items.Panics? {
          return Panics(items.reason);
        }
        return Returns(Ok(DArg(A.Vec(ArgumentsOf(items.value.value.items)))));
    }

    /** A scalar through its own deserialize call. */
    method DeserializeScalar(t: Scalar) returns (r: Outcome<Parsed<Decoded>>)
      modifies this
      ensures old(PeekNextValue()).Panics? ==> r.Panics?
      ensures old(PeekNextValue()).Returns? && old(listPos).Some? ==>
        r == ElementValue(t, old(PeekNextValue()).value) &&
        (r.Returns? ==> Advanced(old(args), old(listPos)))
      ensures old(PeekNextValue()).Returns? && old(listPos).None? ==>
        Agrees(r, ScalarValue(t, old(PeekNextValue()).value)) &&
        (r.Returns? ==> Advanced(old(args), old(listPos)))
      ensures posFields == old(posFields)
      decreases if listPos.None? then 1 else 0, 2
    {
      match t
      case IntType(typeName, limit) =>
        r := DeserializeU64(typeName, limit);
      case StrType =>
        r := DeserializeStr();
      case AnyType =>
        r := DeserializeAny();
    }

    /** SeqAccessor::next_element_seed: past the last element, leave the
        list and consume the Vec argument; otherwise read one element. */
    method NextElement(t: Scalar) returns (r: Outcome<Parsed<Option<Decoded>>>)
      requires listPos.Some? && !ident && args != [] && args[0].1.Vec?
      modifies this
      ensures old(listPos.value) >= |old(args)[0].1.vec| ==>
        r == Returns(Ok(None)) && Advanced(old(args), None)
      ensures old(listPos.value) < |old(args)[0].1.vec| ==>
        var e := ElementValue(t, old(args)[0].1.vec[old(listPos.value)]);
        (r.Panics? <==> e.Panics?) &&
        (r.Returns? ==> (e.value.Err? ==> r == Returns(Err(e.value.error))) &&
                        (e.value.Ok? ==> r == Returns(Ok(Some(e.value.value))))) &&
        (r.Returns? ==> Advanced(old(args), old(listPos)))
      ensures posFields == old(posFields)
      decreases 0, 3
    {
      if listPos.value >= |args[0].1.vec| {
        listPos := None;
        var _ := NextValue();
        return Returns(Ok(None));
      }
      var e := DeserializeScalar(t);
      if e.Panics? {
        return Panics(e.reason);
      }
      if e.value.Err? {
        return Returns(Err(e.value.error));
      }
      return Returns(Ok(Some(e.value.value)));
    }

    /** deserialize_seq: the next value must be a Vec; its elements are read
        from list_pos 0 until SeqAccessor finds the end and consumes the
        argument. */
    method DeserializeSeq(elem: Scalar) returns (r: Outcome<Parsed<Decoded>>)
      modifies this
      ensures old(PeekNextValue()).Panics? ==> r.Panics?
      ensures old(PeekNextValue()).Returns? && old(listPos).None? ==>
        Agrees(r, FieldValue(SeqType(elem), old(PeekNextValue()).value)) &&
        (r.Returns? && r.value.Ok? ==> Advanced(old(args), None))
      ensures old(PeekNextValue()).Returns? && old(listPos).Some? ==>
        (r.Panics? <==> old(PeekNextValue()).value.Vec?)
      ensures posFields == old(posFields)
      decreases if listPos.None? then 1 else 0, 0
    {
      var peek := PeekNextValue();
      if peek.Panics? {
        return Panics(peek.reason);
      }
      var v := peek.value;
      var xs := A.AsVec(v);
      if xs.None? {
        return Returns(Err(TypeError(A.TypeName(v), "vec")));
      }
      if listPos.Some? {
        return Panics(STACK_OVERFLOW);
      }
      ghost var args0 := args;
      ghost var spec := ElementsValue(elem, xs.value);
      listPos := Some(0);
      var items: seq<Decoded> := [];
      assert xs.value[0..] == xs.value;
      assert Prepend([], spec) == spec by {
        if spec.Returns? && spec.value.Ok? {
          assert [] + spec.value.value == spec.value.value;
        }
      }
      while true
        invariant |items| <= |xs.value|
        invariant args == args0 && !ident && listPos == Some(|items|) && posFields == old(posFields)
        invariant args0 != [] && args0[0].1 == v
        invariant spec == Prepend(items, ElementsValue(elem, xs.value[|items|..]))
        decreases |xs.value| - |items|
      {
        var k := |items|;
        if k < |xs.value| {
          assert xs.value[k..][0] == xs.value[k];
          assert xs.value[k..][1..] == xs.value[k + 1..];
        } else {
          assert xs.value[k..] == [];
          assert items + [] == items;
        }
        var next := NextElement(elem);
        if next.Panics? {
          return Panics(next.reason);
        }
        if next.value.Err? {
          return Returns(Err(next.value.error));
        }
        if next.value.value.None? {
          return Returns(Ok(DSeq(items)));
        }
        PrependAppend(items, next.value.value.value, ElementsValue(elem, xs.value[k + 1..]));
        items := items + [next.value.value.value];
      }
    }

    /** deserialize_option: a None value reads as None and is left unread;
        anything else is read as the inner type. */
    method DeserializeOption(inner: Scalar) returns (r: Outcome<Parsed<Decoded>>)
      modifies this
      ensures old(PeekNextValue()).Panics? ==> r.Panics?
      ensures old(PeekNextValue()).Returns? && old(listPos).None? ==>
        Agrees(r, FieldValue(OptionType(inner), old(PeekNextValue()).value)) &&
        (r.Returns? && r.value.Ok? ==>
          if old(PeekNextValue()).value.None? then args == old(args) && ident == old(ident) && listPos == old(listPos)
          else Advanced(old(args), None))
      ensures posFields == old(posFields)
    {
      var peek := PeekNextValue();
      if peek.Panics? {
        return Panics(peek.reason);
      }
      if A.IsNone(peek.value) {
        return Returns(Ok(DNone));
      }
      var s := DeserializeScalar(inner);
      return if s.Returns? && s.value.Ok? then Returns(Ok(DSome(s.value.value))) else s;
    }

    /** The Deserialize impl of a field's type, called in value mode by
        MapAccessor::next_value_seed. */
    method DeserializeField(ty: FieldType) returns (r: Outcome<Parsed<Decoded>>)
      requires !ident && args != [] && listPos.None?
      modifies this
      ensures Agrees(r, FieldValue(ty, old(args)[0].1))
      ensures r.Returns? && r.value.Ok? ==> (listPos.None? &&
        if Consumes(ty, old(args)[0].1) then args == old(args)[1..] && ident else args == old(args) && !ident)
      ensures posFields == old(posFields)
    {
      match ty
      case Plain(t) =>
        r := DeserializeScalar(t);
      case BoolType =>
        r := DeserializeBool();
      case UnitType =>
        r := DeserializeUnit();
      case SeqType(elem) =>
        r := DeserializeSeq(elem);
      case OptionType(inner) =>
        r := DeserializeOption(inner);
    }

    /** deserialize_identifier: the argument's name, or for an unnamed
        argument the next positional field, popped from the end of the
        reversed list. */
    method DeserializeIdentifier() returns (r: Outcome<Parsed<string>>)
      modifies this
      ensures r.Panics? <==> (!old(ident) || old(listPos).Some? || old(args) == [] ||
        (old(args)[0].0 == "" && old(posFields).None?))
      ensures r.Returns? ==> !ident && args == old(args) && listPos == old(listPos)
      ensures r.Returns? && old(args)[0].0 != "" ==> r.value == Ok(old(args)[0].0) && posFields == old(posFields)
      ensures r.Returns? && old(args)[0].0 == "" && old(posFields).value == [] ==>
        r.value == Err(TooManyPositionalArguments)
      ensures r.Returns? && old(args)[0].0 == "" && old(posFields).value != [] ==>
        var stack := old(posFields).value;
        r.value == Ok(stack[|stack| - 1]) && posFields == Some(stack[..|stack| - 1])
    {
      var key := NextKey();
      if key.Panics? {
        return Panics(key.reason);
      }
      var value := key.value;
      if value == "" {
        if posFields.None? {
          return Panics(UNWRAP_NONE);
        }
        var stack := posFields.value;
        if stack == [] {
          return Returns(Err(TooManyPositionalArguments));
        }
        posFields := Some(stack[..|stack| - 1]);
        value := stack[|stack| - 1];
      }
      return Returns(Ok(value));
    }

    /** deserialize_ignored_any: an argument whose name is no field is read
        and dropped. */
    method DeserializeIgnoredAny() returns (r: Outcome<Parsed<Decoded>>)
      modifies this
      ensures r.Panics? <==> old(PeekNextValue()).Panics?
      ensures r.Returns? ==> r.value == Ok(DUnit) && Advanced(old(args), old(listPos))
      ensures posFields == old(posFields)
    {
      var value := NextValue();
      if value.Panics? {
        return Panics(value.reason);
      }
      return Returns(Ok(DUnit));
    }

    /** deserialize_struct and the struct visitor serde derives: reject more
        arguments than fields, compute the positional fields, then read
        key/value pairs through MapAccessor until the arguments run out. */
    method DeserializeStruct(fields: seq<Field>) returns (r: Outcome<Parsed<seq<Decoded>>>)
      modifies this
      ensures !old(ident) || old(posFields).Some? ==> r.Panics?
      ensures old(ident) && old(posFields).None? && old(listPos).None? ==> Agrees(r, Bind(old(args), fields))
      ensures r.Returns? && r.value.Ok? ==> args == []
    {
      if !ident {
        return Panics(IDENT_ASSERT);
      }
      if posFields.Some? {
        return Panics(POS_ASSERT);
      }
      if |args| > |fields| {
        return Returns(Err(TooManyArguments(|args|, |fields|)));
      }
      var free := PositionalFields(fields, Names(args));
      posFields := Some(Reverse(free));
      ghost var spec := Bind(args, fields);
      ghost var rest := free;
      var slots := NoSlots(|fields|);
      while args != []
        invariant posFields == Some(Reverse(rest)) && |slots| == |fields| && listPos == old(listPos)
        invariant old(listPos).None? && ident ==> Walk(args, fields, rest, slots) == spec
        invariant old(listPos).None? && !ident ==> spec.Panics?
        invariant !ident ==> args != []
        decreases |args|, if ident then 1 else 0
      {
        var key := DeserializeIdentifier();
        if key.Panics? {
          return Panics(key.reason);
        }
        if key.value.Err? {
          return Returns(Err(key.value.error));
        }
        var name := key.value.value;
        if args[0].0 == "" {
          assert Reverse(rest) == Reverse(rest[1..]) + [rest[0]];
          rest := rest[1..];
        }
        var index := FieldIndex(fields, name);
        if index.None? {
          var _ := DeserializeIgnoredAny();
          continue;
        }
        var i := index.value;
        if slots[i].Some? {
          return Returns(Err(DeserializeError("duplicate field `" + name + "`")));
        }
        var v := DeserializeField(fields[i].ty);
        if v.Panics? {
          return Panics(v.reason);
        }
        if v.value.Err? {
          return Returns(Err(v.value.error));
        }
        slots := slots[i := Some(v.value.value)];
      }
      return Returns(Complete(fields, slots));
    }
  }

  /** parse_args: read the struct, then assert that every argument was read. */
  method ParseArgs(args: seq<NamedArgument>, fields: seq<Field>) returns (r: Outcome<Parsed<seq<Decoded>>>)
    ensures Agrees(r, Bind(args, fields))
  {
    var deserializer := new Deserializer.FromArgs(args);
    r := deserializer.DeserializeStruct(fields);
    if r.Returns? && r.value.Ok? && deserializer.args != [] {
      return Panics(ARGS_ASSERT);
    }
  }
}

=== FILE: http2.dfy ===
/** The HTTP/2 client component (components/http2/src/lib.rs): the
    configured path and port are normalised, and the request goes to
    https://domain/path. */
module Http2 {
  import opened Bytes

  /** The parsed configuration; an absent path is "" and an absent port
      is 0. */
  datatype Config = Config(domain: string, path: string, port: u16, outputs: seq<string>, functionName: string)

  datatype Actor = Actor(domain: string, path: string, port: u16)

  const HTTPS_PORT: u16 := 443
  const SCHEME := "https://"

  /** A path not starting with "/" gets one in front. */
  function NormalizePath(path: string): (p: string)
    ensures |p| >= 1 && p[0] == '/'
    ensures p == path || p == "/" + path
  {
    if |path| >= 1 && path[0] == '/' then path else "/" + path
  }

  /** Port 0 means the HTTPS port. */
  function NormalizePort(port: u16): (p: u16)
    ensures p != 0
    ensures port != 0 ==> p == port
  {
    if port == 0 then HTTPS_PORT else port
  }

  /** Actor::new. */
  function NewActor(config: Config): (a: Actor)
    ensures a.domain == config.domain
    ensures a.path == NormalizePath(config.path) && a.port == NormalizePort(config.port)
  {
    Actor(config.domain, NormalizePath(config.path), NormalizePort(config.port))
  }

  /** A path gains a "/" exactly when it lacks one, so the empty path
      becomes "/", and normalising twice is normalising once. */
  lemma NormalizePathMeaning(path: string)
    ensures (|path| >= 1 && path[0] == '/') <==> NormalizePath(path) == path
    ensures NormalizePath("") == "/"
    ensures NormalizePath(NormalizePath(path)) == NormalizePath(path)
  {
    if !(|path| >= 1 && path[0] == '/') {
      assert |NormalizePath(path)| == |path| + 1;
    }
  }

  /** A port is changed only when it is 0, and then to 443. */
  lemma NormalizePortMeaning(port: u16)
    ensures NormalizePort(port) == port <==> port != 0
    ensures port == 0 ==> NormalizePort(port) == HTTPS_PORT
    ensures NormalizePort(NormalizePort(port)) == NormalizePort(port)
  {
  }

  /** The request's URI. */
  function RequestUri(actor: Actor): (uri: string)
    ensures |uri| == |SCHEME| + |actor.domain| + |actor.path|
    ensures uri[..|SCHEME|] == SCHEME
    ensures uri[|SCHEME|..|SCHEME| + |actor.domain|] == actor.domain
    ensures uri[|SCHEME| + |actor.domain|..] == actor.path
  {
    SCHEME + actor.domain + actor.path
  }

  /** The index of the first '/' in s at or after i, or |s|. */
  function SlashFrom(s: string, i: nat): (j: nat)
    requires i <= |s|
    ensures i <= j <= |s| && (j < |s| ==> s[j] == '/')
    ensures forall k :: i <= k < j ==> s[k] != '/'
    decreases |s| - i
  {
    if i == |s| || s[i] == '/' then i else SlashFrom(s, i + 1)
  }

  /** Reading a URI back: the host runs to the first '/' after the scheme,
      the rest is the path. */
  function UriParts(uri: string): (r: (string, string))
  {
    if |uri| < |SCHEME| || uri[..|SCHEME|] != SCHEME then ("", uri)
    else
      var j := SlashFrom(uri, |SCHEME|);
      (uri[|SCHEME|..j], uri[j..])
  }

  /** For a domain without '/', the URI splits back into the actor's
      domain and path. */
  lemma RequestUriRoundTrip(config: Config)
    requires forall k :: 0 <= k < |config.domain| ==> config.domain[k] != '/'
    ensures UriParts(RequestUri(NewActor(config))) == (config.domain, NormalizePath(config.path))
  {
    var a := NewActor(config);
    var uri := RequestUri(a);
    var end := |SCHEME| + |a.domain|;
    forall k | |SCHEME| <= k < end
      ensures uri[k] != '/'
    {
      assert uri[k] == uri[|SCHEME|..end][k - |SCHEME|];
    }
    assert uri[end] == a.path[0] == '/' by {
      assert uri[end..][0] == uri[end];
    }
    SlashAt(uri, |SCHEME|, end);
  }

  lemma {:induction false} SlashAt(s: string, i: nat, j: nat)
    requires i <= j < |s| && s[j] == '/'
    requires forall k :: i <= k < j ==> s[k] != '/'
    ensures SlashFrom(s, i) == j
    decreases j - i
  {
    if i < j {
      SlashAt(s, i + 1, j);
    }
  }
}

=== FILE: js_number.dfy ===
/** JavaScript's global parseInt with no radix argument, and the text
    '' + n of an integral Number. Numbers are modelled as exact unbounded
    integers: the rounding of a double above 2^53 and the exponent form
    ('1e+21') that '' + n takes from 10^21 on are not part of this model. */
module JsNumber {
  import opened Wrappers
  import opened Text

  /** The value of `c` as a digit in base 36 (0-9, then a-z or A-Z). */
  function DigitOf(c: char): (d: Option<nat>)
    ensures d.Some? ==> d.value < 36
  {
    if '0' <= c <= '9' then Some((c as int) - ('0' as int))
    else if 'a' <= c <= 'z' then Some((c as int) - ('a' as int) + 10)
    else if 'A' <= c <= 'Z' then Some((c as int) - ('A' as int) + 10)
    else None
  }

  predicate IsRadixDigit(c: char, radix: nat)
  {
    DigitOf(c).Some? && DigitOf(c).value < radix
  }

  /** Length of the longest prefix of `s` made of base-`radix` digits. */
  function DigitRun(s: string, radix: nat): (k: nat)
    ensures k <= |s|
    ensures forall i :: 0 <= i < k ==> IsRadixDigit(s[i], radix)
    ensures k < |s| ==> !IsRadixDigit(s[k], radix)
  {
    if s != [] && IsRadixDigit(s[0], radix) then 1 + DigitRun(s[1..], radix) else 0
  }

  function RadixValue(s: string, radix: nat): nat
    requires forall i :: 0 <= i < |s| ==> IsRadixDigit(s[i], radix)
  {
    if s == [] then 0
    else
      assert IsRadixDigit(s[|s| - 1], radix);
      Shift(RadixValue(s[..|s| - 1], radix), radix, DigitOf(s[|s| - 1]).value)
  }

  /** One more digit `low` after the value `high` in base `radix`. */
  function Shift(high: nat, radix: nat, low: nat): nat
  {
    high * radix + low
  }

  /** The digits at the front of an unsigned text: base 16 after a "0x" or
      "0X" prefix, base 10 otherwise; None when there is no digit. */
  function ParseMagnitude(u: string): (r: Option<nat>)
  {
    var hex := |u| >= 2 && u[0] == '0' && (u[1] == 'x' || u[1] == 'X');
    var radix := if hex then 16 else 10;
    var v := if hex then u[2..] else u;
    var k := DigitRun(v, radix);
    if k == 0 then None else Some(RadixValue(v[..k], radix))
  }

  /** parseInt(s): skip leading white space, take an optional sign, then read
      the magnitude; no digit at all is NaN (None). Trailing text after the
      digits is ignored. */
  function ParseInt(s: string): (r: Option<int>)
  {
    var t := TrimStart(s, JsWhiteSpace);
    var signed := t != [] && (t[0] == '-' || t[0] == '+');
    var m := ParseMagnitude(if signed then t[1..] else t);
    if m.None? then None
    else if signed && t[0] == '-' then Some(0 - m.value as int)
    else Some(m.value)
  }

  lemma {:induction false} DecimalRadixValue(s: string)
    requires AllDigits(s)
    ensures forall i :: 0 <= i < |s| ==> IsRadixDigit(s[i], 10)
    ensures RadixValue(s, 10) == DigitsValue(s)
    decreases |s|
  {
    if s != [] {
      DecimalRadixValue(s[..|s| - 1]);
    }
  }

  lemma {:induction false} DigitRunAll(s: string, radix: nat)
    requires forall i :: 0 <= i < |s| ==> IsRadixDigit(s[i], radix)
    ensures DigitRun(s, radix) == |s|
    decreases |s|
  {
    if s != [] {
      DigitRunAll(s[1..], radix);
    }
  }

  /** parseInt reads back the decimal text of any integer: the round trip
      through String(n) and parseInt is exact. */
  lemma ParseIntText(n: int)
    ensures ParseInt(IntText(n)) == Some(n)
  {
    var m: nat := if n < 0 then -n else n;
    var d := NatText(m);
    NatTextValue(m);
    MagnitudeOfDigits(d);
    if n < 0 {
      ParseNegative(d, m);
    } else {
      ParseUnsigned(d, m);
    }
  }

  lemma ParseUnsigned(d: string, m: nat)
    requires |d| >= 1 && AllDigits(d) && ParseMagnitude(d) == Some(m)
    ensures ParseInt(d) == Some(m)
  {
    TrimStartFixed(d, JsWhiteSpace);
  }

  lemma ParseNegative(d: string, m: nat)
    requires |d| >= 1 && AllDigits(d) && ParseMagnitude(d) == Some(m)
    ensures ParseInt("-" + d) == Some(-(m as int))
  {
    assert ("-" + d)[1..] == d;
    TrimStartFixed("-" + d, JsWhiteSpace);
  }

  /** A non-empty run of decimal digits reads as its decimal value. */
  lemma MagnitudeOfDigits(d: string)
    requires |d| >= 1 && AllDigits(d)
    ensures ParseMagnitude(d) == Some(DigitsValue(d))
  {
    DecimalRadixValue(d);
    DigitRunAll(d, 10);
    assert d[..|d|] == d;
  }

  /** '' + n for an integral Number n. */
  function NumberText(n: int): string { IntText(n) }

  /** The leading-digit prefix rule: "12abc" reads as 12. */
  lemma ParseIntPrefix()
    ensures ParseInt("12abc") == Some(12)
  {
    UnsignedParse("12abc");
    TwelveDigits();
    assert "12abc"[..2] == "12";
  }

  /** Text starting with a digit has no sign and no space to skip. */
  lemma UnsignedParse(s: string)
    requires s != [] && IsDigit(s[0])
    ensures ParseInt(s) == ParseMagnitude(s)
  {
    TrimStartFixed(s, JsWhiteSpace);
  }

  /** "12abc" starts with two decimal digits, which read as 12. */
  lemma TwelveDigits()
    ensures DigitRun("12abc", 10) == 2 && RadixValue("12", 10) == 12
  {
    assert "12abc"[1..] == "2abc";
    assert "2abc"[1..] == "abc";
    assert DigitRun("abc", 10) == 0;
    assert "12"[..1] == "1";
    assert "1"[..0] == "";
  }

  /** A "0x" prefix switches to base 16: "0x10" reads as 16. */
  lemma ParseIntHex()
    ensures ParseInt("0x10") == Some(16)
  {
    var t := "0x10";
    UnsignedParse(t);
    assert t[0] == '0' && t[1] == 'x';
    assert t[2..] == "10";
    assert DigitRun("10", 16) == 2 by {
      assert "10"[1..] == "0";
      assert "0"[1..] == "";
    }
    assert "10"[..2] == "10";
    assert "10"[..1] == "1";
    assert "1"[..0] == "";
    assert RadixValue("10", 16) == 16;
  }

  /** Text that starts with a letter is NaN. */
  lemma ParseIntNaN(s: string)
    requires s != [] && ('a' <= s[0] <= 'z' || 'A' <= s[0] <= 'Z')
    ensures ParseInt(s) == None
  {
    TrimStartFixed(s, JsWhiteSpace);
  }
}

=== FILE: metadata.dfy ===
/** The type-tagged metadata dictionary (api/src/metadata.rs). Each value
    lives in a shared allocation (an Arc); cloning the dictionary is shallow,
    so clones share allocations and raise their strong counts. */
module Metadata {
  import opened Wrappers

  /** A stored value: the name of its type and its payload. */
  datatype Any = Any(typeName: string, payload: seq<int>)

  /** The shared allocation behind one value, with its strong count. */
  class Shared {
    const value: Any
    var strong: nat

    constructor (value: Any)
      ensures this.value == value && strong == 1
    {
      this.value := value;
      strong := 1;
    }
  }

  class MetaData {
    var entries: map<string, Shared>

    ghost function Cells(): set<Shared>
      reads this
    {
      set k | k in entries :: entries[k]
    }

    /** Every held value is alive, and each key holds its own handle. */
    ghost predicate Valid()
      reads this, Cells()
    {
      (forall k :: k in entries ==> entries[k].strong >= 1) &&
      (forall k1, k2 :: k1 in entries && k2 in entries && entries[k1] == entries[k2] ==> k1 == k2)
    }

    constructor ()
      ensures entries == map[] && Valid()
    {
      entries := map[];
    }

    /** get: the value when the key is present and its type matches. */
    function Get(key: string, typeName: string): (r: Option<Any>)
      reads this
      ensures r.Some? <==> key in entries && entries[key].value.typeName == typeName
      ensures r.Some? ==> r.value == entries[key].value
    {
      if key in entries && entries[key].value.typeName == typeName then Some(entries[key].value) else None
    }

    /** set: a fresh allocation under `key`; the replaced handle, if any, is
        dropped; other keys keep their values. */
    method Set(key: string, value: Any)
      requires Valid()
      modifies this, if key in entries then {entries[key]} else {}
      ensures Valid()
      ensures key in entries && fresh(entries[key]) && entries[key].value == value && entries[key].strong == 1
      ensures entries.Keys == old(entries.Keys) + {key}
      ensures forall k :: k in old(entries) && k != key ==> entries[k] == old(entries[k])
      ensures forall k :: k in old(entries) && k != key ==> entries[k].strong == old(entries[k].strong)
      ensures key in old(entries) ==> old(entries[key]).strong == old(entries[key].strong) - 1
    {
      if key in entries {
        Release(key);
      }
      var cell := new Shared(value);
      entries := entries[key := cell];
    }

    /** Dropping the handle under `key`: its count goes down by one, and no
        other key's count changes. */
    method Release(key: string)
      requires Valid() && key in entries
      modifies entries[key]
      ensures entries[key].strong == old(entries[key].strong) - 1
      ensures forall k :: k in entries && k != key ==> entries[k].strong == old(entries[k].strong)
    {
      var dropped := entries[key];
      dropped.strong := dropped.strong - 1;
    }

    /** take: the key is removed in every case; the value comes out only
        when its type matches and no clone still shares it. Otherwise the
        removed handle is dropped. */
    method Take(key: string, typeName: string) returns (r: Option<Any>)
      requires Valid()
      modifies this, if key in entries then {entries[key]} else {}
      ensures Valid()
      ensures entries == old(entries) - {key}
      ensures r.Some? <==> (key in old(entries) && old(entries[key].value.typeName) == typeName &&
                            old(entries[key].strong) == 1)
      ensures r.Some? ==> r.value == old(entries[key].value)
      ensures forall k :: k in entries ==> entries[k].strong == old(entries[k].strong)
      ensures key in old(entries) ==> old(entries[key]).strong == old(entries[key].strong) - 1
    {
      r := None;
      if key in entries {
        var cell := entries[key];
        entries := entries - {key};
        if cell.strong == 1 && cell.value.typeName == typeName {
          r := Some(cell.value);
        }
        cell.strong := cell.strong - 1;
      }
    }

    /** A shallow clone: the same allocations, each one more strongly held. */
    method Clone() returns (c: MetaData)
      requires Valid()
      modifies Cells()
      ensures fresh(c) && c.entries == entries && Valid() && c.Valid()
      ensures forall k :: k in entries ==> entries[k].strong == old(entries[k].strong) + 1
    {
      var todo := entries.Keys;
      while todo != {}
        invariant todo <= entries.Keys
        invariant forall k :: k in entries && k !in todo ==> entries[k].strong == old(entries[k].strong) + 1
        invariant forall k :: k in todo ==> entries[k].strong == old(entries[k].strong)
        decreases todo
      {
        var k :| k in todo;
        entries[k].strong := entries[k].strong + 1;
        todo := todo - {k};
      }
      c := new MetaData();
      c.entries := entries;
    }
  }

  /** Cloning makes every value shared, so a take right after a clone
      gets nothing back, whatever the type, and still removes the key. */
  method TakeAfterClone(m: MetaData, key: string, typeName: string) returns (r: Option<Any>, c: MetaData)
    requires m.Valid()
    modifies m, m.Cells()
    ensures r.None? && key !in m.entries && fresh(c) && (key in c.entries <==> key in old(m.entries))
  {
    c := m.Clone();
    r := m.Take(key, typeName);
  }
}

=== FILE: plugins.dfy ===
/** The native plugin loader's side of the plugin API (src/plugins.rs):
    the library file name, and the get/set callbacks through which a
    plugin reads and writes the stream's byte dictionary. */
module Plugins {
  import opened Wrappers
  import opened Bytes
  import T = Text

  // ---------------------------------------------------------------------
  // Library names
  // ---------------------------------------------------------------------

  /** The platform the loader was built for. */
  datatype Os = Windows | Unix | OtherOs

  const UNIMPLEMENTED := "not implemented"

  /** load: the dynamic library for plugin `libname`; other platforms are
      unimplemented. */
  function LibraryFile(libname: string, os: Os): (r: Outcome<string>)
    ensures r.Returns? <==> os != OtherOs
    ensures r.Panics? ==> r.reason == UNIMPLEMENTED
    ensures r.Returns? ==>
              |r.value| == |libname| + (if os == Windows then 7 else 6) &&
              r.value[..3] == "lib" && r.value[3..3 + |libname|] == libname &&
              r.value[3 + |libname|..] == (if os == Windows then ".dll" else ".so")
  {
    match os
    case Windows => Returns("lib" + libname + ".dll")
    case Unix => Returns("lib" + libname + ".so")
    case OtherOs => Panics(UNIMPLEMENTED)
  }

  /** The plugin a library file belongs to, read back from its name. */
  function PluginOf(file: string, os: Os): (r: Option<string>)
  {
    var suffix := if os == Windows then ".dll" else ".so";
    if os != OtherOs && |file| >= 3 + |suffix| && file[..3] == "lib" && file[|file| - |suffix|..] == suffix
    then Some(file[3..|file| - |suffix|])
    else None
  }

  /** The file name gives back the plugin's name, so distinct plugins load
      distinct files. */
  lemma LibraryFileRoundTrip(libname: string, other: string, os: Os)
    requires os != OtherOs
    ensures PluginOf(LibraryFile(libname, os).value, os) == Some(libname)
    ensures other != libname ==> LibraryFile(other, os) != LibraryFile(libname, os)
  {
    var f := LibraryFile(libname, os).value;
    var suffix := if os == Windows then ".dll" else ".so";
    assert f[|f| - |suffix|..] == suffix;
    assert f[3..|f| - |suffix|] == libname;
    var g := LibraryFile(other, os).value;
    assert g[3..|g| - |suffix|] == other;
  }

  // ---------------------------------------------------------------------
  // The byte dictionary
  // ---------------------------------------------------------------------

  const I32_MIN: int := -0x8000_0000
  const I32_MAX: int := 0x7fff_ffff

  /** A C `int`. */
  type i32 = n: int | I32_MIN <= n <= I32_MAX

  /** The panic of `copy_from_slice` when the destination (the caller's
      buffer, `dst` bytes) and the source (the value, `src` bytes) differ
      in length. */
  function CopyPanic(src: nat, dst: nat): string
  {
    "source slice length (" + T.NatText(src) + ") does not match destination slice length (" + T.NatText(dst) + ")"
  }

  /** What get reports: the new value_len, and the bytes written at the
      start of the buffer, if any. */
  datatype Got = Got(valueLen: i32, written: Option<seq<byte>>)

  /** sopipe_get as written: an absent key reports -1; a present key
      reports its length and, when the capacity is at least that length,
      copies the value with copy_from_slice, which needs the capacity to be
      exactly the length. */
  function GetAsWritten(entries: map<seq<byte>, seq<byte>>, key: seq<byte>, capacity: i32): (r: Outcome<Got>)
    requires forall k :: k in entries ==> |entries[k]| <= I32_MAX
  {
    if key !in entries then Returns(Got(-1, None))
    else
      var value := entries[key];
      if capacity >= |value| then
        if capacity == |value| then Returns(Got(|value|, Some(value))) else Panics(CopyPanic(|value|, capacity))
      else Returns(Got(|value|, None))
  }

  /** sopipe_get as the plugin API promises it: a buffer at least as long
      as the value receives the value in its first bytes. */
  function GetIntended(entries: map<seq<byte>, seq<byte>>, key: seq<byte>, capacity: i32): (r: Got)
    requires forall k :: k in entries ==> |entries[k]| <= I32_MAX
  {
    if key !in entries then Got(-1, None)
    else
      var value := entries[key];
      Got(|value|, if capacity >= |value| then Some(value) else None)
  }

  /** The dictionary a stream carries for its plugins. */
  class ByteDict {
    var entries: map<seq<byte>, seq<byte>>

    /** Values arrive with an i32 length, so each fits one. */
    ghost predicate Valid()
      reads this
    {
      forall k :: k in entries ==> |entries[k]| <= I32_MAX
    }

    constructor ()
      ensures Valid() && entries == map[]
    {
      entries := map[];
    }

    /** sopipe_get, as written; `valueLen` is the capacity the caller puts
        in value_len, and the buffer holds at least that many bytes. */
    method Get(key: seq<byte>, valueLen: i32, buffer: array<byte>) returns (newLen: i32, r: Outcome<()>)
      requires Valid() && valueLen <= buffer.Length
      modifies buffer
      ensures var spec := GetAsWritten(entries, key, valueLen);
        (r.Panics? <==> spec.Panics?) &&
        (r.Panics? ==> r.reason == spec.reason) &&
        (r.Returns? ==>
           newLen == spec.value.valueLen &&
           if spec.value.written.Some?
           then buffer[..|spec.value.written.value|] == spec.value.written.value &&
                buffer[|spec.value.written.value|..] == old(buffer[|spec.value.written.value|..])
           else buffer[..] == old(buffer[..]))
    {
      newLen := valueLen;
      if key in entries {
        var value := entries[key];
        if valueLen >= |value| {
          if valueLen != |value| {
            return newLen, Panics(CopyPanic(|value|, valueLen as nat));
          }
          CopyInto(value, buffer);
        }
        newLen := |value|;
      } else {
        newLen := -1;
      }
      r := Returns(());
    }

    /** sopipe_get as evidently intended: the value goes into the first
        bytes of any buffer long enough to hold it. */
    method GetCorrected(key: seq<byte>, valueLen: i32, buffer: array<byte>) returns (newLen: i32)
      requires Valid() && valueLen <= buffer.Length
      modifies buffer
      ensures var spec := GetIntended(entries, key, valueLen);
        newLen == spec.valueLen &&
        if spec.written.Some?
        then buffer[..|spec.written.value|] == spec.written.value &&
             buffer[|spec.written.value|..] == old(buffer[|spec.written.value|..])
        else buffer[..] == old(buffer[..])
    {
      newLen := -1;
      if key in entries {
        var value := entries[key];
        if valueLen >= |value| {
          CopyInto(value, buffer);
        }
        newLen := |value|;
      }
    }

    /** sopipe_set: a negative length deletes the key; otherwise the key
        maps to the first valueLen bytes of the buffer. */
    method Set(key: seq<byte>, valueLen: i32, buffer: array<byte>)
      requires Valid() && valueLen <= buffer.Length
      modifies this
      ensures Valid()
      ensures entries == if valueLen < 0 then old(entries) - {key} else old(entries)[key := buffer[..valueLen]]
    {
      if valueLen < 0 {
        entries := entries - {key};
        return;
      }
      entries := entries[key := buffer[..valueLen]];
    }
  }

  /** copy_from_slice into the front of the buffer, byte by byte. */
  method CopyInto(value: seq<byte>, buffer: array<byte>)
    requires |value| <= buffer.Length
    modifies buffer
    ensures buffer[..|value|] == value && buffer[|value|..] == old(buffer[|value|..])
  {
    var i := 0;
    while i < |value|
      invariant 0 <= i <= |value|
      invariant buffer[..i] == value[..i]
      invariant buffer[|value|..] == old(buffer[|value|..])
    {
      buffer[i] := value[i];
      i := i + 1;
    }
  }

  // ---------------------------------------------------------------------
  // The get/set protocol
  // ---------------------------------------------------------------------

  /** A negative capacity never touches the buffer, and reports the
      stored length (or -1), so a plugin can ask for the size first. */
  lemma {:induction false} ProbeReportsLength(entries: map<seq<byte>, seq<byte>>, key: seq<byte>, capacity: i32)
    requires forall k :: k in entries ==> |entries[k]| <= I32_MAX
    requires capacity < 0
    ensures var r := GetAsWritten(entries, key, capacity);
      r.Returns? && r.value.written.None? &&
      r.value.valueLen == if key in entries then |entries[key]| else -1
  {
  }

  /** Asking for the size and then asking again with exactly that capacity
      returns the stored value: the retry that the plugin API describes. */
  lemma ProbeThenFetch(entries: map<seq<byte>, seq<byte>>, key: seq<byte>, capacity: i32)
    requires forall k :: k in entries ==> |entries[k]| <= I32_MAX
    requires key in entries
    ensures var probe := GetAsWritten(entries, key, capacity);
      probe.Returns? ==>
      var fetch := GetAsWritten(entries, key, probe.value.valueLen);
      fetch == Returns(Got(|entries[key]|, Some(entries[key])))
  {
  }

  /** Setting a value and then getting it with a buffer of its length
      returns it; deleting it makes get report -1; other keys keep their
      values either way. */
  lemma SetThenGet(entries: map<seq<byte>, seq<byte>>, key: seq<byte>, other: seq<byte>, value: seq<byte>, capacity: i32)
    requires forall k :: k in entries ==> |entries[k]| <= I32_MAX
    requires |value| <= I32_MAX && other != key
    ensures var stored := entries[key := value];
      GetAsWritten(stored, key, |value|) == Returns(Got(|value|, Some(value))) &&
      GetAsWritten(stored, other, capacity) == GetAsWritten(entries, other, capacity)
    ensures var deleted := entries - {key};
      GetAsWritten(deleted, key, capacity) == Returns(Got(-1, None)) &&
      GetAsWritten(deleted, other, capacity) == GetAsWritten(entries, other, capacity)
  {
  }

  /** The two readings agree except where the buffer is longer than the
      value: there the code panics and the API says the value is written. */
  lemma GetDiscrepancy(entries: map<seq<byte>, seq<byte>>, key: seq<byte>, capacity: i32)
    requires forall k :: k in entries ==> |entries[k]| <= I32_MAX
    ensures GetAsWritten(entries, key, capacity).Panics? <==> key in entries && capacity > |entries[key]|
    ensures GetAsWritten(entries, key, capacity).Returns? ==>
      GetAsWritten(entries, key, capacity).value == GetIntended(entries, key, capacity)
  {
  }

  /** A one-byte value read into a two-byte buffer: the code panics. */
  method GetPanicsOnRoomyBuffer() returns (r: Outcome<()>)
    ensures r == Panics(CopyPanic(1, 2))
  {
    var dict := new ByteDict();
    var buffer := new byte[2];
    buffer[0] := 7;
    dict.Set([1], 1, buffer);
    var len;
    len, r := dict.Get([1], 2, buffer);
  }

  /** The same read with the corrected get reports length 1 and writes the
      byte. */
  method GetCorrectedOnRoomyBuffer() returns (len: i32, first: byte)
    ensures len == 1 && first == 7
  {
    var dict := new ByteDict();
    var buffer := new byte[2];
    buffer[0] := 7;
    dict.Set([1], 1, buffer);
    buffer[0] := 0;
    len := dict.GetCorrected([1], 2, buffer);
    first := buffer[0];
  }
}

=== FILE: script.dfy ===
/** The script loader of src/script.rs: it evaluates a parsed pipeline
    script into a graph of nodes. Every function call becomes a pair of
    nodes, a forward one and a backward one, linked to each other through
    `conj`; a pipe `a => b` adds the edge a.forward -> b.forward and the edge
    b.backward -> a.backward. The pest grammar is not part of this model: the
    loader takes the parse tree as a datatype. */
module Script {
  import opened Wrappers
  import opened Bytes
  import opened Text
  import A = Arguments

  type NamedArgument = (string, A.Argument)

  // ---------------------------------------------------------------------
  // The parse tree
  // ---------------------------------------------------------------------

  datatype Lit = StringLit(text: string) | IntLit(text: string)
  /** An argument: a bare literal, or `ident` with an optional `= lit`. */
  datatype ArgTree = Positional(lit: Lit) | Keyword(ident: string, value: Option<Lit>)
  datatype NodeTree = NodeTree(ident: string, args: seq<ArgTree>)
  /** A cnode is one call, or two joined by `!!`; a pipe is a `=>` chain. */
  datatype Expr = CNodeExpr(first: NodeTree, second: Option<NodeTree>) | Pipe(elems: seq<Expr>)
  datatype Stmt = Assignment(ident: string, value: Expr) | PipeStmt(pipe: Expr)

  const KEY_NOT_FOUND := "no entry found for key"
  const DOUBLE_BANG := "the double bang (!!) composition can only be used to combine two function calls."

  /** Rust's u64 from_str: an optional '+', then one or more decimal digits
      whose value fits in 64 bits. */
  function ParseU64(text: string): (r: Option<u64>)
    ensures r.Some? ==> text != [] && text != "+"
  {
    var digits := if |text| > 0 && text[0] == '+' then text[1..] else text;
    if digits == [] || !AllDigits(digits) then None
    else if DigitsValue(digits) < U64_LIMIT then Some(DigitsValue(digits))
    else None
  }

  /** The decimal text of every u64 parses back to it. */
  lemma ParseU64Text(n: u64)
    ensures ParseU64(NatText(n)) == Some(n)
  {
    NatTextValue(n);
  }

  /** get_lit_value: string text is kept verbatim, an int literal is
      parsed and unwrapped. */
  function LitValue(lit: Lit): (r: Outcome<A.Argument>)
    ensures lit.StringLit? ==> r == Returns(A.String(lit.text))
    ensures lit.IntLit? ==> (r.Returns? <==> ParseU64(lit.text).Some?)
    ensures lit.IntLit? && r.Returns? ==> r.value == A.Int(ParseU64(lit.text).value)
  {
    match lit
    case StringLit(text) => Returns(A.String(text))
    case IntLit(text) =>
      var n := ParseU64(text);
      if n.None? then Panics(UNWRAP_ERR) else Returns(A.Int(n.value))
  }

  /** parse_arg: a bare literal has the empty name; a name without a value
      holds None. */
  function ParseArg(a: ArgTree): (r: Outcome<NamedArgument>)
    ensures r.Panics? <==> (a.Positional? && LitValue(a.lit).Panics?) ||
                           (a.Keyword? && a.value.Some? && LitValue(a.value.value).Panics?)
    ensures r.Returns? && a.Positional? ==> r.value == ("", LitValue(a.lit).value)
    ensures r.Returns? && a.Keyword? && a.value.Some? ==> r.value == (a.ident, LitValue(a.value.value).value)
    ensures a.Keyword? && a.value.None? ==> r == Returns((a.ident, A.None))
  {
    match a
    case Positional(lit) =>
      var v := LitValue(lit);
      if v.Panics? then Panics(v.reason) else Returns(("", v.value))
    case Keyword(ident, value) =>
      if value.None? then Returns((ident, A.None))
      else
        var v := LitValue(value.value);
        if v.Panics? then Panics(v.reason) else Returns((ident, v.value))
  }

  function ParseArgs(args: seq<ArgTree>): (r: Outcome<seq<NamedArgument>>)
    ensures r.Panics? <==> exists i :: 0 <= i < |args| && ParseArg(args[i]).Panics?
    ensures r.Returns? ==> (|r.value| == |args| &&
      forall i :: 0 <= i < |args| ==> ParseArg(args[i]) == Returns(r.value[i]))
  {
    if args == [] then Returns([])
    else
      var first := ParseArg(args[0]);
      var rest := ParseArgs(args[1..]);
      if first.Panics? then Panics(first.reason)
      else if rest.Panics? then
        assert exists i :: 0 <= i < |args| && ParseArg(args[i]).Panics? by {
          var i :| 0 <= i < |args[1..]| && ParseArg(args[1..][i]).Panics?;
          assert args[i + 1] == args[1..][i];
        }
        Panics(rest.reason)
      else
        assert forall i :: 1 <= i < |args| ==> args[i] == args[1..][i - 1];
        Returns([first.value] + rest.value)
  }

  // ---------------------------------------------------------------------
  // The graph
  // ---------------------------------------------------------------------

  /** A node: the index of its component spec, its arguments, the indices of
      its outputs, and the index of its conjugate node. */
  datatype Node = Node(spec: nat, args: seq<NamedArgument>, outputs: seq<nat>, conj: nat)
  datatype CNode = CNode(forward: nat, backward: nat)
  datatype SymbolValue = CNodeSymbol(cnode: CNode) | Function(spec: nat)

  function NameArg(ident: string): NamedArgument
  {
    ("function_name", A.String(ident))
  }

  function DirectionArg(forward: bool): NamedArgument
  {
    ("direction", A.String(if forward then "forward" else "backward"))
  }

  /** The arguments a node of a call is created with. */
  function NodeArgs(ident: string, args: seq<NamedArgument>, forward: bool): (r: seq<NamedArgument>)
    ensures |r| == |args| + 2 && Tagged(r, forward) && r[..|args|] == args
    ensures r[|args|] == NameArg(ident)
  {
    args + [NameArg(ident), DirectionArg(forward)]
  }

  /** The arguments end with a function_name and then the direction. */
  predicate Tagged(args: seq<NamedArgument>, forward: bool)
  {
    |args| >= 2 && args[|args| - 2].0 == "function_name" && args[|args| - 1] == DirectionArg(forward)
  }

  /** A forward node at an even index with its backward node right after. */
  predicate IsPair(c: CNode, n: nat)
  {
    c.forward % 2 == 0 && c.backward == c.forward + 1 && c.backward < n
  }

  predicate NodeOk(nSpecs: nat, nodes: seq<Node>, i: nat)
    requires i < |nodes|
  {
    nodes[i].spec < nSpecs &&
    nodes[i].conj == (if i % 2 == 0 then i + 1 else i - 1) &&
    Tagged(nodes[i].args, i % 2 == 0) &&
    forall k :: 0 <= k < |nodes[i].outputs| ==>
      nodes[i].outputs[k] < |nodes| && nodes[i].outputs[k] % 2 == i % 2
  }

  /** For forward nodes i and j: as many edges i -> j as edges from j's
      backward node to i's backward node. */
  predicate Mirrored(nodes: seq<Node>, i: nat, j: nat)
    requires i + 1 < |nodes| && j + 1 < |nodes|
  {
    multiset(nodes[i].outputs)[j] == multiset(nodes[j + 1].outputs)[i + 1]
  }

  predicate SymbolOk(nSpecs: nat, n: nat, v: SymbolValue)
  {
    match v
    case CNodeSymbol(c) => IsPair(c, n)
    case Function(s) => s < nSpecs
  }

  /** The loader's invariant: nodes come in forward/backward pairs linked by
      conj and tagged with their direction; forward nodes feed only forward
      nodes and backward only backward; the backward graph is the forward
      graph reversed, edge for edge; names are bound to pairs or specs. */
  predicate WellFormed(nSpecs: nat, nodes: seq<Node>, symbols: map<string, SymbolValue>)
  {
    |nodes| % 2 == 0 &&
    (forall i :: 0 <= i < |nodes| ==> NodeOk(nSpecs, nodes, i)) &&
    (forall i, j :: 0 <= i < |nodes| - 1 && 0 <= j < |nodes| - 1 && i % 2 == 0 && j % 2 == 0 ==>
      Mirrored(nodes, i, j)) &&
    (forall name :: name in symbols ==> SymbolOk(nSpecs, |nodes|, symbols[name]))
  }

  /** Later evaluation only appends nodes and output edges. */
  predicate Grown(before: seq<Node>, after: seq<Node>)
  {
    |before| <= |after| &&
    forall i :: 0 <= i < |before| ==>
      after[i].spec == before[i].spec && after[i].args == before[i].args &&
      after[i].conj == before[i].conj && before[i].outputs <= after[i].outputs
  }

  lemma GrownTrans(a: seq<Node>, b: seq<Node>, c: seq<Node>)
    requires Grown(a, b) && Grown(b, c)
    ensures Grown(a, c)
  {
    forall i | 0 <= i < |a|
      ensures a[i].outputs <= c[i].outputs
    {
      assert a[i].outputs == b[i].outputs[..|a[i].outputs|];
      assert b[i].outputs == c[i].outputs[..|b[i].outputs|];
    }
  }

  /** The pipe edges between consecutive elements p and c. */
  predicate Linked(nodes: seq<Node>, p: CNode, c: CNode)
  {
    p.forward < |nodes| && c.backward < |nodes| &&
    c.forward in nodes[p.forward].outputs && p.backward in nodes[c.backward].outputs
  }

  lemma LinkedGrown(before: seq<Node>, after: seq<Node>, p: CNode, c: CNode)
    requires Linked(before, p, c) && Grown(before, after)
    ensures Linked(after, p, c)
  {
    assert before[p.forward].outputs == after[p.forward].outputs[..|before[p.forward].outputs|];
    assert before[c.backward].outputs == after[c.backward].outputs[..|before[c.backward].outputs|];
  }

  /** Pairs that all exist, each linked to the next. */
  predicate Chain(nodes: seq<Node>, cs: seq<CNode>)
  {
    (forall m :: 0 <= m < |cs| ==> IsPair(cs[m], |nodes|)) &&
    (forall m :: 0 <= m < |cs| - 1 ==> Linked(nodes, cs[m], cs[m + 1]))
  }

  lemma ChainGrown(before: seq<Node>, after: seq<Node>, cs: seq<CNode>)
    requires Chain(before, cs) && Grown(before, after)
    ensures Chain(after, cs)
  {
    forall m | 0 <= m < |cs| - 1
      ensures Linked(after, cs[m], cs[m + 1])
    {
      LinkedGrown(before, after, cs[m], cs[m + 1]);
    }
  }

  lemma ChainExtend(nodes: seq<Node>, cs: seq<CNode>, c: CNode)
    requires Chain(nodes, cs) && IsPair(c, |nodes|)
    requires cs != [] ==> Linked(nodes, cs[|cs| - 1], c)
    ensures Chain(nodes, cs + [c])
  {
  }

  /** The two nodes a call (or a `!!` pair) appends at index n. */
  function NewPair(s1: nat, args1: seq<NamedArgument>, s2: nat, args2: seq<NamedArgument>, n: nat): seq<Node>
  {
    [Node(s1, args1, [], n + 1), Node(s2, args2, [], n)]
  }

  lemma PushPairNodes(nSpecs: nat, nodes: seq<Node>, after: seq<Node>,
                      s1: nat, args1: seq<NamedArgument>, s2: nat, args2: seq<NamedArgument>)
    requires |nodes| % 2 == 0 && forall i :: 0 <= i < |nodes| ==> NodeOk(nSpecs, nodes, i)
    requires s1 < nSpecs && s2 < nSpecs && Tagged(args1, true) && Tagged(args2, false)
    requires after == nodes + NewPair(s1, args1, s2, args2, |nodes|)
    ensures forall i :: 0 <= i < |after| ==> NodeOk(nSpecs, after, i)
  {
    forall i | 0 <= i < |after|
      ensures NodeOk(nSpecs, after, i)
    {
      if i < |nodes| {
        assert NodeOk(nSpecs, nodes, i);
        assert after[i] == nodes[i];
      }
    }
  }

  lemma PushPairMirrored(nSpecs: nat, nodes: seq<Node>, after: seq<Node>, i: nat, j: nat,
                         s1: nat, args1: seq<NamedArgument>, s2: nat, args2: seq<NamedArgument>)
    requires |nodes| % 2 == 0 && forall i :: 0 <= i < |nodes| ==> NodeOk(nSpecs, nodes, i)
    requires after == nodes + NewPair(s1, args1, s2, args2, |nodes|)
    requires i + 1 < |after| && j + 1 < |after| && i % 2 == 0 && j % 2 == 0
    requires i + 1 < |nodes| && j + 1 < |nodes| ==> Mirrored(nodes, i, j)
    ensures Mirrored(after, i, j)
  {
    var n := |nodes|;
    if i < n && j < n {
      assert after[i] == nodes[i] && after[j + 1] == nodes[j + 1];
    } else if i < n {
      assert NodeOk(nSpecs, nodes, i);
      assert after[i] == nodes[i];
      assert j !in nodes[i].outputs;
    } else if j < n {
      assert NodeOk(nSpecs, nodes, j + 1);
      assert after[j + 1] == nodes[j + 1];
      assert i + 1 !in nodes[j + 1].outputs;
    }
  }

  lemma PushPairWellFormed(nSpecs: nat, nodes: seq<Node>, symbols: map<string, SymbolValue>,
                           s1: nat, args1: seq<NamedArgument>, s2: nat, args2: seq<NamedArgument>)
    requires WellFormed(nSpecs, nodes, symbols) && s1 < nSpecs && s2 < nSpecs
    requires Tagged(args1, true) && Tagged(args2, false)
    ensures var after := nodes + NewPair(s1, args1, s2, args2, |nodes|);
      WellFormed(nSpecs, after, symbols) && Grown(nodes, after) &&
      IsPair(CNode(|nodes|, |nodes| + 1), |after|)
  {
    var after := nodes + NewPair(s1, args1, s2, args2, |nodes|);
    PushPairNodes(nSpecs, nodes, after, s1, args1, s2, args2);
    forall i, j | 0 <= i < |after| - 1 && 0 <= j < |after| - 1 && i % 2 == 0 && j % 2 == 0
      ensures Mirrored(after, i, j)
    {
      PushPairMirrored(nSpecs, nodes, after, i, j, s1, args1, s2, args2);
    }
    forall name | name in symbols
      ensures SymbolOk(nSpecs, |after|, symbols[name])
    {
      assert SymbolOk(nSpecs, |nodes|, symbols[name]);
    }
  }

  /** The edges a pipe adds between consecutive elements p and c. */
  function AddLink(nodes: seq<Node>, p: CNode, c: CNode): (r: seq<Node>)
    requires IsPair(p, |nodes|) && IsPair(c, |nodes|)
    ensures |r| == |nodes|
  {
    var once := nodes[p.forward := nodes[p.forward].(outputs := nodes[p.forward].outputs + [c.forward])];
    once[c.backward := once[c.backward].(outputs := once[c.backward].outputs + [p.backward])]
  }

  /** Linking appends one edge to p's forward node and one to c's backward
      node, and changes nothing else. */
  lemma AddLinkAt(nodes: seq<Node>, p: CNode, c: CNode, i: nat)
    requires IsPair(p, |nodes|) && IsPair(c, |nodes|) && i < |nodes|
    ensures var after := AddLink(nodes, p, c);
      after[i].spec == nodes[i].spec && after[i].args == nodes[i].args && after[i].conj == nodes[i].conj &&
      after[i].outputs == nodes[i].outputs +
        (if i == p.forward then [c.forward] else if i == c.backward then [p.backward] else [])
  {
  }

  /** Linking grows a forward node only when it is p's, and a backward
      node only when it is c's. */
  lemma AddLinkSides(nodes: seq<Node>, p: CNode, c: CNode, f: nat, b: nat)
    requires IsPair(p, |nodes|) && IsPair(c, |nodes|) && f < |nodes| && b < |nodes| && f % 2 == 0 && b % 2 == 1
    ensures AddLink(nodes, p, c)[f].outputs == nodes[f].outputs + (if f == p.forward then [c.forward] else [])
    ensures AddLink(nodes, p, c)[b].outputs == nodes[b].outputs + (if b == c.backward then [p.backward] else [])
  {
    AddLinkAt(nodes, p, c, f);
    AddLinkAt(nodes, p, c, b);
  }

  /** The edge count of the mirror property at (i, j) after one link. */
  lemma LinkCounts(a: seq<nat>, b: seq<nat>, a1: seq<nat>, b1: seq<nat>, p: CNode, c: CNode, i: nat, j: nat)
    requires IsPair(p, p.backward + 1) && IsPair(c, c.backward + 1) && i % 2 == 0 && j % 2 == 0
    requires multiset(a)[j] == multiset(b)[i + 1]
    requires a1 == a + (if i == p.forward then [c.forward] else [])
    requires b1 == b + (if j + 1 == c.backward then [p.backward] else [])
    ensures multiset(a1)[j] == multiset(b1)[i + 1]
  {
    if i == p.forward {
      assert multiset(a1) == multiset(a) + multiset{c.forward};
    }
    if j + 1 == c.backward {
      assert multiset(b1) == multiset(b) + multiset{p.backward};
    }
  }

  lemma AddLinkMirrored(nodes: seq<Node>, p: CNode, c: CNode, i: nat, j: nat)
    requires IsPair(p, |nodes|) && IsPair(c, |nodes|)
    requires i + 1 < |nodes| && j + 1 < |nodes| && i % 2 == 0 && j % 2 == 0
    requires Mirrored(nodes, i, j)
    ensures Mirrored(AddLink(nodes, p, c), i, j)
  {
    AddLinkSides(nodes, p, c, i, j + 1);
    LinkCounts(nodes[i].outputs, nodes[j + 1].outputs,
               AddLink(nodes, p, c)[i].outputs, AddLink(nodes, p, c)[j + 1].outputs, p, c, i, j);
  }

  lemma AddLinkWellFormed(nSpecs: nat, nodes: seq<Node>, symbols: map<string, SymbolValue>,
                          p: CNode, c: CNode)
    requires WellFormed(nSpecs, nodes, symbols) && IsPair(p, |nodes|) && IsPair(c, |nodes|)
    ensures WellFormed(nSpecs, AddLink(nodes, p, c), symbols)
    ensures Grown(nodes, AddLink(nodes, p, c)) && Linked(AddLink(nodes, p, c), p, c)
  {
    var after := AddLink(nodes, p, c);
    AddLinkNodes(nSpecs, nodes, p, c);
    AddLinkAllMirrored(nodes, p, c);
    AddLinkLinked(nodes, p, c);
    assert forall name :: name in symbols ==> SymbolOk(nSpecs, |after|, symbols[name]);
  }

  lemma AddLinkNodes(nSpecs: nat, nodes: seq<Node>, p: CNode, c: CNode)
    requires IsPair(p, |nodes|) && IsPair(c, |nodes|)
    requires forall i :: 0 <= i < |nodes| ==> NodeOk(nSpecs, nodes, i)
    ensures var after := AddLink(nodes, p, c);
      (forall i :: 0 <= i < |after| ==> NodeOk(nSpecs, after, i)) && Grown(nodes, after)
  {
    var after := AddLink(nodes, p, c);
    forall i | 0 <= i < |after|
      ensures NodeOk(nSpecs, after, i)
      ensures after[i].spec == nodes[i].spec && after[i].args == nodes[i].args &&
              after[i].conj == nodes[i].conj && nodes[i].outputs <= after[i].outputs
    {
      AddLinkNode(nSpecs, nodes, p, c, i);
    }
  }

  lemma AddLinkAllMirrored(nodes: seq<Node>, p: CNode, c: CNode)
    requires IsPair(p, |nodes|) && IsPair(c, |nodes|)
    requires forall i, j :: 0 <= i < |nodes| - 1 && 0 <= j < |nodes| - 1 && i % 2 == 0 && j % 2 == 0 ==>
      Mirrored(nodes, i, j)
    ensures var after := AddLink(nodes, p, c);
      forall i, j :: 0 <= i < |after| - 1 && 0 <= j < |after| - 1 && i % 2 == 0 && j % 2 == 0 ==>
        Mirrored(after, i, j)
  {
    var after := AddLink(nodes, p, c);
    forall i, j | 0 <= i < |after| - 1 && 0 <= j < |after| - 1 && i % 2 == 0 && j % 2 == 0
      ensures Mirrored(after, i, j)
    {
      AddLinkMirrored(nodes, p, c, i, j);
    }
  }

  lemma AddLinkNode(nSpecs: nat, nodes: seq<Node>, p: CNode, c: CNode, i: nat)
    requires IsPair(p, |nodes|) && IsPair(c, |nodes|) && i < |nodes| && NodeOk(nSpecs, nodes, i)
    ensures NodeOk(nSpecs, AddLink(nodes, p, c), i)
    ensures var after := AddLink(nodes, p, c);
      after[i].spec == nodes[i].spec && after[i].args == nodes[i].args &&
      after[i].conj == nodes[i].conj && nodes[i].outputs <= after[i].outputs
  {
    AddLinkAt(nodes, p, c, i);
    var before := nodes[i].outputs;
    var added := if i == p.forward then [c.forward] else if i == c.backward then [p.backward] else [];
    assert forall k :: 0 <= k < |added| ==> added[k] < |nodes| && added[k] % 2 == i % 2;
    OutputsAppend(before, added, |nodes|, i % 2);
  }

  lemma OutputsAppend(before: seq<nat>, added: seq<nat>, n: nat, parity: nat)
    requires forall k :: 0 <= k < |before| ==> before[k] < n && before[k] % 2 == parity
    requires forall k :: 0 <= k < |added| ==> added[k] < n && added[k] % 2 == parity
    ensures forall k :: 0 <= k < |before + added| ==> (before + added)[k] < n && (before + added)[k] % 2 == parity
    ensures before <= before + added
  {
  }

  lemma AddLinkLinked(nodes: seq<Node>, p: CNode, c: CNode)
    requires IsPair(p, |nodes|) && IsPair(c, |nodes|)
    ensures Linked(AddLink(nodes, p, c), p, c)
  {
    AddLinkAt(nodes, p, c, p.forward);
    AddLinkAt(nodes, p, c, c.backward);
  }

  /** Consequence of the mirror invariant: forward node i outputs to forward
      node j exactly when j's backward node outputs to i's backward node. */
  lemma MirrorEdges(nSpecs: nat, nodes: seq<Node>, symbols: map<string, SymbolValue>, i: nat, j: nat)
    requires WellFormed(nSpecs, nodes, symbols)
    requires i + 1 < |nodes| && j + 1 < |nodes| && i % 2 == 0 && j % 2 == 0
    ensures j in nodes[i].outputs <==> i + 1 in nodes[j + 1].outputs
  {
    assert Mirrored(nodes, i, j);
  }

  /** conj pairs every node with a node of the other direction, and the
      pairing is an involution. */
  lemma ConjInvolution(nSpecs: nat, nodes: seq<Node>, symbols: map<string, SymbolValue>, i: nat)
    requires WellFormed(nSpecs, nodes, symbols) && i < |nodes|
    ensures nodes[i].conj < |nodes| && nodes[nodes[i].conj].conj == i
    ensures Tagged(nodes[i].args, true) <==> Tagged(nodes[nodes[i].conj].args, false)
  {
    assert NodeOk(nSpecs, nodes, i);
    assert NodeOk(nSpecs, nodes, nodes[i].conj);
  }

  /** Registering one spec's function names: each is bound to spec k,
      replacing an earlier binding. */
  function Register(table: map<string, SymbolValue>, names: seq<string>, k: nat): (r: map<string, SymbolValue>)
  {
    if names == [] then table
    else Register(table, names[..|names| - 1], k)[names[|names| - 1] := Function(k)]
  }

  lemma {:induction false} RegisterMeaning(table: map<string, SymbolValue>, names: seq<string>, k: nat, f: string)
    ensures f in Register(table, names, k) <==> f in table || f in names
    ensures f in names ==> Register(table, names, k)[f] == Function(k)
    ensures f !in names && f in table ==> Register(table, names, k)[f] == table[f]
    decreases |names|
  {
    if names != [] {
      var init := names[..|names| - 1];
      RegisterMeaning(table, init, k, f);
      assert names == init + [names[|names| - 1]];
    }
  }

  /** The symbol table before any statement: every function name of every
      spec, bound to its spec; a later spec wins a shared name. */
  function Registered(specs: seq<seq<string>>): map<string, SymbolValue>
  {
    if specs == [] then map[]
    else Register(Registered(specs[..|specs| - 1]), specs[|specs| - 1], |specs| - 1)
  }

  lemma {:induction false} RegisteredMeaning(specs: seq<seq<string>>, f: string)
    ensures f in Registered(specs) <==> exists k :: 0 <= k < |specs| && f in specs[k]
    ensures f in Registered(specs) ==>
      Registered(specs)[f].Function? && Registered(specs)[f].spec < |specs| &&
      f in specs[Registered(specs)[f].spec] &&
      forall k :: Registered(specs)[f].spec < k < |specs| ==> f !in specs[k]
    decreases |specs|
  {
    if specs != [] {
      var init := specs[..|specs| - 1];
      RegisteredMeaning(init, f);
      RegisterMeaning(Registered(init), specs[|specs| - 1], |specs| - 1, f);
      assert forall k :: 0 <= k < |init| ==> init[k] == specs[k];
    }
  }

  lemma RegisteredWellFormed(specs: seq<seq<string>>)
    ensures WellFormed(|specs|, [], Registered(specs))
  {
    forall f | f in Registered(specs)
      ensures SymbolOk(|specs|, 0, Registered(specs)[f])
    {
      RegisteredMeaning(specs, f);
    }
  }

  /** A finished node: the spec's component is created from `args`, which
      end with the `outputs` argument. */
  datatype FinalNode = FinalNode(spec: nat, args: seq<NamedArgument>, outputs: seq<nat>, conj: nat)

  /** The last step of load_script: every node gets an `outputs` argument, a
      Vec of one empty string per output edge. */
  function Finish(nodes: seq<Node>): (r: seq<FinalNode>)
    ensures |r| == |nodes|
    ensures forall i :: 0 <= i < |nodes| ==>
      r[i].spec == nodes[i].spec && r[i].outputs == nodes[i].outputs && r[i].conj == nodes[i].conj &&
      |r[i].args| == |nodes[i].args| + 1 && r[i].args[..|nodes[i].args|] == nodes[i].args &&
      r[i].args[|nodes[i].args|].0 == "outputs" &&
      A.AsVec(r[i].args[|nodes[i].args|].1).Some? &&
      |r[i].args[|nodes[i].args|].1.vec| == |nodes[i].outputs| &&
      forall k :: 0 <= k < |nodes[i].outputs| ==> A.AsString(r[i].args[|nodes[i].args|].1.vec[k]) == Some("")
  {
    seq(|nodes|, i requires 0 <= i < |nodes| =>
      var outs := A.FromStrings(seq(|nodes[i].outputs|, _ => ""));
      assert (nodes[i].args + [("outputs", outs)])[..|nodes[i].args|] == nodes[i].args;
      FinalNode(nodes[i].spec, nodes[i].args + [("outputs", outs)], nodes[i].outputs, nodes[i].conj))
  }

  // ---------------------------------------------------------------------
  // Evaluation as a function of the symbol table and the nodes
  // ---------------------------------------------------------------------

  /** What evaluation needs of its state: nodes come in pairs and every
      name bound by an assignment holds an existing pair. */
  predicate Shaped(table: map<string, SymbolValue>, n: nat)
  {
    n % 2 == 0 &&
    forall name :: name in table && table[name].CNodeSymbol? ==> IsPair(table[name].cnode, n)
  }

  lemma WellFormedShaped(nSpecs: nat, nodes: seq<Node>, symbols: map<string, SymbolValue>)
    requires WellFormed(nSpecs, nodes, symbols)
    ensures Shaped(symbols, |nodes|)
  {
    forall name | name in symbols && symbols[name].CNodeSymbol?
      ensures IsPair(symbols[name].cnode, |nodes|)
    {
      assert SymbolOk(nSpecs, |nodes|, symbols[name]);
    }
  }

  /** An evaluation result: the pair and the new node list, which extends
      the old one and stays in pairs. */
  predicate Evaluated(before: seq<Node>, r: Outcome<(CNode, seq<Node>)>)
  {
    r.Returns? ==> IsPair(r.value.0, |r.value.1|) && |before| <= |r.value.1| && |r.value.1| % 2 == 0
  }

  /** eval of a single call: a function name appends its forward and
      backward node; a name bound by an assignment yields its pair; an
      unknown name panics on the map index. */
  function CallSpec(table: map<string, SymbolValue>, nodes: seq<Node>, first: NodeTree): (r: Outcome<(CNode, seq<Node>)>)
    requires Shaped(table, |nodes|)
    ensures Evaluated(nodes, r)
  {
    var p := ParseNode(first);
    if p.Panics? then Panics(p.reason)
    else if first.ident !in table then Panics(KEY_NOT_FOUND)
    else match table[first.ident]
      case CNodeSymbol(c) => Returns((c, nodes))
      case Function(sp) =>
        Returns((CNode(|nodes|, |nodes| + 1),
                 nodes + NewPair(sp, NodeArgs(first.ident, p.value.1, true), sp, NodeArgs(first.ident, p.value.1, false), |nodes|)))
  }

  /** eval of a `!!` pair: both sides must name functions; the first gives
      the forward node and the second the backward node. */
  function PairSpec(table: map<string, SymbolValue>, nodes: seq<Node>, first: NodeTree, second: NodeTree): (r: Outcome<(CNode, seq<Node>)>)
    requires Shaped(table, |nodes|)
    ensures Evaluated(nodes, r)
  {
    var p1 := ParseNode(first);
    var p2 := ParseNode(second);
    if p1.Panics? then Panics(p1.reason)
    else if first.ident !in table then Panics(KEY_NOT_FOUND)
    else if !table[first.ident].Function? then Panics(DOUBLE_BANG)
    else if p2.Panics? then Panics(p2.reason)
    else if second.ident !in table then Panics(KEY_NOT_FOUND)
    else if !table[second.ident].Function? then Panics(DOUBLE_BANG)
    else
      Returns((CNode(|nodes|, |nodes| + 1),
               nodes + NewPair(table[first.ident].spec, NodeArgs(first.ident, p1.value.1, true),
                               table[second.ident].spec, NodeArgs(second.ident, p2.value.1, false), |nodes|)))
  }

  function CNodeSpec(table: map<string, SymbolValue>, nodes: seq<Node>, first: NodeTree, second: Option<NodeTree>): (r: Outcome<(CNode, seq<Node>)>)
    requires Shaped(table, |nodes|)
    ensures Evaluated(nodes, r)
  {
    if second.None? then CallSpec(table, nodes, first) else PairSpec(table, nodes, first, second.value)
  }

  /** eval: a cnode, or a pipe. */
  function EvalSpec(table: map<string, SymbolValue>, nodes: seq<Node>, e: Expr): (r: Outcome<(CNode, seq<Node>)>)
    requires Shaped(table, |nodes|)
    ensures Evaluated(nodes, r)
    decreases e, 1
  {
    match e
    case CNodeExpr(first, second) => CNodeSpec(table, nodes, first, second)
    case Pipe(_) => PipeSpec(table, nodes, e, 0, None)
  }

  /** The pipe loop from element k on, `last` being the previous element's
      pair: each element is evaluated, then linked to the previous one, and
      the pipe yields the last; an empty pipe panics on unwrap. */
  function PipeSpec(table: map<string, SymbolValue>, nodes: seq<Node>, e: Expr, k: nat, last: Option<CNode>): (r: Outcome<(CNode, seq<Node>)>)
    requires e.Pipe? && k <= |e.elems| && Shaped(table, |nodes|)
    requires last.Some? ==> IsPair(last.value, |nodes|)
    requires last.None? <==> k == 0
    ensures Evaluated(nodes, r)
    decreases e, 0, |e.elems| - k
  {
    if k == |e.elems| then
      if last.None? then Panics(UNWRAP_NONE) else Returns((last.value, nodes))
    else
      match EvalSpec(table, nodes, e.elems[k])
      case Panics(m) => Panics(m)
      case Returns((c, after)) =>
        var linked := if last.Some? then AddLink(after, last.value, c) else after;
        PipeSpec(table, linked, e, k + 1, Some(c))
  }

  /** walk of one statement: an assignment binds the name to the pair its
      value evaluates to; a pipe statement only adds nodes and edges. */
  function WalkSpec(table: map<string, SymbolValue>, nodes: seq<Node>, s: Stmt): (r: Outcome<(map<string, SymbolValue>, seq<Node>)>)
    requires Shaped(table, |nodes|)
    ensures r.Returns? ==> Shaped(r.value.0, |r.value.1|) && |nodes| <= |r.value.1|
  {
    match s
    case Assignment(ident, value) =>
      (match EvalSpec(table, nodes, value)
       case Panics(m) => Panics(m)
       case Returns((c, after)) => Returns((table[ident := CNodeSymbol(c)], after)))
    case PipeStmt(pipe) =>
      (match EvalSpec(table, nodes, pipe)
       case Panics(m) => Panics(m)
       case Returns((_, after)) => Returns((table, after)))
  }

  /** The statements walked in order; the first panic ends the script. */
  function WalkAll(table: map<string, SymbolValue>, nodes: seq<Node>, script: seq<Stmt>): (r: Outcome<seq<Node>>)
    requires Shaped(table, |nodes|)
    decreases |script|
  {
    if script == [] then Returns(nodes)
    else
      match WalkSpec(table, nodes, script[0])
      case Panics(m) => Panics(m)
      case Returns((t, after)) => WalkAll(t, after, script[1..])
  }

  /** load_script: the specs' function names, then every statement, then
      Finish. */
  function LoadSpec(specs: seq<seq<string>>, script: seq<Stmt>): (r: Outcome<seq<FinalNode>>)
  {
    RegisteredWellFormed(specs);
    WellFormedShaped(|specs|, [], Registered(specs));
    match WalkAll(Registered(specs), [], script)
    case Panics(m) => Panics(m)
    case Returns(nodes) => Returns(Finish(nodes))
  }

  /** A method's result agrees with an evaluation result. */
  predicate Agrees(r: Outcome<CNode>, nodes: seq<Node>, spec: Outcome<(CNode, seq<Node>)>)
  {
    if r.Panics? then spec == Panics(r.reason) else spec == Returns((r.value, nodes))
  }

  // ---------------------------------------------------------------------
  // The loader
  // ---------------------------------------------------------------------

  class Loader {
    /** The component specs, each given by the function names it registers. */
    const specs: seq<seq<string>>
    var nodes: seq<Node>
    var symbolTable: map<string, SymbolValue>

    predicate Valid()
      reads this
    {
      WellFormed(|specs|, nodes, symbolTable)
    }

    constructor (specs: seq<seq<string>>)
      ensures this.specs == specs && nodes == [] && symbolTable == Registered(specs) && Valid()
    {
      var table: map<string, SymbolValue> := map[];
      for k := 0 to |specs|
        invariant table == Registered(specs[..k])
      {
        ghost var before := table;
        for j := 0 to |specs[k]|
          invariant table == Register(before, specs[k][..j], k)
        {
          assert specs[k][..j + 1][..j] == specs[k][..j];
          table := table[specs[k][j] := Function(k)];
        }
        assert specs[k][..|specs[k]|] == specs[k];
        assert specs[..k + 1][..k] == specs[..k];
      }
      assert specs[..|specs|] == specs;
      this.specs := specs;
      nodes := [];
      symbolTable := table;
      new;
      RegisteredWellFormed(specs);
    }

    /** Append a forward/backward pair: the first node reads forward, the
        second backward, and each is the other's conj. */
    method PushPair(s1: nat, args1: seq<NamedArgument>, s2: nat, args2: seq<NamedArgument>) returns (c: CNode)
      requires Valid() && s1 < |specs| && s2 < |specs|
      requires Tagged(args1, true) && Tagged(args2, false)
      modifies this
      ensures c == CNode(|old(nodes)|, |old(nodes)| + 1)
      ensures nodes == old(nodes) + NewPair(s1, args1, s2, args2, |old(nodes)|)
      ensures symbolTable == old(symbolTable)
      ensures Valid() && IsPair(c, |nodes|) && Grown(old(nodes), nodes)
    {
      PushPairWellFormed(|specs|, nodes, symbolTable, s1, args1, s2, args2);
      c := CNode(|nodes|, |nodes| + 1);
      nodes := nodes + [Node(s1, args1, [], 0)];
      nodes := nodes + [Node(s2, args2, [], 0)];
      nodes := nodes[c.forward := nodes[c.forward].(conj := c.backward)];
      nodes := nodes[c.backward := nodes[c.backward].(conj := c.forward)];
    }

    /** A cnode: one call, or a `!!` pair. A call to a function appends a
        forward and a backward node carrying the call's arguments plus
        function_name and direction; a name bound by an assignment yields
        its pair and creates nothing; an unknown name panics, and so does a
        `!!` side that is not a function. */
    method EvalCNode(first: NodeTree, second: Option<NodeTree>) returns (r: Outcome<CNode>)
      requires Valid()
      modifies this
      ensures Shaped(old(symbolTable), |old(nodes)|) &&
              Agrees(r, nodes, CNodeSpec(old(symbolTable), old(nodes), first, second))
      ensures r.Returns? ==> Valid() && IsPair(r.value, |nodes|) && Grown(old(nodes), nodes)
      ensures symbolTable == old(symbolTable)
      ensures second.None? ==>
        var p := ParseNode(first);
        (r.Panics? <==> p.Panics? || first.ident !in old(symbolTable)) &&
        (r.Returns? && old(symbolTable)[first.ident].CNodeSymbol? ==>
          r.value == old(symbolTable)[first.ident].cnode && nodes == old(nodes)) &&
        (r.Returns? && old(symbolTable)[first.ident].Function? ==>
          var s := old(symbolTable)[first.ident].spec;
          r.value == CNode(|old(nodes)|, |old(nodes)| + 1) &&
          nodes == old(nodes) + NewPair(s, NodeArgs(first.ident, p.value.1, true),
                                        s, NodeArgs(first.ident, p.value.1, false), |old(nodes)|))
      ensures second.Some? ==>
        var p1 := ParseNode(first);
        var p2 := ParseNode(second.value);
        (r.Returns? <==> (p1.Returns? && p2.Returns? &&
          first.ident in old(symbolTable) && old(symbolTable)[first.ident].Function? &&
          second.value.ident in old(symbolTable) && old(symbolTable)[second.value.ident].Function?)) &&
        (r.Returns? ==>
          r.value == CNode(|old(nodes)|, |old(nodes)| + 1) &&
          nodes == old(nodes) + NewPair(old(symbolTable)[first.ident].spec, NodeArgs(first.ident, p1.value.1, true),
                                        old(symbolTable)[second.value.ident].spec,
                                        NodeArgs(second.value.ident, p2.value.1, false), |old(nodes)|))
    {
      if second.None? {
        r := EvalCall(first);
      } else {
        r := EvalPair(first, second.value);
      }
    }

    /** A cnode that is a single call. */
    method EvalCall(first: NodeTree) returns (r: Outcome<CNode>)
      requires Valid()
      modifies this
      ensures Shaped(old(symbolTable), |old(nodes)|) &&
              Agrees(r, nodes, CallSpec(old(symbolTable), old(nodes), first))
      ensures r.Returns? ==> Valid() && IsPair(r.value, |nodes|) && Grown(old(nodes), nodes)
      ensures symbolTable == old(symbolTable)
      ensures var p := ParseNode(first);
        (r.Panics? <==> p.Panics? || first.ident !in old(symbolTable)) &&
        (r.Returns? && old(symbolTable)[first.ident].CNodeSymbol? ==>
          r.value == old(symbolTable)[first.ident].cnode && nodes == old(nodes)) &&
        (r.Returns? && old(symbolTable)[first.ident].Function? ==>
          var s := old(symbolTable)[first.ident].spec;
          r.value == CNode(|old(nodes)|, |old(nodes)| + 1) &&
          nodes == old(nodes) + NewPair(s, NodeArgs(first.ident, p.value.1, true),
                                        s, NodeArgs(first.ident, p.value.1, false), |old(nodes)|))
    {
      WellFormedShaped(|specs|, nodes, symbolTable);
      var p1 := ParseNode(first);
      if p1.Panics? {
        return Panics(p1.reason);
      }
      var (ident, args) := p1.value;
      if ident !in symbolTable {
        return Panics(KEY_NOT_FOUND);
      }
      match symbolTable[ident]
      case CNodeSymbol(c) =>
        assert SymbolOk(|specs|, |nodes|, symbolTable[ident]);
        return Returns(c);
      case Function(s) =>
        var c := PushPair(s, NodeArgs(ident, args, true), s, NodeArgs(ident, args, false));
        return Returns(c);
    }

    /** A `!!` pair: the first function's forward node and the second
        function's backward node. */
    method EvalPair(first: NodeTree, second: NodeTree) returns (r: Outcome<CNode>)
      requires Valid()
      modifies this
      ensures Shaped(old(symbolTable), |old(nodes)|) &&
              Agrees(r, nodes, PairSpec(old(symbolTable), old(nodes), first, second))
      ensures r.Returns? ==> Valid() && IsPair(r.value, |nodes|) && Grown(old(nodes), nodes)
      ensures symbolTable == old(symbolTable)
      ensures var p1 := ParseNode(first);
        var p2 := ParseNode(second);
        (r.Returns? <==> (p1.Returns? && p2.Returns? &&
          first.ident in old(symbolTable) && old(symbolTable)[first.ident].Function? &&
          second.ident in old(symbolTable) && old(symbolTable)[second.ident].Function?)) &&
        (r.Returns? ==>
          r.value == CNode(|old(nodes)|, |old(nodes)| + 1) &&
          nodes == old(nodes) + NewPair(old(symbolTable)[first.ident].spec, NodeArgs(first.ident, p1.value.1, true),
                                        old(symbolTable)[second.ident].spec,
                                        NodeArgs(second.ident, p2.value.1, false), |old(nodes)|))
    {
      WellFormedShaped(|specs|, nodes, symbolTable);
      var p1 := ParseNode(first);
      if p1.Panics? {
        return Panics(p1.reason);
      }
      var (ident, args) := p1.value;
      if ident !in symbolTable {
        return Panics(KEY_NOT_FOUND);
      }
      if !symbolTable[ident].Function? {
        return Panics(DOUBLE_BANG);
      }
      var s1 := symbolTable[ident].spec;
      var p2 := ParseNode(second);
      if p2.Panics? {
        return Panics(p2.reason);
      }
      var (ident2, args2) := p2.value;
      if ident2 !in symbolTable {
        return Panics(KEY_NOT_FOUND);
      }
      if !symbolTable[ident2].Function? {
        return Panics(DOUBLE_BANG);
      }
      var s2 := symbolTable[ident2].spec;
      var c := PushPair(s1, NodeArgs(ident, args, true), s2, NodeArgs(ident2, args2, false));
      return Returns(c);
    }

    /** Add the pipe edges between consecutive elements p and c. */
    method Link(p: CNode, c: CNode)
      requires Valid() && IsPair(p, |nodes|) && IsPair(c, |nodes|)
      modifies this
      ensures nodes == AddLink(old(nodes), p, c) && symbolTable == old(symbolTable)
      ensures Valid() && Grown(old(nodes), nodes) && Linked(nodes, p, c)
    {
      AddLinkWellFormed(|specs|, nodes, symbolTable, p, c);
      nodes := nodes[p.forward := nodes[p.forward].(outputs := nodes[p.forward].outputs + [c.forward])];
      nodes := nodes[c.backward := nodes[c.backward].(outputs := nodes[c.backward].outputs + [p.backward])];
    }

    method Eval(e: Expr) returns (r: Outcome<CNode>)
      requires Valid()
      modifies this
      ensures Shaped(old(symbolTable), |old(nodes)|) &&
              Agrees(r, nodes, EvalSpec(old(symbolTable), old(nodes), e))
      ensures r.Returns? ==> Valid() && IsPair(r.value, |nodes|) && Grown(old(nodes), nodes)
      ensures symbolTable == old(symbolTable)
      decreases e, 1
    {
      match e
      case CNodeExpr(first, second) =>
        r := EvalCNode(first, second);
      case Pipe(_) =>
        ghost var cs;
        r, cs := EvalPipe(e);
    }

    /** A pipe: evaluate the elements in order, link each to the next, and
        yield the last; an empty pipe panics on unwrap. `cs` are the
        elements' pairs. */
    method EvalPipe(e: Expr) returns (r: Outcome<CNode>, ghost cs: seq<CNode>)
      requires e.Pipe? && Valid()
      modifies this
      ensures symbolTable == old(symbolTable)
      ensures e.elems == [] ==> r.Panics?
      ensures Shaped(old(symbolTable), |old(nodes)|) &&
              Agrees(r, nodes, EvalSpec(old(symbolTable), old(nodes), e))
      ensures r.Returns? ==> Valid() && Grown(old(nodes), nodes)
      ensures r.Returns? ==> (|cs| == |e.elems| > 0 && r.value == cs[|cs| - 1] &&
        (forall k :: 0 <= k < |cs| ==> IsPair(cs[k], |nodes|)) &&
        (forall k :: 0 <= k < |cs| - 1 ==> Linked(nodes, cs[k], cs[k + 1])))
      decreases e, 0
    {
      WellFormedShaped(|specs|, nodes, symbolTable);
      var last: Option<CNode> := None;
      cs := [];
      for k := 0 to |e.elems|
        invariant Valid() && Grown(old(nodes), nodes) && symbolTable == old(symbolTable)
        invariant |cs| == k && (k == 0 <==> last.None?) && (k > 0 ==> last == Some(cs[k - 1]))
        invariant Chain(nodes, cs) && Shaped(symbolTable, |nodes|)
        invariant EvalSpec(old(symbolTable), old(nodes), e) == PipeSpec(symbolTable, nodes, e, k, last)
      {
        ghost var before := nodes;
        var c := Eval(e.elems[k]);
        if c.Panics? {
          return Panics(c.reason), cs;
        }
        GrownTrans(old(nodes), before, nodes);
        ChainGrown(before, nodes, cs);
        if last.Some? {
          ghost var mid := nodes;
          Link(last.value, c.value);
          GrownTrans(old(nodes), mid, nodes);
          ChainGrown(mid, nodes, cs);
        }
        ChainExtend(nodes, cs, c.value);
        WellFormedShaped(|specs|, nodes, symbolTable);
        last := Some(c.value);
        cs := cs + [c.value];
      }
      if last.None? {
        return Panics(UNWRAP_NONE), cs;
      }
      return Returns(last.value), cs;
    }

    /** walk for one statement: an assignment binds the name to the value's
        pair, replacing an earlier binding; a pipe is evaluated for its
        nodes and edges. */
    method WalkStmt(s: Stmt) returns (r: Outcome<()>)
      requires Valid()
      modifies this
      ensures r.Returns? ==> Valid() && Grown(old(nodes), nodes)
      ensures r.Returns? && s.PipeStmt? ==> symbolTable == old(symbolTable)
      ensures r.Returns? && s.Assignment? ==>
        s.ident in symbolTable && symbolTable[s.ident].CNodeSymbol? &&
        symbolTable == old(symbolTable)[s.ident := symbolTable[s.ident]]
      ensures Shaped(old(symbolTable), |old(nodes)|) &&
        var w := WalkSpec(old(symbolTable), old(nodes), s);
        (r.Panics? ==> w == Panics(r.reason)) && (r.Returns? ==> w == Returns((symbolTable, nodes)))
    {
      match s
      case Assignment(ident, value) =>
        var v := Eval(value);
        if v.Panics? {
          return Panics(v.reason);
        }
        symbolTable := symbolTable[ident := CNodeSymbol(v.value)];
        return Returns(());
      case PipeStmt(pipe) =>
        var v := Eval(pipe);
        if v.Panics? {
          return Panics(v.reason);
        }
        return Returns(());
    }
  }

  /** parse_node: the called name and its parsed arguments. */
  function ParseNode(n: NodeTree): (r: Outcome<(string, seq<NamedArgument>)>)
    ensures r.Panics? <==> ParseArgs(n.args).Panics?
    ensures r.Returns? ==> r.value == (n.ident, ParseArgs(n.args).value)
  {
    var args := ParseArgs(n.args);
    if args.Panics? then Panics(args.reason) else Returns((n.ident, args.value))
  }

  /** load_script: register the specs' functions, walk the statements in
      order, then finish every node with its `outputs` argument. */
  method LoadScript(specs: seq<seq<string>>, script: seq<Stmt>) returns (r: Outcome<seq<FinalNode>>)
    ensures r.Returns? ==> exists nodes, symbols :: WellFormed(|specs|, nodes, symbols) && r.value == Finish(nodes)
    ensures r == LoadSpec(specs, script)
  {
    var loader := new Loader(specs);
    WellFormedShaped(|specs|, [], Registered(specs));
    for k := 0 to |script|
      invariant loader.Valid() && loader.specs == specs && Shaped(loader.symbolTable, |loader.nodes|)
      invariant WalkAll(Registered(specs), [], script) == WalkAll(loader.symbolTable, loader.nodes, script[k..])
    {
      assert script[k..][0] == script[k] && script[k..][1..] == script[k + 1..];
      var done := loader.WalkStmt(script[k]);
      if done.Panics? {
        return Panics(done.reason);
      }
      WellFormedShaped(|specs|, loader.nodes, loader.symbolTable);
    }
    return Returns(Finish(loader.nodes));
  }
}

=== FILE: socks5.dfy ===
/** The SOCKS5 server side (components/socks5/src/server.rs): the method
    negotiation of section 3 of RFC 1928, the request of sections 4 and 5,
    the fixed reply, and the forwarding of everything the client sends after
    the request. Incoming packets are given as a sequence; sending always
    succeeds. */
module Socks5 {
  import opened Wrappers
  import opened Bytes
  import Utf8

  const VERSION: byte := 5
  const NO_AUTH: byte := 0
  const ATYP_IPV4: byte := 1
  const ATYP_DOMAIN: byte := 3
  const ATYP_IPV6: byte := 4

  /** The method-selection replies: no authentication, or no acceptable method. */
  const ACCEPT: seq<byte> := [5, 0]
  const REFUSE: seq<byte> := [5, 0xFF]
  /** The reply to every request: succeeded, bound to 0.0.0.0:0. */
  const REQUEST_REPLY: seq<byte> := [5, 0, 0, 1, 0, 0, 0, 0, 0, 0]


  // ---------------------------------------------------------------------
  // Method negotiation
  // ---------------------------------------------------------------------

  datatype Greeting = GreetingIncomplete | UnsupportedVersion | NoAcceptableMethod | Greeted(consumed: nat)

  /** The greeting at the front of the buffer: VER, NMETHODS, METHODS. */
  function ParseGreeting(buf: seq<byte>): (g: Greeting)
    ensures g.Greeted? ==> 2 <= g.consumed <= |buf|
  {
    if |buf| < 2 then GreetingIncomplete
    else if buf[0] != VERSION then UnsupportedVersion
    else if |buf| < 2 + buf[1] as int then GreetingIncomplete
    else if NO_AUTH !in buf[2..2 + buf[1] as int] then NoAcceptableMethod
    else Greeted(2 + buf[1] as int)
  }

  /** A client greeting offering `methods`. */
  function ClientGreeting(methods: seq<byte>): (s: seq<byte>)
    requires |methods| < 256
    ensures |s| == 2 + |methods|
  {
    [VERSION, |methods| as byte] + methods
  }

  /** Once the buffer decides the greeting, more data does not change it. */
  lemma GreetingStable(buf: seq<byte>, more: seq<byte>)
    requires !ParseGreeting(buf).GreetingIncomplete?
    ensures ParseGreeting(buf + more) == ParseGreeting(buf)
  {
    var b := buf + more;
    if buf[0] == VERSION {
      assert b[2..2 + buf[1] as int] == buf[2..2 + buf[1] as int];
    }
  }

  /** A greeting offering no authentication is accepted and consumed
      exactly; one without it is refused; trailing data does not matter. */
  lemma {:induction false} GreetingRoundTrip(methods: seq<byte>, rest: seq<byte>)
    requires |methods| < 256
    ensures NO_AUTH in methods ==> ParseGreeting(ClientGreeting(methods) + rest) == Greeted(2 + |methods|)
    ensures NO_AUTH !in methods ==> ParseGreeting(ClientGreeting(methods) + rest) == NoAcceptableMethod
  {
    var b := ClientGreeting(methods) + rest;
    assert b[1] as int == |methods|;
    assert b[2..2 + |methods|] == methods;
  }

  /** Fewer bytes than the greeting declares: wait for more. */
  lemma GreetingShort(methods: seq<byte>, k: nat)
    requires |methods| < 256 && k < 2 + |methods|
    ensures ParseGreeting(ClientGreeting(methods)[..k]) == GreetingIncomplete
  {
  }

  // ---------------------------------------------------------------------
  // The request
  // ---------------------------------------------------------------------

  /** A destination address: four or sixteen octets, or a domain name kept
      as its UTF-8 bytes. */
  datatype Host = IPv4(octets: seq<byte>) | IPv6(octets: seq<byte>) | DomainName(name: seq<byte>)

  datatype Address = AddressIncomplete | UnknownAddressType | Addressed(host: Host, len: nat)

  /** The address that follows ATYP; a domain name that is not UTF-8
      panics on unwrap. */
  function ParseHost(atyp: byte, s: seq<byte>): (r: Outcome<Address>)
    ensures r.Returns? && r.value.Addressed? ==> r.value.len <= |s|
    ensures r.Panics? ==> atyp == ATYP_DOMAIN
  {
    if atyp == ATYP_IPV4 then
      if |s| < 4 then Returns(AddressIncomplete) else Returns(Addressed(IPv4(s[..4]), 4))
    else if atyp == ATYP_IPV6 then
      if |s| < 16 then Returns(AddressIncomplete) else Returns(Addressed(IPv6(s[..16]), 16))
    else if atyp == ATYP_DOMAIN then
      if |s| < 1 || |s| < 1 + s[0] as int then Returns(AddressIncomplete)
      else if !Utf8.Valid(s[1..1 + s[0] as int]) then Panics(UNWRAP_ERR)
      else Returns(Addressed(DomainName(s[1..1 + s[0] as int]), 1 + s[0] as int))
    else Returns(UnknownAddressType)
  }

  datatype Request = RequestIncomplete | RequestVersion | RequestAddressType | Requested(host: Host, port: u16, consumed: nat)

  /** The request VER, CMD, RSV, ATYP, DST.ADDR, DST.PORT that starts at
      `start`; `consumed` is the absolute offset just past the port. A
      command other than CONNECT is accepted like CONNECT. */
  function ParseRequest(buf: seq<byte>, start: nat): (r: Outcome<Request>)
    requires start <= |buf|
    ensures r.Returns? && r.value.Requested? ==> start + 6 <= r.value.consumed <= |buf|
  {
    RequestFrom(buf[start..], start)
  }

  /** The request at the front of `s`, which starts at offset `start` of
      the stream. */
  function RequestFrom(s: seq<byte>, start: nat): (r: Outcome<Request>)
    ensures r.Returns? && r.value.Requested? ==> start + 6 <= r.value.consumed <= start + |s|
  {
    if |s| < 4 then Returns(RequestIncomplete)
    else if s[0] != VERSION then Returns(RequestVersion)
    else
      var a := ParseHost(s[3], s[4..]);
      if a.Panics? then Panics(a.reason)
      else if a.value.AddressIncomplete? then Returns(RequestIncomplete)
      else if a.value.UnknownAddressType? then Returns(RequestAddressType)
      else
        var after := s[4 + a.value.len..];
        if |after| < 2 then Returns(RequestIncomplete)
        else Returns(Requested(a.value.host, ReadU16Be(after), start + 4 + a.value.len + 2))
  }

  /** A host a client can name: four or sixteen octets, or a domain name of
      at most 255 bytes of UTF-8. */
  predicate ValidHost(h: Host)
  {
    match h
    case IPv4(o) => |o| == 4
    case IPv6(o) => |o| == 16
    case DomainName(n) => |n| < 256 && Utf8.Valid(n)
  }

  /** ATYP and DST.ADDR for a host. */
  function HostBytes(h: Host): (s: seq<byte>)
    requires ValidHost(h)
  {
    match h
    case IPv4(o) => [ATYP_IPV4] + o
    case IPv6(o) => [ATYP_IPV6] + o
    case DomainName(n) => [ATYP_DOMAIN, |n| as byte] + n
  }

  function ClientRequest(cmd: byte, h: Host, port: u16): (s: seq<byte>)
    requires ValidHost(h)
  {
    [VERSION, cmd, 0] + HostBytes(h) + U16Be(port)
  }

  lemma HostRoundTrip(h: Host, port: u16, rest: seq<byte>)
    requires ValidHost(h)
    ensures ParseHost(HostBytes(h)[0], HostBytes(h)[1..] + U16Be(port) + rest) ==
      Returns(Addressed(h, |HostBytes(h)| - 1))
  {
    var hb := HostBytes(h);
    var s := hb[1..] + U16Be(port) + rest;
    match h
    case DomainName(n) =>
      assert hb[1..] == [|n| as byte] + n;
      assert s[0] == |n| as byte;
      assert s[1..1 + |n|] == n;
    case IPv4(o) =>
      assert hb[1..] == o;
      assert s[..4] == o;
    case IPv6(o) =>
      assert hb[1..] == o;
      assert s[..16] == o;
  }

  /** The server reads back any request a client writes, after whatever
      came before it and whatever follows it. */
  lemma RequestRoundTrip(prefix: seq<byte>, cmd: byte, h: Host, port: u16, rest: seq<byte>)
    requires ValidHost(h)
    ensures ParseRequest(prefix + (ClientRequest(cmd, h, port) + rest), |prefix|) ==
      Returns(Requested(h, port, |prefix| + |ClientRequest(cmd, h, port)|))
  {
    var hb := HostBytes(h);
    var pb := U16Be(port);
    HostRoundTrip(h, port, rest);
    U16RoundTrip(port);
    RequestFromPieces(prefix, cmd, hb, pb, rest, h, port);
  }

  /** A request assembled from its address and port bytes parses back
      when those parse back. */
  lemma RequestFromPieces(prefix: seq<byte>, cmd: byte, hb: seq<byte>, pb: seq<byte>, rest: seq<byte>, h: Host, port: u16)
    requires |hb| >= 1 && |pb| == 2 && ReadU16Be(pb) == port
    requires ParseHost(hb[0], hb[1..] + pb + rest) == Returns(Addressed(h, |hb| - 1))
    ensures ParseRequest(prefix + (([VERSION, cmd, 0] + hb + pb) + rest), |prefix|) ==
      Returns(Requested(h, port, |prefix| + |[VERSION, cmd, 0] + hb + pb|))
  {
    var s := [VERSION, cmd, 0] + hb + pb + rest;
    assert ([VERSION, cmd, 0] + hb + pb) + rest == s;
    assert (prefix + s)[|prefix|..] == s;
    var len := |hb| - 1;
    RequestLayout(cmd, hb, pb, rest, len);
    assert ReadU16Be(pb + rest) == ReadU16Be(pb);
    RequestFromParts(s, |prefix|, h, len, port);
  }

  /** Where the fields of a request sit; `len` is the length of DST.ADDR. */
  lemma RequestLayout(cmd: byte, hb: seq<byte>, pb: seq<byte>, rest: seq<byte>, len: nat)
    requires |hb| == len + 1
    ensures var s := [VERSION, cmd, 0] + hb + pb + rest;
      |s| == 4 + len + |pb| + |rest| && s[0] == VERSION && s[3] == hb[0] &&
      s[4..] == hb[1..] + pb + rest && s[4 + len..] == pb + rest
  {
    var s := [VERSION, cmd, 0] + hb + pb + rest;
    assert s[4..] == hb[1..] + pb + rest;
    assert s[4 + len..] == pb + rest;
  }

  /** RequestFrom, field by field. */
  lemma RequestFromParts(s: seq<byte>, start: nat, h: Host, len: nat, port: u16)
    requires |s| >= 4 + len + 2 && s[0] == VERSION
    requires ParseHost(s[3], s[4..]) == Returns(Addressed(h, len))
    requires ReadU16Be(s[4 + len..]) == port
    ensures RequestFrom(s, start) == Returns(Requested(h, port, start + 4 + len + 2))
  {
  }

  /** An address once read stays read when more bytes arrive. */
  lemma HostStable(atyp: byte, s: seq<byte>, more: seq<byte>)
    requires ParseHost(atyp, s).Returns? && ParseHost(atyp, s).value.Addressed?
    ensures ParseHost(atyp, s + more) == ParseHost(atyp, s)
  {
    if atyp == ATYP_DOMAIN {
      assert (s + more)[1..1 + s[0] as int] == s[1..1 + s[0] as int];
    } else if atyp == ATYP_IPV4 {
      assert (s + more)[..4] == s[..4];
    } else {
      assert (s + more)[..16] == s[..16];
    }
  }

  /** The request is decided by the bytes up to the end of the port. */
  lemma RequestStable(buf: seq<byte>, start: nat, more: seq<byte>)
    requires start <= |buf| && ParseRequest(buf, start).Returns?
    requires !ParseRequest(buf, start).value.RequestIncomplete?
    ensures ParseRequest(buf + more, start) == ParseRequest(buf, start)
  {
    assert (buf + more)[start..] == buf[start..] + more;
    RequestFromStable(buf[start..], start, more);
  }

  /** The rest of the buffer after the address only grows, and when it
      holds a port, more bytes do not change the port. */
  lemma PortStable(s: seq<byte>, n: nat, more: seq<byte>)
    requires n <= |s|
    ensures (s + more)[n..] == s[n..] + more
    ensures |s[n..]| >= 2 ==> ReadU16Be((s + more)[n..]) == ReadU16Be(s[n..])
  {
    assert (s + more)[n..] == s[n..] + more;
    if |s[n..]| >= 2 {
      assert (s[n..] + more)[0] == s[n..][0] && (s[n..] + more)[1] == s[n..][1];
    }
  }

  lemma RequestFromStable(s: seq<byte>, start: nat, more: seq<byte>)
    requires RequestFrom(s, start).Returns? && !RequestFrom(s, start).value.RequestIncomplete?
    ensures RequestFrom(s + more, start) == RequestFrom(s, start)
  {
    if s[0] == VERSION {
      var a := ParseHost(s[3], s[4..]);
      if a.Returns? && a.value.Addressed? {
        assert (s + more)[4..] == s[4..] + more;
        HostStable(s[3], s[4..], more);
        PortStable(s, 4 + a.value.len, more);
      }
    }
  }

  // ---------------------------------------------------------------------
  // The session
  // ---------------------------------------------------------------------

  datatype Destination = Destination(host: Host, port: u16)

  /** What a session sends back to the client, the destination it records
      in the metadata, and what it forwards to the next stage. */
  datatype Session = Session(replies: seq<seq<byte>>, destination: Option<Destination>, forwarded: seq<seq<byte>>)

  const CLOSED := Session([], None, [])

  /** The handshake loop: receive a packet, append it, retry the greeting
      until it is decided; None when the mailbox closes first. */
  function Greet(buf: seq<byte>, packets: seq<seq<byte>>): (r: Option<(Greeting, seq<byte>, seq<seq<byte>>)>)
    ensures r.Some? ==> !r.value.0.GreetingIncomplete? && r.value.0 == ParseGreeting(r.value.1)
    decreases |packets|
  {
    if packets == [] then None
    else
      var b := buf + packets[0];
      var g := ParseGreeting(b);
      if g.GreetingIncomplete? then Greet(b, packets[1..]) else Some((g, b, packets[1..]))
  }

  /** The request loop: it too receives a packet before every attempt. */
  function AwaitRequest(buf: seq<byte>, start: nat, packets: seq<seq<byte>>): (r: Outcome<Option<(Request, seq<byte>, seq<seq<byte>>)>>)
    requires start <= |buf|
    ensures r.Returns? && r.value.Some? ==>
      !r.value.value.0.RequestIncomplete? && start <= |r.value.value.1| &&
      ParseRequest(r.value.value.1, start) == Returns(r.value.value.0)
    decreases |packets|
  {
    if packets == [] then Returns(None)
    else
      var b := buf + packets[0];
      var q := ParseRequest(b, start);
      if q.Panics? then Panics(q.reason)
      else if q.value.RequestIncomplete? then AwaitRequest(b, start, packets[1..])
      else Returns(Some((q.value, b, packets[1..])))
  }

  /** The whole session over the incoming packets. */
  function Run(packets: seq<seq<byte>>): (r: Outcome<Session>)
  {
    match Greet([], packets)
    case None => Returns(CLOSED)
    case Some((g, buf, rest)) =>
      if g.UnsupportedVersion? then Returns(CLOSED)
      else if g.NoAcceptableMethod? then Returns(Session([REFUSE], None, []))
      else
        var q := AwaitRequest(buf, g.consumed, rest);
        if q.Panics? then Panics(q.reason)
        else if q.value.None? then Returns(Session([ACCEPT], None, []))
        else
          var (req, buf2, rest2) := q.value.value;
          if !req.Requested? then Returns(Session([ACCEPT], None, []))
          else
            var leftover := if |buf2| > req.consumed then [buf2[req.consumed..]] else [];
            Returns(Session([ACCEPT, REQUEST_REPLY], Some(Destination(req.host, req.port)), leftover + rest2))
  }

  /** The replies are always one of four: none, a refusal, the method
      acceptance alone, or acceptance then the request reply; a destination
      is recorded exactly when the request reply is sent, and nothing is
      forwarded before it. */
  lemma RunShape(packets: seq<seq<byte>>)
    requires Run(packets).Returns?
    ensures var s := Run(packets).value;
      (s.replies == [] || s.replies == [REFUSE] || s.replies == [ACCEPT] || s.replies == [ACCEPT, REQUEST_REPLY]) &&
      (s.destination.Some? <==> s.replies == [ACCEPT, REQUEST_REPLY]) &&
      (s.forwarded != [] ==> s.destination.Some?)
  {
  }

  /** A packet that decides the greeting on its own decides the handshake. */
  lemma GreetFirst(p: seq<byte>, packets: seq<seq<byte>>)
    requires !ParseGreeting(p).GreetingIncomplete?
    ensures Greet([], [p] + packets) == Some((ParseGreeting(p), p, packets))
  {
    assert [] + p == p;
    assert ([p] + packets)[1..] == packets;
  }

  /** A packet that completes the request ends the request loop. */
  lemma AwaitFirst(buf: seq<byte>, start: nat, p: seq<byte>, packets: seq<seq<byte>>, req: Request)
    requires start <= |buf| && ParseRequest(buf + p, start) == Returns(req) && !req.RequestIncomplete?
    ensures AwaitRequest(buf, start, [p] + packets) == Returns(Some((req, buf + p, packets)))
  {
    assert ([p] + packets)[1..] == packets;
  }

  /** Run once both loops have succeeded. */
  lemma RunRequested(packets: seq<seq<byte>>, c: nat, buf: seq<byte>, rest: seq<seq<byte>>,
                     req: Request, buf2: seq<byte>, rest2: seq<seq<byte>>, leftover: seq<seq<byte>>)
    requires Greet([], packets) == Some((Greeted(c), buf, rest)) && c <= |buf|
    requires AwaitRequest(buf, c, rest) == Returns(Some((req, buf2, rest2))) && req.Requested?
    requires leftover == if |buf2| > req.consumed then [buf2[req.consumed..]] else []
    ensures Run(packets) == Returns(Session([ACCEPT, REQUEST_REPLY], Some(Destination(req.host, req.port)), leftover + rest2))
  {
  }

  /** The greeting step of a well-behaved client. */
  lemma GreetThenRequest(methods: seq<byte>, second: seq<byte>, packets: seq<seq<byte>>)
    requires |methods| < 256 && NO_AUTH in methods
    ensures Greet([], [ClientGreeting(methods), second] + packets) ==
      Some((Greeted(|ClientGreeting(methods)|), ClientGreeting(methods), [second] + packets))
  {
    var g := ClientGreeting(methods);
    GreetingRoundTrip(methods, []);
    assert g + [] == g;
    assert [g, second] + packets == [g] + ([second] + packets);
    GreetFirst(g, [second] + packets);
  }

  /** The request step of a well-behaved client: `q` is its request. */
  lemma RequestThenData(g: seq<byte>, q: seq<byte>, cmd: byte, h: Host, port: u16, data: seq<byte>, packets: seq<seq<byte>>)
    requires ValidHost(h) && q == ClientRequest(cmd, h, port)
    ensures AwaitRequest(g, |g|, [q + data] + packets) ==
      Returns(Some((Requested(h, port, |g| + |q|), g + (q + data), packets)))
  {
    HostRoundTrip(h, port, data);
    U16RoundTrip(port);
    RequestFromPieces(g, cmd, HostBytes(h), U16Be(port), data, h, port);
    AwaitFirst(g, |g|, q + data, packets, Requested(h, port, |g| + |q|));
  }

  /** A well-behaved client: a greeting offering no authentication, then a
      request followed by `data` in one packet, then more packets. The
      server accepts, replies, records the destination, and forwards `data`
      (when there is any) and then every later packet unchanged. */
  lemma {:induction false} WellBehavedClient(methods: seq<byte>, cmd: byte, h: Host, port: u16,
                                             data: seq<byte>, packets: seq<seq<byte>>)
    requires |methods| < 256 && NO_AUTH in methods && ValidHost(h)
    ensures Run([ClientGreeting(methods), ClientRequest(cmd, h, port) + data] + packets) ==
      Returns(Session([ACCEPT, REQUEST_REPLY], Some(Destination(h, port)),
                      (if data == [] then [] else [data]) + packets))
  {
    var g := ClientGreeting(methods);
    var q := ClientRequest(cmd, h, port);
    GreetThenRequest(methods, q + data, packets);
    RequestThenData(g, q, cmd, h, port, data, packets);
    SessionAfterRequest(g, q, data, packets, h, port);
  }

  /** Run, once the greeting `g` and the request `q` followed by `data`
      have been read. */
  lemma SessionAfterRequest(g: seq<byte>, q: seq<byte>, data: seq<byte>, packets: seq<seq<byte>>, h: Host, port: u16)
    requires Greet([], [g, q + data] + packets) == Some((Greeted(|g|), g, [q + data] + packets))
    requires AwaitRequest(g, |g|, [q + data] + packets) ==
      Returns(Some((Requested(h, port, |g| + |q|), g + (q + data), packets)))
    ensures Run([g, q + data] + packets) ==
      Returns(Session([ACCEPT, REQUEST_REPLY], Some(Destination(h, port)), (if data == [] then [] else [data]) + packets))
  {
    var buf2 := g + (q + data);
    var req := Requested(h, port, |g| + |q|);
    DataLeftover(g, q, data, buf2, req.consumed);
    RunRequested([g, q + data] + packets, |g|, g, [q + data] + packets, req, buf2, packets,
                 if data == [] then [] else [data]);
  }

  /** What follows the greeting and the request in the buffer is the data
      sent with the request. */
  lemma DataLeftover(g: seq<byte>, q: seq<byte>, data: seq<byte>, buf: seq<byte>, consumed: nat)
    requires buf == g + (q + data) && consumed == |g| + |q|
    ensures (if |buf| > consumed then [buf[consumed..]] else []) == (if data == [] then [] else [data])
  {
    assert buf[consumed..] == data;
  }

  /** A client that offers only other methods is refused. */
  lemma RefusedClient(methods: seq<byte>, packets: seq<seq<byte>>)
    requires |methods| < 256 && NO_AUTH !in methods
    ensures Run([ClientGreeting(methods)] + packets) == Returns(Session([REFUSE], None, []))
  {
    GreetingRoundTrip(methods, []);
    assert ClientGreeting(methods) + [] == ClientGreeting(methods);
    GreetFirst(ClientGreeting(methods), packets);
  }

  /** A request sent in the same packet as the greeting is not read until
      one more packet arrives: the request loop receives before it parses. */
  lemma PipelinedRequestWaits(methods: seq<byte>, cmd: byte, h: Host, port: u16)
    requires |methods| < 256 && NO_AUTH in methods && ValidHost(h)
    ensures Run([ClientGreeting(methods) + ClientRequest(cmd, h, port)]) == Returns(Session([ACCEPT], None, []))
  {
    var p := ClientGreeting(methods) + ClientRequest(cmd, h, port);
    GreetingRoundTrip(methods, ClientRequest(cmd, h, port));
    GreetFirst(p, []);
    assert [p] + [] == [p];
  }

  /** The handshake loop: `next` is the index of the next packet to
      receive. */
  method AwaitGreeting(packets: seq<seq<byte>>) returns (g: Greeting, buf: seq<byte>, next: nat)
    ensures next <= |packets|
    ensures g.GreetingIncomplete? ==> Greet([], packets).None?
    ensures !g.GreetingIncomplete? ==> Greet([], packets) == Some((g, buf, packets[next..]))
  {
    buf := [];
    next := 0;
    g := GreetingIncomplete;
    while next < |packets|
      invariant next <= |packets| && Greet(buf, packets[next..]) == Greet([], packets)
      decreases |packets| - next
    {
      assert packets[next..][1..] == packets[next + 1..];
      buf := buf + packets[next];
      next := next + 1;
      g := ParseGreeting(buf);
      if !g.GreetingIncomplete? {
        return;
      }
    }
    g := GreetingIncomplete;
  }

  /** The request loop: it receives a packet before every attempt. */
  method ReadRequest(buf0: seq<byte>, start: nat, packets: seq<seq<byte>>, from: nat)
    returns (q: Outcome<Request>, buf: seq<byte>, next: nat)
    requires start <= |buf0| && from <= |packets|
    ensures next <= |packets| && start <= |buf|
    ensures q.Panics? ==> AwaitRequest(buf0, start, packets[from..]) == Panics(q.reason)
    ensures q.Returns? && q.value.RequestIncomplete? ==> AwaitRequest(buf0, start, packets[from..]) == Returns(None)
    ensures q.Returns? && !q.value.RequestIncomplete? ==>
      AwaitRequest(buf0, start, packets[from..]) == Returns(Some((q.value, buf, packets[next..])))
  {
    buf := buf0;
    next := from;
    q := Returns(RequestIncomplete);
    while next < |packets|
      invariant from <= next <= |packets| && start <= |buf|
      invariant AwaitRequest(buf, start, packets[next..]) == AwaitRequest(buf0, start, packets[from..])
      decreases |packets| - next
    {
      assert packets[next..][1..] == packets[next + 1..];
      buf := buf + packets[next];
      next := next + 1;
      q := ParseRequest(buf, start);
      if q.Panics? || !q.value.RequestIncomplete? {
        return;
      }
    }
    q := Returns(RequestIncomplete);
  }

  /** The session actor: the handshake loop, the request loop, the reply,
      then forwarding: the bytes already buffered past the request first,
      then every later packet. */
  method Serve(packets: seq<seq<byte>>) returns (r: Outcome<Session>)
    ensures r == Run(packets)
  {
    var g, buf, next := AwaitGreeting(packets);
    if g.GreetingIncomplete? || g.UnsupportedVersion? {
      return Returns(CLOSED);
    }
    if g.NoAcceptableMethod? {
      return Returns(Session([REFUSE], None, []));
    }
    var q, buf2, next2 := ReadRequest(buf, g.consumed, packets, next);
    if q.Panics? {
      return Panics(q.reason);
    }
    if !q.value.Requested? {
      return Returns(Session([ACCEPT], None, []));
    }
    var leftover: seq<seq<byte>> := [];
    if |buf2| > q.value.consumed {
      leftover := [buf2[q.value.consumed..]];
    }
    var forwarded := Forward(leftover, packets, next2);
    return Returns(Session([ACCEPT, REQUEST_REPLY], Some(Destination(q.value.host, q.value.port)), forwarded));
  }

  /** The forwarding loop: what was left over, then every later packet. */
  method Forward(leftover: seq<seq<byte>>, packets: seq<seq<byte>>, from: nat) returns (forwarded: seq<seq<byte>>)
    requires from <= |packets|
    ensures forwarded == leftover + packets[from..]
  {
    forwarded := leftover;
    for k := from to |packets|
      invariant forwarded == leftover + packets[from..k]
    {
      forwarded := forwarded + [packets[k]];
    }
    assert packets[from..|packets|] == packets[from..];
  }
}

=== FILE: stdio.dfy ===
/** The standard-stream component (components/stdio/src/lib.rs): create
    picks the stream from the function name and counts the outputs. */
module Stdio {
  import opened Wrappers
  import opened Errors

  datatype FuncName = Stdin | Stdout | Stdio

  /** The parsed configuration; `noFlush` is None when the argument is
      absent. */
  datatype Config = Config(direction: string, outputs: seq<string>, functionName: string, noFlush: Option<bool>)

  datatype Actor = Actor(func: FuncName, hasOutput: bool, noFlush: bool, bufferSize: nat)

  const BUFFER_SIZE: nat := 1024
  const TOO_MANY := "too many outputs"

  /** The names the component registers. */
  const FUNCTIONS: seq<string> := ["stdin", "stdout", "stdio"]

  function NameOf(f: FuncName): (name: string)
    ensures name in FUNCTIONS
  {
    match f
    case Stdin => "stdin"
    case Stdout => "stdout"
    case Stdio => "stdio"
  }

  /** The stream a function name selects; no other name reaches create. */
  function FuncOf(name: string): (r: Outcome<FuncName>)
    ensures r.Returns? <==> name in FUNCTIONS
    ensures r.Returns? ==> NameOf(r.value) == name
    ensures r.Panics? ==> r.reason == UNREACHABLE
  {
    if name == "stdin" then Returns(Stdin)
    else if name == "stdout" then Returns(Stdout)
    else if name == "stdio" then Returns(Stdio)
    else Panics(UNREACHABLE)
  }

  /** Each stream has one name and each name one stream. */
  lemma FuncNameRoundTrip(f: FuncName, g: FuncName)
    ensures FuncOf(NameOf(f)) == Returns(f)
    ensures NameOf(f) == NameOf(g) ==> f == g
  {
  }

  /** create: the function name is matched first (an unknown one is
      unreachable), then the outputs are counted; more than one output is
      a misuse error, not a panic. */
  function Create(config: Config): (r: Outcome<Result<Actor>>)
    ensures r.Returns? <==> config.functionName in FUNCTIONS
    ensures r.Panics? ==> r.reason == UNREACHABLE
    ensures r.Returns? ==> (r.value.Ok? <==> |config.outputs| <= 1)
    ensures r.Returns? && r.value.Err? ==> r.value.error == MisuseError(TOO_MANY, None)
    ensures r.Returns? && r.value.Ok? ==>
      var a := r.value.value;
      NameOf(a.func) == config.functionName && (a.hasOutput <==> |config.outputs| == 1) &&
      (a.noFlush <==> config.noFlush == Some(true)) && a.bufferSize == BUFFER_SIZE
  {
    var func :- FuncOf(config.functionName);
    if |config.outputs| > 1 then Returns(Err(MisuseError(TOO_MANY, None)))
    else
      var noFlush := if config.noFlush.Some? then config.noFlush.value else false;
      Returns(Ok(Actor(func, |config.outputs| == 1, noFlush, BUFFER_SIZE)))
  }
}

=== FILE: text.dfy ===
/** String helpers shared by the builder and the components: decimal text,
    whitespace classes of JavaScript and Rust, trimming, splitting and joining
    on a delimiter, ASCII case folding. */
module Text {

  predicate IsDigit(c: char) { '0' <= c <= '9' }

  function DigitValue(c: char): (d: nat)
    requires IsDigit(c)
    ensures d < 10
  {
    (c as int) - ('0' as int)
  }

  function DigitChar(d: nat): (c: char)
    requires d < 10
    ensures IsDigit(c) && DigitValue(c) == d
  {
    (('0' as int) + d) as char
  }

  predicate AllDigits(s: string) { forall i :: 0 <= i < |s| ==> IsDigit(s[i]) }

  /** Base-10 digits of a natural number, most significant first, no leading zero. */
  function NatText(n: nat): (s: string)
    ensures |s| >= 1 && AllDigits(s)
    ensures s[0] == '0' ==> n == 0 && s == "0"
    decreases n
  {
    if n < 10 then [DigitChar(n)] else NatText(n / 10) + [DigitChar(n % 10)]
  }

  /** Base-10 text of an integer, with a leading '-' for negatives. */
  function IntText(n: int): string
  {
    if n < 0 then "-" + NatText(-n) else NatText(n)
  }

  /** The value of a string of decimal digits. */
  function DigitsValue(s: string): nat
    requires AllDigits(s)
  {
    if s == [] then 0 else DigitsValue(s[..|s| - 1]) * 10 + DigitValue(s[|s| - 1])
  }

  lemma {:induction false} NatTextValue(n: nat)
    ensures DigitsValue(NatText(n)) == n
    decreases n
  {
    if n >= 10 {
      var s := NatText(n);
      NatTextValue(n / 10);
      assert s[..|s| - 1] == NatText(n / 10);
    }
  }

  lemma NatTextInjective(a: nat, b: nat)
    requires NatText(a) == NatText(b)
    ensures a == b
  {
    NatTextValue(a);
    NatTextValue(b);
  }

  lemma IntTextInjective(a: int, b: int)
    requires IntText(a) == IntText(b)
    ensures a == b
  {
    if a < 0 && b < 0 {
      assert NatText(-a) == IntText(a)[1..];
      NatTextInjective(-a, -b);
    } else if a >= 0 && b >= 0 {
      NatTextInjective(a, b);
    }
  }

  // ---------------------------------------------------------------------
  // Whitespace classes

  /** ECMAScript StrWhiteSpaceChar: WhiteSpace (TAB, VT, FF, SP, NBSP, ZWNBSP
      and the Unicode Zs separators) plus LineTerminator (LF, CR, LS, PS).
      This is the class String.prototype.trim and parseInt skip. */
  predicate IsJsSpace(c: char)
  {
    c == '\t' || c == '\n' || c == '\U{000B}' || c == '\U{000C}' || c == '\r' || c == ' '
    || c == '\U{00A0}' || c == '\U{1680}' || ('\U{2000}' <= c <= '\U{200A}')
    || c == '\U{2028}' || c == '\U{2029}' || c == '\U{202F}' || c == '\U{205F}'
    || c == '\U{3000}' || c == '\U{FEFF}'
  }

  /** Rust's char::is_whitespace (the Unicode White_Space property). */
  predicate IsRustSpace(c: char)
  {
    ('\t' <= c <= '\r') || c == ' ' || c == '\U{0085}' || c == '\U{00A0}'
    || c == '\U{1680}' || ('\U{2000}' <= c <= '\U{200A}') || c == '\U{2028}'
    || c == '\U{2029}' || c == '\U{202F}' || c == '\U{205F}' || c == '\U{3000}'
  }

  /** The two whitespace classes the system trims with. */
  datatype Spaces = JsWhiteSpace | RustWhiteSpace

  predicate IsSpace(space: Spaces, c: char)
  {
    match space
    case JsWhiteSpace => IsJsSpace(c)
    case RustWhiteSpace => IsRustSpace(c)
  }

  function TrimStart(s: string, space: Spaces): (r: string)
    ensures |r| <= |s|
    ensures r == [] || !IsSpace(space, r[0])
  {
    if s != [] && IsSpace(space, s[0]) then TrimStart(s[1..], space) else s
  }

  function TrimEnd(s: string, space: Spaces): (r: string)
    ensures |r| <= |s| && (r != [] ==> r[0] == s[0])
    ensures r == [] || !IsSpace(space, r[|r| - 1])
  {
    if s != [] && IsSpace(space, s[|s| - 1]) then TrimEnd(s[..|s| - 1], space) else s
  }

  /** Removes leading and trailing characters of the class `space`. */
  function Trim(s: string, space: Spaces): (r: string)
    ensures |r| <= |s|
    ensures r == [] || (!IsSpace(space, r[0]) && !IsSpace(space, r[|r| - 1]))
  {
    TrimEnd(TrimStart(s, space), space)
  }

  lemma TrimStartFixed(s: string, space: Spaces)
    requires s == [] || !IsSpace(space, s[0])
    ensures TrimStart(s, space) == s
  {
  }

  lemma TrimEndFixed(s: string, space: Spaces)
    requires s == [] || !IsSpace(space, s[|s| - 1])
    ensures TrimEnd(s, space) == s
  {
  }

  /** Every character of `u` is a space of the class. */
  predicate AllSpace(space: Spaces, u: string)
  {
    forall k :: 0 <= k < |u| ==> IsSpace(space, u[k])
  }

  /** TrimStart drops a prefix made only of spaces. */
  lemma {:induction false} TrimStartMeaning(s: string, space: Spaces)
    ensures var i := |s| - |TrimStart(s, space)|;
      TrimStart(s, space) == s[i..] && AllSpace(space, s[..i])
    decreases |s|
  {
    if s != [] && IsSpace(space, s[0]) {
      TrimStartMeaning(s[1..], space);
      var i := |s| - |TrimStart(s, space)|;
      assert s[..i] == [s[0]] + s[1..][..i - 1];
    }
  }

  /** TrimEnd drops a suffix made only of spaces. */
  lemma {:induction false} TrimEndMeaning(s: string, space: Spaces)
    ensures var j := |TrimEnd(s, space)|;
      TrimEnd(s, space) == s[..j] && AllSpace(space, s[j..])
    decreases |s|
  {
    if s != [] && IsSpace(space, s[|s| - 1]) {
      var front := s[..|s| - 1];
      TrimEndMeaning(front, space);
      var j := |TrimEnd(s, space)|;
      assert s[j..] == front[j..] + [s[|s| - 1]];
      assert front[..j] == s[..j];
    }
  }

  /** Trim keeps the slice s[i..j] between a prefix and a suffix of spaces;
      with the ends of the result not spaces (Trim's own contract), these
      are exactly the leading and trailing spaces of s. */
  lemma TrimMeaning(s: string, space: Spaces)
    ensures var i := |s| - |TrimStart(s, space)|;
      var j := i + |Trim(s, space)|;
      i <= j <= |s| && Trim(s, space) == s[i..j] &&
      AllSpace(space, s[..i]) && AllSpace(space, s[j..])
  {
    var t := TrimStart(s, space);
    TrimStartMeaning(s, space);
    TrimEndMeaning(t, space);
    SliceOfSuffix(s, |s| - |t|, |TrimEnd(t, space)|);
  }

  /** A prefix of the suffix s[i..] is a slice of s, and what follows it is
      a suffix of s. */
  lemma SliceOfSuffix(s: string, i: nat, n: nat)
    requires i + n <= |s|
    ensures s[i..][..n] == s[i..i + n] && s[i..][n..] == s[i + n..]
  {
  }

  /** Trimming twice is trimming once. */
  lemma TrimIdempotent(s: string, space: Spaces)
    ensures Trim(Trim(s, space), space) == Trim(s, space)
  {
    var r := Trim(s, space);
    TrimStartFixed(r, space);
    TrimEndFixed(r, space);
  }

  function JsTrim(s: string): string { Trim(s, JsWhiteSpace) }

  function RustTrim(s: string): string { Trim(s, RustWhiteSpace) }

  // ---------------------------------------------------------------------
  // Delimited lists

  /** The parts joined with `sep` between consecutive ones (JavaScript's
      Array.prototype.join with a one-character separator). */
  function Join(parts: seq<string>, sep: char): string
  {
    if parts == [] then ""
    else if |parts| == 1 then parts[0]
    else parts[0] + [sep] + Join(parts[1..], sep)
  }

  /** String.prototype.split with a one-character separator: always at least
      one part, and consecutive separators give empty parts. */
  function Split(s: string, sep: char): (parts: seq<string>)
    ensures |parts| >= 1
    decreases |s|
  {
    if s == [] then [""]
    else if s[0] == sep then [""] + Split(s[1..], sep)
    else
      var rest := Split(s[1..], sep);
      [[s[0]] + rest[0]] + rest[1..]
  }

  predicate Free(s: string, sep: char) { forall i :: 0 <= i < |s| ==> s[i] != sep }

  lemma {:induction false} SplitFree(s: string, sep: char, tail: string)
    requires Free(s, sep)
    ensures Split(s + [sep] + tail, sep) == [s] + Split(tail, sep)
    ensures Split(s, sep) == [s]
    decreases |s|
  {
    if s == [] {
      assert s + [sep] + tail == [sep] + tail;
      assert ([sep] + tail)[1..] == tail;
    } else {
      SplitFree(s[1..], sep, tail);
      assert (s + [sep] + tail)[1..] == s[1..] + [sep] + tail;
      assert [s[0]] + s[1..] == s;
    }
  }

  /** Splitting a join gives the parts back, provided there is at least one
      part and no part contains the separator. */
  lemma {:induction false} SplitJoin(parts: seq<string>, sep: char)
    requires |parts| >= 1
    requires forall i :: 0 <= i < |parts| ==> Free(parts[i], sep)
    ensures Split(Join(parts, sep), sep) == parts
    decreases |parts|
  {
    if |parts| == 1 {
      SplitFree(parts[0], sep, "");
    } else {
      SplitJoin(parts[1..], sep);
      SplitFree(parts[0], sep, Join(parts[1..], sep));
      assert [parts[0]] + parts[1..] == parts;
    }
  }

  // ---------------------------------------------------------------------
  // Case and prefixes

  function AsciiLower(c: char): (d: char)
    ensures IsRustSpace(d) <==> IsRustSpace(c)
  {
    if 'A' <= c <= 'Z' then ((c as int) + 32) as char else c
  }

  function LowerAscii(s: string): (r: string)
    ensures |r| == |s| && forall i :: 0 <= i < |s| ==> r[i] == AsciiLower(s[i])
  {
    seq(|s|, i requires 0 <= i < |s| => AsciiLower(s[i]))
  }

  predicate StartsWith(s: string, prefix: string)
  {
    |prefix| <= |s| && s[..|prefix|] == prefix
  }
}

=== FILE: udp.dfy ===
/** The UDP component (components/udp/src/lib.rs): where a connecting actor
    sends its datagrams and where a listening actor binds. */
module Udp {
  import opened Wrappers
  import opened Bytes
  import A = Arguments

  /** The parsed configuration; `addr` is Argument::None when absent. */
  datatype Config = Config(addr: A.Argument, port: Option<u16>, outputs: seq<string>, functionName: string)

  datatype Actor = Actor(addr: Option<string>, port: Option<u16>, hasOutput: bool)

  const WRONG_TYPE := "wrong argument type"
  const OUTPUT_PANIC := "tcp can only accept one output"
  const DESTINATION_PANIC := "The stream already contains destination information"
  const NO_OUTPUT_ASSERT := "assertion failed: !self.has_output"
  const OUTPUT_ASSERT := "assertion failed: self.has_output"

  /** The address listen binds to when none is configured. */
  const ANY_ADDRESS := "::"

  /** `i as u16`: the low 16 bits. */
  function TruncateU16(i: u64): (p: u16)
    ensures i < U16_LIMIT ==> p == i
  {
    i % U16_LIMIT
  }

  /** get_addr_and_port: a string addr is the host; an integer addr is the
      port and overrides the configured one; a list is refused. */
  function AddrAndPort(config: Config): (r: Outcome<(Option<string>, Option<u16>)>)
    ensures r.Panics? <==> config.addr.Vec?
    ensures r.Panics? ==> r.reason == WRONG_TYPE
    ensures r.Returns? ==> (r.value.0.Some? <==> config.addr.String?)
    ensures r.Returns? && config.addr.String? ==> r.value == (Some(config.addr.str), config.port)
    ensures r.Returns? && config.addr.Int? ==> r.value == (None, Some(TruncateU16(config.addr.num)))
    ensures r.Returns? && config.addr.None? ==> r.value == (None, config.port)
  {
    match config.addr
    case String(s) => Returns((Some(s), config.port))
    case Int(i) => Returns((None, Some(TruncateU16(i))))
    case Vec(_) => Panics(WRONG_TYPE)
    case None => Returns((None, config.port))
  }

  /** An integer addr of at most 65535 is the port itself; larger ones
      wrap, so 65536 + p names the same port as p. */
  lemma IntAddrPort(config: Config, p: u16)
    requires config.addr == A.Int(p)
    ensures AddrAndPort(config) == Returns((None, Some(p)))
    ensures AddrAndPort(config.(addr := A.Int(p + U16_LIMIT))) == AddrAndPort(config)
  {
    ModUnique(p + U16_LIMIT, U16_LIMIT, 1, p);
  }

  /** Actor::new: the address and port first, then the outputs (none for a
      connecting actor, one for a listening one). */
  function NewActor(config: Config): (r: Outcome<Actor>)
    ensures r.Returns? <==> !config.addr.Vec? && |config.outputs| <= 1
    ensures config.addr.Vec? ==> r == Panics(WRONG_TYPE)
    ensures !config.addr.Vec? && |config.outputs| > 1 ==> r == Panics(OUTPUT_PANIC)
    ensures r.Returns? ==>
              (r.value.addr, r.value.port) == AddrAndPort(config).value &&
              (r.value.hasOutput <==> |config.outputs| == 1)
  {
    var ap :- AddrAndPort(config);
    if |config.outputs| > 1 then Panics(OUTPUT_PANIC)
    else Returns(Actor(ap.0, ap.1, |config.outputs| == 1))
  }

  /** Where connect sends: a host and port, or a "host:port" text. */
  datatype Destination = HostPort(host: string, port: u16) | HostText(text: string)

  /** spawn for a connecting actor. `metaAddr` and `metaPort` are what the
      stream's metadata gave for destination_addr and destination_port
      (both keys are taken out of it); `hasAddress` and `hasMailbox` say
      whether the previous actor passed its ends. The unwraps run in the
      spawned task, in the order addr, address, mailbox. */
  function Spawn(actor: Actor, metaAddr: Option<string>, metaPort: Option<u16>, hasAddress: bool, hasMailbox: bool): (r: Outcome<Destination>)
    ensures actor.hasOutput ==> r == Panics(NO_OUTPUT_ASSERT)
    ensures !actor.hasOutput && (metaAddr.Some? || metaPort.Some?) && (actor.addr.Some? || actor.port.Some?) ==>
              r == Panics(DESTINATION_PANIC)
    ensures r.Returns? <==>
              !actor.hasOutput && hasAddress && hasMailbox &&
              if metaAddr.Some? || metaPort.Some? then actor.addr.None? && actor.port.None? && metaAddr.Some?
              else actor.addr.Some?
    ensures r.Returns? ==>
              var fromMeta := metaAddr.Some? || metaPort.Some?;
              var addr := if fromMeta then metaAddr else actor.addr;
              var port := if fromMeta then metaPort else actor.port;
              addr.Some? &&
              r.value == (if port.Some? then HostPort(addr.value, port.value) else HostText(addr.value))
  {
    if actor.hasOutput then Panics(NO_OUTPUT_ASSERT)
    else
      var fromMeta := metaAddr.Some? || metaPort.Some?;
      if fromMeta && (actor.addr.Some? || actor.port.Some?) then Panics(DESTINATION_PANIC)
      else
        var addr := if fromMeta then metaAddr else actor.addr;
        var port := if fromMeta then metaPort else actor.port;
        if addr.None? then Panics(UNWRAP_NONE)
        else if !hasAddress || !hasMailbox then Panics(UNWRAP_NONE)
        else if port.Some? then Returns(HostPort(addr.value, port.value))
        else Returns(HostText(addr.value))
  }

  /** The destination comes wholly from the stream or wholly from the
      configuration, never a mix: a configured actor refuses streams that
      carry a destination, and an unconfigured one needs the stream's. */
  lemma SpawnSingleSource(actor: Actor, metaAddr: Option<string>, metaPort: Option<u16>)
    requires !actor.hasOutput
    ensures var r := Spawn(actor, metaAddr, metaPort, true, true);
      r.Returns? ==>
        ((metaAddr.Some? || metaPort.Some?) <==> (actor.addr.None? && actor.port.None?)) &&
        (metaAddr.Some? ==> r.value == if metaPort.Some? then HostPort(metaAddr.value, metaPort.value) else HostText(metaAddr.value)) &&
        (metaAddr.None? && metaPort.None? ==>
           actor.addr.Some? &&
           r.value == if actor.port.Some? then HostPort(actor.addr.value, actor.port.value) else HostText(actor.addr.value))
  {
  }

  /** Where listen binds: the configured address or "::", with the port
      when one is configured. */
  function ListenAddress(actor: Actor): (d: Destination)
    ensures actor.port.Some? <==> d.HostPort?
    ensures d.HostPort? ==> d.host == (if actor.addr.Some? then actor.addr.value else ANY_ADDRESS) && d.port == actor.port.value
    ensures d.HostText? ==> d.text == (if actor.addr.Some? then actor.addr.value else ANY_ADDRESS)
  {
    var addr := if actor.addr.Some? then actor.addr.value else ANY_ADDRESS;
    if actor.port.Some? then HostPort(addr, actor.port.value) else HostText(addr)
  }

  /** spawn_source: only a listening actor (one with an output) listens. */
  function SpawnSource(actor: Actor): (r: Outcome<Destination>)
    ensures r.Returns? <==> actor.hasOutput
    ensures r.Panics? ==> r.reason == OUTPUT_ASSERT
    ensures r.Returns? ==> r.value == ListenAddress(actor)
  {
    if !actor.hasOutput then Panics(OUTPUT_ASSERT) else Returns(ListenAddress(actor))
  }

  /** An actor built from a configuration either connects (spawn) or
      listens (spawn_source), never both. */
  lemma ConnectOrListen(config: Config, metaAddr: Option<string>, metaPort: Option<u16>)
    requires NewActor(config).Returns?
    ensures var actor := NewActor(config).value;
      Spawn(actor, metaAddr, metaPort, true, true) == Panics(NO_OUTPUT_ASSERT) <==> SpawnSource(actor).Returns?
  {
  }
}

=== FILE: utf8.dfy ===
/** Well-formed UTF-8, as Rust's std::str::from_utf8 accepts it (the byte
    sequences of Table 3-7 of the Unicode Standard, section 3.9). */
module Utf8 {
  import opened Bytes

  predicate InRange(b: byte, lo: byte, hi: byte)
  {
    lo as int <= b as int <= hi as int
  }

  /** The length of the well-formed sequence at the front of `s`, or 0 when
      `s` does not start with one. */
  function SequenceLength(s: seq<byte>): (n: nat)
    ensures n <= 4 && n <= |s|
  {
    if s == [] then 0
    else
      var b0 := s[0];
      if b0 as int <= 0x7F then 1
      else if InRange(b0, 0xC2, 0xDF) then
        if |s| >= 2 && InRange(s[1], 0x80, 0xBF) then 2 else 0
      else if InRange(b0, 0xE0, 0xEF) then
        var lo: byte := if b0 == 0xE0 then 0xA0 else 0x80;
        var hi: byte := if b0 == 0xED then 0x9F else 0xBF;
        if |s| >= 3 && InRange(s[1], lo, hi) && InRange(s[2], 0x80, 0xBF) then 3 else 0
      else if InRange(b0, 0xF0, 0xF4) then
        var lo: byte := if b0 == 0xF0 then 0x90 else 0x80;
        var hi: byte := if b0 == 0xF4 then 0x8F else 0xBF;
        if |s| >= 4 && InRange(s[1], lo, hi) && InRange(s[2], 0x80, 0xBF) && InRange(s[3], 0x80, 0xBF) then 4 else 0
      else 0
  }

  /** The whole of `s` is a run of well-formed sequences. */
  predicate Valid(s: seq<byte>)
    decreases |s|
  {
    s == [] || (SequenceLength(s) > 0 && Valid(s[SequenceLength(s)..]))
  }

  /** ASCII text is valid UTF-8. */
  lemma {:induction false} AsciiValid(s: seq<byte>)
    requires forall i :: 0 <= i < |s| ==> s[i] <= 0x7F
    ensures Valid(s)
    decreases |s|
  {
    if s != [] {
      AsciiValid(s[1..]);
    }
  }

  /** A lone continuation byte is not. */
  lemma ContinuationInvalid(b: byte)
    requires InRange(b, 0x80, 0xBF)
    ensures !Valid([b])
  {
  }

  /** The UTF-8 encoding of one scalar value (str::as_bytes, one character). */
  function EncodeChar(c: char): (e: seq<byte>)
    ensures 1 <= |e| <= 4
    ensures c as int < 0x80 <==> |e| == 1
    ensures |e| == 1 ==> e[0] as int == c as int
  {
    var n := c as int;
    if n < 0x80 then
      [n as byte]
    else if n < 0x800 then
      [(0xC0 + n / 64) as byte, (0x80 + n % 64) as byte]
    else if n < 0x10000 then
      [(0xE0 + n / 4096) as byte, (0x80 + n / 64 % 64) as byte, (0x80 + n % 64) as byte]
    else
      [(0xF0 + n / 262144) as byte, (0x80 + n / 4096 % 64) as byte, (0x80 + n / 64 % 64) as byte,
       (0x80 + n % 64) as byte]
  }

  /** The bytes of a string, character by character. */
  function Encode(s: string): (e: seq<byte>)
    ensures |e| >= |s|
  {
    if s == [] then [] else EncodeChar(s[0]) + Encode(s[1..])
  }

  /** A string of ASCII characters encodes to one byte per character, its
      code. */
  lemma {:induction false} AsciiEncode(s: string)
    requires forall i :: 0 <= i < |s| ==> s[i] as int < 0x80
    ensures |Encode(s)| == |s|
    ensures forall i :: 0 <= i < |s| ==> Encode(s)[i] as int == s[i] as int
  {
    if s != [] {
      AsciiEncode(s[1..]);
      var e := Encode(s);
      assert e == EncodeChar(s[0]) + Encode(s[1..]);
      forall i | 1 <= i < |s|
        ensures e[i] as int == s[i] as int
      {
        assert e[i] == Encode(s[1..])[i - 1];
      }
    }
  }

  /** Byte values within the ranges of a two-, three- or four-byte sequence
      make one well-formed sequence. */
  lemma OneValue(b0: int)
    requires 0 <= b0 < 0x80
    ensures SequenceLength([b0 as byte]) == 1
  {
  }

  lemma TwoValues(b0: int, b1: int)
    requires 0xC2 <= b0 <= 0xDF && 0x80 <= b1 <= 0xBF
    ensures SequenceLength([b0 as byte, b1 as byte]) == 2
  {
  }

  lemma ThreeValues(b0: int, b1: int, b2: int)
    requires 0xE0 <= b0 <= 0xEF && 0x80 <= b1 <= 0xBF && 0x80 <= b2 <= 0xBF
    requires b0 == 0xE0 ==> b1 >= 0xA0
    requires b0 == 0xED ==> b1 <= 0x9F
    ensures SequenceLength([b0 as byte, b1 as byte, b2 as byte]) == 3
  {
  }

  lemma FourValues(b0: int, b1: int, b2: int, b3: int)
    requires 0xF0 <= b0 <= 0xF4 && 0x80 <= b1 <= 0xBF && 0x80 <= b2 <= 0xBF && 0x80 <= b3 <= 0xBF
    requires b0 == 0xF0 ==> b1 >= 0x90
    requires b0 == 0xF4 ==> b1 <= 0x8F
    ensures SequenceLength([b0 as byte, b1 as byte, b2 as byte, b3 as byte]) == 4
  {
  }

  lemma EncodeThreeValid(n: int)
    requires 0x800 <= n < 0x10000 && !(0xD800 <= n < 0xE000)
    ensures SequenceLength([(0xE0 + n / 4096) as byte, (0x80 + n / 64 % 64) as byte, (0x80 + n % 64) as byte]) == 3
  {
    var q := n / 64;
    assert n / 4096 == q / 64;
    assert q / 64 == 0 ==> q % 64 >= 32;
    assert q / 64 == 13 ==> q % 64 < 32;
    ThreeValues(0xE0 + q / 64, 0x80 + q % 64, 0x80 + n % 64);
  }

  lemma EncodeFourValid(n: int)
    requires 0x10000 <= n < 0x110000
    ensures SequenceLength([(0xF0 + n / 262144) as byte, (0x80 + n / 4096 % 64) as byte,
                            (0x80 + n / 64 % 64) as byte, (0x80 + n % 64) as byte]) == 4
  {
    var p := n / 4096;
    assert n / 262144 == p / 64;
    assert p / 64 == 0 ==> p % 64 >= 16;
    assert p / 64 == 4 ==> p % 64 < 16;
    FourValues(0xF0 + p / 64, 0x80 + p % 64, 0x80 + n / 64 % 64, 0x80 + n % 64);
  }

  /** Every character encodes to one well-formed sequence. */
  lemma EncodeCharValid(c: char)
    ensures SequenceLength(EncodeChar(c)) == |EncodeChar(c)|
  {
    var n := c as int;
    if n < 0x80 {
      OneValue(n);
    } else if n < 0x800 {
      TwoValues(0xC0 + n / 64, 0x80 + n % 64);
    } else if n < 0x10000 {
      EncodeThreeValid(n);
    } else {
      EncodeFourValid(n);
    }
  }

  /** The bytes of every string are valid UTF-8. */
  lemma {:induction false} EncodeValid(s: string)
    ensures Valid(Encode(s))
  {
    if s != [] {
      var e := Encode(s);
      var h := EncodeChar(s[0]);
      EncodeCharValid(s[0]);
      EncodeValid(s[1..]);
      assert e == h + Encode(s[1..]);
      assert e[..|h|] == h;
      SequenceLengthPrefix(h, Encode(s[1..]));
      assert e[|h|..] == Encode(s[1..]);
    }
  }

  /** The length of the first sequence depends only on its own bytes. */
  lemma SequenceLengthPrefix(h: seq<byte>, t: seq<byte>)
    requires SequenceLength(h) == |h| > 0
    ensures SequenceLength(h + t) == |h|
  {
    var s := h + t;
    assert s[0] == h[0];
    if |h| >= 2 { assert s[1] == h[1]; }
    if |h| >= 3 { assert s[2] == h[2]; }
    if |h| >= 4 { assert s[3] == h[3]; }
  }
}

=== FILE: vmess.dfy ===
/** The VMess component's set-up (components/vmess/src/lib.rs): the user id
    given as UUID text becomes sixteen bytes, and `create` checks the
    configuration before building the client. */
module Vmess {
  import opened Wrappers
  import opened Bytes

  // ---------------------------------------------------------------------
  // parse_uid
  // ---------------------------------------------------------------------

  /** The text with every '-' removed, the rest in order. */
  function RemoveDashes(x: string): (r: string)
    ensures forall i :: 0 <= i < |r| ==> r[i] != '-'
    ensures |r| <= |x|
  {
    if x == [] then []
    else (if x[0] == '-' then [] else [x[0]]) + RemoveDashes(x[1..])
  }

  /** Removing the dashes of a text without dashes changes nothing. */
  lemma {:induction false} RemoveDashesFixed(x: string)
    requires forall i :: 0 <= i < |x| ==> x[i] != '-'
    ensures RemoveDashes(x) == x
  {
    if x != [] {
      RemoveDashesFixed(x[1..]);
    }
  }

  lemma {:induction false} RemoveDashesAppend(a: string, b: string)
    ensures RemoveDashes(a + b) == RemoveDashes(a) + RemoveDashes(b)
  {
    if a == [] {
      assert a + b == b;
    } else {
      assert (a + b)[0] == a[0] && (a + b)[1..] == a[1..] + b;
      RemoveDashesAppend(a[1..], b);
      var h := if a[0] == '-' then [] else [a[0]];
      assert RemoveDashes(a + b) == h + (RemoveDashes(a[1..]) + RemoveDashes(b));
    }
  }

  predicate IsHexDigit(c: char)
  {
    '0' <= c <= '9' || 'a' <= c <= 'f' || 'A' <= c <= 'F'
  }

  function HexDigit(c: char): (d: nat)
    requires IsHexDigit(c)
    ensures d < 16
  {
    if c <= '9' then c as int - '0' as int
    else if c <= 'F' then c as int - 'A' as int + 10
    else c as int - 'a' as int + 10
  }

  /** u8::from_str_radix(pair, 16) on a two-character text: either two hex
      digits, or a '+' sign and one digit. */
  function HexPair(a: char, b: char): (r: Option<byte>)
    ensures r.Some? <==> IsHexDigit(b) && (a == '+' || IsHexDigit(a))
    ensures r.Some? && a == '+' ==> r.value as int == HexDigit(b)
    ensures r.Some? && a != '+' ==> r.value as int == HexDigit(a) * 16 + HexDigit(b)
  {
    if !IsHexDigit(b) then None
    else if a == '+' then
      Some(HexDigit(b) as byte)
    else if IsHexDigit(a) then
      Some((HexDigit(a) * 16 + HexDigit(b)) as byte)
    else None
  }

  const SLICE_PANIC := "byte index out of range"

  /** Characters 2k and 2k+1 are there and form a valid pair. */
  predicate PairOk(x: string, k: nat)
  {
    2 * k + 1 < |x| && HexPair(x[2 * k], x[2 * k + 1]).Some?
  }

  /** The value of characters 2k and 2k+1. */
  function PairValue(x: string, k: nat): byte
    requires PairOk(x, k)
  {
    HexPair(x[2 * k], x[2 * k + 1]).value
  }

  /** Bytes i, i+1, …, 15 of the list, taking characters 2i and 2i+1 each;
      the first short slice or bad pair aborts. */
  function PairsFrom(x: string, i: nat): (r: Outcome<seq<byte>>)
    requires i <= 16
    ensures r.Returns? ==> |r.value| == 16 - i
    decreases 16 - i
  {
    if i == 16 then Returns([])
    else if 2 * i + 2 > |x| then Panics(SLICE_PANIC)
    else if !PairOk(x, i) then Panics(UNWRAP_ERR)
    else
      var rest := PairsFrom(x, i + 1);
      if rest.Panics? then rest else Returns([PairValue(x, i)] + rest.value)
  }

  /** parse_uid: strip the dashes, read sixteen hex pairs, and take the
      first sixteen bytes of the list. */
  function ParseUid(x: string): (r: Outcome<Option<seq<byte>>>)
  {
    var list := PairsFrom(RemoveDashes(x), 0);
    if list.Panics? then Panics(list.reason)
    else if |list.value| < 16 then Returns(None)
    else Returns(Some(list.value[..16]))
  }

  /** The pairs read from position i on are the hex values of the pairs of
      the text, when every pair is there and valid. */
  lemma PairsFromMeaning(x: string, i: nat)
    requires i <= 16
    ensures PairsFrom(x, i).Returns? <==> forall k :: i <= k < 16 ==> PairOk(x, k)
    ensures PairsFrom(x, i).Returns? ==>
      forall k :: i <= k < 16 ==> PairsFrom(x, i).value[k - i] == PairValue(x, k)
  {
    PairsFromOk(x, i);
    if PairsFrom(x, i).Returns? {
      PairsFromValues(x, i);
    }
  }

  lemma {:induction false} PairsFromOk(x: string, i: nat)
    requires i <= 16
    ensures PairsFrom(x, i).Returns? <==> forall k :: i <= k < 16 ==> PairOk(x, k)
    decreases 16 - i
  {
    if i < 16 {
      PairsFromOk(x, i + 1);
      assert PairsFrom(x, i).Returns? <==> PairOk(x, i) && PairsFrom(x, i + 1).Returns?;
    }
  }

  lemma {:induction false} PairsFromValues(x: string, i: nat)
    requires i <= 16 && PairsFrom(x, i).Returns?
    ensures forall k :: i <= k < 16 ==> PairOk(x, k) && PairsFrom(x, i).value[k - i] == PairValue(x, k)
    decreases 16 - i
  {
    if i < 16 {
      assert PairOk(x, i) && PairsFrom(x, i + 1).Returns?;
      var rest := PairsFrom(x, i + 1).value;
      PairsFromValues(x, i + 1);
      var r := PairsFrom(x, i).value;
      assert r == [PairValue(x, i)] + rest;
      forall k | i < k < 16
        ensures PairOk(x, k) && r[k - i] == PairValue(x, k)
      {
        assert r[k - i] == rest[k - (i + 1)];
      }
    }
  }

  /** The list always has sixteen entries, so parse_uid never returns None:
      it either aborts or returns sixteen bytes. */
  lemma ParseUidNeverNone(x: string)
    ensures ParseUid(x).Returns? ==> ParseUid(x).value.Some? && |ParseUid(x).value.value| == 16
  {
  }

  /** parse_uid succeeds exactly when the dash-free text has at least 32
      characters and its first sixteen pairs are hex; byte i is then the
      value of characters 2i and 2i+1. */
  lemma ParseUidMeaning(x: string)
    ensures var y := RemoveDashes(x);
      ParseUid(x).Returns? <==> |y| >= 32 && forall k :: 0 <= k < 16 ==> PairOk(y, k)
    ensures var y := RemoveDashes(x);
      ParseUid(x).Returns? ==> forall k :: 0 <= k < 16 ==> ParseUid(x).value.value[k] == PairValue(y, k)
  {
    var y := RemoveDashes(x);
    PairsFromMeaning(y, 0);
    if PairsFrom(y, 0).Returns? {
      var v := PairsFrom(y, 0).value;
      assert PairOk(y, 15);
      assert |v| == 16;
    }
  }

  /** Characters after the first 32 (once the dashes are gone) are never
      looked at. */
  lemma ParseUidPrefix(x: string)
    requires |RemoveDashes(x)| >= 32
    ensures ParseUid(x) == ParseUid(RemoveDashes(x)[..32])
  {
    var y := RemoveDashes(x);
    var z := y[..32];
    RemoveDashesFixed(z);
    PairsFromSame(y, z, 0);
  }

  lemma {:induction false} PairsFromSame(y: string, z: string, i: nat)
    requires i <= 16 && |y| >= 32 && |z| >= 32 && y[..32] == z[..32]
    ensures PairsFrom(y, i) == PairsFrom(z, i)
    decreases 16 - i
  {
    if i < 16 {
      var c0, c1 := y[2 * i], y[2 * i + 1];
      assert c0 == y[..32][2 * i] == z[2 * i];
      assert c1 == y[..32][2 * i + 1] == z[2 * i + 1];
      assert PairOk(y, i) == PairOk(z, i);
      PairsFromSame(y, z, i + 1);
    }
  }

  // ---------------------------------------------------------------------
  // The inverse: UUID text of sixteen bytes
  // ---------------------------------------------------------------------

  function LowerHexChar(d: nat): (c: char)
    requires d < 16
    ensures IsHexDigit(c) && HexDigit(c) == d && c != '-' && c != '+'
  {
    if d < 10 then ('0' as int + d) as char else ('a' as int + d - 10) as char
  }

  /** One byte as two lower-case hex digits. */
  function HexChars(b: byte): (s: string)
    ensures |s| == 2 && s[0] != '-' && s[1] != '-'
  {
    [LowerHexChar(b as int / 16), LowerHexChar(b as int % 16)]
  }

  /** The two digits of a byte read back as that byte. */
  lemma HexByte(b: byte)
    ensures HexPair(HexChars(b)[0], HexChars(b)[1]) == Some(b)
  {
    var v := HexPair(HexChars(b)[0], HexChars(b)[1]);
    assert v.value as int == b as int;
  }

  /** Two lower-case hex digits per byte. */
  function HexText(bytes: seq<byte>): (s: string)
    ensures |s| == 2 * |bytes|
  {
    if bytes == [] then "" else HexChars(bytes[0]) + HexText(bytes[1..])
  }

  /** The canonical UUID layout: groups of 8, 4, 4, 4 and 12 digits. */
  function UuidText(bytes: seq<byte>): (s: string)
    requires |bytes| == 16
  {
    HexText(bytes[..4]) + "-" + HexText(bytes[4..6]) + "-" + HexText(bytes[6..8]) + "-" +
    HexText(bytes[8..10]) + "-" + HexText(bytes[10..])
  }

  /** Pair k of the hex text is byte k. */
  lemma {:induction false} HexTextPair(bytes: seq<byte>, k: nat)
    requires k < |bytes|
    ensures PairOk(HexText(bytes), k) && PairValue(HexText(bytes), k) == bytes[k]
  {
    var s := HexText(bytes);
    assert s == HexChars(bytes[0]) + HexText(bytes[1..]);
    if k == 0 {
      HexByte(bytes[0]);
      assert s[0] == HexChars(bytes[0])[0] && s[1] == HexChars(bytes[0])[1];
    } else {
      HexTextPair(bytes[1..], k - 1);
      var t := HexText(bytes[1..]);
      assert s[2 * k] == t[2 * (k - 1)] && s[2 * k + 1] == t[2 * (k - 1) + 1];
    }
  }

  lemma {:induction false} HexTextDashFree(bytes: seq<byte>)
    ensures forall i :: 0 <= i < |HexText(bytes)| ==> HexText(bytes)[i] != '-'
  {
    if bytes != [] {
      HexTextDashFree(bytes[1..]);
      var s := HexText(bytes);
      assert s == HexChars(bytes[0]) + HexText(bytes[1..]);
      forall i | 2 <= i < |s|
        ensures s[i] != '-'
      {
        assert s[i] == HexText(bytes[1..])[i - 2];
      }
    }
  }

  lemma HexTextNoDash(bytes: seq<byte>)
    ensures RemoveDashes(HexText(bytes)) == HexText(bytes)
  {
    HexTextDashFree(bytes);
    RemoveDashesFixed(HexText(bytes));
  }

  /** A group of digits and a dash lose only the dash. */
  lemma DashGroup(g: string, rest: string)
    requires RemoveDashes(g) == g
    ensures RemoveDashes(g + ("-" + rest)) == g + RemoveDashes(rest)
  {
    RemoveDashesAppend(g, "-" + rest);
    DropDash(rest);
  }

  /** A leading dash is dropped. */
  lemma DropDash(rest: string)
    ensures RemoveDashes("-" + rest) == RemoveDashes(rest)
  {
    var x := "-" + rest;
    assert x[0] == '-' && x[1..] == rest;
    assert RemoveDashes(x) == [] + RemoveDashes(rest);
  }

  lemma {:induction false} HexTextAppend(a: seq<byte>, b: seq<byte>)
    ensures HexText(a + b) == HexText(a) + HexText(b)
  {
    if a == [] {
      assert a + b == b;
    } else {
      assert (a + b)[0] == a[0] && (a + b)[1..] == a[1..] + b;
      HexTextAppend(a[1..], b);
      assert HexText(a + b) == HexChars(a[0]) + (HexText(a[1..]) + HexText(b));
    }
  }

  /** The five groups' digits together are the digits of all sixteen bytes. */
  lemma GroupsText(bytes: seq<byte>)
    requires |bytes| == 16
    ensures HexText(bytes[..4]) + (HexText(bytes[4..6]) + (HexText(bytes[6..8]) +
      (HexText(bytes[8..10]) + HexText(bytes[10..])))) == HexText(bytes)
  {
    var a, b, c, d, e := bytes[..4], bytes[4..6], bytes[6..8], bytes[8..10], bytes[10..];
    assert bytes == a + (b + (c + (d + e)));
    HexTextAppend(d, e);
    HexTextAppend(c, d + e);
    HexTextAppend(b, c + (d + e));
    HexTextAppend(a, b + (c + (d + e)));
  }

  /** Removing the dashes of the UUID layout leaves the 32 hex digits. */
  lemma UuidDigits(bytes: seq<byte>)
    requires |bytes| == 16
    ensures RemoveDashes(UuidText(bytes)) == HexText(bytes)
  {
    var a, b, c, d, e := HexText(bytes[..4]), HexText(bytes[4..6]), HexText(bytes[6..8]),
      HexText(bytes[8..10]), HexText(bytes[10..]);
    assert UuidText(bytes) == a + ("-" + (b + ("-" + (c + ("-" + (d + ("-" + e)))))));
    HexTextNoDash(bytes[..4]);
    HexTextNoDash(bytes[4..6]);
    HexTextNoDash(bytes[6..8]);
    HexTextNoDash(bytes[8..10]);
    HexTextNoDash(bytes[10..]);
    DashGroup(d, e);
    DashGroup(c, d + ("-" + e));
    DashGroup(b, c + ("-" + (d + ("-" + e))));
    DashGroup(a, b + ("-" + (c + ("-" + (d + ("-" + e))))));
    GroupsText(bytes);
  }

  /** Reading the pairs of hex text from pair i on gives the bytes from i on. */
  lemma {:induction false} PairsFromHex(bytes: seq<byte>, i: nat)
    requires |bytes| == 16 && i <= 16
    ensures PairsFrom(HexText(bytes), i) == Returns(bytes[i..])
    decreases 16 - i
  {
    var x := HexText(bytes);
    if i < 16 {
      HexTextPair(bytes, i);
      PairsFromHex(bytes, i + 1);
      assert PairsFrom(x, i) == Returns([PairValue(x, i)] + PairsFrom(x, i + 1).value);
      assert bytes[i..] == [bytes[i]] + bytes[i + 1..];
    } else {
      assert bytes[i..] == [];
    }
  }

  /** parse_uid reads back the bytes written as 32 hex digits. */
  lemma HexRoundTrip(bytes: seq<byte>)
    requires |bytes| == 16
    ensures ParseUid(HexText(bytes)) == Returns(Some(bytes))
  {
    var x := HexText(bytes);
    HexTextNoDash(bytes);
    PairsFromHex(bytes, 0);
    assert bytes[0..] == bytes && bytes[..16] == bytes;
    assert PairsFrom(RemoveDashes(x), 0) == Returns(bytes);
  }

  /** parse_uid reads back the bytes of any UUID in the canonical layout. */
  lemma UuidRoundTrip(bytes: seq<byte>)
    requires |bytes| == 16
    ensures ParseUid(UuidText(bytes)) == Returns(Some(bytes))
  {
    UuidDigits(bytes);
    HexTextNoDash(bytes);
    HexRoundTrip(bytes);
  }

  // ---------------------------------------------------------------------
  // create
  // ---------------------------------------------------------------------

  const OUTPUT_PANIC := "auth must have exactly 1 output"

  /** The parsed configuration: the user id text, the outputs, and the
      function name the script used. */
  datatype Config = Config(userId: string, outputs: seq<string>, functionName: string)

  /** The client actor: the sixteen-byte user id. */
  datatype Client = Client(userId: seq<byte>)

  /** create: exactly one output, a user id that parses, and the only
      function `vmess_client`. */
  function Create(config: Config): (r: Outcome<Client>)
    ensures r.Returns? <==>
      |config.outputs| == 1 && ParseUid(config.userId).Returns? && config.functionName == "vmess_client"
    ensures r.Returns? ==> Returns(Some(r.value.userId)) == ParseUid(config.userId)
    ensures |config.outputs| != 1 ==> r == Panics(OUTPUT_PANIC)
  {
    if |config.outputs| != 1 then Panics(OUTPUT_PANIC)
    else
      var uid := ParseUid(config.userId);
      if uid.Panics? then Panics(uid.reason)
      else if uid.value.None? then Panics(UNWRAP_NONE)
      else if config.functionName == "vmess_client" then Returns(Client(uid.value.value))
      else Panics(UNREACHABLE)
  }
}

=== FILE: vmess_client.dfy ===
/** The VMess client's byte-level code (components/vmess/src/client.rs):
    32-bit FNV-1a, AES-128 in byte-wise CFB mode (section 6.3 of NIST
    SP 800-38A, with the AES block function left abstract), the buffered
    reader over the incoming messages, the request header, and the framing
    of data in both directions. */
module VmessClient {
  import opened Wrappers
  import opened Bytes

  // ---------------------------------------------------------------------
  // FNV-1a
  // ---------------------------------------------------------------------

  const FNV_OFFSET: u32 := 0x811c9dc5
  const FNV_PRIME: nat := 16777619

  /** One FNV-1a round: XOR the byte into the low byte of the hash, then
      multiply by the prime modulo 2^32. */
  function FnvStep(h: u32, b: byte): (r: u32)
  {
    ((h - h % 256 + Xor(h % 256, b)) * FNV_PRIME) % U32_LIMIT
  }

  /** The hash of `x` continuing from `h`. */
  function FnvFrom(h: u32, x: seq<byte>): u32
    decreases |x|
  {
    if x == [] then h else FnvStep(FnvFrom(h, x[..|x| - 1]), x[|x| - 1])
  }

  function Fnv1a(x: seq<byte>): u32
  {
    FnvFrom(FNV_OFFSET, x)
  }

  /** Hashing is streaming: the hash of a + b continues from that of a. */
  lemma {:induction false} FnvAppend(h: u32, a: seq<byte>, b: seq<byte>)
    ensures FnvFrom(h, a + b) == FnvFrom(FnvFrom(h, a), b)
    decreases |b|
  {
    if b == [] {
      assert a + b == a;
    } else {
      var b' := b[..|b| - 1];
      FnvAppend(h, a, b');
      assert (a + b)[..|a + b| - 1] == a + b';
    }
  }

  /** 0xc5 ^ 0x61, bit by bit from the lowest. */
  lemma XorC5With61()
    ensures Xor(0xc5, 0x61) == 0xa4
  {
    assert XorBits(0, 0, 0) == 0;
    assert XorBits(1, 0, 1) == 1;
    assert XorBits(3, 1, 2) == 2;
    assert XorBits(6, 3, 3) == 5;
    assert XorBits(12, 6, 4) == 10;
    assert XorBits(24, 12, 5) == 20;
    assert XorBits(49, 24, 6) == 41;
    assert XorBits(98, 48, 7) == 82;
    assert XorBits(197, 97, 8) == 164;
  }

  /** The empty input hashes to the offset basis; "a" to 0xe40c292c. */
  lemma Fnv1aValues()
    ensures Fnv1a([]) == 0x811c9dc5
    ensures Fnv1a([0x61]) == 0xe40c292c
  {
    assert [0x61 as byte][..0] == [];
    assert FNV_OFFSET % 256 == 0xc5;
    XorC5With61();
    assert FnvStep(FNV_OFFSET, 0x61) == 0x811c9da4 * 16777619 % U32_LIMIT;
    assert 0x811c9da4 * 16777619 % U32_LIMIT == 0xe40c292c;
  }

  /** fnv1a: the loop over the bytes. */
  method ComputeFnv1a(x: seq<byte>) returns (hash: u32)
    ensures hash == Fnv1a(x)
  {
    hash := FNV_OFFSET;
    for i := 0 to |x|
      invariant hash == FnvFrom(FNV_OFFSET, x[..i])
    {
      assert x[..i + 1][..i] == x[..i];
      hash := FnvStep(hash, x[i]);
    }
    assert x[..|x|] == x;
  }

  // ---------------------------------------------------------------------
  // AES-128-CFB
  // ---------------------------------------------------------------------

  /** The AES-128 block encryption under a key: sixteen bytes out. */
  type BlockCipher = f: (seq<byte>, seq<byte>) -> seq<byte> | forall k, s :: |f(k, s)| == 16
    witness (k: seq<byte>, s: seq<byte>) => seq(16, _ => 0 as byte)

  /** The coder's shift register and the position of the next byte in it;
      16 means a fresh block is needed. */
  datatype CfbState = CfbState(state: seq<byte>, p: nat)

  predicate ValidCfb(c: CfbState)
  {
    |c.state| == 16 && c.p <= 16
  }

  /** A new coder: the IV, with p at 16 so the first byte encrypts it. */
  function Fresh(iv: seq<byte>): (c: CfbState)
    requires |iv| == 16
    ensures ValidCfb(c) && c.p == 16
  {
    CfbState(iv, 16)
  }

  /** One byte of CFB: encrypt the register when it is used up, XOR the
      byte with the register, and feed the ciphertext byte back into it
      (the output when encoding, the input when decoding). */
  function Step(e: BlockCipher, key: seq<byte>, c: CfbState, b: byte, encode: bool): (r: (CfbState, byte))
    requires ValidCfb(c)
    ensures ValidCfb(r.0) && 1 <= r.0.p <= 16
  {
    var s := if c.p == 16 then e(key, c.state) else c.state;
    var p := if c.p == 16 then 0 else c.p;
    var out := Xor(b, s[p]);
    (CfbState(s[p := if encode then out else b], p + 1), out)
  }

  /** The coder run over `data`: its final state and the output. */
  function Cfb(e: BlockCipher, key: seq<byte>, c: CfbState, data: seq<byte>, encode: bool): (r: (CfbState, seq<byte>))
    requires ValidCfb(c)
    ensures ValidCfb(r.0) && |r.1| == |data|
    ensures data != [] ==> 1 <= r.0.p <= 16
    decreases |data|
  {
    if data == [] then (c, [])
    else
      var (c1, out) := Cfb(e, key, c, data[..|data| - 1], encode);
      var (c2, b) := Step(e, key, c1, data[|data| - 1], encode);
      (c2, out + [b])
  }

  /** Running the coder over one more byte is one more step. */
  lemma CfbSnoc(e: BlockCipher, key: seq<byte>, c: CfbState, d: seq<byte>, i: nat, encode: bool)
    requires ValidCfb(c) && i < |d|
    ensures var prev := Cfb(e, key, c, d[..i], encode);
      var step := Step(e, key, prev.0, d[i], encode);
      Cfb(e, key, c, d[..i + 1], encode) == (step.0, prev.1 + [step.1])
  {
    assert d[..i + 1][..i] == d[..i];
  }

  lemma StepInverse(e: BlockCipher, key: seq<byte>, c: CfbState, b: byte)
    requires ValidCfb(c)
    ensures Step(e, key, c, Step(e, key, c, b, true).1, false) == (Step(e, key, c, b, true).0, b)
  {
    var s := if c.p == 16 then e(key, c.state) else c.state;
    var p := if c.p == 16 then 0 else c.p;
    XorTwice(b, s[p]);
  }

  /** Decoding from the same key, register and position inverts encoding,
      and leaves the decoder in the encoder's state. */
  lemma {:induction false} DecodeEncode(e: BlockCipher, key: seq<byte>, c: CfbState, data: seq<byte>)
    requires ValidCfb(c)
    ensures Cfb(e, key, c, Cfb(e, key, c, data, true).1, false) == (Cfb(e, key, c, data, true).0, data)
    decreases |data|
  {
    if data != [] {
      var init, last := data[..|data| - 1], data[|data| - 1];
      var c1, out := Cfb(e, key, c, init, true).0, Cfb(e, key, c, init, true).1;
      var step := Step(e, key, c1, last, true);
      var ct := out + [step.1];
      assert Cfb(e, key, c, data, true) == (step.0, ct);
      assert ct[..|ct| - 1] == out && ct[|ct| - 1] == step.1;
      DecodeEncode(e, key, c, init);
      assert Cfb(e, key, c, out, false) == (c1, init);
      StepInverse(e, key, c1, last);
      assert Cfb(e, key, c, ct, false) == (step.0, init + [last]);
      assert init + [last] == data;
    }
  }

  /** Coding a buffer in two calls equals coding the concatenation once. */
  lemma {:induction false} CfbAppend(e: BlockCipher, key: seq<byte>, c: CfbState, a: seq<byte>, b: seq<byte>, encode: bool)
    requires ValidCfb(c)
    ensures var (c1, x) := Cfb(e, key, c, a, encode);
      var (c2, y) := Cfb(e, key, c1, b, encode);
      Cfb(e, key, c, a + b, encode) == (c2, x + y)
    decreases |b|
  {
    if b == [] {
      assert a + b == a;
      var (c1, x) := Cfb(e, key, c, a, encode);
      assert Cfb(e, key, c1, b, encode) == (c1, []);
      assert x + [] == x;
    } else {
      var b' := b[..|b| - 1];
      var last := b[|b| - 1];
      assert b == b' + [last];
      assert a + b == (a + b') + [last];
      CfbAppend(e, key, c, a, b', encode);
      var c1 := Cfb(e, key, c, a, encode).0;
      CfbPush(e, key, c, a + b', last, encode);
      CfbPush(e, key, c1, b', last, encode);
      AppendSnoc(Cfb(e, key, c, a, encode).1, Cfb(e, key, c1, b', encode).1, Step(e, key, Cfb(e, key, c1, b', encode).0, last, encode).1);
    }
  }

  /** The coder over a buffer and one more byte. */
  lemma CfbPush(e: BlockCipher, key: seq<byte>, c: CfbState, d: seq<byte>, x: byte, encode: bool)
    requires ValidCfb(c)
    ensures var prev := Cfb(e, key, c, d, encode);
      var step := Step(e, key, prev.0, x, encode);
      Cfb(e, key, c, d + [x], encode) == (step.0, prev.1 + [step.1])
  {
    assert (d + [x])[..|d|] == d;
  }

  lemma AppendSnoc(x: seq<byte>, y: seq<byte>, z: byte)
    ensures x + y + [z] == x + (y + [z])
  {
  }

  /** A fresh coder encrypts its IV before the first byte. */
  lemma FreshFirstByte(e: BlockCipher, key: seq<byte>, iv: seq<byte>, b: byte)
    requires |iv| == 16
    ensures Cfb(e, key, Fresh(iv), [b], true).1 == [Xor(b, e(key, iv)[0])]
  {
    assert [b][..0] == [];
  }

  /** The coder object: the key, the register as a 16-byte array, and p. */
  class Aes128Cfb {
    const cipher: BlockCipher
    const key: seq<byte>
    const state: array<byte>
    var p: nat

    ghost predicate Valid()
      reads this
    {
      state.Length == 16 && |key| == 16 && p <= 16
    }

    function Current(): CfbState
      reads this, state
    {
      CfbState(state[..], p)
    }

    constructor (cipher: BlockCipher, key: seq<byte>, iv: seq<byte>)
      requires |key| == 16 && |iv| == 16
      ensures Valid() && fresh(state) && this.cipher == cipher && this.key == key && Current() == Fresh(iv)
    {
      this.cipher := cipher;
      this.key := key;
      state := new byte[16](i requires 0 <= i < 16 => iv[i]);
      p := 16;
      new;
      assert state[..] == iv;
    }

    method EncryptBlock()
      requires Valid()
      modifies state
      ensures state[..] == cipher(key, old(state[..]))
    {
      var block := cipher(key, state[..]);
      forall k | 0 <= k < 16 {
        state[k] := block[k];
      }
    }

    /** Encrypt the register when it is used up. */
    method Refill()
      requires Valid()
      modifies this, state
      ensures Valid() && p < 16
      ensures state[..] == if old(p) == 16 then cipher(key, old(state[..])) else old(state[..])
      ensures p == if old(p) == 16 then 0 else old(p)
    {
      if p == 16 {
        EncryptBlock();
        p := 0;
      }
    }

    /** XOR one byte with the register and store the ciphertext byte in
        it. */
    method Feed(b: byte, encode: bool) returns (out: byte)
      requires Valid() && p < 16
      modifies this, state
      ensures Valid() && out == Xor(b, old(state[p])) && p == old(p) + 1
      ensures state[..] == old(state[..])[old(p) := if encode then out else b]
    {
      out := Xor(b, state[p]);
      state[p] := if encode then out else b;
      p := p + 1;
    }

    /** One byte of either loop. */
    method Apply(b: byte, encode: bool) returns (out: byte)
      requires Valid()
      modifies this, state
      ensures Valid() && (Current(), out) == Step(cipher, key, old(Current()), b, encode)
    {
      Refill();
      out := Feed(b, encode);
    }

    /** encode: the data is replaced by its ciphertext in place. */
    method Encode(data: array<byte>)
      requires Valid() && data != state
      modifies this, state, data
      ensures Valid() && (Current(), data[..]) == Cfb(cipher, key, old(Current()), old(data[..]), true)
    {
      Transform(data, true);
    }

    /** decode: the data is replaced by its plaintext in place; the
        register takes the ciphertext byte. */
    method Decode(data: array<byte>)
      requires Valid() && data != state
      modifies this, state, data
      ensures Valid() && (Current(), data[..]) == Cfb(cipher, key, old(Current()), old(data[..]), false)
    {
      Transform(data, false);
    }

    /** The loop both share: each byte in turn goes through Apply. */
    method Transform(data: array<byte>, encode: bool)
      requires Valid() && data != state
      modifies this, state, data
      ensures Valid() && (Current(), data[..]) == Cfb(cipher, key, old(Current()), old(data[..]), encode)
    {
      ghost var c0, d0 := Current(), data[..];
      for i := 0 to data.Length
        invariant Valid() && forall k :: i <= k < data.Length ==> data[k] == d0[k]
        invariant (Current(), data[..i]) == Cfb(cipher, key, c0, d0[..i], encode)
      {
        ghost var before := data[..i];
        CfbSnoc(cipher, key, c0, d0, i, encode);
        var b := Apply(data[i], encode);
        data[i] := b;
        assert data[..i + 1] == before + [b];
      }
      assert d0[..data.Length] == d0 && data[..data.Length] == data[..];
    }
  }

  method ToArray(s: seq<byte>) returns (a: array<byte>)
    ensures fresh(a) && a[..] == s
  {
    a := new byte[|s|](i requires 0 <= i < |s| => s[i]);
  }

  /** Reading `len` bytes at `pos` takes the front of the unread bytes. */
  lemma FrontOfUnread(buffer: seq<byte>, pos: nat, len: nat, later: seq<byte>)
    requires pos + len <= |buffer|
    ensures buffer[pos..pos + len] == (buffer[pos..] + later)[..len]
    ensures buffer[pos + len..] + later == (buffer[pos..] + later)[len..]
  {
    assert buffer[pos..] == buffer[pos..pos + len] + buffer[pos + len..];
  }

  // ---------------------------------------------------------------------
  // The buffered reader
  // ---------------------------------------------------------------------

  /** A reader over the mailbox: `incoming` are the messages the mailbox
      will deliver, `next` how many were received; `buffer[pos..]` is held
      but unread. */
  class BufReader {
    const incoming: seq<seq<byte>>
    var next: nat
    var buffer: seq<byte>
    var pos: nat

    ghost predicate Valid()
      reads this
    {
      next <= |incoming| && pos <= |buffer|
    }

    /** Every byte the reader can still return, in order. */
    ghost function Unread(): seq<byte>
      reads this
      requires Valid()
    {
      buffer[pos..] + Flatten(incoming[next..])
    }

    constructor (incoming: seq<seq<byte>>)
      ensures Valid() && this.incoming == incoming && next == 0 && buffer == [] && pos == 0
      ensures Unread() == Flatten(incoming)
    {
      this.incoming := incoming;
      next := 0;
      buffer := [];
      pos := 0;
    }

    /** read_exact: the next `len` bytes of the stream. When the stream ends
        first, nothing is lost: the bytes gathered so far stay buffered. */
    method ReadExact(len: nat) returns (r: Option<seq<byte>>)
      requires Valid()
      modifies this
      ensures Valid()
      ensures r.Some? <==> len <= |old(Unread())|
      ensures r.Some? ==> r.value == old(Unread())[..len] && Unread() == old(Unread())[len..]
      ensures r.None? ==> Unread() == old(Unread()) && next == |incoming|
      ensures r.Some? && old(pos) + len > |old(buffer)| ==> pos == len && buffer[..len] == r.value
    {
      if pos + len > |buffer| {
        Gather(len);
        if |buffer| < len {
          assert Flatten(incoming[next..]) == [];
          return None;
        }
      }
      FrontOfUnread(buffer, pos, len, Flatten(incoming[next..]));
      pos := pos + len;
      r := Some(buffer[pos - len..pos]);
    }

    /** The receiving loop of read_exact: messages are appended to the
        unread bytes until there are `len` of them or the stream ends. */
    method Gather(len: nat)
      requires Valid()
      modifies this
      ensures Valid() && pos == 0 && Unread() == old(Unread())
      ensures |buffer| < len ==> next == |incoming|
    {
      var gathered := buffer[pos..];
      while |gathered| < len && next < |incoming|
        invariant next <= |incoming| && gathered + Flatten(incoming[next..]) == old(Unread())
        decreases |incoming| - next
      {
        FlattenFrom(incoming, next);
        gathered := gathered + incoming[next];
        next := next + 1;
      }
      buffer, pos := gathered, 0;
    }
    /** take, as written: the unread rest of the buffer, or else the next
        non-empty message. At the end of the stream it has already reset
        pos, so when no message arrived at all the old buffer is unread
        again. */
    method Take() returns (r: Option<seq<byte>>)
      requires Valid()
      modifies this
      ensures Valid()
      ensures r.Some? ==> r.value != [] && old(Unread()) == r.value + Unread() && buffer == [] && pos == 0
      ensures r.None? ==> old(Unread()) == [] && next == |incoming| && pos == 0 &&
                          buffer == (if old(next) == |incoming| then old(buffer) else [])
    {
      while pos == |buffer|
        invariant Valid() && Unread() == old(Unread())
        invariant next == old(next) ==> buffer == old(buffer)
        invariant next > old(next) ==> pos == 0
        decreases |incoming| - next, if pos == |buffer| then 1 else 0
      {
        pos := 0;
        if next == |incoming| {
          return None;
        }
        FlattenFrom(incoming, next);
        buffer := incoming[next];
        next := next + 1;
      }
      var rest := if pos == 0 then buffer else buffer[pos..];
      assert Unread() == rest + Flatten(incoming[next..]);
      buffer, pos := [], 0;
      r := Some(rest);
    }

    /** take as evidently intended: at the end of the stream the reader is
        left empty, so no byte is returned twice. */
    method TakeCorrected() returns (r: Option<seq<byte>>)
      requires Valid()
      modifies this
      ensures Valid()
      ensures r.Some? ==> r.value != [] && old(Unread()) == r.value + Unread()
      ensures r.None? ==> old(Unread()) == [] && Unread() == []
    {
      while pos == |buffer|
        invariant Valid() && Unread() == old(Unread())
        decreases |incoming| - next, if pos == |buffer| then 1 else 0
      {
        if next == |incoming| {
          buffer, pos := [], 0;
          return None;
        }
        FlattenFrom(incoming, next);
        buffer, pos := incoming[next], 0;
        next := next + 1;
      }
      var rest := buffer[pos..];
      assert Unread() == rest + Flatten(incoming[next..]);
      buffer, pos := [], 0;
      r := Some(rest);
    }
  }

  /** Reading every byte and then calling take at the end of the stream
      gives None, yet leaves those bytes unread: the next take returns them
      a second time. */
  method TakeRepeatsConsumedBytes() returns (first: Option<seq<byte>>, second: Option<seq<byte>>, third: Option<seq<byte>>)
    ensures first == Some([1, 2]) && second.None? && third == Some([1, 2])
  {
    var reader := new BufReader([[1, 2]]);
    assert Flatten([[1 as byte, 2]]) == [1, 2] by {
      assert [[1 as byte, 2]][1..] == [];
    }
    first := reader.ReadExact(2);
    assert reader.buffer == reader.buffer[..2] + reader.buffer[2..];
    assert reader.buffer == [1, 2];
    second := reader.Take();
    third := reader.Take();
  }

  /** With the corrected take the same calls return None both times. */
  method TakeCorrectedAtEnd() returns (first: Option<seq<byte>>, second: Option<seq<byte>>, third: Option<seq<byte>>)
    ensures first == Some([1, 2]) && second.None? && third.None?
  {
    var reader := new BufReader([[1, 2]]);
    assert Flatten([[1 as byte, 2]]) == [1, 2] by {
      assert [[1 as byte, 2]][1..] == [];
    }
    first := reader.ReadExact(2);
    second := reader.TakeCorrected();
    third := reader.TakeCorrected();
  }

  // ---------------------------------------------------------------------
  // Data frames
  // ---------------------------------------------------------------------

  /** The plaintext of a data frame: the length (data plus checksum)
      truncated to 16 bits, the big-endian checksum, the data. */
  function FramePlain(data: seq<byte>): (s: seq<byte>)
    ensures |s| == |data| + 6 && s[6..] == data
    ensures s[2..6] == U32Be(Fnv1a(data))
    ensures ReadU16Be(s) == (|data| + 4) % U16_LIMIT
  {
    var s := U16Be((|data| + 4) % U16_LIMIT) + U32Be(Fnv1a(data)) + data;
    assert s[..2] == U16Be((|data| + 4) % U16_LIMIT);
    U16RoundTrip((|data| + 4) % U16_LIMIT);
    s
  }

  /** forward_msg: build the frame and encode it with the data coder. */
  method ForwardMsg(encoder: Aes128Cfb, data: seq<byte>) returns (out: seq<byte>)
    requires encoder.Valid()
    modifies encoder, encoder.state
    ensures encoder.Valid() && |out| == |data| + 6
    ensures (encoder.Current(), out) == Cfb(encoder.cipher, encoder.key, old(encoder.Current()), FramePlain(data), true)
  {
    var len := |data| + 4;
    var checksum := ComputeFnv1a(data);
    var buf := U16Be(len % U16_LIMIT) + U32Be(checksum) + data;
    var a := ToArray(buf);
    encoder.Encode(a);
    out := a[..];
  }

  const CHECKSUM_PANIC := "invalid checksum!"
  const SUBTRACT_OVERFLOW := "attempt to subtract with overflow"

  /** A frame read back: the data, the decoder after it, and the number of
      stream bytes it took. */
  datatype Frame = Frame(data: seq<byte>, after: CfbState, consumed: nat)

  /** A frame's decoded length and checksum, and the decoder after them. */
  datatype FrameHead = FrameHead(after: CfbState, len: nat, sum: seq<byte>)

  /** Decode the first two bytes as the big-endian length and the next
      four as the checksum. */
  function DecodeHead(e: BlockCipher, key: seq<byte>, c: CfbState, stream: seq<byte>): (h: FrameHead)
    requires ValidCfb(c) && |stream| >= 6
    ensures ValidCfb(h.after) && h.len < U16_LIMIT && |h.sum| == 4
  {
    var (c1, head) := Cfb(e, key, c, stream[..2], false);
    var (c2, sum) := Cfb(e, key, c1, stream[2..6], false);
    FrameHead(c2, ReadU16Be(head), sum)
  }

  /** backward_read over the stream: decode the length and the checksum,
      then len - 4 data bytes; None when the stream ends first. A length
      below 4 underflows and a wrong checksum panics. */
  function ReadFrame(e: BlockCipher, key: seq<byte>, c: CfbState, stream: seq<byte>): (r: Outcome<Option<Frame>>)
    requires ValidCfb(c)
    ensures r.Returns? && r.value.Some? ==> 6 <= r.value.value.consumed <= |stream|
  {
    if |stream| < 6 then Returns(None)
    else
      var h := DecodeHead(e, key, c, stream);
      if h.len < 4 then Panics(SUBTRACT_OVERFLOW)
      else if |stream| < 2 + h.len then Returns(None)
      else
        var (c3, data) := Cfb(e, key, h.after, stream[6..2 + h.len], false);
        if U32Be(Fnv1a(data)) != h.sum then Panics(CHECKSUM_PANIC)
        else Returns(Some(Frame(data, c3, 2 + h.len)))
  }

  /** The three pieces of a frame encoded in one call are the pieces
      encoded one after the other. */
  lemma EncodeInPieces(e: BlockCipher, key: seq<byte>, c: CfbState, h: seq<byte>, s: seq<byte>, data: seq<byte>)
    requires ValidCfb(c)
    ensures var (c1, x) := Cfb(e, key, c, h, true);
      var (c2, y) := Cfb(e, key, c1, s, true);
      var (c3, z) := Cfb(e, key, c2, data, true);
      Cfb(e, key, c, h + s + data, true) == (c3, x + y + z)
  {
    CfbAppend(e, key, c, h, s, true);
    CfbAppend(e, key, c, h + s, data, true);
  }

  /** The head of a stream made of the ciphertexts of a length and a
      checksum decodes to them. */
  lemma DecodeHeadOf(e: BlockCipher, key: seq<byte>, c: CfbState, x: seq<byte>, y: seq<byte>, rest: seq<byte>,
                     c1: CfbState, c2: CfbState, head: seq<byte>, sum: seq<byte>)
    requires ValidCfb(c) && ValidCfb(c1) && |head| == 2 && |sum| == 4
    requires Cfb(e, key, c, x, false) == (c1, head)
    requires Cfb(e, key, c1, y, false) == (c2, sum)
    ensures DecodeHead(e, key, c, x + y + rest) == FrameHead(c2, ReadU16Be(head), sum)
  {
    var stream := x + y + rest;
    assert stream[..2] == x && stream[2..6] == y;
  }

  /** The reader accepts a stream made of the ciphertexts of a right
      length, the data's checksum and the data. */
  lemma ReadFrameAccepts(e: BlockCipher, key: seq<byte>, c: CfbState, x: seq<byte>, y: seq<byte>, z: seq<byte>, rest: seq<byte>,
                         c1: CfbState, c2: CfbState, c3: CfbState, head: seq<byte>, data: seq<byte>)
    requires ValidCfb(c) && ValidCfb(c1) && ValidCfb(c2) && |head| == 2 && ReadU16Be(head) == |data| + 4
    requires Cfb(e, key, c, x, false) == (c1, head)
    requires Cfb(e, key, c1, y, false) == (c2, U32Be(Fnv1a(data)))
    requires Cfb(e, key, c2, z, false) == (c3, data)
    ensures ReadFrame(e, key, c, x + y + z + rest) == Returns(Some(Frame(data, c3, |data| + 6)))
  {
    var stream := x + y + z + rest;
    assert stream == x + y + (z + rest);
    DecodeHeadOf(e, key, c, x, y, z + rest, c1, c2, head, U32Be(Fnv1a(data)));
    assert stream[6..|data| + 6] == z;
    ReadFrameParts(e, key, c, stream, FrameHead(c2, |data| + 4, U32Be(Fnv1a(data))), c3, data);
  }

  /** ReadFrame, once the head and the data have been decoded and the
      checksum matches. */
  lemma ReadFrameParts(e: BlockCipher, key: seq<byte>, c: CfbState, stream: seq<byte>, h: FrameHead, c3: CfbState, data: seq<byte>)
    requires ValidCfb(c) && |stream| >= 6 && DecodeHead(e, key, c, stream) == h
    requires 4 <= h.len && 2 + h.len <= |stream|
    requires Cfb(e, key, h.after, stream[6..2 + h.len], false) == (c3, data)
    requires U32Be(Fnv1a(data)) == h.sum
    ensures ReadFrame(e, key, c, stream) == Returns(Some(Frame(data, c3, 2 + h.len)))
  {
  }

  /** Plaintext made of a right length, the data's checksum and the data,
      once encoded, is read back as a frame. */
  lemma ReadEncodedFrame(e: BlockCipher, key: seq<byte>, c: CfbState, plain: seq<byte>, data: seq<byte>, rest: seq<byte>)
    requires ValidCfb(c) && |plain| == |data| + 6 && plain[6..] == data
    requires ReadU16Be(plain) == |data| + 4 && plain[2..6] == U32Be(Fnv1a(data))
    ensures var (c', ct) := Cfb(e, key, c, plain, true);
      ReadFrame(e, key, c, ct + rest) == Returns(Some(Frame(data, c', |data| + 6)))
  {
    var h, s := plain[..2], plain[2..6];
    assert plain == h + s + data;
    assert ReadU16Be(h) == |data| + 4;
    EncodeInPieces(e, key, c, h, s, data);
    var c1, x := Cfb(e, key, c, h, true).0, Cfb(e, key, c, h, true).1;
    var c2, y := Cfb(e, key, c1, s, true).0, Cfb(e, key, c1, s, true).1;
    var c3, z := Cfb(e, key, c2, data, true).0, Cfb(e, key, c2, data, true).1;
    DecodeEncode(e, key, c, h);
    DecodeEncode(e, key, c1, s);
    DecodeEncode(e, key, c2, data);
    ReadFrameAccepts(e, key, c, x, y, z, rest, c1, c2, c3, h, data);
  }

  /** A frame written by forward_msg is read back by backward_read with a
      decoder in the encoder's starting state, whatever follows it, as long
      as the length fits in 16 bits. */
  lemma FrameRoundTrip(e: BlockCipher, key: seq<byte>, c: CfbState, data: seq<byte>, rest: seq<byte>)
    requires ValidCfb(c) && |data| + 4 < U16_LIMIT
    ensures var (c', ct) := Cfb(e, key, c, FramePlain(data), true);
      ReadFrame(e, key, c, ct + rest) == Returns(Some(Frame(data, c', |data| + 6)))
  {
    var plain := FramePlain(data);
    assert |plain| == |data| + 6 && plain[6..] == data;
    assert ReadU16Be(plain) == |data| + 4;
    assert plain[2..6] == U32Be(Fnv1a(data));
    ReadEncodedFrame(e, key, c, plain, data, rest);
  }

  /** A message longer than 65531 bytes wraps the 16-bit length: 65532
      bytes are announced as length 0, which the reader cannot accept. */
  lemma LongMessageWraps(data: seq<byte>)
    requires |data| == 65532
    ensures ReadU16Be(FramePlain(data)) == 0
  {
    assert (|data| + 4) % U16_LIMIT == 0;
  }

  method DecodeSlice(decoder: Aes128Cfb, s: seq<byte>) returns (out: seq<byte>)
    requires decoder.Valid()
    modifies decoder, decoder.state
    ensures decoder.Valid()
    ensures (decoder.Current(), out) == Cfb(decoder.cipher, decoder.key, old(decoder.Current()), s, false)
  {
    var a := ToArray(s);
    decoder.Decode(a);
    out := a[..];
  }

  /** Read exactly `n` bytes and decode them: the step backward_read and
      backward_handshake repeat. */
  method ReadDecoded(reader: BufReader, decoder: Aes128Cfb, n: nat) returns (r: Option<seq<byte>>)
    requires reader.Valid() && decoder.Valid()
    modifies reader, decoder, decoder.state
    ensures reader.Valid() && decoder.Valid()
    ensures r.Some? <==> n <= |old(reader.Unread())|
    ensures r.Some? ==> Cfb(decoder.cipher, decoder.key, old(decoder.Current()), old(reader.Unread())[..n], false) ==
                          (decoder.Current(), r.value) &&
                        reader.Unread() == old(reader.Unread())[n..]
  {
    var raw := reader.ReadExact(n);
    if raw.None? {
      return None;
    }
    var plain := DecodeSlice(decoder, raw.value);
    return Some(plain);
  }

  /** The first half of backward_read: the length and the checksum. */
  method ReadHead(reader: BufReader, decoder: Aes128Cfb) returns (h: Option<(nat, seq<byte>)>)
    requires reader.Valid() && decoder.Valid()
    modifies reader, decoder, decoder.state
    ensures reader.Valid() && decoder.Valid()
    ensures h.Some? <==> |old(reader.Unread())| >= 6
    ensures h.Some? ==> DecodeHead(decoder.cipher, decoder.key, old(decoder.Current()), old(reader.Unread())) ==
                          FrameHead(decoder.Current(), h.value.0, h.value.1) &&
                        reader.Unread() == old(reader.Unread())[6..]
  {
    ghost var stream := reader.Unread();
    var head := ReadDecoded(reader, decoder, 2);
    if head.None? {
      return None;
    }
    var len := ReadU16Be(head.value);
    var sum := ReadDecoded(reader, decoder, 4);
    if sum.None? {
      return None;
    }
    DropSplit(stream, 2, 4);
    return Some((len, sum.value));
  }

  /** backward_read on the reader and the decoder. */
  method BackwardRead(reader: BufReader, decoder: Aes128Cfb) returns (r: Outcome<Option<seq<byte>>>)
    requires reader.Valid() && decoder.Valid()
    modifies reader, decoder, decoder.state
    ensures reader.Valid() && decoder.Valid()
    ensures var spec := ReadFrame(decoder.cipher, decoder.key, old(decoder.Current()), old(reader.Unread()));
      (r.Panics? <==> spec.Panics?) &&
      (r.Returns? && r.value.None? <==> spec.Returns? && spec.value.None?) &&
      (r.Returns? && r.value.Some? ==>
        spec.Returns? && spec.value.Some? && r.value.value == spec.value.value.data &&
        decoder.Current() == spec.value.value.after &&
        reader.Unread() == old(reader.Unread())[spec.value.value.consumed..])
  {
    ghost var stream := reader.Unread();
    ghost var spec := ReadFrame(decoder.cipher, decoder.key, decoder.Current(), stream);
    var h := ReadHead(reader, decoder);
    if h.None? {
      assert spec == Returns(None);
      return Returns(None);
    }
    var (len, sum) := h.value;
    if len < 4 {
      assert spec.Panics?;
      return Panics(SUBTRACT_OVERFLOW);
    }
    var data := ReadDecoded(reader, decoder, len - 4);
    if data.None? {
      assert spec == Returns(None);
      return Returns(None);
    }
    DropSplit(stream, 6, len - 4);
    var checksum := ComputeFnv1a(data.value);
    if U32Be(checksum) != sum {
      assert spec.Panics?;
      return Panics(CHECKSUM_PANIC);
    }
    assert spec == Returns(Some(Frame(data.value, decoder.Current(), 2 + len)));
    return Returns(Some(data.value));
  }

  /** The response header V, option, command, command length, as the
      server sends it: the first byte must echo the request's V (39). */
  function ReadResponseHeader(e: BlockCipher, key: seq<byte>, c: CfbState, stream: seq<byte>): (r: Outcome<Option<(CfbState, nat)>>)
    requires ValidCfb(c)
    ensures r.Returns? && r.value.Some? ==> 4 <= r.value.value.1 <= |stream|
  {
    if |stream| < 4 then Returns(None)
    else
      var (c1, head) := Cfb(e, key, c, stream[..4], false);
      var n := head[3] as int;
      if head[0] != 39 then Panics(RESPONSE_ASSERT)
      else if |stream| < 4 + n then Returns(None)
      else
        var (c2, _) := Cfb(e, key, c1, stream[4..4 + n], false);
        Returns(Some((c2, 4 + n)))
  }

  const RESPONSE_ASSERT := "assertion failed: head[0] == 39"

  /** backward_handshake: decode the four-byte response header, check its
      first byte, and skip the command bytes it announces. */
  method BackwardHandshake(reader: BufReader, decoder: Aes128Cfb) returns (r: Outcome<Option<()>>)
    requires reader.Valid() && decoder.Valid()
    modifies reader, decoder, decoder.state
    ensures reader.Valid() && decoder.Valid()
    ensures var spec := ReadResponseHeader(decoder.cipher, decoder.key, old(decoder.Current()), old(reader.Unread()));
      (r.Panics? <==> spec.Panics?) &&
      (r.Returns? && r.value.None? <==> spec.Returns? && spec.value.None?) &&
      (r.Returns? && r.value.Some? ==>
        spec.Returns? && spec.value.Some? && decoder.Current() == spec.value.value.0 &&
        reader.Unread() == old(reader.Unread())[spec.value.value.1..])
  {
    ghost var stream := reader.Unread();
    ghost var spec := ReadResponseHeader(decoder.cipher, decoder.key, decoder.Current(), stream);
    var head := ReadDecoded(reader, decoder, 4);
    if head.None? {
      assert spec == Returns(None);
      return Returns(None);
    }
    ghost var c1 := decoder.Current();
    if head.value[0] != 39 {
      assert spec.Panics?;
      return Panics(RESPONSE_ASSERT);
    }
    var n := head.value[3] as int;
    var cmd := ReadDecoded(reader, decoder, n);
    if cmd.None? {
      assert spec == Returns(None);
      return Returns(None);
    }
    DropSplit(stream, 4, n);
    ResponseHeaderRead(decoder.cipher, decoder.key, old(decoder.Current()), stream, c1, head.value, decoder.Current(), cmd.value);
    return Returns(Some(()));
  }

  /** ReadResponseHeader, once both of its reads have succeeded. */
  lemma ResponseHeaderRead(e: BlockCipher, key: seq<byte>, c: CfbState, stream: seq<byte>,
                           c1: CfbState, head: seq<byte>, c2: CfbState, cmd: seq<byte>)
    requires ValidCfb(c) && |stream| >= 4
    requires Cfb(e, key, c, stream[..4], false) == (c1, head) && head[0] == 39
    requires |stream| >= 4 + head[3] as int
    requires Cfb(e, key, c1, stream[4..4 + head[3] as int], false) == (c2, cmd)
    ensures ReadResponseHeader(e, key, c, stream) == Returns(Some((c2, 4 + head[3] as int)))
  {
  }

  // ---------------------------------------------------------------------
  // The request header
  // ---------------------------------------------------------------------

  /** A destination: four or sixteen octets, or a domain name's bytes. */
  datatype Addr = V4(octets: seq<byte>) | V6(octets: seq<byte>) | Domain(name: seq<byte>)

  predicate ValidAddr(a: Addr)
  {
    match a
    case V4(o) => |o| == 4
    case V6(o) => |o| == 16
    case Domain(_) => true
  }

  /** The address field: tag 1, 3 or 2, then the octets or a length byte
      (the name's length truncated to 8 bits) and the name. */
  function AddrBytes(a: Addr): (s: seq<byte>)
    requires ValidAddr(a)
    ensures |s| >= 2
    ensures a.V4? ==> s[0] == 1 && s[1..] == a.octets
    ensures a.V6? ==> s[0] == 3 && s[1..] == a.octets
    ensures a.Domain? ==> s[0] == 2 && s[1] as int == |a.name| % 256 && s[2..] == a.name
  {
    match a
    case V4(o) => [1] + o
    case V6(o) => [3] + o
    case Domain(n) =>
      [2, (|n| % 256) as byte] + n
  }

  /** The header body before its checksum: version 1, the data IV and
      key, V = 39, option 1, security 1 (AES-128-CFB), a reserved 0,
      command 1 (TCP), the port, the address; no padding. */
  function RequestBody(iv: seq<byte>, key: seq<byte>, port: u16, addr: Addr): (s: seq<byte>)
    requires |iv| == 16 && |key| == 16 && ValidAddr(addr)
    ensures |s| >= 40 && s[0] == 1 && s[1..17] == iv && s[17..33] == key
    ensures s[33..38] == [39, 1, 1, 0, 1] && s[38..40] == U16Be(port) && s[40..] == AddrBytes(addr)
  {
    [1] + iv + key + [39, 1, 1, 0, 1] + U16Be(port) + AddrBytes(addr)
  }

  /** The handshake message: the 16 authentication bytes, then the body
      and its FNV-1a checksum encoded with a fresh header coder. */
  function HandshakeMessage(e: BlockCipher, auth: seq<byte>, headerKey: seq<byte>, headerIv: seq<byte>, body: seq<byte>): seq<byte>
    requires |headerIv| == 16
  {
    auth + Cfb(e, headerKey, Fresh(headerIv), body + U32Be(Fnv1a(body)), true).1
  }

  /** The server, holding the header key and IV, reads the body back and
      finds its checksum right after it. */
  lemma HandshakeReadBack(e: BlockCipher, auth: seq<byte>, headerKey: seq<byte>, headerIv: seq<byte>, body: seq<byte>)
    requires |auth| == 16 && |headerIv| == 16
    ensures var m := HandshakeMessage(e, auth, headerKey, headerIv, body);
      m[..16] == auth &&
      Cfb(e, headerKey, Fresh(headerIv), m[16..], false).1 == body + U32Be(Fnv1a(body))
  {
    var m := HandshakeMessage(e, auth, headerKey, headerIv, body);
    assert m[16..] == Cfb(e, headerKey, Fresh(headerIv), body + U32Be(Fnv1a(body)), true).1;
    DecodeEncode(e, headerKey, Fresh(headerIv), body + U32Be(Fnv1a(body)));
  }

  /** The header appended field by field is the authentication bytes
      followed by the request body. */
  lemma AppendedHeader(auth: seq<byte>, iv: seq<byte>, key: seq<byte>, port: u16, addr: Addr)
    requires |iv| == 16 && |key| == 16 && ValidAddr(addr)
    ensures auth + [1] + iv + key + [39, 1, 1, 0, 1] + U16Be(port) + AddrBytes(addr) == auth + RequestBody(iv, key, port, addr)
  {
    var r1 := [1] + iv;
    var r2 := r1 + key;
    var r3 := r2 + [39, 1, 1, 0, 1];
    var r4 := r3 + U16Be(port);
    ConcatAssoc(auth, [1], iv);
    ConcatAssoc(auth, r1, key);
    ConcatAssoc(auth, r2, [39, 1, 1, 0, 1]);
    ConcatAssoc(auth, r3, U16Be(port));
    ConcatAssoc(auth, r4, AddrBytes(addr));
  }

  /** The header fields appended one by one after the authentication. */
  method AppendHeader(auth: seq<byte>, iv: seq<byte>, key: seq<byte>, port: u16, addr: Addr) returns (buffer: seq<byte>)
    requires |iv| == 16 && |key| == 16 && ValidAddr(addr)
    ensures buffer == auth + RequestBody(iv, key, port, addr)
  {
    buffer := auth;
    buffer := buffer + [1];
    buffer := buffer + iv;
    buffer := buffer + key;
    buffer := buffer + [39, 1, 1, 0, 1];
    buffer := buffer + U16Be(port);
    buffer := buffer + AddrBytes(addr);
    AppendedHeader(auth, iv, key, port, addr);
  }

  /** A fresh header coder encoding a buffer in place. */
  method EncodeFresh(e: BlockCipher, key: seq<byte>, iv: seq<byte>, plain: seq<byte>) returns (ct: seq<byte>)
    requires |key| == 16 && |iv| == 16
    ensures ct == Cfb(e, key, Fresh(iv), plain, true).1
  {
    var a := ToArray(plain);
    var coder := new Aes128Cfb(e, key, iv);
    coder.Encode(a);
    ct := a[..];
  }

  /** The end of forward_handshake_msg: append the checksum of everything
      after the authentication, and encode that part in place. */
  method SealHeader(e: BlockCipher, buffer: seq<byte>, headerKey: seq<byte>, headerIv: seq<byte>) returns (out: seq<byte>)
    requires |buffer| >= 16 && |headerKey| == 16 && |headerIv| == 16
    ensures out == HandshakeMessage(e, buffer[..16], headerKey, headerIv, buffer[16..])
  {
    var checksum := ComputeFnv1a(buffer[16..]);
    var sealed := buffer + U32Be(checksum);
    assert sealed[..16] == buffer[..16] && sealed[16..] == buffer[16..] + U32Be(checksum);
    var tail := EncodeFresh(e, headerKey, headerIv, sealed[16..]);
    out := sealed[..16] + tail;
  }

  /** forward_handshake_msg: the HMAC of the time under the user id, and
      the header key and IV (MD5 digests) are given; the message is built
      by appending, then bytes 16 onwards are encoded in place. */
  method ForwardHandshakeMsg(e: BlockCipher, auth: seq<byte>, addr: Addr, port: u16, key: seq<byte>, iv: seq<byte>,
                             headerKey: seq<byte>, headerIv: seq<byte>) returns (out: seq<byte>)
    requires |auth| == 16 && |key| == 16 && |iv| == 16 && |headerKey| == 16 && |headerIv| == 16 && ValidAddr(addr)
    ensures out == HandshakeMessage(e, auth, headerKey, headerIv, RequestBody(iv, key, port, addr))
  {
    var buffer := AppendHeader(auth, iv, key, port, addr);
    assert buffer[..16] == auth && buffer[16..] == RequestBody(iv, key, port, addr);
    out := SealHeader(e, buffer, headerKey, headerIv);
  }
}

=== FILE: wrappers.dfy ===
/** Option and the outcome of a call that may abort the process (a Rust panic,
    a failed assert!, unwrap of None, todo!, unreachable!, or an uncaught
    JavaScript exception). */
module Wrappers {

  datatype Option<+T> = None | Some(value: T) {
    predicate IsFailure() { None? }

    function PropagateFailure<U>(): Option<U>
      requires None?
    {
      None
    }

    function Extract(): T
      requires Some?
    {
      value
    }
  }

  /** The reasons Rust gives when unwrap finds nothing to unwrap. */
  const UNWRAP_ERR := "called `Result::unwrap()` on an `Err` value"
  const UNWRAP_NONE := "called `Option::unwrap()` on a `None` value"

  /** The reasons of unreachable!() and todo!(). */
  const UNREACHABLE := "internal error: entered unreachable code"
  const TODO := "not yet implemented"

  /** The result of code that either returns a value or aborts with a reason. */
  datatype Outcome<+T> = Returns(value: T) | Panics(reason: string) {
    predicate IsFailure() { Panics? }

    function PropagateFailure<U>(): Outcome<U>
      requires Panics?
    {
      Panics(reason)
    }

    function Extract(): T
      requires Returns?
    {
      value
    }
  }
}

=== FILE: xor.dfy ===
/** The XOR component (components/xor/src/lib.rs): every byte of the stream,
    counted across messages, is XORed with the key byte at its offset. */
module Xor {
  import opened Wrappers
  import opened Bytes
  import Utf8

  // ---------------------------------------------------------------------
  // create
  // ---------------------------------------------------------------------

  const OUTPUT_PANIC := "xor must have exactly 1 output"

  /** The parsed configuration; read_only is accepted and unused. */
  datatype Config = Config(key: string, outputs: seq<string>, functionName: string, readOnly: bool)

  /** The actor: the key's bytes. */
  datatype Actor = Actor(key: seq<byte>)

  /** create: exactly one output; the key is the text's UTF-8 bytes. */
  function Create(config: Config): (r: Outcome<Actor>)
    ensures r.Returns? <==> |config.outputs| == 1
    ensures r.Panics? ==> r.reason == OUTPUT_PANIC
    ensures r.Returns? ==> r.value.key == Utf8.Encode(config.key)
  {
    if |config.outputs| != 1 then Panics(OUTPUT_PANIC) else Returns(Actor(Utf8.Encode(config.key)))
  }

  // ---------------------------------------------------------------------
  // The keystream
  // ---------------------------------------------------------------------

  /** The key byte at a stream offset: the key repeats. */
  function KeyAt(key: seq<byte>, offset: nat): byte
    requires |key| > 0
  {
    key[offset % |key|]
  }

  /** Byte i of `m` XORed with the key byte at offset count + i. */
  function XorWith(key: seq<byte>, count: nat, m: seq<byte>): (r: seq<byte>)
    requires |key| > 0 || m == []
    ensures |r| == |m|
  {
    seq(|m|, i requires 0 <= i < |m| => Xor(m[i], KeyAt(key, count + i)))
  }

  /** The offset after `len` more bytes; with an empty key nothing moves. */
  function After(key: seq<byte>, count: nat, len: nat): (c: nat)
    ensures |key| > 0 ==> c < |key|
  {
    if |key| == 0 then count else (count + len) % |key|
  }

  /** XORing twice with the same key from the same offset gives the bytes
      back. */
  lemma XorWithTwice(key: seq<byte>, count: nat, m: seq<byte>)
    requires |key| > 0 || m == []
    ensures XorWith(key, count, XorWith(key, count, m)) == m
  {
    forall i | 0 <= i < |m| {
      XorTwice(m[i], KeyAt(key, count + i));
    }
  }

  lemma XorWithTailAt(key: seq<byte>, count: nat, a: seq<byte>, b: seq<byte>, i: nat)
    requires |key| > 0 && i < |b|
    ensures XorWith(key, count, a + b)[|a| + i] == XorWith(key, After(key, count, |a|), b)[i]
  {
    ModShift(count + |a|, i, |key|);
    assert KeyAt(key, After(key, count, |a|) + i) == KeyAt(key, count + (|a| + i));
    assert (a + b)[|a| + i] == b[i];
  }

  /** XORing a concatenation is XORing its parts, the second from where the
      first left off. */
  lemma XorWithAppend(key: seq<byte>, count: nat, a: seq<byte>, b: seq<byte>)
    requires |key| > 0
    ensures XorWith(key, count, a + b) == XorWith(key, count, a) + XorWith(key, After(key, count, |a|), b)
  {
    var l := XorWith(key, count, a + b);
    var tail := XorWith(key, After(key, count, |a|), b);
    forall i | 0 <= i < |b|
      ensures l[|a| + i] == tail[i]
    {
      XorWithTailAt(key, count, a, b, i);
    }
    assert l[..|a|] == XorWith(key, count, a);
    assert l[|a|..] == tail;
    assert l == l[..|a|] + l[|a|..];
  }

  // ---------------------------------------------------------------------
  // The forwarding loop
  // ---------------------------------------------------------------------

  const INDEX_PANIC := "index out of bounds: the len is 0 but the index is 0"

  /** What the loop sends, and whether it panicked. */
  datatype Run = Run(sent: seq<seq<byte>>, panics: bool)

  function Prepend(m: seq<byte>, r: Run): Run
  {
    Run([m] + r.sent, r.panics)
  }

  /** The xor task from offset `count` on the mailbox's messages, when the
      receiver takes `room` more messages before its sends fail: an empty
      key panics on the first non-empty message, and a failed send ends the
      task. */
  function XorRun(key: seq<byte>, count: nat, mail: seq<seq<byte>>, room: nat): (r: Run)
    decreases |mail|
  {
    if mail == [] then Run([], false)
    else if |key| == 0 && mail[0] != [] then Run([], true)
    else if room == 0 then Run([], false)
    else Prepend(XorWith(key, count, mail[0]), XorRun(key, After(key, count, |mail[0]|), mail[1..], room - 1))
  }

  /** The loop over one message, in place: key[count] for each byte, count
      moving on modulo the key's length. */
  method XorMessage(key: seq<byte>, msg: array<byte>, count: nat) returns (r: Outcome<nat>)
    requires count < |key| || count == 0
    modifies msg
    ensures r.Panics? <==> |key| == 0 && msg.Length > 0
    ensures r.Panics? ==> r.reason == INDEX_PANIC && msg[..] == old(msg[..])
    ensures r.Returns? ==> msg[..] == XorWith(key, count, old(msg[..])) && r.value == After(key, count, msg.Length)
  {
    if |key| == 0 {
      if msg.Length > 0 {
        return Panics(INDEX_PANIC);
      }
      assert msg[..] == XorWith(key, count, old(msg[..]));
      return Returns(count);
    }
    var i := 0;
    var c := count;
    ModUnique(count, |key|, 0, count);
    while i < msg.Length
      invariant 0 <= i <= msg.Length && c == After(key, count, i)
      invariant forall k :: 0 <= k < i ==> msg[k] == Xor(old(msg[k]), KeyAt(key, count + k))
      invariant forall k :: i <= k < msg.Length ==> msg[k] == old(msg[k])
    {
      NextKey(key, count, i);
      msg[i] := Xor(msg[i], key[c]);
      c := (c + 1) % |key|;
      i := i + 1;
    }
    assert msg[..] == XorWith(key, count, old(msg[..]));
    return Returns(c);
  }

  /** The key byte used at step i, and the offset after it. */
  lemma NextKey(key: seq<byte>, count: nat, i: nat)
    requires |key| > 0
    ensures key[After(key, count, i)] == KeyAt(key, count + i)
    ensures (After(key, count, i) + 1) % |key| == After(key, count, i + 1)
  {
    ModShift(count + i, 1, |key|);
  }

  /** The xor task: receive, XOR in place, send; `room` is how many sends
      the receiver takes before they fail. */
  method XorTask(key: seq<byte>, mail: seq<seq<byte>>, room: nat) returns (sent: seq<seq<byte>>, r: Outcome<()>)
    ensures Run(sent, r.Panics?) == XorRun(key, 0, mail, room)
    ensures r.Panics? ==> r.reason == INDEX_PANIC
  {
    var count: nat := 0;
    var left: nat := room;
    var i := 0;
    sent := [];
    while i < |mail|
      invariant i <= |mail| && left <= room && (count < |key| || count == 0)
      invariant XorRun(key, 0, mail, room) == Run(sent + XorRun(key, count, mail[i..], left).sent,
                                                  XorRun(key, count, mail[i..], left).panics)
    {
      assert mail[i..][0] == mail[i] && mail[i..][1..] == mail[i + 1..];
      var msg := new byte[|mail[i]|](k requires 0 <= k < |mail[i]| => mail[i][k]);
      assert msg[..] == mail[i];
      var res := XorMessage(key, msg, count);
      if res.Panics? {
        assert sent + [] == sent;
        return sent, Panics(res.reason);
      }
      if left == 0 {
        assert sent + [] == sent;
        return sent, Returns(());
      }
      ghost var rest := XorRun(key, res.value, mail[i + 1..], left - 1);
      assert sent + ([msg[..]] + rest.sent) == (sent + [msg[..]]) + rest.sent;
      count := res.value;
      sent := sent + [msg[..]];
      left := left - 1;
      i := i + 1;
    }
    assert mail[i..] == [];
    assert sent + [] == sent;
    r := Returns(());
  }

  // ---------------------------------------------------------------------
  // Properties of the loop
  // ---------------------------------------------------------------------

  /** Messages keep their order and lengths; the loop sends at most `room`
      messages, and exactly min(|mail|, room) when it does not panic. */
  lemma {:induction false} RunShape(key: seq<byte>, count: nat, mail: seq<seq<byte>>, room: nat)
    ensures var r := XorRun(key, count, mail, room);
      |r.sent| <= |mail| && |r.sent| <= room &&
      (forall i :: 0 <= i < |r.sent| ==> |r.sent[i]| == |mail[i]|) &&
      (!r.panics ==> |r.sent| == if |mail| < room then |mail| else room)
    decreases |mail|
  {
    if mail != [] && !(|key| == 0 && mail[0] != []) && room > 0 {
      RunShape(key, After(key, count, |mail[0]|), mail[1..], room - 1);
    }
  }

  /** Byte j of everything sent is byte j of the received stream XORed with
      the key byte at offset count + j. */
  lemma {:induction false} RunKeystream(key: seq<byte>, count: nat, mail: seq<seq<byte>>, room: nat)
    requires |key| > 0
    ensures var r := XorRun(key, count, mail, room);
      |r.sent| <= |mail| && Flatten(r.sent) == XorWith(key, count, Flatten(mail[..|r.sent|]))
    decreases |mail|
  {
    if mail != [] && room > 0 {
      var m := mail[0];
      var next := After(key, count, |m|);
      var rest := XorRun(key, next, mail[1..], room - 1);
      RunKeystream(key, next, mail[1..], room - 1);
      var r := XorRun(key, count, mail, room);
      assert r.sent == [XorWith(key, count, m)] + rest.sent;
      assert r.sent[1..] == rest.sent;
      assert mail[..|r.sent|] == [m] + mail[1..][..|rest.sent|];
      assert ([m] + mail[1..][..|rest.sent|])[1..] == mail[1..][..|rest.sent|];
      XorWithAppend(key, count, m, Flatten(mail[1..][..|rest.sent|]));
    } else {
      assert mail[..0] == [];
    }
  }

  /** Running the loop over its own output with the same key, from the
      same offset and with the same room, gives back what it received. */
  lemma {:induction false} RunTwice(key: seq<byte>, count: nat, mail: seq<seq<byte>>, room: nat)
    requires |key| > 0
    ensures var r := XorRun(key, count, mail, room);
      |r.sent| <= |mail| && XorRun(key, count, r.sent, room) == Run(mail[..|r.sent|], false)
    decreases |mail|
  {
    if mail != [] && room > 0 {
      var m := mail[0];
      var r := XorRun(key, count, mail, room);
      var rest := XorRun(key, After(key, count, |m|), mail[1..], room - 1);
      RunTwice(key, After(key, count, |m|), mail[1..], room - 1);
      XorWithTwice(key, count, m);
      assert r.sent[0] == XorWith(key, count, m) && r.sent[1..] == rest.sent;
      assert mail[..|r.sent|] == [m] + mail[1..][..|rest.sent|];
    } else {
      assert mail[..0] == [];
    }
  }

  /** With an empty key the loop panics exactly when a non-empty message
      arrives while the receiver still takes messages. */
  lemma {:induction false} EmptyKeyPanics(count: nat, mail: seq<seq<byte>>, room: nat)
    ensures XorRun([], count, mail, room).panics <==> exists i :: 0 <= i < |mail| && i <= room && mail[i] != []
    decreases |mail|
  {
    if mail != [] && mail[0] == [] {
      EmptyKeyPanics(count, mail[1..], if room == 0 then 0 else room - 1);
      if room == 0 {
        assert XorRun([], count, mail, room) == Run([], false);
      } else {
        if exists i :: 0 <= i < |mail| && i <= room && mail[i] != [] {
          var i :| 0 <= i < |mail| && i <= room && mail[i] != [];
          assert mail[1..][i - 1] != [];
        }
        if exists i :: 0 <= i < |mail[1..]| && i <= room - 1 && mail[1..][i] != [] {
          var i :| 0 <= i < |mail[1..]| && i <= room - 1 && mail[1..][i] != [];
          assert mail[i + 1] != [];
        }
      }
    }
  }

  // ---------------------------------------------------------------------
  // spawn
  // ---------------------------------------------------------------------

  /** The forward task reads the actor's mailbox; the backward task writes
      to the actor's address. */
  datatype Direction = Forward | Backward

  /** The xor tasks spawn starts, in order, and the panic that cuts it
      short; the next actor is spawned before either. */
  datatype Spawned = Spawned(tasks: seq<Direction>, panic: Option<string>)

  /** spawn: the mailbox is taken before the address, and both directions
      run the same task with the same key, each from offset 0. */
  function Spawn(hasAddress: bool, hasMailbox: bool): (r: Spawned)
    ensures r.panic.None? <==> hasAddress && hasMailbox
    ensures r.panic.None? ==> r.tasks == [Forward, Backward]
    ensures !hasMailbox ==> r == Spawned([], Some("no mailbox"))
    ensures hasMailbox && !hasAddress ==> r == Spawned([Forward], Some("no address"))
  {
    if !hasMailbox then Spawned([], Some("no mailbox"))
    else if !hasAddress then Spawned([Forward], Some("no address"))
    else Spawned([Forward, Backward], None)
  }
}
